=== FILE: README.md ===
# Agentic ecosystem — a Dafny model

The agentic ecosystem is a multi-agent software-delivery system. A
specification arrives at the orchestrator. It passes to a business-analyst
(BA) agent, which writes user stories, and then to an architect agent, which
designs the system. Next a developer agent, given a persona, produces the
code. A tester agent checks it and signs off. The agents talk through an
in-process message broker: an asynchronous queue plus a topic table of
callbacks. The orchestrator records each project's status, tries to recover
from errors and escalates the ones it cannot recover. A second,
graph-shaped pipeline runs the same phases as tool calls over a shared state
(business analysis → architecture → implementation → test strategy →
completion). A tool server exposes it: it keeps a project registry, answers
resource URIs and reports progress. Around them sit the tool helpers that
clean language-model replies and score generated files, an enhanced BA
agent that splits specifications into sections, and a prompt registry that
loads and formats prompt files.

This project models that core as pure Dafny functions over immutable
datatypes and proves properties of the model:

- The broker keeps per-callback FIFO order, and unsubscribing undoes a subscribe.
- The orchestrator keeps its project table well formed and its history append-only.
- Status updates set the completion table the source intends.
- Recovery either answers or escalates.
- Every agent turns a raised handler into an error reply to the orchestrator.
- The BA, architect, developer and tester handlers react to each message kind as the source does, including their fallbacks when a language-model reply cannot be parsed.
- Stories and designs survive a round trip through their dictionary form.
- The graph pipeline visits its phases in order and records every failure.
- The registry's listing is a stable descending sort of a filter.
- The project and artifact resource URIs round-trip.
- File scores stay within 0..100 and every issue is listed.
- Prompt parameters and metadata follow their defaults.

Effects are parameters:
- Each language-model call is an `Agent.Reply` value: it raised, it answered with something that is not JSON, or it answered with a parsed dictionary.
- Each broker callback that raises is given by a predicate.
- The graph workflow's four agent outcomes are oracles. Whether its phase callback raises is read off the project registry, as `phase_completed` would find it.
- Message ids and timestamps are supplied by the caller.
- Files are maps from names to text.

Module by module:

- `Wrappers` — `Option` and `Result`.
- `Strings` — the string helpers the source takes from Python: lower-casing, `strip`, `split`/`join`, `replace`, substring search and digit rendering.
- `Models` — the enumerations, messages, specifications, user stories, project status and agent state (`src/models/__init__.py`). Dynamic JSON-like values are `Models.Value`.
- `Broker` — the in-memory message broker (`src/utils/message_broker.py`).
- `Agent` — the base agent: its runtime, sending, the task queue and the error reply (`src/agents/base_agent.py`).
- `Orchestrator`, `OrchestratorProperties` — the orchestrator agent (`src/orchestrator/orchestrator_agent.py`).
- `BaAgent`, `ArchitectAgent`, `DeveloperAgent`, `TesterAgent` — the four specialist agents (`src/agents/*.py`).
- `Workflow` — the graph pipeline (`src/langgraph_agents/workflow.py`).
- `ProjectRegistry`, `McpTools` — the project manager and tool handlers of the tool server (`src/langgraph_agents/enhanced_mcp_server.py`).
- `AgentTools` — reply cleaning, architecture fallback and source-file scoring (`src/langgraph_agents/agent_tools.py`).
- `EnhancedBA` — section parsing, the executive summary, phase merging and export (`src/agents/enhanced_ba_agent.py`).
- `Prompts` — the prompt registry (`src/prompts/utils.py`).

## Model

| member | source | states |
|---|---|---|
| Models.AllAgentTypes | src/models/__init__.py:7-12 | the five agent types have pairwise distinct wire names |
| Models.AllMessageTypes | src/models/__init__.py:15-22 | the seven message types have pairwise distinct wire names |
| Models.AllPriorities | src/models/__init__.py:25-29 | the four priorities have pairwise distinct wire names |
| Models.AllDomains | src/models/__init__.py:32-39 | the seven domains, including general, have pairwise distinct wire names |
| Models.EnumerationsClosed | src/models/__init__.py:7-39 | every enumeration value is one of the listed members |
| Models.ParsePriority | src/models/__init__.py:25-29 | parsing a priority succeeds exactly on a member's wire name and returns that member |
| Models.ParseDomain | src/models/__init__.py:32-39 | parsing a domain succeeds exactly on a member's wire name and returns that member |
| Models.ParseNameRoundTrip | src/models/__init__.py:25-39 | parsing a priority's or domain's wire name gives it back |
| Models.Get | src/models/__init__.py:48 | a metadata lookup returns the stored value for a present key and the default otherwise |
| Models.AsTexts | src/models/__init__.py:57-58 | a value reads as a list of strings exactly when it is a list whose every item is a string, and re-encoding gives the value back |
| Models.TextsRoundTrip | src/models/__init__.py:57-58 | decoding an encoded list of strings gives the list back |
| Models.NewMessage | src/models/__init__.py:42-51 | a new message carries the given fields, medium priority and empty metadata |
| Models.NewProjectStatus | src/models/__init__.py:132-139 | a new status carries the given project, phase, completion and agents, with no issues and no next actions |
| Models.ReadStory | src/models/__init__.py:88-97 | a story reads from an object only when every required key is present; a missing key is an error |
| Models.ReadStoryList | src/models/__init__.py:88-97 | a list reads item by item; an empty string or an empty object reads as no stories |
| Models.StoryRoundTrip | src/models/__init__.py:88-97 | a story written to its dictionary form reads back unchanged |
| Models.StoriesRoundTrip | src/models/__init__.py:88-97 | a list of stories written to dictionary form reads back unchanged |
| Models.NewAgentState | src/models/__init__.py:142-149 | a new agent state is idle, with no task and no projects, and carries the given id and type |
| Broker.Init | src/utils/message_broker.py:24-29 | a new broker is well formed, disconnected, not running, with an empty queue and no subscribers on any topic |
| Broker.Connect | src/utils/message_broker.py:31-41 | connecting marks the broker connected and running and keeps subscribers and queue |
| Broker.Disconnect | src/utils/message_broker.py:43-47 | disconnecting marks it disconnected and stopped and keeps subscribers and queue |
| Broker.Publish | src/utils/message_broker.py:49-59 | a disconnected broker drops the message unchanged; a connected one appends the envelope to the end of the queue and changes nothing else |
| Broker.Subscribe | src/utils/message_broker.py:61-66 | the callback is appended to its topic's list; every other topic, the queue and the flags are untouched |
| Broker.Unsubscribe | src/utils/message_broker.py:68-74 | the first occurrence of the callback leaves its topic; other topics are untouched; an emptied topic is deleted; an absent callback changes nothing |
| Broker.RemoveFirstAppended | src/utils/message_broker.py:61-74 | removing the first occurrence of a just-appended new callback restores the list |
| Broker.UnsubscribeUndoesSubscribe | src/utils/message_broker.py:61-74 | subscribing a callback not yet on the topic and then unsubscribing it gives back the same broker |
| Broker.Invoke | src/utils/message_broker.py:88-95 | delivery calls every subscriber of the topic in subscription order with the message, one call each, whether or not earlier callbacks raised |
| Broker.DeliverHead | src/utils/message_broker.py:76-102 | a stopped broker or an empty queue does nothing; otherwise the head envelope is removed and delivered to its topic's subscribers, and an unroutable topic delivers to nobody |
| Broker.Drain | src/utils/message_broker.py:76-102 | processing until the queue is empty leaves subscribers unchanged and the broker running |
| Broker.ReceivedByAppend | src/utils/message_broker.py:76-102 | what a callback receives from two delivery logs in sequence is the concatenation of what it receives from each |
| Broker.ReceivedFromOneMessage | src/utils/message_broker.py:88-95 | one message reaches a callback exactly as many times as it is subscribed to the topic |
| Broker.DrainIsFifoPerCallback | src/utils/message_broker.py:76-102 | each callback receives the queued messages routed to it in queue order, even when callbacks raise |
| Broker.Attribute | src/utils/message_broker.py:23-110 | a name resolves exactly when it is one of the eight methods the class defines (connect, disconnect, publish_message, subscribe, unsubscribe, _process_messages, get_agent_topic, get_broadcast_topic) or one of the five fields its constructor sets; a method resolves under its own name, and only publish_message publishes |
| Broker.AgentTopicsDistinct | src/utils/message_broker.py:104-110 | distinct agent types have distinct topics, and no agent topic is the broadcast topic |
| Agent.NewAgent | src/agents/base_agent.py:23-62 | a new agent is idle, with no task, an empty task queue and its own disconnected, well-formed broker |
| Agent.SendMessage | src/agents/base_agent.py:125-151 | sending keeps the agent's state and task queue, uses one fresh id, and publishes one message on the recipient's topic; a disconnected broker drops it |
| Agent.SendVia | src/agents/base_agent.py:146-149 | calling the broker by name with topic and message succeeds exactly for publish_message, where it is the corrected send; a name the broker does not have raises an attribute error, and any other attribute raises a type error |
| Agent.SendFindingShows | src/agents/base_agent.py:146-149 | sending by the name the source uses, publish, fails with an attribute error for every message, the error reply included; publish_message succeeds |
| Agent.SendAll | src/agents/base_agent.py:125-151 | sending a batch consumes one id per message and appends exactly that many envelopes after the existing queue |
| Agent.ErrorReply | src/agents/base_agent.py:153-162 | the error reply goes back to the sender of the failed message, for the same project, at high priority, naming the original id and the error |
| Agent.ParsedOr | src/agents/ba_agent.py:111-115 | a parsed reply is used as is; a raised or unparseable reply gives the fallback |
| Agent.CatchAll | src/agents/base_agent.py:106-111 | a handler that raised keeps its earlier sends and adds exactly one error reply; nothing escapes the handler |
| Agent.Start | src/agents/base_agent.py:66-74 | starting connects and runs the broker, subscribes the agent on its inbox topic and leaves it idle |
| Agent.Stop | src/agents/base_agent.py:76-80 | stopping disconnects the broker, marks the agent stopped and keeps the task queue |
| Agent.BeginTask | src/agents/base_agent.py:98-104 | taking a task pops the queue's head and marks the agent working on it |
| Agent.RunHandler | src/agents/base_agent.py:106-111 | a handler's sends, and an error reply to the sender when it raised, are appended to the broker queue; nothing else changes |
| Agent.FinishTask | src/agents/base_agent.py:112-114 | finishing a task makes the agent idle with no current task |
| Agent.ProcessNextTask | src/agents/base_agent.py:98-118 | processing drains the task queue and ends idle; the handled messages are the queued ones followed by those that arrived meanwhile, in arrival order; the agent's own state is what the handler leaves after processing exactly those messages in that order; an empty queue does nothing |
| Agent.DrainOrder | src/agents/base_agent.py:98-118 | one processing step keeps the order of queue plus arrivals |
| Agent.HandleMessage | src/agents/base_agent.py:82-96 | a busy agent only queues the message; an idle one queues it and then handles everything queued, in order, ending idle, with the agent's state being the handler applied to those messages in turn |
| Orchestrator.Init | src/orchestrator/orchestrator_agent.py:17-29 | a new orchestrator is valid and knows no projects, statuses or history |
| Orchestrator.UpdateProjectStatus | src/orchestrator/orchestrator_agent.py:494-532 | the update creates a record for an unknown project, keeps every other project's record, overwrites each supplied field, appends supplied issues, ignores an empty phase and keeps every field not supplied |
| Orchestrator.Apply | src/orchestrator/orchestrator_agent.py:494-532 | a status update touches only the status table |
| Orchestrator.HandleUserSpecification | src/orchestrator/orchestrator_agent.py:79-122 | the project is stored with the specification as description and the keyword-derived domain; its status becomes requirements analysis at 0% with BA active; the specification goes to BA, and nothing is sent when sending raises |
| Orchestrator.HandleAgentQuery | src/orchestrator/orchestrator_agent.py:124-148 | a query puts the project in awaiting_clarification with a next action naming the querying agent, keeps its completion, and touches nothing but the status table |
| Orchestrator.HandleStatusUpdate | src/orchestrator/orchestrator_agent.py:203-285 | a status message touches only the status table |
| Orchestrator.Escalate | src/orchestrator/orchestrator_agent.py:454-477 | escalation touches only the status table |
| Orchestrator.RecoveryRequest | src/orchestrator/orchestrator_agent.py:402-452 | recovery re-sends a specification, marked as a recovery attempt, to the agent that failed, for the same project |
| Orchestrator.HandleError | src/orchestrator/orchestrator_agent.py:354-400 | error handling touches only the status table and the outgoing messages |
| Orchestrator.HandleResponse | src/orchestrator/orchestrator_agent.py:479-492 | a response changes no state; it is forwarded, at most once, exactly when it is marked as a clarification response with an agent as original requester (BA by default), and the send succeeds |
| Orchestrator.Recorded | src/orchestrator/orchestrator_agent.py:150-165 | the history entry is the message itself, except that a BA query also gets the pending-clarification marks in its metadata |
| Orchestrator.Step | src/orchestrator/orchestrator_agent.py:54-77 | every message is appended to its project's history before it is dispatched |
| Orchestrator.LastPending | src/orchestrator/orchestrator_agent.py:668-673 | the index found is a pending query, and no later entry is pending; -1 means there is none |
| Orchestrator.SendUserClarification | src/orchestrator/orchestrator_agent.py:654-692 | the answer succeeds exactly when a pending query exists and the send succeeds; it goes to the sender of the latest pending query and marks only that query resolved, and a failure changes nothing |
| OrchestratorProperties.ApplyKeepsValid | src/orchestrator/orchestrator_agent.py:494-532 | a status update with completion within 0..100 keeps the orchestrator valid |
| OrchestratorProperties.StatusUpdateKeepsValid | src/orchestrator/orchestrator_agent.py:203-285 | every status message keeps the orchestrator valid |
| OrchestratorProperties.ErrorKeepsValid | src/orchestrator/orchestrator_agent.py:354-477 | every error message keeps the orchestrator valid, whether recovery is sent or escalated |
| OrchestratorProperties.StepPreservesValid | src/orchestrator/orchestrator_agent.py:54-77 | processing any message keeps the orchestrator valid |
| OrchestratorProperties.HistoryIsAppendOnly | src/orchestrator/orchestrator_agent.py:57-60 | processing a message extends its own project's history by one entry and leaves every other history as it was |
| OrchestratorProperties.StatusTable | src/orchestrator/orchestrator_agent.py:225-285 | the phase, completion and active agents each status sender and phase marker produce (BA 20% or 70%, architect 30%, developer 60%, tester 100% with sign-off and 85% without), with nothing sent and other messages ignored |
| OrchestratorProperties.ErrorRecovery | src/orchestrator/orchestrator_agent.py:354-452 | an error from an agent puts the project in error_recovery with completion, agents and issues kept and re-sends one specification to that agent; an orchestrator error restarts a known project at BA |
| OrchestratorProperties.RecoveryFailureEscalates | src/orchestrator/orchestrator_agent.py:381-477 | when the recovery send raises, the project fails at 0% with no active agents, manual intervention as the next action and exactly one issue appended |
| OrchestratorProperties.QueryAwaitsClarification | src/orchestrator/orchestrator_agent.py:124-148 | every query leaves the project awaiting clarification and sends nothing |
| OrchestratorProperties.ClarificationsAnswerNewestFirst | src/orchestrator/orchestrator_agent.py:668-684 | each successful answer resolves the newest pending query, so the last pending index strictly decreases |
| OrchestratorProperties.CompletionCanDecrease | src/orchestrator/orchestrator_agent.py:225-269 | a developer's development_complete after BA's 70% lowers completion to 60%: the status table does not only move forward |
| OrchestratorProperties.FailedProjectRecoversAgain | src/orchestrator/orchestrator_agent.py:354-452 | a failed project returns to error_recovery on the next agent error: failure is not terminal |
| OrchestratorProperties.StatusForUnknownProjectCreatesRecord | src/orchestrator/orchestrator_agent.py:494-532 | a status update for a project never specified still creates a status record |
| BaAgent.ClarificationQuery | src/agents/ba_agent.py:134-146 | the clarification request goes to the orchestrator as a query for the same project, marked as awaiting clarification and naming the original message |
| BaAgent.RequestClarifications | src/agents/ba_agent.py:134-146 | the request is sent exactly when the open questions can be iterated, each numbered as `str` writes it (a string's characters, a dictionary's keys); any other value raises "not iterable" |
| BaAgent.ToArchitect | src/agents/ba_agent.py:148-183 | the hand-off to the architect is a specification carrying the analysis and the project specification |
| BaAgent.SendToArchitect | src/agents/ba_agent.py:148-183 | the hand-off is sent exactly when both the requirements and the constraints can be iterated; otherwise it raises naming the first that cannot |
| BaAgent.ArchitectureFeedback | src/agents/ba_agent.py:477-502 | feedback is sent exactly when the concerns, missing requirements and recommendations can all be iterated, as a query carrying the review and a revision request; otherwise it raises naming the first that cannot |
| BaAgent.ManualAnalysis | src/agents/ba_agent.py:450-460 | the manual fallback analysis has exactly the seven analysis keys |
| BaAgent.ApplyAnalysis | src/agents/ba_agent.py:111-128 | the analysed specification is stored whatever follows; truthy open questions are recorded as pending and then either sent as one query or, when they cannot be iterated, raise; otherwise the project goes to the architect, or the hand-off raises |
| BaAgent.AnalyzeSpecification | src/agents/ba_agent.py:68-132 | a raised model call stores the initial specification and re-raises; any other reply is applied to the initial specification, with the manual analysis when it is not JSON |
| BaAgent.StoryPriority | src/agents/ba_agent.py:292 | a story priority is accepted exactly when its lower-cased text names a priority |
| BaAgent.PriorityField | src/agents/ba_agent.py:292 | a story's priority field (medium by default) is accepted exactly when it is a string whose lower-cased text names a priority |
| BaAgent.BuildStory | src/agents/ba_agent.py:286-297 | a story is built exactly when its reply entry is a dictionary with well-typed fields; a non-dictionary raises on `.get`, and a bad priority raises its own error |
| BaAgent.BuildStoryFields | src/agents/ba_agent.py:287-297 | a built story carries the fresh id and each field read from the reply or its default, including a null story-point estimate |
| BaAgent.BuildStories | src/agents/ba_agent.py:285-298 | building stories keeps their number |
| BaAgent.BuildStoriesAt | src/agents/ba_agent.py:285-298 | the i-th built story is the i-th reply built with the i-th fresh id |
| BaAgent.BuildStoriesSucceed | src/agents/ba_agent.py:285-298 | when every reply builds, so does the list |
| BaAgent.BuildStoriesPointwise | src/agents/ba_agent.py:285-298 | the list builds exactly when every reply builds, and then element by element |
| BaAgent.StoriesNeedValidReplies | src/agents/ba_agent.py:285-298 | story creation succeeds exactly when every reply entry is a valid story dictionary |
| BaAgent.StoryReplyRoundTrip | src/agents/ba_agent.py:287-297 | reading back the dictionary of a story gives the same story under the new id |
| BaAgent.ReplyStories | src/agents/ba_agent.py:276-298 | a raised model call raises; the reply (or the basic stories when it is not JSON) must be iterable, and its entries are built in order |
| BaAgent.Assignments | src/agents/ba_agent.py:364-405 | the developer receives the persona and the stories, and the tester the same stories, both as specifications for the project |
| BaAgent.Dispatch | src/agents/ba_agent.py:309-407 | dispatch succeeds exactly when the persona call did not raise and the persona (parsed, or the default) has its keys and a joinable expertise; it then sends the assignments, and otherwise sends nothing |
| BaAgent.CreateUserStories | src/agents/ba_agent.py:235-307 | an unknown project or non-iterable requirements raise; a story reply that cannot be built raises; otherwise the stories are stored for this project only and then dispatched |
| BaAgent.ReviewArtifact | src/agents/ba_agent.py:185-233 | an unknown project raises; an approved review creates stories, and any other review, or an unparseable one, goes back to the architect as feedback, or raises when its lists cannot be iterated |
| BaAgent.ProcessResponse | src/agents/ba_agent.py:504-540 | a response for a project without pending clarifications does nothing; otherwise the requirements are replaced, and constraints that cannot be extended raise after that; a ready project leaves the pending set and goes to the architect |
| BaAgent.HandleQuery | src/agents/ba_agent.py:542-563 | a query is answered to its sender for the same project, marked as a query response naming the query; a raised model call raises |
| BaAgent.Process | src/agents/ba_agent.py:50-66 | each handled message kind goes to its handler with every exception turned into an error reply, so nothing raises, and other kinds change nothing |
| BaAgent.DetermineDomainCascade | src/agents/ba_agent.py:431-448 | the domain is the first whose keywords occur in the lower-cased specification, in the order financial, manufacturing, healthcare, e-commerce, education, logistics, else general |
| BaAgent.ClarificationLines | src/agents/ba_agent.py:136-138 | the clarification text is the header, a blank line, one numbered line per question from 1, and a trailing empty line |
| BaAgent.StringQuestionsAsked | src/agents/ba_agent.py:134-146 | a list of string questions is asked as those very questions |
| BaAgent.NumberQuestionAsked | src/agents/ba_agent.py:136-138 | a question that is a number is numbered as its decimal text |
| BaAgent.ScalarQuestionsRaise | src/agents/ba_agent.py:120-137 | open questions that are a number are recorded as pending, and then the numbering raises and nothing is sent |
| BaAgent.ApprovedReviewDispatchesSameStories | src/agents/ba_agent.py:309-407 | after an approved review the developer and the tester receive the same stories |
| BaAgent.NumberExpertiseRaises | src/agents/ba_agent.py:354 | a persona whose expertise is a number makes the join raise, and nothing is dispatched |
| BaAgent.UnparseableAnalysisGoesToArchitect | src/agents/ba_agent.py:111-128 | an analysis that is not JSON goes straight to the architect with the manual analysis and no clarification |
| BaAgent.ManualAnalysisGoesToArchitect | src/agents/ba_agent.py:111-128 | the manual analysis asks nothing and hands the project to the architect |
| BaAgent.UnparseableReviewRequestsRevision | src/agents/ba_agent.py:219-229 | a review that is not JSON sends revision feedback and changes nothing |
| BaAgent.NullConcernsRaise | src/agents/ba_agent.py:477-491 | a rejected review whose concerns are null raises while writing the feedback, and nothing is sent |
| BaAgent.ResponseDefaultsToReady | src/agents/ba_agent.py:527-530 | a clarification update without a ready flag counts as ready: the project leaves the pending set and goes to the architect |
| BaAgent.ScalarConstraintsRaise | src/agents/ba_agent.py:527-531 | additional constraints that are a number raise after the requirements were replaced, and the questions stay open |
| ArchitectAgent.DomainStack | src/agents/architect_agent.py:52-118 | every domain offers at least one backend, frontend and database choice |
| ArchitectAgent.DomainStackMonitoring | src/agents/architect_agent.py:52-118 | a domain has no monitoring choices exactly when it is e-commerce, education or logistics |
| ArchitectAgent.ReadRequirement | src/agents/architect_agent.py:283-290 | a non-functional requirement reads from an object, taking name and category from its category (General and NFR by default), its description from its text and its priority from the lower-cased priority text |
| ArchitectAgent.ReadRequirements | src/agents/architect_agent.py:283-290 | reading requirements keeps their number |
| ArchitectAgent.ExtractLanguageCascade | src/agents/architect_agent.py:407-425 | the language is the i-th rule's exactly when the i-th rule's keywords occur in the lower-cased framework and no earlier rule's do |
| ArchitectAgent.ExtractLanguageFallback | src/agents/architect_agent.py:407-425 | the language is "Not specified" exactly when no rule matches, as for an empty framework |
| ArchitectAgent.StackValue | src/models/__init__.py:79 | a string map becomes an object with the same keys, each holding its string |
| ArchitectAgent.ReadStack | src/models/__init__.py:79 | the declared `Dict[str, str]` stack accepts exactly the objects whose every value is a string, and reads back the object it was given |
| ArchitectAgent.StackRoundTrip | src/models/__init__.py:79 | a stored stack reads back unchanged from its JSON form |
| ArchitectAgent.NfrEntries | src/agents/architect_agent.py:282 | the requirement loop runs over a list's entries and over nothing for an empty string or dict; any other string or dict yields strings without `.get`, and other values are not iterable |
| ArchitectAgent.Assemble | src/agents/architect_agent.py:280-304 | a built design belongs to the given project, its stack is the string map read from the data or the default, and the requirement value was iterable |
| ArchitectAgent.DesignFrom | src/agents/architect_agent.py:280-302 | a design is built only from a tech stack that maps every name to a string, and stores exactly that map |
| ArchitectAgent.AssembleFromFields | src/agents/architect_agent.py:280-304 | a design built from a complete reply carries the reply's overview, string stack, patterns, diagrams, data models, API and requirements |
| ArchitectAgent.FallbackForFields | src/agents/architect_agent.py:427-460 | the fallback reply has every design key, the two fixed requirements, the layered and REST patterns and one diagram |
| ArchitectAgent.FallbackTechStackFields | src/agents/architect_agent.py:433-438 | the fallback stack picks the first backend, frontend and database and lists the monitoring choices, or Prometheus and Grafana, as a list |
| ArchitectAgent.FallbackNfrsRead | src/agents/architect_agent.py:441-452 | the fallback requirements read as medium-priority performance and high-priority security |
| ArchitectAgent.FallbackForDesign | src/agents/architect_agent.py:427-460 | the fallback reply with its stack corrected to strings builds a design for the project with that stack, the layered and REST patterns and the two fixed requirements |
| ArchitectAgent.FallbackDesign | src/agents/architect_agent.py:427-460 | every domain's corrected fallback builds a design whose stack holds the domain's first backend, frontend and database and its monitoring choices joined into one string |
| ArchitectAgent.CorrectedStackFields | src/agents/architect_agent.py:433-438 | the corrected stack has exactly the four fallback keys, with the additional choices joined by commas |
| ArchitectAgent.FallbackRejectedAsWritten | src/agents/architect_agent.py:433-438 | as written, every domain's fallback stack holds a list under additional, so the declared `Dict[str, str]` rejects it and building the design fails |
| ArchitectAgent.DesignFieldsRoundTrip | src/agents/architect_agent.py:292-304 | a design's stack, patterns, diagrams and API read back from its dictionary form |
| ArchitectAgent.ArtifactTo | src/agents/architect_agent.py:309-319 | the design goes to BA as an artifact for the same project with the given metadata |
| ArchitectAgent.StoreAndSend | src/agents/architect_agent.py:302-319 | a design that fails to build raises and changes nothing; a built one is stored for the project and sent to BA |
| ArchitectAgent.SpecDomain | src/agents/architect_agent.py:180 | the domain read from the message is the project specification's domain, general by default |
| ArchitectAgent.DesignArchitecture | src/agents/architect_agent.py:171-332 | an unreadable domain, requirements or constraints the prompt cannot iterate, an analysis that is not a dict, or a raised model call each raise and change nothing; otherwise the reply, or the domain's corrected fallback when it is not JSON, is validated with a string-only stack, stored and sent |
| ArchitectAgent.ParsedDesignStrict | src/agents/architect_agent.py:280-302 | a parsed reply is stored only when its stack maps every name to a string, and the stored stack is that map |
| ArchitectAgent.UnparseableDesignStored | src/agents/architect_agent.py:274-277 | a reply that is not JSON stores the corrected fallback design with the domain's stack and the layered and REST patterns, and sends it to BA |
| ArchitectAgent.CitedConcerns | src/agents/architect_agent.py:565 | at most three concerns are cited: a list's first three items, which must be strings while later items may be anything, or a string's first three characters; a dict cannot be sliced |
| ArchitectAgent.IncrementalRevision | src/agents/architect_agent.py:561-582 | the incremental revision is built exactly when the first three concerns can be cited |
| ArchitectAgent.RevisionData | src/agents/architect_agent.py:499-508 | a parsed revision is used; an unparseable one gives the incremental revision of the stored design, which fails exactly when the concerns cannot be cited; a raised call raises |
| ArchitectAgent.HandleRevisionRequest | src/agents/architect_agent.py:462-530 | a review that is not a dict, a project without a design, or concerns, missing requirements or recommendations the prompt cannot iterate each raise and change nothing; otherwise the revised design, validated with a string-only stack, is stored and sent back |
| ArchitectAgent.UpdateKeepsMissingFields | src/agents/architect_agent.py:532-559 | an update keeps the project and every field the revision does not supply |
| ArchitectAgent.EmptyRevisionKeepsDesign | src/agents/architect_agent.py:532-559 | an empty revision keeps the design apart from a fresh id and no requirements |
| ArchitectAgent.RevisionFields | src/agents/architect_agent.py:561-582 | the incremental revision has every design key, keeps the stored stack, cites the first three concerns and adds two high-priority requirements |
| ArchitectAgent.RevisionNfrsRead | src/agents/architect_agent.py:561-582 | the incremental revision's requirements both read with high priority |
| ArchitectAgent.IncrementalRevisionUpdate | src/agents/architect_agent.py:561-582 | applying the incremental revision keeps the project and the stack and records the cited concerns |
| ArchitectAgent.ProcessFeedback | src/agents/architect_agent.py:584-605 | feedback is acknowledged to its sender, marked as processed, and changes nothing; a raised model call raises |
| ArchitectAgent.Process | src/agents/architect_agent.py:155-169 | a SPECIFICATION is designed, a QUERY is a revision request and a RESPONSE is acknowledged as feedback, each under the catch-all that turns an exception into an ERROR reply; nothing raises out of the handler, and other kinds change nothing |
| DeveloperAgent.Init | src/agents/developer_agent.py:18-29 | a new developer has no persona, no stories and no workspaces |
| DeveloperAgent.WorkspacePath | src/agents/developer_agent.py:232-236 | a workspace path is never empty |
| DeveloperAgent.ReadPersona | src/agents/developer_agent.py:88-94 | a persona reads from an object, taking its name, expertise, level and specialisation from the reply or their defaults |
| DeveloperAgent.AssignPersona | src/agents/developer_agent.py:87-94 | an empty persona changes nothing; a non-empty one is assigned exactly when it reads; stories and workspaces are untouched |
| DeveloperAgent.Clarifications | src/agents/developer_agent.py:117-163 | an unusable analysis asks nothing; a parsed one asks its listed clarifications |
| DeveloperAgent.TechnicalQuery | src/agents/developer_agent.py:181-197 | the query is sent exactly when the questions can be iterated: it goes to BA for the same project, marked as technical, carrying the questions and numbering each as `str` writes it; any other value raises "not iterable" |
| DeveloperAgent.QuestionLines | src/agents/developer_agent.py:186 | the i-th line is "n. question" for the i-th question, numbered on from the start |
| DeveloperAgent.TechnicalLinesSplit | src/agents/developer_agent.py:186 | questions without newlines can be read back from the query body, one numbered line each |
| DeveloperAgent.NumberQuestionNumbered | src/agents/developer_agent.py:186 | a question that is a number is numbered as its decimal text |
| DeveloperAgent.Package | src/agents/developer_agent.py:702-757 | the finished application goes to the tester as an artifact with the workspace, results and stories, and BA hears development_complete with the results |
| DeveloperAgent.StartDevelopment | src/agents/developer_agent.py:199-242 | development always records a fresh workspace; it succeeds exactly when a persona is assigned and the build does not raise, and then it packages the project's stories for QA |
| DeveloperAgent.ReceiveAssignment | src/agents/developer_agent.py:78-115 | the persona is assigned and the stories are stored; truthy clarifications become one technical query, or raise when they cannot be iterated, with persona and stories kept; otherwise development starts; an unreadable persona or story raises |
| DeveloperAgent.ScalarClarificationsRaise | src/agents/developer_agent.py:102-115 | an analysis asking for a non-zero number raises after the persona and the stories were recorded, and nothing is sent |
| DeveloperAgent.UnusableAnalysisStartsDevelopment | src/agents/developer_agent.py:156-163 | an analysis that raised or is not JSON never sends a query |
| DeveloperAgent.FixQaIssues | src/agents/developer_agent.py:810-860 | fixing without a workspace raises; a successful fix re-packages the project for QA; nothing changes the developer's state |
| DeveloperAgent.QaApproved | src/agents/developer_agent.py:797-803 | the approval goes to BA as a status marking the application qa_approved and ready for deployment |
| DeveloperAgent.ReviewTestResultsWith | src/agents/developer_agent.py:787-808 | results that are not an object raise; an empty issue list under the key read sends approval; a non-empty one starts fixing |
| DeveloperAgent.ReviewTestResults | src/agents/developer_agent.py:787-808 | reading the tester's own issues_found key, approval is sent exactly when the results are an object reporting no issues |
| DeveloperAgent.PackageIsNoApproval | src/agents/developer_agent.py:702-757 | a hand-off to QA never carries the approval status |
| DeveloperAgent.TesterIssuesIgnoredAsWritten | src/agents/developer_agent.py:791 | as written, results carrying only issues_found with issues are approved, while the corrected review does not approve them |
| DeveloperAgent.HandleQuery | src/agents/developer_agent.py:759-780 | a query is answered to its sender for the same project, marked as a clarification response; a raised model call raises |
| DeveloperAgent.Process | src/agents/developer_agent.py:60-76 | each message kind goes to its handler under the catch-all; response restarts development; other kinds change nothing |
| DeveloperAgent.EndToEndCounts | src/agents/developer_agent.py:612-658 | a clean run reports three passing unit tests per story, one passing end-to-end test per story and PASSED overall |
| DeveloperAgent.SafeNamePointwise | src/agents/developer_agent.py:380 | the safe name has the title's length, lower-cases every letter and turns spaces and hyphens into underscores |
| DeveloperAgent.BasicImplementationFiles | src/agents/developer_agent.py:378-389 | the basic implementation is one source file under src/ and one test file under tests/, both named from the safe name, with no space or hyphen |
| TesterAgent.Init | src/agents/tester_agent.py:18-29 | a new tester has no cases, results, stories or environments |
| TesterAgent.ReadTestCase | src/agents/tester_agent.py:196-205 | a test case reads with the given id and story, taking its title and type from the reply or their defaults |
| TesterAgent.ReadTestCases | src/agents/tester_agent.py:193-208 | reading cases keeps their number and ties each to the story |
| TesterAgent.CaseEntries | src/agents/tester_agent.py:214-235 | the fallback list holds one dictionary per basic case, in order |
| TesterAgent.CaseEntryRead | src/agents/tester_agent.py:196-205 | a fallback dictionary reads back as the test case holding exactly its title, description, type, scenario, expected result and data, whatever the defaults |
| TesterAgent.CaseEntriesRead | src/agents/tester_agent.py:193-208 | a fallback list reads as its test cases in order, under consecutive ids, and never fails |
| TesterAgent.BasicStoryTable | src/agents/tester_agent.py:214-235 | the fallback for a story is a happy-path case at the story's priority and an error-handling case at medium priority, both functional and titled after the story |
| TesterAgent.BasicNfrTable | src/agents/tester_agent.py:283-310 | the non-functional fallback is a performance, a security and a usability case, each with its own test data and no priority |
| TesterAgent.StoryCases | src/agents/tester_agent.py:142-212 | a raised model call gives no cases; every case belongs to the story; a parsed reply gives one case per entry or none; a reply that is not JSON gives the story's two fallback cases under consecutive ids |
| TesterAgent.NfrCases | src/agents/tester_agent.py:237-281 | a raised model call gives no cases; every non-functional case is tagged nfr; a parsed reply gives one case per entry or none; a reply that is not JSON gives the three fallback cases under consecutive ids |
| TesterAgent.UnparseableStoryCases | src/agents/tester_agent.py:187-191 | a story reply that is not JSON gives its happy-path and error-handling cases, functional, with the next two ids |
| TesterAgent.UnparseableNfrCases | src/agents/tester_agent.py:256-259 | an NFR reply that is not JSON gives the performance, security and usability cases with their scenarios and test data |
| TesterAgent.AllStoryCases | src/agents/tester_agent.py:109-140 | every planned story case belongs to one of the stories |
| TesterAgent.PlannedCases | src/agents/tester_agent.py:109-140 | the plan is all story cases, story by story, followed by the non-functional cases |
| TesterAgent.Prepare | src/agents/tester_agent.py:75-107 | preparing stores the project's stories and planned cases and records a test environment, leaving results alone |
| TesterAgent.PreparationComplete | src/agents/tester_agent.py:88-99 | BA hears test_preparation_complete as a status for the project |
| TesterAgent.ReceiveAssignment | src/agents/tester_agent.py:75-107 | unreadable stories raise; otherwise the project is prepared, and a failing environment setup raises after preparation |
| TesterAgent.KindOf | src/agents/tester_agent.py:462-469 | a test type has a tally exactly when it is functional, integration or e2e, and the tally's kind carries that name |
| TesterAgent.ExecutionResult | src/agents/tester_agent.py:493-541 | a parsed reply is the execution result; one that is not JSON is a simulated pass with its success text; a raised call is a failure carrying the error and no screenshot |
| TesterAgent.Verdict | src/agents/tester_agent.py:474 | a reply that is not JSON counts as PASSED, a raised call as FAILED, and a parsed reply's status is used (a missing status raises) |
| TesterAgent.RunReadsResult | src/agents/tester_agent.py:474-484 | the detail entry reads the execution result: its status exactly when it has one, and its details and screenshot or empty texts |
| TesterAgent.FallbackRuns | src/agents/tester_agent.py:522-540 | the entry of a reply that is not JSON carries the simulated success text and screenshot; that of a raised call carries the error and no screenshot |
| TesterAgent.Bump | src/agents/tester_agent.py:470-483 | recording one test adds one to the total and one to passed or failed |
| TesterAgent.ExecuteTestCases | src/agents/tester_agent.py:458-491 | execution keeps every tally balanced, with one detail entry per counted case, and each type's total is the number of cases of that type |
| TesterAgent.UnparseableCasePasses | src/agents/tester_agent.py:468-484 | a counted case whose reply is not JSON is tallied as passed under its own kind, with its simulated entry |
| TesterAgent.RaisingCaseFails | src/agents/tester_agent.py:468-484 | a counted case whose call raised is tallied as failed under its own kind |
| TesterAgent.ExecutedRunIds | src/agents/tester_agent.py:468-484 | each kind's detail entries name the cases of that kind, in the order they were given |
| TesterAgent.RunValue | src/agents/tester_agent.py:479-485 | a detail entry is written with the case id, title, status, details and screenshot |
| TesterAgent.TallyValue | src/agents/tester_agent.py:462-466 | a tally is written with its total, passed and failed counts and its detail entries in order |
| TesterAgent.UsabilityRecommendations | src/agents/tester_agent.py:680-683 | every usability issue becomes one recommendation prefixed with Usability |
| TesterAgent.Analyze | src/agents/tester_agent.py:652-703 | the issues are a functional failure, then severe vulnerabilities, then a failed load test; the recommendations are the other vulnerabilities' advice and the usability notes; the status is derived from the issues |
| TesterAgent.OverallStatusCases | src/agents/tester_agent.py:686-691 | the status is PASSED exactly without issues, FAILED exactly when some issue mentions failed in any case, and otherwise PASSED_WITH_ISSUES |
| TesterAgent.CountFailedPositive | src/agents/tester_agent.py:688 | the failed-issue count is positive exactly when some issue mentions failed after lower-casing |
| TesterAgent.FailedIssueFails | src/agents/tester_agent.py:686-691 | one failing issue makes the whole run FAILED |
| TesterAgent.FunctionalFailureFails | src/agents/tester_agent.py:660-661 | a failed functional test makes the run FAILED |
| TesterAgent.LoadFailureFails | src/agents/tester_agent.py:674-677 | a failed load test makes the run FAILED |
| TesterAgent.VulnerabilitiesPartition | src/agents/tester_agent.py:664-671 | every vulnerability becomes exactly one issue (high or critical) or one recommendation (otherwise) |
| TesterAgent.SimulatedRunStatus | src/agents/tester_agent.py:398-456 | with the simulated security, load and usability findings, a run fails exactly when a functional test failed and passes otherwise |
| TesterAgent.ResultsRecord | src/agents/tester_agent.py:419-431 | the results record has exactly the eleven fields of the combined results |
| TesterAgent.RecordNamesProject | src/agents/tester_agent.py:420-421 | the record names the project and its execution date |
| TesterAgent.RecordHoldsTallies | src/agents/tester_agent.py:422-423 | the record holds the functional and integration tallies, or empty dictionaries when execution ended in an error |
| TesterAgent.RecordHoldsOtherResults | src/agents/tester_agent.py:424-427 | the record holds the security, performance, usability and developer results as given |
| TesterAgent.RecordHoldsAnalysis | src/agents/tester_agent.py:693-695 | the record holds the analysed status, the issues found and the recommendations |
| TesterAgent.SecurityCarriesVulnerabilities | src/agents/tester_agent.py:543-575 | the simulated security results list the vulnerabilities the analysis reads, with their severity, description and recommendation |
| TesterAgent.PerformanceAndUsabilityCarryFindings | src/agents/tester_agent.py:577-650 | the simulated load test passes and the simulated usability results list the issues the analysis reads |
| TesterAgent.SendTestResults | src/agents/tester_agent.py:804-871 | the developer gets the results with a fix flag, and BA gets the final report with sign-off exactly for PASSED or PASSED_WITH_ISSUES |
| TesterAgent.SignoffFlags | src/agents/tester_agent.py:804-867 | fixes are requested exactly when there are issues, and sign-off is given exactly when no issue mentions failed |
| TesterAgent.FailureNotification | src/agents/tester_agent.py:873-897 | a testing failure is reported as an error to the developer and to BA, carrying the error |
| TesterAgent.TestApplication | src/agents/tester_agent.py:398-456 | testing never raises and always sends the two result messages built from the executed cases and their analysis |
| TesterAgent.HandleQuery | src/agents/tester_agent.py:899-919 | a query is answered to its sender for the same project, marked as a testing query response; a raised model call raises |
| TesterAgent.Acknowledge | src/agents/tester_agent.py:921-934 | a response is acknowledged to its sender as a processed status |
| TesterAgent.Process | src/agents/tester_agent.py:57-73 | each message kind goes to its handler under the catch-all, responses are acknowledged and other kinds change nothing |
| Workflow.SuccessorFirstEdge | src/langgraph_agents/workflow.py:90-95 | a vertex has a successor exactly when some edge leaves it, and the successor is the target of the first such edge |
| Workflow.Walk | src/langgraph_agents/workflow.py:76-98 | a walk within the step limit never lists more vertices than the limit and never includes the end vertex |
| Workflow.GraphOrder | src/langgraph_agents/workflow.py:90-95 | from the start, within the recursion limit of 10, the graph visits business analysis, architecture, implementation planning, test strategy and completion, in that order |
| Workflow.CountOf | src/langgraph_agents/workflow.py:112-118 | the count succeeds exactly for a dictionary whose entry (an empty list when the key is missing) is a list, string or dictionary, and is then that entry's length; a missing key counts 0 |
| Workflow.Node | src/langgraph_agents/workflow.py:100-244 | a phase node keeps the project, appends at most one assistant message and at most one error (which fails the status), fires at most its own callback and touches no other phase's result; a failing tool records only the error |
| Workflow.NodeSuccess | src/langgraph_agents/workflow.py:112-124 | a successful phase stores its result, marks its phase completed, adds one message, keeps errors and status and fires its callback when one is given |
| Workflow.NodeToolFailure | src/langgraph_agents/workflow.py:126-130 | a failing tool appends one prefixed error, sets the status to failed and changes nothing else |
| Workflow.NodeCallbacks | src/langgraph_agents/workflow.py:121-123 | a node's callbacks are the earlier ones plus the ones it fires |
| Workflow.RunNodes | src/langgraph_agents/workflow.py:90-95 | running phases keeps the project, only appends messages and errors (at most one of each per phase) and keeps the status while no error occurs |
| Workflow.CallbackTrace | src/langgraph_agents/workflow.py:121-123 | the callbacks of a run are those of the phases in order |
| Workflow.LaterPhasesStillRun | src/langgraph_agents/workflow.py:126-132 | a phase whose tool succeeds stores its result even when an earlier phase failed |
| Workflow.KeepsResult | src/langgraph_agents/workflow.py:100-244 | phases not run leave their stored results alone |
| Workflow.AllSucceed | src/langgraph_agents/workflow.py:100-244 | when every phase succeeds, no error is added, the status is kept, and each phase adds one message |
| Workflow.ErrorsPersist | src/langgraph_agents/workflow.py:126-130 | once a phase fails, the run's error list is not empty |
| Workflow.PhasesDistinct | src/langgraph_agents/workflow.py:90-95 | the pipeline lists each phase once |
| Workflow.EveryPhaseListed | src/langgraph_agents/workflow.py:90-95 | every phase is in the pipeline |
| Workflow.AllFired | src/langgraph_agents/workflow.py:121-123 | a clean run fires business_analysis, architecture, implementation and testing, in that order |
| Workflow.AllStored | src/langgraph_agents/workflow.py:100-244 | when every tool succeeds, every phase's result is stored |
| Workflow.Completion | src/langgraph_agents/workflow.py:246-262 | completion marks the phase completed, the status completed exactly without errors and completed_with_errors otherwise, and appends one final message |
| Workflow.InitialState | src/langgraph_agents/workflow.py:360-375 | a run starts initiated and in progress, with one system message and no results, errors or callbacks |
| Workflow.RunProject | src/langgraph_agents/workflow.py:338-397 | a given non-empty id is kept and a missing one is fresh; a graph failure returns the initial state failed with one error; otherwise the run ends completed or completed_with_errors |
| Workflow.CleanRunStatus | src/langgraph_agents/workflow.py:338-397 | a clean run completes without errors and with six messages |
| Workflow.CleanRunResults | src/langgraph_agents/workflow.py:338-397 | when every tool succeeds, every phase's result is in the final state |
| Workflow.CleanRunCallbacks | src/langgraph_agents/workflow.py:338-397 | a clean run with a callback reports the four phases in order |
| Workflow.FailureShowsInStatus | src/langgraph_agents/workflow.py:250-251 | any failing tool makes the run end completed_with_errors |
| ProjectRegistry.Empty | src/langgraph_agents/enhanced_mcp_server.py:47-52 | a new registry is valid and empty |
| ProjectRegistry.Lookup | src/langgraph_agents/enhanced_mcp_server.py:103-105 | a lookup finds exactly the stored projects |
| ProjectRegistry.Put | src/langgraph_agents/enhanced_mcp_server.py:90 | storing a record keeps the registry valid, replaces an existing project in place and appends a new one at the end of insertion order |
| ProjectRegistry.Values | src/langgraph_agents/enhanced_mcp_server.py:107-110 | the listing gives every record once, in insertion order |
| ProjectRegistry.NewRecord | src/langgraph_agents/enhanced_mcp_server.py:77-88 | a fresh record is initiated, initiating, at progress 0, with the four default phases, none completed, and its creation time |
| ProjectRegistry.Create | src/langgraph_agents/enhanced_mcp_server.py:112-131 | creating stores an initiated project at progress 0 with the given title and specification under the given id, and leaves every other project alone |
| ProjectRegistry.CreateWithDefaults | src/langgraph_agents/enhanced_mcp_server.py:73-94 | the synchronous create stores a new project under a fresh id, defaulting an empty title to Untitled Project and an empty domain to General |
| ProjectRegistry.Update | src/langgraph_agents/enhanced_mcp_server.py:96-101 | an update of an unknown project does nothing; otherwise the updates are merged into the record and the update time is set |
| ProjectRegistry.UpdateSets | src/langgraph_agents/enhanced_mcp_server.py:96-101 | every updated key takes its new value |
| ProjectRegistry.UpdateKeeps | src/langgraph_agents/enhanced_mcp_server.py:96-101 | every key not updated keeps its value |
| ProjectRegistry.UpdateStatus | src/langgraph_agents/enhanced_mcp_server.py:164-171 | an unknown project is left alone; a known one takes the status and update time, and the progress only when given; other projects are untouched |
| ProjectRegistry.GetStatus | src/langgraph_agents/enhanced_mcp_server.py:133-138 | the status is the stored record of a known, non-empty project, and otherwise a not-found error |
| Strings.BelowIrreflexive | src/langgraph_agents/enhanced_mcp_server.py:482 | the string order behind the sort is irreflexive |
| Strings.BelowTransitive | src/langgraph_agents/enhanced_mcp_server.py:482 | the string order behind the sort is transitive |
| Strings.BelowTotal | src/langgraph_agents/enhanced_mcp_server.py:482 | any two different strings are ordered one way or the other |
| ProjectRegistry.InsertDescMultiset | src/langgraph_agents/enhanced_mcp_server.py:482 | insertion adds exactly the new entry |
| ProjectRegistry.InsertDescBound | src/langgraph_agents/enhanced_mcp_server.py:482 | insertion keeps an upper bound on the keys |
| ProjectRegistry.InsertDescSorted | src/langgraph_agents/enhanced_mcp_server.py:482 | insertion into a descending list keeps it descending |
| ProjectRegistry.SortDescCorrect | src/langgraph_agents/enhanced_mcp_server.py:482 | the sort yields a descending permutation of its input |
| ProjectRegistry.InsertDescStable | src/langgraph_agents/enhanced_mcp_server.py:482 | insertion places a new entry after every entry with the same key |
| ProjectRegistry.NoneWithKeyBelow | src/langgraph_agents/enhanced_mcp_server.py:482 | in a descending list whose first key is below k, no entry has key k |
| ProjectRegistry.WithKeyAppend | src/langgraph_agents/enhanced_mcp_server.py:482 | selecting one key distributes over concatenation |
| ProjectRegistry.SortDescStable | src/langgraph_agents/enhanced_mcp_server.py:482 | the sort is stable: entries with equal creation times keep their relative order |
| ProjectRegistry.FilterBy | src/langgraph_agents/enhanced_mcp_server.py:477-481 | a filter keeps exactly the projects whose field equals the wanted value, and everything when no value is wanted |
| ProjectRegistry.Keep | src/langgraph_agents/enhanced_mcp_server.py:477-481 | the selection holds exactly the projects whose field equals the wanted value |
| ProjectRegistry.SliceTo | src/langgraph_agents/enhanced_mcp_server.py:488 | the limit takes a prefix of at most limit items, and a negative limit drops that many from the end, as Python slicing does |
| ProjectRegistry.KeyAll | src/langgraph_agents/enhanced_mcp_server.py:482 | keying keeps the projects and their order |
| ProjectRegistry.DescendingPrefix | src/langgraph_agents/enhanced_mcp_server.py:488 | a prefix of a descending list is descending |
| ProjectRegistry.Listing | src/langgraph_agents/enhanced_mcp_server.py:482-488 | the listing is descending, within the limit and drawn from its input |
| ProjectRegistry.KeyedFrom | src/langgraph_agents/enhanced_mcp_server.py:482 | every keyed entry is one of the projects |
| ProjectRegistry.ListProjects | src/langgraph_agents/enhanced_mcp_server.py:469-505 | the listing is newest first, within the limit, and holds only stored projects matching the status and domain filters |
| ProjectRegistry.ListIsSortedFilter | src/langgraph_agents/enhanced_mcp_server.py:469-505 | when every project has a creation time, the listing is the limited stable descending sort of the filtered projects |
| ProjectRegistry.AllKeyed | src/langgraph_agents/enhanced_mcp_server.py:482 | projects that all have creation times all get keys |
| ProjectRegistry.Percentage | src/langgraph_agents/enhanced_mcp_server.py:555-557 | the reported percentage, in tenths, is the one-decimal value nearest to completed phases over all phases times 100, and 0 without phases |
| ProjectRegistry.PercentageBounds | src/langgraph_agents/enhanced_mcp_server.py:577 | the rounded percentage is at most 100.0 while no more phases are completed than listed, and exactly 100.0 when all are |
| ProjectRegistry.Remaining | src/langgraph_agents/enhanced_mcp_server.py:579 | the remaining phases are exactly the listed phases not completed |
| ProjectRegistry.RemainingNone | src/langgraph_agents/enhanced_mcp_server.py:579 | when every phase is completed, nothing remains |
| ProjectRegistry.Monitor | src/langgraph_agents/enhanced_mcp_server.py:546-589 | monitoring succeeds exactly for a known non-empty project whose phase lists are lists; it reports the project, counts all and completed phases, and lists as remaining exactly the phases not completed |
| ProjectRegistry.CompleteProgress | src/langgraph_agents/enhanced_mcp_server.py:555-579 | a project with all four phases completed shows nothing remaining and 100.0% |
| ProjectRegistry.NextPhase | src/langgraph_agents/enhanced_mcp_server.py:641-651 | an unlisted phase is followed by unknown, and testing by completed |
| ProjectRegistry.NextPhaseFollowsList | src/langgraph_agents/enhanced_mcp_server.py:641-651 | each listed phase but the last is followed by the next one in the list |
| ProjectRegistry.PhaseCompleted | src/langgraph_agents/enhanced_mcp_server.py:604-610 | completing a phase of an unknown project fails; otherwise the record moves to the next phase and the phase is appended to its completed phases |
| ProjectRegistry.PhaseCompletedAppends | src/langgraph_agents/enhanced_mcp_server.py:604-610 | the completed phases grow by exactly the phase reported |
| ProjectRegistry.PhasesCompleted | src/langgraph_agents/enhanced_mcp_server.py:604-610 | a sequence of phase completions keeps the registry valid and its order |
| ProjectRegistry.CallbackError | src/langgraph_agents/enhanced_mcp_server.py:604-610 | the phase callback raises, with one error whatever the phase, exactly when the project is unknown or its completed phases are not a list |
| ProjectRegistry.CallbackErrorSteady | src/langgraph_agents/enhanced_mcp_server.py:604-610 | after a callback that succeeded the next one succeeds too |
| ProjectRegistry.PhasesCompletedRaising | src/langgraph_agents/enhanced_mcp_server.py:604-610 | when the callback raises, a run's callbacks leave the registry unchanged |
| ProjectRegistry.PhasesCompletedAppend | src/langgraph_agents/enhanced_mcp_server.py:604-610 | when the callback succeeds, a run's callbacks append their phases in order to whatever list the project held |
| ProjectRegistry.PhasesCompletedOthers | src/langgraph_agents/enhanced_mcp_server.py:604-610 | phase completions leave every other project alone |
| ProjectRegistry.PhasesCompletedMissing | src/langgraph_agents/enhanced_mcp_server.py:604-610 | phase completions for an unknown project change nothing |
| ProjectRegistry.PhasesCompletedRecords | src/langgraph_agents/enhanced_mcp_server.py:604-610 | a sequence of completions appends exactly those phases in order, and the project moves past the last one |
| ProjectRegistry.FullRunProgress | src/langgraph_agents/enhanced_mcp_server.py:604-651 | completing the four phases from none records all four and ends at completed |
| ProjectRegistry.ReadResource | src/langgraph_agents/enhanced_mcp_server.py:212-245 | an unknown scheme is rejected, and an artifact URI without exactly one slash is malformed |
| ProjectRegistry.ProjectUriRoundTrip | src/langgraph_agents/enhanced_mcp_server.py:215-221 | reading project:// followed by a known id gives that project's record |
| ProjectRegistry.ArtifactUriParts | src/langgraph_agents/enhanced_mcp_server.py:223-229 | an artifact URI built from a project and a name without slashes parses back into the two |
| McpTools.Required | src/langgraph_agents/enhanced_mcp_server.py:397 | a required argument is read exactly when present, and otherwise is a key error naming it |
| McpTools.TextArg | src/langgraph_agents/enhanced_mcp_server.py:434 | a text argument is read exactly when present as a string; a missing one is a key error |
| McpTools.CreateToolAsWritten | src/langgraph_agents/enhanced_mcp_server.py:395-430 | as written, creation stores nothing and fails: with a key error when the specification is missing, and otherwise because the coroutine id cannot be serialised |
| McpTools.CreateTool | src/langgraph_agents/enhanced_mcp_server.py:395-430 | corrected creation fails with a key error and changes nothing when the specification is missing; otherwise it stores a new project under a fresh id and reports it initiated, with its title, domain and priority and a tracking URI |
| McpTools.Estimates | src/langgraph_agents/enhanced_mcp_server.py:405-409 | creation adds exactly the priority and TBD complexity and duration |
| McpTools.CreatedRecord | src/langgraph_agents/enhanced_mcp_server.py:395-409 | the stored project is initiated and carries the specification, the priority and the estimates |
| McpTools.CreateKeepsOthers | src/langgraph_agents/enhanced_mcp_server.py:395-430 | creation leaves every other project alone |
| McpTools.CreateFindingShows | src/langgraph_agents/enhanced_mcp_server.py:112 | as written, a valid creation fails and stores no project, while the corrected creation succeeds and stores it |
| McpTools.ArtifactListing | src/langgraph_agents/enhanced_mcp_server.py:451-461 | the artifact listing has one entry per JSON file of the directory other than the summary, with its file name, size, time and artifact URI |
| McpTools.Enriched | src/langgraph_agents/enhanced_mcp_server.py:441-461 | without an output directory the record is unchanged; with one, the summary's values replace the record's, other keys keep theirs, and the artifact listing is added when asked for |
| McpTools.StatusTool | src/langgraph_agents/enhanced_mcp_server.py:432-467 | the status tool reports exactly when a project id is given and the project is known; the reported record is the enriched one, and it replaces the stored record because the handler updates the record in place |
| McpTools.StatusAdoptsSummary | src/langgraph_agents/enhanced_mcp_server.py:443-448 | after a status call on a project with a summary file, the reported and the stored status are the summary's |
| McpTools.LimitOf | src/langgraph_agents/enhanced_mcp_server.py:473 | an integer limit is used as given, no limit keeps everything, and a limit of another type fails |
| McpTools.RecordsOf | src/langgraph_agents/enhanced_mcp_server.py:490-500 | the reported projects are the listed records in order |
| McpTools.ListTool | src/langgraph_agents/enhanced_mcp_server.py:469-505 | the listing reports its projects, their count, the limit (20 by default) and the filters, and stays within a non-negative limit |
| McpTools.ArtifactsTool | src/langgraph_agents/enhanced_mcp_server.py:507-544 | a project without an output directory fails; otherwise the artifacts reported are files of that directory with their contents, the summary being reported only when asked for by name and present, and the count matches |
| McpTools.MonitorTool | src/langgraph_agents/enhanced_mcp_server.py:546-589 | the monitor reports progress exactly when a project id is given and the project can be monitored |
| McpTools.CallTool | src/langgraph_agents/enhanced_mcp_server.py:363-393 | an unknown tool fails with its name; only creation and the status tool change the registry, and the status tool changes no record but the one it reports; every failure names the tool called |
| McpTools.CreatedProjectReadsBack | src/langgraph_agents/enhanced_mcp_server.py:363-467 | a created project, whose output directory does not exist yet, can be read back unchanged through the status tool and its project:// resource |
| McpTools.StateValue | src/langgraph_agents/enhanced_mcp_server.py:625 | the final state stored with the project carries the run's status and errors |
| McpTools.StateKeepsMessages | src/langgraph_agents/workflow.py:49 | the stored final state carries every workflow message in order, each with its role and content |
| McpTools.Phased | src/langgraph_agents/enhanced_mcp_server.py:597-616 | the workflow runs with the project's id and the phase callback, keeping the registry valid |
| McpTools.PhasedCallbacks | src/langgraph_agents/enhanced_mcp_server.py:604-610 | for a registered project whose completed phases form a list, no callback raises and each phase the workflow reports is appended, in order |
| McpTools.PhasedCallbacksRaise | src/langgraph_agents/enhanced_mcp_server.py:604-610 | for an unknown project or a completed-phases value that is not a list, every callback raises and the registry keeps only the start-of-run update |
| McpTools.Finished | src/langgraph_agents/enhanced_mcp_server.py:620-626 | a finished run marks the project completed, with the workflow flag and the final state |
| McpTools.Failed | src/langgraph_agents/enhanced_mcp_server.py:630-638 | a failed run marks the project failed with an error naming it |
| McpTools.RunWorkflowAsWritten | src/langgraph_agents/enhanced_mcp_server.py:591-639 | as written, every known project ends failed, because a dictionary is awaited |
| McpTools.RunWorkflow | src/langgraph_agents/enhanced_mcp_server.py:591-639 | corrected, every known project ends completed, with the workflow flag set and the run's final state attached |
| McpTools.RunWorkflowUnknown | src/langgraph_agents/enhanced_mcp_server.py:591-639 | running the workflow for an unknown project changes nothing |
| McpTools.CleanRunPhases | src/langgraph_agents/enhanced_mcp_server.py:604-616 | a clean run records the four phases as completed |
| McpTools.CleanRunCallsBack | src/langgraph_agents/enhanced_mcp_server.py:597-616 | when every agent succeeds for a fresh project, the workflow calls back for the four phases in order |
| McpTools.WorkflowFindingShows | src/langgraph_agents/enhanced_mcp_server.py:613-617 | after a clean run the project records all four phases, yet as written it ends failed, while the corrected run ends completed |
| AgentTools.Unfence | src/langgraph_agents/agent_tools.py:215-224 | removing code fences never lengthens a reply |
| AgentTools.UnfenceFenced | src/langgraph_agents/agent_tools.py:218-224 | a reply wrapped in a json or plain fence loses exactly the fences |
| AgentTools.UnfenceBare | src/langgraph_agents/agent_tools.py:218-224 | a reply without backticks at its ends is unchanged |
| AgentTools.StripTight | src/langgraph_agents/agent_tools.py:215 | stripping a string without outer whitespace leaves it unchanged |
| AgentTools.SliceObject | src/langgraph_agents/agent_tools.py:229-235 | a reply already starting with a brace, or lacking either brace, is kept as is |
| AgentTools.FirstOpenAt | src/langgraph_agents/agent_tools.py:231 | the first opening brace is found right after a lead without braces |
| AgentTools.LastCloseAt | src/langgraph_agents/agent_tools.py:233 | the last closing brace is found before a trail without braces |
| AgentTools.SliceSurrounded | src/langgraph_agents/agent_tools.py:229-235 | an object surrounded by brace-free text is cut out exactly |
| AgentTools.FencedReplyRoundTrip | src/langgraph_agents/agent_tools.py:215-235 | a fenced object with padding is cleaned back to the object by the architecture, plan, test-strategy and code cleaners alike |
| AgentTools.BareReplyUnchanged | src/langgraph_agents/agent_tools.py:215-235 | an object reply is left unchanged by every cleaner |
| AgentTools.SurroundedReplySliced | src/langgraph_agents/agent_tools.py:229-235 | an object in prose is cut out by the architecture and code cleaners, but the plan and test-strategy cleaners leave the prose in place |
| AgentTools.FallbackStack | src/langgraph_agents/agent_tools.py:270-353 | each fallback stack names a frontend, backend, database and deployment, and its frontend is the complexity's |
| AgentTools.FallbackComponents | src/langgraph_agents/agent_tools.py:270-353 | a simple design has one component, a medium one two and a complex one three, each with a name, responsibility and technology, the first using the frontend |
| AgentTools.FallbackDesignShape | src/langgraph_agents/agent_tools.py:270-353 | each fallback design has exactly the six design keys, names its complexity, picks option 1, and carries the complexity's stack and components |
| AgentTools.StampedFallback | src/langgraph_agents/agent_tools.py:356-366 | stamping a design with a non-empty frontend keeps its complexity, stack and components, and uses the frontend as the technology |
| AgentTools.TechnologyUsed | src/langgraph_agents/agent_tools.py:362-375 | the technology used can be read exactly when the technology stack is a dictionary |
| AgentTools.DesignArchitecture | src/langgraph_agents/agent_tools.py:108-388 | the design always carries the project id and creation time, in the error record as well |
| AgentTools.DesignFallsBack | src/langgraph_agents/agent_tools.py:241-360 | a reply that raised, is not JSON or lacks a required field gives the fallback design for the estimated complexity, with its stack and components, its frontend as the technology used and no error |
| AgentTools.DesignKeepsReply | src/langgraph_agents/agent_tools.py:238-388 | a usable reply is kept apart from the added metadata; a technology stack that is not a dictionary gives the error record |
| AgentTools.ComplexIndicatorWins | src/langgraph_agents/agent_tools.py:264-293 | a complex indicator anywhere in the lower-cased stories makes the fallback complex |
| AgentTools.SimpleNeedsNoComplex | src/langgraph_agents/agent_tools.py:264-270 | the fallback is simple exactly with a simple indicator and no complex one, and complex exactly with a complex one |
| AgentTools.KindIssues | src/langgraph_agents/agent_tools.py:1805-1835 | the per-type checks only report issues of that file type |
| AgentTools.FileIssues | src/langgraph_agents/agent_tools.py:1800-1835 | every issue applies to the file's type, and a file is reported empty exactly when it is blank |
| AgentTools.TotalDeductionAppend | src/langgraph_agents/agent_tools.py:1798-1837 | deductions add up over concatenated issue lists |
| AgentTools.TotalDeductionPositive | src/langgraph_agents/agent_tools.py:1798-1837 | there is a deduction exactly when there is an issue |
| AgentTools.CheckFile | src/langgraph_agents/agent_tools.py:1796-1845 | a file's score stays within 0..100, is full exactly without issues, and its status follows the pass and warning thresholds |
| AgentTools.BlankDeduction | src/langgraph_agents/agent_tools.py:1800-1835 | a blank file loses between 50 and 65 points |
| AgentTools.KindDeductionBound | src/langgraph_agents/agent_tools.py:1805-1835 | the type checks take at most 40 points from a script and 30 from other files |
| AgentTools.ScoreBounds | src/langgraph_agents/agent_tools.py:1796-1845 | a blank file scores 35 to 50 and fails; a non-blank one scores at least 60, and only a script failing all three checks sits at 60 |
| AgentTools.ScriptFloor | src/langgraph_agents/agent_tools.py:1826-1835 | a script loses 40 points only by failing all three script checks |
| AgentTools.CompletePagePasses | src/langgraph_agents/agent_tools.py:1800-1845 | a non-blank page with a doctype, a title and balanced angle brackets scores 100 and passes |
| AgentTools.Names | src/langgraph_agents/agent_tools.py:1785 | the files tested are the file names in order |
| AgentTools.FileLines | src/langgraph_agents/agent_tools.py:1847 | each issue is listed once as the file name, a colon and the issue text |
| AgentTools.TestSourceFiles | src/langgraph_agents/agent_tools.py:1782-1861 | the report lists every file, scores each by its own check, lists every issue line, gives quality 0 and no recommendation for no files, and otherwise the rounded mean with its recommendations |
| AgentTools.Reports | src/langgraph_agents/agent_tools.py:1796-1845 | each file's report is its own check |
| AgentTools.KeyedLookup | src/langgraph_agents/agent_tools.py:1841-1845 | results keyed by distinct names hold exactly those names, each with its own report |
| AgentTools.PrefixStep | src/langgraph_agents/agent_tools.py:1795-1847 | testing one more file extends names, reports, issue lines and the score sum by that file's |
| AgentTools.SumScoresBounds | src/langgraph_agents/agent_tools.py:1837-1839 | the score sum lies between 35 and 100 per file |
| AgentTools.TenthsBounds | src/langgraph_agents/agent_tools.py:1851 | the rounded mean of scores within 35..100 lies within 35.0..100.0 |
| AgentTools.QualityBounds | src/langgraph_agents/agent_tools.py:1850-1851 | the quality score of any non-empty set of files lies within 35.0..100.0 |
| AgentTools.CleanFilesReady | src/langgraph_agents/agent_tools.py:1850-1859 | files without issues score 100.0, list no issues and are recommended for deployment |
| AgentTools.FullMarks | src/langgraph_agents/agent_tools.py:1851 | a mean of full marks rounds to 100.0 |
| AgentTools.CleanSum | src/langgraph_agents/agent_tools.py:1837-1847 | files without issues sum to full marks and list no issues |
| AgentTools.IssueLineListed | src/langgraph_agents/agent_tools.py:1847 | every issue of every file appears among the issues found |
| AgentTools.BlankFileReported | src/langgraph_agents/agent_tools.py:1800-1802 | a blank file is always reported empty |
| AgentTools.RelativePath | src/langgraph_agents/agent_tools.py:1877-1886 | a file is saved under docs/ exactly when it is Markdown, at the root exactly when it is one of the root configuration files, and under src/ otherwise, always ending in its own name |
| AgentTools.SafeNamePointwise | src/langgraph_agents/agent_tools.py:1904 | the tracking name keeps the length, turns slashes and dots into underscores and contains neither |
| AgentTools.TrackingNamesCollide | src/langgraph_agents/agent_tools.py:1904-1905 | two different file names that differ only in a dot against an underscore, such as app.js and app_js, share one tracking name |
| EnhancedBA.FeedAllStep | src/agents/enhanced_ba_agent.py:151-161 | scanning lines is one line at a time, left to right |
| EnhancedBA.FeedAllAppend | src/agents/enhanced_ba_agent.py:151-161 | scanning a concatenation is scanning the first part and then the second |
| EnhancedBA.FeedBody | src/agents/enhanced_ba_agent.py:160-161 | lines that are not level-two headings only accumulate in the open section |
| EnhancedBA.SavedFromState | src/agents/enhanced_ba_agent.py:151-166 | scanning a rendered document and saving the last section stores every section's stripped body under its title |
| EnhancedBA.RenderNoNewline | src/agents/enhanced_ba_agent.py:150 | a rendered document's lines contain no line break |
| EnhancedBA.SectionsRoundTrip | src/agents/enhanced_ba_agent.py:144-167 | extracting sections from a document made of a heading-free preamble and titled sections gives back each title with its stripped body, the last occurrence winning |
| EnhancedBA.NoHeadingNoSections | src/agents/enhanced_ba_agent.py:151-166 | a reply without level-two headings has no sections |
| EnhancedBA.KeysFromHeadings | src/agents/enhanced_ba_agent.py:152-158 | every saved title came from a heading line or was already known |
| EnhancedBA.SectionKeys | src/agents/enhanced_ba_agent.py:152-166 | every section title is non-empty and is the stripped text of some heading line of the reply |
| EnhancedBA.SavedKeysNonEmpty | src/agents/enhanced_ba_agent.py:154-165 | an empty title is never saved |
| EnhancedBA.IntroLines | src/agents/enhanced_ba_agent.py:178-185 | the collected introduction lines are never blank |
| EnhancedBA.SummaryWithoutIntro | src/agents/enhanced_ba_agent.py:172-189 | without an introduction marker in the functional specification the summary is the fixed sentence followed by the first 200 characters of the requirements and an ellipsis |
| EnhancedBA.IntroLinesPlain | src/agents/enhanced_ba_agent.py:178-185 | plain, stripped, non-heading lines after the marker are all kept |
| EnhancedBA.SummaryFromIntro | src/agents/enhanced_ba_agent.py:172-187 | a functional specification made of the marker line and plain lines yields exactly those lines as the summary |
| EnhancedBA.MarkedSpecSplits | src/agents/enhanced_ba_agent.py:176 | splitting the joined marker and body lines gives them back |
| EnhancedBA.MergePhases | src/agents/enhanced_ba_agent.py:328 | the combined document has the keys of both phases, the second phase winning on shared keys |
| EnhancedBA.MergeSettles | src/agents/enhanced_ba_agent.py:328 | merging the second phase in again changes nothing |
| EnhancedBA.ExportSpecification | src/agents/enhanced_ba_agent.py:682-694 | export succeeds exactly for a stored project and a format that is markdown or json in any case, exports that project's specification in the chosen format, and otherwise reports the missing project first |
| EnhancedBA.ExportIgnoresCase | src/agents/enhanced_ba_agent.py:689-692 | formats differing only in letter case export the same way |
| Prompts.ExtractMetadata | src/prompts/utils.py:271-283 | metadata exists exactly for a dictionary with a _metadata entry, and reading it fails when that entry is not a dictionary |
| Prompts.MetadataDefaults | src/prompts/utils.py:274-282 | missing metadata fields take their defaults (empty name and description, version 1.0, no parameters, category general) and given ones are kept |
| Prompts.ValidateParams | src/prompts/utils.py:76-88 | a template without metadata is valid; with metadata it is valid exactly when every required parameter is provided, and otherwise reports a non-empty set of missing ones |
| Prompts.ExtraParamsIgnored | src/prompts/utils.py:80-86 | providing more parameters never makes a valid call invalid |
| Prompts.MissingParamReported | src/prompts/utils.py:80-86 | a required parameter that is not provided is reported missing |
| Prompts.FileName | src/prompts/utils.py:142 | the file name has no directory separator |
| Prompts.Suffix | src/prompts/utils.py:142 | the suffix is empty or a final dotted part of the file name |
| Prompts.Stem | src/prompts/utils.py:248 | the file name is the stem followed by the suffix |
| Prompts.GetLoader | src/prompts/utils.py:140-146 | the loader chosen is the first one supporting the suffix, and none exactly when no loader supports it |
| Prompts.DefaultLoaderChoice | src/prompts/utils.py:113-146 | with the built-in loaders, JSON handles .json, YAML handles .yaml and .yml in any case, and nothing handles other suffixes |
| Prompts.RegisteredLoaderComesLast | src/prompts/utils.py:149-152 | a newly registered loader never takes over a suffix an earlier loader already handles |
| Prompts.Register | src/prompts/utils.py:163-172 | after registering, the prompt is found under its agent and name, its metadata is recorded when present, and the agent and prompt listings gain exactly those names |
| Prompts.RegisterKeepsOthers | src/prompts/utils.py:163-192 | registering leaves every other prompt and metadata entry as it was |
| Prompts.UnknownAgentEmpty | src/prompts/utils.py:174-187 | an unknown agent has no prompts |
| Prompts.RegisterEntries | src/prompts/utils.py:258-261 | registering a file's entries adds at most its agent |
| Prompts.LoadFile | src/prompts/utils.py:241-269 | a file without a loader or that cannot be read changes nothing; with automatic reloading a file not newer than its recorded time is skipped, and otherwise its time is recorded; without it no times are recorded; other files' times are kept |
| Prompts.LoadAll | src/prompts/utils.py:227-239 | loading a directory records times only for its own files, and none without automatic reloading |
| Prompts.Reload | src/prompts/utils.py:325-330 | after a reload with whatever loaders the factory holds, only the directory's files have recorded times, and none without automatic reloading |
| Prompts.LoadTwiceSkips | src/prompts/utils.py:251-256 | with automatic reloading, loading an unchanged file again changes nothing |
| Prompts.UnsupportedFileIgnored | src/prompts/utils.py:243-246 | a file no loader supports leaves the manager unchanged |
| Prompts.ReloadForgets | src/prompts/utils.py:325-330 | after a reload the result depends only on the files, not on what was loaded before |
| Prompts.EntriesRegistered | src/prompts/utils.py:258-261 | each entry of a file is registered under the file's agent with the template built from its data and metadata |
| Prompts.EntriesKeep | src/prompts/utils.py:258-261 | prompts the file does not name keep their templates |
| Prompts.GetPromptText | src/prompts/utils.py:285-315 | a missing prompt gives the empty text, and a non-empty text is the formatted prompt |
| Prompts.MissingParamGivesEmpty | src/prompts/utils.py:304-311 | a prompt whose required parameter is not provided gives the empty text |
| Prompts.PlainPromptFormats | src/prompts/utils.py:298-306 | a just-registered prompt without metadata gives its formatted text |

## Left out

- Language-model calls: each call is an `Agent.Reply` or text parameter. The prompt texts and the descriptive strings the agents put into documents are not modelled beyond their structure.
- A JSON reply of the wrong JSON kind is treated like an unparseable reply, and the handlers differ on it. The architect calls `.get` on a list reply, so its handler raises where the model uses the fallback. The tester's case loop fails on a reply that is not a list of dictionaries; the error is caught, so the story gets no cases (src/agents/tester_agent.py:193-212), while the model gives the basic fallback cases.
- File and directory I/O: source files, prompt files and documentation writes are maps or parameters. File modification times are plain integers.
- Clocks and identifiers: timestamps are strings passed in, and uuid4 values are fresh counters or fresh ids passed in.
- asyncio and threading: the broker's background delivery task, the task queue's concurrency, the prompt registry's lock and the prompt manager's singleton. Delivery is modelled as a step function.
- The HTTP message broker and the user-facing notification helpers (`_notify_user`, `start_project`): they only move text to the outside world.
- The message-id log line in the broker (src/utils/message_broker.py:57): it only logs.
- `_handle_orchestrator_error` (src/agents/base_agent.py): it only logs the notification.
- `EnhancedBAAgent._determine_domain`: it refers to domain enumeration members that `src/models/__init__.py` does not define.
- Token counting (tiktoken) and the choice between iterative and direct generation: the count is a parameter.
- Rendering of reports and exports (Markdown and JSON layout, test documentation, the test report text): exports are modelled by the specification they carry.
- Reading the output directory: its JSON files, the project summary and the files' sizes and times are fields of `McpTools.Env`. A summary file is taken to hold a dictionary, as the workflow writes it.
- The graph library's `add_messages` reducer: message lists are appended.
- Workflow message timestamps: a workflow message keeps its role and content, and its `timestamp` is left out because it only reads the clock.
- `str.format` on prompt templates is a parameter of `Prompts.GetPromptText`.
- `.title()` capitalisation and Unicode case rules: lower-casing is ASCII only; `strip` uses Python's Unicode whitespace set.
- Dictionary listing order where nothing depends on it: listings are sets, except the project registry, which keeps insertion order because its sort is stable.
- Tool arguments of the wrong JSON kind (a number where a string is expected) give an error text of the model's own. Python instead formats the value: the status and monitor tools fail with "Project 5 not found", which the model also reports as a failure, with its own text.
- McpTools.ArtifactsTool: a `project_id` or `artifact_type` that is not a string fails in the model. Python formats it into the directory or file name (`project_5`, `5.json`) and can return that file.
- Prompts.Register: it does not drop metadata left over from an earlier registration of the same name with metadata, exactly as the source does; `Prompts.RegisterKeepsOthers` states what is kept.
- ArchitectAgent.DesignArchitecture: a reply that is not JSON stores the corrected fallback design. As written, the fallback's list-valued stack fails the `Dict[str, str]` validation and the handler raises; see Findings.
- ProjectRegistry.Percentage: the percentage is rounded half up to one decimal, where Python's `round` rounds half to even on a binary float. The bounds stated about it hold either way.
- AgentTools.RoundTenths: the quality score is rounded half up to one decimal, where Python's `round` rounds half to even on a binary float. The bounds stated about it hold either way.
- AgentTools.TrackingNamesCollide: the tracking name for generated files maps `app.js` and `app_js` to the same key, so the later file's entry replaces the earlier one. This is stated, not corrected.
- AgentTools.Unfence: its own contract only bounds the length. What it removes is stated by `AgentTools.UnfenceFenced` and `AgentTools.UnfenceBare`.
- Prompts.RegisterEntries: its own contract only bounds the agents. What it registers is stated by `Prompts.EntriesRegistered` and `Prompts.EntriesKeep`.
- Topic naming: agents send to `agents/<name>` (src/agents/base_agent.py:147) while the broker's subscription helper uses `agent.<name>` (src/utils/message_broker.py:104-106). Both are modelled as written, so an agent's send reaches only callbacks subscribed to the first form.
- The tester's sign-off goes to the BA agent as an artifact message, not to the orchestrator as a status message. It is modelled as written.
- Models.KeysInOrder: a `for` over a dictionary visits its keys in ascending order, where Python visits them in insertion order, which a map does not keep. This orders the numbered questions drawn from a dictionary, and the rendering of dictionaries by `Models.Str`.
- Models.Str: strings inside a list or dictionary are quoted with single quotes without escaping, where `repr` switches quotes or escapes characters, and an agent type is rendered as its value.
- Data-model validation accepts exactly the declared kinds: a story field of another kind fails (`BaAgent.StoryFieldsValid`). Pydantic's conversions between kinds, such as a numeric string for an integer field, are not modelled.
- Exception messages: an error keeps the exception's kind and its fixed wording, but not the type names and values Python's interpreter writes into it ("'list' object has no attribute 'get'" becomes "object has no attribute 'get'").
- BaAgent.Dispatch: the error text for an expertise list holding a non-string leaves out the item's index and type that Python names.
- ProjectRegistry.Monitor: phase lists that are strings or dictionaries fail in the model, where Python takes their length and tests membership in them.
- ProjectRegistry.ListProjects: only string creation times are ordered; with two or more records and any other key the model fails, where Python also sorts keys that are all numbers.
- Broker.Attribute: attributes every Python object inherits, such as `__class__`, are not modelled.
- DeveloperAgent.TechnicalQuery: the query text leaves out the indentation of its triple-quoted template and the closing request for details; the header and the numbered lines are as in the source.

## Findings

| source | as written | input that shows it | evidently intended | confidence | as-written member | corrected member |
|---|---|---|---|---|---|---|
| src/agents/base_agent.py:146-149 | sending calls `publish`, but the broker defines `publish_message` (src/utils/message_broker.py:49) and no `publish` | any send, including the error reply | deliver through `publish_message` | high, not executed | Agent.SendFindingShows | Agent.SendMessage |
| src/agents/developer_agent.py:791 | the developer reads the `issues` key, but the tester reports under `issues_found` (src/agents/tester_agent.py:809) | QA results `{"issues_found": ["x"]}` | QA approval only when no issues were found | high, not executed | DeveloperAgent.TesterIssuesIgnoredAsWritten | DeveloperAgent.ReviewTestResults |
| src/langgraph_agents/enhanced_mcp_server.py:112 | the asynchronous four-argument `create_project` replaces the synchronous one at line 73, so the create tool gets a coroutine and stores nothing | arguments `{"specification": "x"}` | the create tool registers the project and returns its id | high, not executed | McpTools.CreateFindingShows | McpTools.CreateTool |
| src/agents/architect_agent.py:437 | the fallback design puts a list under `additional`, while the design's `tech_stack` is declared `Dict[str, str]` (src/models/__init__.py:79) | any architecture reply that is not JSON | the fallback design validates | medium, not executed | ArchitectAgent.FallbackRejectedAsWritten | ArchitectAgent.FallbackDesign |
| src/langgraph_agents/enhanced_mcp_server.py:613 | the server awaits the synchronous `run_software_development_workflow` (src/langgraph_agents/workflow.py:456), so every run ends in an error after all its phases completed | any created project | the run's result decides the final status | high, not executed | McpTools.WorkflowFindingShows | McpTools.RunWorkflow |

=== FILE: agent.dfy ===
/** The mailbox machine every agent inherits: a FIFO task queue, an
 *  idle/working/stopped flag, a drain-until-empty processing loop, and the
 *  conversion of handler exceptions into ERROR replies.  Each agent owns a
 *  private broker through which its sends are published. */
module Agent {
  import opened Wrappers
  import opened Models
  import Broker

  /** The arguments of one `send_message` call. */
  datatype Outgoing = Outgoing(
    toAgent: AgentType,
    kind: MessageType,
    content: string,
    projectId: string,
    metadata: Option<Metadata>,
    priority: Priority)

  /** What `process_message` did for one message: the sends it made, in
   *  order, and the exception it finally raised, if any. */
  datatype Outcome = Outcome(sends: seq<Outgoing>, raised: Option<string>)

  datatype AgentRuntime = AgentRuntime(
    state: AgentState,
    queue: seq<Message>,
    broker: Broker.BrokerState,
    nextId: MessageId)

  /** The topic an agent's messages are published on. */
  function InboxTopic(a: AgentType): string
  {
    "agents/" + a.Name()
  }

  /** A constructed agent: idle, empty queue, fresh disconnected broker. */
  function NewAgent(agentId: string, agentType: AgentType): (rt: AgentRuntime)
    ensures rt.state.status == Idle && rt.state.currentTask == None
    ensures rt.queue == [] && !rt.broker.connected && Broker.WellFormed(rt.broker)
  {
    AgentRuntime(NewAgentState(agentId, agentType), [], Broker.Init(), 0)
  }

  /** `send_message`: the message is stamped with the agent's own type and a
   *  fresh id, gets `{}` for missing metadata, and is published on the
   *  recipient's topic (dropped by the broker while disconnected). */
  function SendMessage(rt: AgentRuntime, o: Outgoing): (r: AgentRuntime)
    ensures r.state == rt.state && r.queue == rt.queue && r.nextId == rt.nextId + 1
    ensures r.broker.subscribers == rt.broker.subscribers && r.broker.connected == rt.broker.connected
    ensures !rt.broker.connected ==> r.broker == rt.broker
    ensures rt.broker.connected ==>
      |r.broker.queue| == |rt.broker.queue| + 1 && r.broker.queue[..|rt.broker.queue|] == rt.broker.queue &&
      var e := r.broker.queue[|rt.broker.queue|];
      e.topic == "agents/" + o.toAgent.Name() &&
      e.message.id == rt.nextId &&
      e.message.fromAgent == rt.state.agentType && e.message.toAgent == o.toAgent &&
      e.message.kind == o.kind && e.message.content == o.content &&
      e.message.projectId == o.projectId && e.message.priority == o.priority &&
      (o.metadata.None? ==> e.message.metadata == map[]) &&
      (o.metadata.Some? ==> e.message.metadata == o.metadata.value)
  {
    var m := Message(rt.nextId, rt.state.agentType, o.toAgent, o.kind, o.content,
                     o.metadata.GetOr(map[]), o.projectId, o.priority);
    rt.(broker := Broker.Publish(rt.broker, InboxTopic(o.toAgent), m), nextId := rt.nextId + 1)
  }

  function NotCallable(typeName: string): string
  {
    "TypeError: '" + typeName + "' object is not callable"
  }

  function UnexpectedKeyword(op: Broker.Operation, keyword: string): string
  {
    "TypeError: MessageBroker." + op.Name() + "() got an unexpected keyword argument '" + keyword + "'"
  }

  /** `send_message` calling the broker attribute named `name` with the
   *  keywords `topic` and `message`: the message is built as in
   *  `SendMessage`, then the name is looked up on the broker.  A missing
   *  name raises `AttributeError`; a field is not callable; another method
   *  rejects the first keyword it has no parameter for. */
  function SendVia(rt: AgentRuntime, o: Outgoing, name: string): (r: Result<AgentRuntime>)
    ensures r.Ok? <==> name == "publish_message"
    ensures r.Ok? ==> r.value == SendMessage(rt, o)
    ensures Broker.Attribute(name).None? ==>
      r == Err("'MessageBroker' object has no attribute '" + name + "'")
  {
    match Broker.Attribute(name)
    case None => Err("'MessageBroker' object has no attribute '" + name + "'")
    case Some(Field(t)) => Err(NotCallable(t))
    case Some(Method(op)) =>
      if op.PublishOp? then Ok(SendMessage(rt, o))
      else
        Err(UnexpectedKeyword(op, if op.TakesTopic() then "message" else "topic"))
  }

  /** The method name the agents' `send_message` uses. */
  const SendMethodAsWritten: string := "publish"

  /** As written, every send raises before anything reaches the broker, and
   *  so does the ERROR reply that reports it; with the broker's own method
   *  name the same call publishes. */
  lemma SendFindingShows(rt: AgentRuntime, o: Outgoing, m: Message, error: string)
    ensures SendVia(rt, o, SendMethodAsWritten) == Err("'MessageBroker' object has no attribute 'publish'")
    ensures SendVia(rt, ErrorReply(m, error), SendMethodAsWritten).Err?
    ensures SendVia(rt, o, "publish_message") == Ok(SendMessage(rt, o))
  {
    assert SendMethodAsWritten != "publish_message";
    assert Broker.Attribute(SendMethodAsWritten).None?;
  }

  /** Sends each request in order. */
  function SendAll(rt: AgentRuntime, os: seq<Outgoing>): (r: AgentRuntime)
    ensures r.state == rt.state && r.queue == rt.queue && r.nextId == rt.nextId + |os|
    ensures r.broker.subscribers == rt.broker.subscribers && r.broker.connected == rt.broker.connected
    ensures rt.broker.connected ==> |r.broker.queue| == |rt.broker.queue| + |os|
    ensures rt.broker.connected ==> r.broker.queue[..|rt.broker.queue|] == rt.broker.queue
    decreases |os|
  {
    if |os| == 0 then rt
    else
      var r1 := SendMessage(rt, os[0]);
      var r := SendAll(r1, os[1..]);
      assert rt.broker.connected ==> r.broker.queue[..|rt.broker.queue|] == r.broker.queue[..|r1.broker.queue|][..|rt.broker.queue|];
      r
  }

  /** `send_error_message`: an ERROR back to the original sender, on the
   *  same project, at HIGH priority, naming the failed message. */
  function ErrorReply(original: Message, error: string): (o: Outgoing)
    ensures o.toAgent == original.fromAgent && o.kind == Error && o.priority == High
    ensures o.projectId == original.projectId
    ensures o.metadata == Some(map["original_message_id" := VInt(original.id)])
    ensures o.content == "Error processing your " + original.kind.Name() + ": " + error
  {
    Outgoing(original.fromAgent, Error, "Error processing your " + original.kind.Name() + ": " + error,
             original.projectId, Some(map["original_message_id" := VInt(original.id)]), High)
  }

  /** An LLM reply as the handlers see it: the call raised, the text was
   *  not valid JSON, or it parsed to `data`. */
  datatype Reply<T> = LlmRaised(error: string) | Unparseable | Parsed(data: T)

  /** The parsed data, or the handler's fallback for an unparseable reply. */
  function ParsedOr<T>(reply: Reply<T>, fallback: T): (r: T)
    ensures reply.Parsed? ==> r == reply.data
    ensures !reply.Parsed? ==> r == fallback
  {
    match reply
    case Parsed(d) => d
    case _ => fallback
  }

  /** A handler part-way through: its state so far, the sends made so far,
   *  and the exception that stopped it, if any. */
  datatype Run<S> = Run(state: S, sends: seq<Outgoing>, raised: Option<string>)

  /** A `process_message` whose `try` catches every exception and answers it
   *  with `send_error_message`: it never raises itself, and an exception
   *  adds exactly one ERROR reply after the sends already made. */
  function CatchAll<S>(m: Message, run: Run<S>): (r: (S, Outcome))
    ensures r.0 == run.state && r.1.raised == None
    ensures run.raised.None? ==> r.1.sends == run.sends
    ensures run.raised.Some? ==> r.1.sends == run.sends + [ErrorReply(m, run.raised.value)]
  {
    if run.raised.Some? then (run.state, Outcome(run.sends + [ErrorReply(m, run.raised.value)], None))
    else (run.state, Outcome(run.sends, None))
  }

  /** `start`: connects the broker, subscribes the agent's own handler on its
   *  inbox topic, and becomes idle. */
  function Start(rt: AgentRuntime): (r: AgentRuntime)
    requires Broker.WellFormed(rt.broker)
    ensures Broker.WellFormed(r.broker) && r.broker.connected && r.broker.running
    ensures r.state.status == Idle && r.queue == rt.queue
    ensures Broker.SubscribersOf(r.broker.subscribers, InboxTopic(rt.state.agentType))
         == Broker.SubscribersOf(rt.broker.subscribers, InboxTopic(rt.state.agentType)) + [rt.state.agentId]
  {
    var b := Broker.Subscribe(Broker.Connect(rt.broker), InboxTopic(rt.state.agentType), rt.state.agentId);
    rt.(broker := b, state := rt.state.(status := Idle))
  }

  /** `stop`: disconnects the broker and records the agent as stopped. */
  function Stop(rt: AgentRuntime): (r: AgentRuntime)
    ensures r.state.status == Stopped && !r.broker.connected && r.queue == rt.queue
  {
    rt.(broker := Broker.Disconnect(rt.broker), state := rt.state.(status := Stopped))
  }

  /** The `current_task` label: "<type> from <sender>". */
  function TaskLabel(m: Message): string
  {
    m.kind.Name() + " from " + m.fromAgent.Name()
  }

  /** The start of `process_next_task`: the head of the queue is taken and
   *  the agent is working on it. */
  function BeginTask(rt: AgentRuntime): (r: (AgentRuntime, Message))
    requires |rt.queue| > 0
    ensures r.1 == rt.queue[0] && r.0.queue == rt.queue[1..]
    ensures r.0.state.status == Working && r.0.state.currentTask.Some?
    ensures r.0.broker == rt.broker && r.0.nextId == rt.nextId
  {
    (rt.(queue := rt.queue[1..], state := rt.state.(status := Working, currentTask := Some(TaskLabel(rt.queue[0])))),
     rt.queue[0])
  }

  /** The handler's effect on the agent: its sends, then one ERROR reply when
   *  it raised. */
  function RunHandler(rt: AgentRuntime, m: Message, outcome: Outcome): (r: AgentRuntime)
    ensures r.state == rt.state && r.queue == rt.queue && r.broker.connected == rt.broker.connected
    ensures r.broker.subscribers == rt.broker.subscribers
    ensures rt.broker.connected ==>
      |r.broker.queue| == |rt.broker.queue| + |outcome.sends| + (if outcome.raised.Some? then 1 else 0)
    ensures rt.broker.connected && outcome.raised.Some? ==>
      var e := r.broker.queue[|r.broker.queue| - 1];
      e.topic == InboxTopic(m.fromAgent) && e.message.kind == Error && e.message.toAgent == m.fromAgent &&
      e.message.metadata == map["original_message_id" := VInt(m.id)]
  {
    var sent := SendAll(rt, outcome.sends);
    if outcome.raised.Some? then SendMessage(sent, ErrorReply(m, outcome.raised.value)) else sent
  }

  /** The `finally` clause: idle again, no current task. */
  function FinishTask(rt: AgentRuntime): (r: AgentRuntime)
    ensures r.state.status == Idle && r.state.currentTask == None
    ensures r.queue == rt.queue && r.broker == rt.broker && r.nextId == rt.nextId
  {
    rt.(state := rt.state.(status := Idle, currentTask := None))
  }

  function TotalLength(arrivals: seq<seq<Message>>): nat
  {
    if |arrivals| == 0 then 0 else |arrivals[0]| + TotalLength(arrivals[1..])
  }

  function Flatten(arrivals: seq<seq<Message>>): seq<Message>
  {
    if |arrivals| == 0 then [] else arrivals[0] + Flatten(arrivals[1..])
  }

  function Take(arrivals: seq<seq<Message>>, n: nat): seq<seq<Message>>
  {
    if n <= |arrivals| then arrivals[..n] else arrivals
  }

  /** The subclass state after `handler` has processed `ms` one by one. */
  function FoldHandler<S>(s: S, handler: (S, Message) -> (S, Outcome), ms: seq<Message>): S
  {
    if |ms| == 0 then s else FoldHandler(handler(s, ms[0]).0, handler, ms[1..])
  }

  /** `process_next_task`, including its recursive drain.  `handler` is the
   *  subclass's `process_message` over its own state `S`; `arrivals[i]` are
   *  the messages delivered to `handle_message` while the i-th task ran (the
   *  agent is busy then, so they are only enqueued).  Returns the final
   *  runtime, the final subclass state and the messages handled, in order. */
  function ProcessNextTask<S>(rt: AgentRuntime, s: S, handler: (S, Message) -> (S, Outcome),
                              arrivals: seq<seq<Message>>): (r: (AgentRuntime, S, seq<Message>))
    ensures r.0.queue == []
    ensures r.2 == rt.queue + Flatten(Take(arrivals, |r.2|))
    ensures r.1 == FoldHandler(s, handler, r.2)
    ensures |rt.queue| > 0 ==> r.0.state.status == Idle && r.0.state.currentTask == None
    ensures |rt.queue| == 0 ==> r.0 == rt && r.1 == s && r.2 == []
    decreases |rt.queue| + TotalLength(arrivals)
  {
    if |rt.queue| == 0 then (rt, s, [])
    else
      var (working, m) := BeginTask(rt);
      var (s1, outcome) := handler(s, m);
      var during := if |arrivals| > 0 then arrivals[0] else [];
      var rest := if |arrivals| > 0 then arrivals[1..] else [];
      var ran := RunHandler(working.(queue := working.queue + during), m, outcome);
      var (final, s2, handled) := ProcessNextTask(FinishTask(ran), s1, handler, rest);
      DrainOrder(rt.queue, arrivals, handled);
      assert ([m] + handled)[1..] == handled;
      (final, s2, [m] + handled)
  }

  /** The bookkeeping behind the drain order: the head followed by what the
   *  rest of the drain handled is the queue followed by the arrivals. */
  lemma DrainOrder(q: seq<Message>, arrivals: seq<seq<Message>>, handled: seq<Message>)
    requires |q| > 0
    requires handled == q[1..] + (if |arrivals| > 0 then arrivals[0] else [])
                      + Flatten(Take(if |arrivals| > 0 then arrivals[1..] else [], |handled|))
    ensures [q[0]] + handled == q + Flatten(Take(arrivals, |[q[0]] + handled|))
  {
    var n := |handled| + 1;
    if |arrivals| > 0 {
      var rest := arrivals[1..];
      assert Take(arrivals, n) == [arrivals[0]] + Take(rest, |handled|);
      assert Take(arrivals, n)[1..] == Take(rest, |handled|);
      assert Flatten(Take(arrivals, n)) == arrivals[0] + Flatten(Take(rest, |handled|));
    } else {
      assert Take(arrivals, n) == [];
    }
  }

  /** `handle_message`: the message joins the tail of the queue, and the
   *  queue is drained only when the agent is idle. */
  function HandleMessage<S>(rt: AgentRuntime, s: S, handler: (S, Message) -> (S, Outcome),
                            m: Message, arrivals: seq<seq<Message>>): (r: (AgentRuntime, S, seq<Message>))
    ensures rt.state.status != Idle ==> r.0 == rt.(queue := rt.queue + [m]) && r.1 == s && r.2 == []
    ensures rt.state.status == Idle ==>
      r.0.queue == [] && r.0.state.status == Idle && r.0.state.currentTask == None &&
      r.2 == rt.queue + [m] + Flatten(Take(arrivals, |r.2|))
    ensures r.1 == FoldHandler(s, handler, r.2)
  {
    var queued := rt.(queue := rt.queue + [m]);
    if rt.state.status == Idle then ProcessNextTask(queued, s, handler, arrivals)
    else (queued, s, [])
  }
}

=== FILE: agent_tools.dfy ===
/** The deterministic helpers of the LangGraph agent tools: cleaning an LLM
 *  reply down to its JSON text, the architecture tool's local fallback
 *  when the reply is unusable, the quality scoring of generated source
 *  files, and where a generated file is placed. */
module AgentTools {
  import opened Wrappers
  import opened Strings
  import opened Models
  import Agent

  // ---------------------------------------------------------------------
  // Reply cleaning

  const JsonFence: string := "```json"
  const Fence: string := "```"

  /** Removes an opening fence and a closing fence.  The architecture tool
   *  removes "```json" or else "```" (`chained` false); the plan, test
   *  strategy and code tools test "```" again after removing "```json"
   *  (`chained` true). */
  function Unfence(content: string, chained: bool): (r: string)
    ensures |r| <= |content|
  {
    var inside :=
      if StartsWith(content, JsonFence) then
        var rest := content[|JsonFence|..];
        if chained && StartsWith(rest, Fence) then rest[|Fence|..] else rest
      else if StartsWith(content, Fence) then content[|Fence|..]
      else content;
    if EndsWith(inside, Fence) then inside[..|inside| - |Fence|] else inside
  }

  /** A text that does not start with '{' is cut from its first '{' to its
   *  last '}', when both exist; Python's slice is empty when the last '}'
   *  comes before the first '{'. */
  function SliceObject(content: string): (r: string)
    ensures StartsWith(content, "{") ==> r == content
    ensures '{' !in content || '}' !in content ==> r == content
  {
    if StartsWith(content, "{") then content
    else
      var start := FindChar(content, '{');
      if start == -1 then content
      else
        var end := RFindChar(content, '}');
        if end == -1 then content
        else if end + 1 <= start then ""
        else content[start..end + 1]
  }

  /** The architecture tool's cleaning. */
  function CleanArchitectureReply(raw: string): string
  {
    SliceObject(Strip(Unfence(Strip(raw), false)))
  }

  /** The implementation-plan and test-strategy tools' cleaning: no slice. */
  function CleanPlanReply(raw: string): string
  {
    Strip(Unfence(Strip(raw), true))
  }

  /** The code-generation tool's cleaning. */
  function CleanCodeReply(raw: string): string
  {
    SliceObject(Strip(Unfence(Strip(raw), true)))
  }

  /** A JSON object text as a model writes it: starts with '{', ends with
   *  '}'. */
  predicate ObjectText(body: string)
  {
    |body| >= 2 && body[0] == '{' && body[|body| - 1] == '}'
  }

  /** Both fences come off a fenced text, in either variant. */
  lemma UnfenceFenced(open: string, inner: string, chained: bool)
    requires open == JsonFence || open == Fence
    requires |inner| > 0 && inner[0] != '`' && inner[0] != 'j'
    ensures Unfence(open + inner + Fence, chained) == inner
  {
    var s := open + inner + Fence;
    assert s[..|open|] == open && s[|open|..] == inner + Fence;
    assert (inner + Fence)[0] == inner[0];
    if open == Fence {
      assert s[3] == inner[0];
    }
    var rest := inner + Fence;
    assert rest[|rest| - 3..] == Fence && rest[..|rest| - 3] == inner;
  }

  /** A text that neither starts nor ends with a backtick has no fence. */
  lemma UnfenceBare(s: string, chained: bool)
    requires |s| > 0 && s[0] != '`' && s[|s| - 1] != '`'
    ensures Unfence(s, chained) == s
  {
    assert !StartsWith(s, Fence) && !EndsWith(s, Fence);
  }

  /** Stripping leaves a text alone whose ends are not whitespace. */
  lemma StripTight(s: string)
    requires |s| > 0 && !IsSpace(s[0]) && !IsSpace(s[|s| - 1])
    ensures Strip(s) == s
  {
    StripPadded("", s, "");
    assert "" + s + "" == s;
  }

  /** The fences a model wraps its reply in come off: a fenced object, with
   *  any whitespace inside the fences, cleans back to the object in all
   *  three variants. */
  lemma FencedReplyRoundTrip(pre: string, body: string, post: string, tagged: bool)
    requires AllSpace(pre) && AllSpace(post) && ObjectText(body)
    ensures var raw := (if tagged then JsonFence else Fence) + pre + body + post + Fence;
      CleanArchitectureReply(raw) == body && CleanPlanReply(raw) == body && CleanCodeReply(raw) == body
  {
    var open := if tagged then JsonFence else Fence;
    FencedUnwrapped(open, pre, body, post, false);
    FencedUnwrapped(open, pre, body, post, true);
  }

  /** Stripping, unfencing and stripping again leaves the fenced object. */
  lemma FencedUnwrapped(open: string, pre: string, body: string, post: string, chained: bool)
    requires open == JsonFence || open == Fence
    requires AllSpace(pre) && AllSpace(post) && ObjectText(body)
    ensures Strip(Unfence(Strip(open + pre + body + post + Fence), chained)) == body
  {
    var inner := pre + body + post;
    var raw := open + pre + body + post + Fence;
    assert raw == open + inner + Fence;
    assert raw[0] == '`' && raw[|raw| - 1] == '`';
    StripTight(raw);
    assert inner[0] == if |pre| > 0 then pre[0] else '{';
    UnfenceFenced(open, inner, chained);
    StripPadded(pre, body, post);
  }

  /** A reply that is already bare JSON is left as it is. */
  lemma BareReplyUnchanged(body: string)
    requires ObjectText(body)
    ensures CleanArchitectureReply(body) == body && CleanPlanReply(body) == body && CleanCodeReply(body) == body
  {
    StripTight(body);
    UnfenceBare(body, false);
    UnfenceBare(body, true);
  }

  /** The first '{' of a text is the one right after a prefix without any. */
  lemma FirstOpenAt(lead: string, rest: string)
    requires '{' !in lead && |rest| > 0 && rest[0] == '{'
    ensures FindChar(lead + rest, '{') == |lead|
  {
    var raw := lead + rest;
    var start := FindChar(raw, '{');
    assert raw[|lead|] == '{';
    forall k | 0 <= k < |lead| ensures raw[k] != '{' {
      assert raw[k] == lead[k];
    }
    forall k | 0 <= k < start ensures raw[k] != '{' {
      assert raw[..start][k] == raw[k];
    }
  }

  /** The last '}' of a text is the one right before a suffix without any. */
  lemma LastCloseAt(init: string, trail: string)
    requires |init| > 0 && init[|init| - 1] == '}' && '}' !in trail
    ensures RFindChar(init + trail, '}') == |init| - 1
  {
    var raw := init + trail;
    var end := RFindChar(raw, '}');
    assert raw[|init| - 1] == '}';
    forall k | |init| <= k < |raw| ensures raw[k] != '}' {
      assert raw[k] == trail[k - |init|];
    }
    forall k | end < k < |raw| ensures raw[k] != '}' {
      assert raw[end + 1..][k - end - 1] == raw[k];
    }
  }

  /** The first '{' and the last '}' of a text that has prose around one
   *  object enclose exactly that object. */
  lemma SliceSurrounded(lead: string, body: string, trail: string)
    requires |lead| > 0 && '{' !in lead && ObjectText(body) && '}' !in trail
    ensures SliceObject(lead + body + trail) == body
  {
    var raw := lead + body + trail;
    assert raw[0] == lead[0] && !StartsWith(raw, "{");
    assert raw == lead + (body + trail) && raw == (lead + body) + trail;
    FirstOpenAt(lead, body + trail);
    LastCloseAt(lead + body, trail);
    assert raw[|lead|..|lead| + |body|] == body;
  }

  /** Prose around an object is cut away by the architecture and code
   *  variants; the plan variant, which has no slice, passes it on whole. */
  lemma SurroundedReplySliced(lead: string, body: string, trail: string)
    requires |lead| > 0 && !IsSpace(lead[0]) && lead[0] != '`' && '{' !in lead && ObjectText(body)
    requires |trail| > 0 && !IsSpace(trail[|trail| - 1]) && trail[|trail| - 1] != '`' && '}' !in trail
    ensures CleanArchitectureReply(lead + body + trail) == body && CleanCodeReply(lead + body + trail) == body
    ensures CleanPlanReply(lead + body + trail) == lead + body + trail
  {
    var raw := lead + body + trail;
    assert raw[0] == lead[0] && raw[|raw| - 1] == trail[|trail| - 1];
    StripTight(raw);
    UnfenceBare(raw, false);
    UnfenceBare(raw, true);
    SliceSurrounded(lead, body, trail);
  }

  // ---------------------------------------------------------------------
  // The architecture tool's fallback

  const SimpleIndicators: seq<string> :=
    ["calculator", "hello world", "basic", "simple", "static", "landing page", "portfolio"]
  const ComplexIndicators: seq<string> :=
    ["real-time", "database", "user authentication", "api", "microservice", "scalable"]

  datatype Complexity = SimpleProject | MediumProject | ComplexProject
  {
    function Name(): string
    {
      match this
      case SimpleProject => "simple"
      case MediumProject => "medium"
      case ComplexProject => "complex"
    }
  }

  /** The lower-cased text the indicators are looked up in. */
  function ProjectContext(userStories: string, requirements: string): string
  {
    ToLower(userStories + " " + requirements)
  }

  /** The local complexity estimate: complex indicators win, a simple one
   *  alone makes the project simple, and otherwise it is medium. */
  function FallbackComplexity(context: string): Complexity
  {
    var isSimple := ContainsAny(context, SimpleIndicators);
    var isComplex := ContainsAny(context, ComplexIndicators);
    if isSimple && !isComplex then SimpleProject else if isComplex then ComplexProject else MediumProject
  }

  /** The frontend of each fallback stack. */
  function FallbackFrontend(c: Complexity): string
  {
    match c
    case SimpleProject => "HTML/CSS/JavaScript"
    case MediumProject => "Vue.js"
    case ComplexProject => "React.js"
  }

  /** One entry of the fallback `components` list. */
  function Component(name: string, responsibility: string, technology: string): Value
  {
    VObj(map["name" := VStr(name), "responsibility" := VStr(responsibility), "technology" := VStr(technology)])
  }

  /** The fallback stack: frontend, backend, database and deployment. */
  function FallbackStack(c: Complexity): (stack: Metadata)
    ensures stack.Keys == {"frontend", "backend", "database", "deployment"}
    ensures stack["frontend"] == VStr(FallbackFrontend(c))
  {
    match c
    case SimpleProject =>
      map["frontend" := VStr("HTML/CSS/JavaScript"), "backend" := VStr("Static files (no backend needed)"),
          "database" := VStr("None required"), "deployment" := VStr("Static hosting (GitHub Pages, Netlify, etc.)")]
    case MediumProject =>
      map["frontend" := VStr("Vue.js"), "backend" := VStr("Node.js"),
          "database" := VStr("MongoDB"), "deployment" := VStr("Cloud hosting platform")]
    case ComplexProject =>
      map["frontend" := VStr("React.js"), "backend" := VStr("Node.js with Express"),
          "database" := VStr("PostgreSQL"), "deployment" := VStr("Docker containers on cloud platform")]
  }

  /** The fallback components: the user interface alone for a simple
   *  project, a frontend and a backend service for a medium one, and a
   *  frontend, a backend API and a database for a complex one. */
  function FallbackComponents(c: Complexity): (cs: seq<Value>)
    ensures |cs| == match c case SimpleProject => 1 case MediumProject => 2 case ComplexProject => 3
    ensures forall i :: 0 <= i < |cs| ==> cs[i].VObj? && cs[i].fields.Keys == {"name", "responsibility", "technology"}
    ensures cs[0].fields["technology"] == VStr(FallbackFrontend(c))
  {
    match c
    case SimpleProject =>
      [Component("User Interface", "Handle user interactions and display results", "HTML/CSS/JavaScript")]
    case MediumProject =>
      [Component("Frontend Application", "Interactive user interface", "Vue.js"),
       Component("Backend Service", "API and business logic", "Node.js")]
    case ComplexProject =>
      [Component("Frontend Application", "User interface and client-side logic", "React.js"),
       Component("Backend API", "Business logic and data processing", "Node.js"),
       Component("Database", "Data storage and retrieval", "PostgreSQL")]
  }

  const SimpleReasoning: string := "Simple project requiring minimal overhead and fast development"
  const MediumReasoning: string := "Medium complexity project requiring balance of features and simplicity"
  const ComplexReasoning: string := "Complex project requiring scalable architecture and modern tooling"
  const SimpleOverview: string := "A simple web application using vanilla HTML, CSS, and JavaScript"
  const MediumOverview: string := "Interactive web application with modern frontend framework"
  const ComplexOverview: string := "Modern full-stack web application with robust architecture"
  const SimpleDeployment: string := "Deploy as static files to web hosting service"
  const MediumDeployment: string := "Cloud platform deployment with managed database"
  const ComplexDeployment: string := "Containerized deployment with CI/CD pipeline"

  function FallbackReasoning(c: Complexity): string
  {
    match c
    case SimpleProject => SimpleReasoning
    case MediumProject => MediumReasoning
    case ComplexProject => ComplexReasoning
  }

  function FallbackOverview(c: Complexity): string
  {
    match c
    case SimpleProject => SimpleOverview
    case MediumProject => MediumOverview
    case ComplexProject => ComplexOverview
  }

  function FallbackDeployment(c: Complexity): string
  {
    match c
    case SimpleProject => SimpleDeployment
    case MediumProject => MediumDeployment
    case ComplexProject => ComplexDeployment
  }

  /** The local design of each complexity (`FallbackDesignShape` states
   *  what it holds). */
  function FallbackDesign(c: Complexity): Metadata
  {
    map["complexity_analysis" := VStr(c.Name()),
        "optimal_choice" := VObj(map["selected_option" := VInt(1), "reasoning" := VStr(FallbackReasoning(c))]),
        "overview" := VStr(FallbackOverview(c)),
        "technology_stack" := VObj(FallbackStack(c)),
        "components" := VList(FallbackComponents(c)),
        "deployment_strategy" := VStr(FallbackDeployment(c))]
  }

  /** The local design names the complexity, picks option 1, and carries
   *  the complexity's stack and components, so its frontend is the
   *  technology of its first component. */
  predicate FallbackShaped(c: Complexity, d: Metadata)
  {
    d.Keys == {"complexity_analysis", "optimal_choice", "overview", "technology_stack",
               "components", "deployment_strategy"} &&
    d["complexity_analysis"] == VStr(c.Name()) &&
    d["optimal_choice"].VObj? && "selected_option" in d["optimal_choice"].fields &&
    d["optimal_choice"].fields["selected_option"] == VInt(1) &&
    d["technology_stack"] == VObj(FallbackStack(c)) &&
    d["components"] == VList(FallbackComponents(c))
  }

  lemma FallbackDesignShape(c: Complexity)
    ensures FallbackShaped(c, FallbackDesign(c))
  {
    match c
    case SimpleProject => SimpleShape();
    case MediumProject => MediumShape();
    case ComplexProject => ComplexShape();
  }

  lemma SimpleShape()
    ensures FallbackShaped(SimpleProject, FallbackDesign(SimpleProject))
  {
  }

  lemma MediumShape()
    ensures FallbackShaped(MediumProject, FallbackDesign(MediumProject))
  {
  }

  lemma ComplexShape()
    ensures FallbackShaped(ComplexProject, FallbackDesign(ComplexProject))
  {
  }

  /** `technology_used`: a truthy frontend, or else the technology the
   *  complexity names; a non-dict stack makes `.get` raise. */
  function TechnologyUsed(design: Metadata): (r: Result<Value>)
    ensures r.Err? <==> !Get(design, "technology_stack", VObj(map[])).VObj?
  {
    var stack := Get(design, "technology_stack", VObj(map[]));
    if !stack.VObj? then Err("object has no attribute 'get'")
    else
      var frontend := Get(stack.fields, "frontend", VStr(""));
      if frontend.Truthy() then Ok(frontend)
      else
        var complexity := Get(design, "complexity_analysis", VStr("medium"));
        if complexity == VStr("simple") then Ok(VStr("HTML/CSS/JavaScript"))
        else if complexity == VStr("complex") then Ok(VStr("React.js"))
        else Ok(VStr("Vue.js"))
  }

  /** The fields the tool writes over whatever the design holds. */
  const DesignMetadataKeys: set<string> := {"project_id", "created_at", "created_by", "technology_used"}

  /** A parsed reply is used only when it has both required fields. */
  predicate UsableDesign(reply: Agent.Reply<Metadata>)
  {
    reply.Parsed? && "technology_stack" in reply.data && "complexity_analysis" in reply.data
  }

  /** `design_system_architecture` after the LLM step: a reply that raised,
   *  did not parse, or lacks `technology_stack` or `complexity_analysis`
   *  gives the local fallback; the ids are added and the technology
   *  derived, and a failure there turns the result into an error record. */
  function DesignArchitecture(reply: Agent.Reply<Metadata>, userStories: string, requirements: string,
                              projectId: string, now: string): (r: Metadata)
    ensures Get(r, "project_id", VNone) == VStr(projectId) && Get(r, "created_at", VNone) == VStr(now)
  {
    var design :=
      if UsableDesign(reply) then reply.data
      else FallbackDesign(FallbackComplexity(ProjectContext(userStories, requirements)));
    var tech := TechnologyUsed(design);
    if tech.Err? then
      map["error" := VStr("Failed to design architecture: " + tech.error), "project_id" := VStr(projectId),
          "created_at" := VStr(now)]
    else
      design["project_id" := VStr(projectId)]["created_at" := VStr(now)]
        ["created_by" := VStr("architect_agent")]["technology_used" := tech.value]
  }

  /** Without a usable reply the design is the local one: its complexity is
   *  the local estimate, it carries that estimate's stack and components,
   *  and the technology used is that estimate's frontend, so the two ways
   *  of naming the technology agree. */
  lemma DesignFallsBack(reply: Agent.Reply<Metadata>, userStories: string, requirements: string,
                        projectId: string, now: string)
    requires !UsableDesign(reply)
    ensures var r := DesignArchitecture(reply, userStories, requirements, projectId, now);
      var c := FallbackComplexity(ProjectContext(userStories, requirements));
      Get(r, "complexity_analysis", VNone) == VStr(c.Name()) &&
      Get(r, "technology_used", VNone) == VStr(FallbackFrontend(c)) &&
      Get(r, "created_by", VNone) == VStr("architect_agent") && "error" !in r &&
      Get(r, "components", VNone) == VList(FallbackComponents(c)) &&
      Get(r, "technology_stack", VNone) == VObj(FallbackStack(c))
  {
    var c := FallbackComplexity(ProjectContext(userStories, requirements));
    FallbackDesignShape(c);
    StampedFallback(FallbackDesign(c), VStr(c.Name()), FallbackStack(c), FallbackComponents(c), projectId, now);
  }

  /** Stamping a design with a non-empty frontend keeps its fields and
   *  uses the frontend as the technology. */
  lemma StampedFallback(d: Metadata, complexity: Value, stack: Metadata, components: seq<Value>,
                        projectId: string, now: string)
    requires d.Keys == {"complexity_analysis", "optimal_choice", "overview", "technology_stack",
                        "components", "deployment_strategy"}
    requires d["complexity_analysis"] == complexity && d["components"] == VList(components)
    requires d["technology_stack"] == VObj(stack) && "frontend" in stack && stack["frontend"].Truthy()
    ensures TechnologyUsed(d) == Ok(stack["frontend"])
    ensures var r := d["project_id" := VStr(projectId)]["created_at" := VStr(now)]
                      ["created_by" := VStr("architect_agent")]["technology_used" := stack["frontend"]];
      Get(r, "complexity_analysis", VNone) == complexity &&
      Get(r, "technology_used", VNone) == stack["frontend"] &&
      Get(r, "created_by", VNone) == VStr("architect_agent") && "error" !in r &&
      Get(r, "components", VNone) == VList(components) &&
      Get(r, "technology_stack", VNone) == VObj(stack)
  {
  }

  /** A usable reply is kept field for field, apart from the four fields
   *  the tool writes; a reply whose `technology_stack` is not an object
   *  yields only the error record. */
  lemma DesignKeepsReply(reply: Agent.Reply<Metadata>, userStories: string, requirements: string,
                         projectId: string, now: string)
    requires UsableDesign(reply)
    ensures var r := DesignArchitecture(reply, userStories, requirements, projectId, now);
      if reply.data["technology_stack"].VObj? then
        (forall k :: k in reply.data && k !in DesignMetadataKeys ==> Get(r, k, VNone) == reply.data[k])
        && Get(r, "technology_used", VNone) == TechnologyUsed(reply.data).value
      else
        r.Keys == {"error", "project_id", "created_at"}
  {
  }

  /** The estimate is case-insensitive: a complex indicator written in any
   *  ASCII case anywhere in the user stories makes the project complex,
   *  whatever else the text says. */
  lemma ComplexIndicatorWins(userStories: string, requirements: string, k: string)
    requires k in ComplexIndicators && Contains(ToLower(userStories), k)
    ensures FallbackComplexity(ProjectContext(userStories, requirements)) == ComplexProject
  {
    var lowered := ToLower(userStories);
    var context := ProjectContext(userStories, requirements);
    var i := ContainsIndex(lowered, k);
    assert context[i..i + |k|] == lowered[i..i + |k|] by {
      forall j | i <= j < i + |k| ensures context[j] == lowered[j] {
        assert (userStories + " " + requirements)[j] == userStories[j];
      }
    }
    ContainsAt(context, k, i);
  }

  /** A simple indicator decides only when no complex one is present. */
  lemma SimpleNeedsNoComplex(context: string)
    ensures FallbackComplexity(context) == SimpleProject <==>
      ContainsAny(context, SimpleIndicators) && !ContainsAny(context, ComplexIndicators)
    ensures FallbackComplexity(context) == ComplexProject <==> ContainsAny(context, ComplexIndicators)
  {
  }

  // ---------------------------------------------------------------------
  // Quality scoring of generated source files

  datatype FileKind = Html | Css | Script | OtherKind

  /** The checks are chosen by the first matching extension. */
  function KindOf(filename: string): FileKind
  {
    if EndsWith(filename, ".html") then Html
    else if EndsWith(filename, ".css") then Css
    else if EndsWith(filename, ".js") then Script
    else OtherKind
  }

  datatype Issue =
    | EmptyFile
    | MissingDoctype | MissingTitle | UnmatchedTags
    | UnmatchedCssBraces | CssTooSimple
    | UnmatchedParentheses | UnmatchedBraces | NoFunctions
  {
    function Text(): string
    {
      match this
      case EmptyFile => "File is empty"
      case MissingDoctype => "Missing DOCTYPE declaration"
      case MissingTitle => "Missing title tag"
      case UnmatchedTags => "Unmatched HTML tags"
      case UnmatchedCssBraces => "Unmatched CSS braces"
      case CssTooSimple => "CSS file seems too simple"
      case UnmatchedParentheses => "Unmatched parentheses"
      case UnmatchedBraces => "Unmatched braces"
      case NoFunctions => "No functions found"
    }

    /** The points the issue costs. */
    function Deduction(): nat
    {
      match this
      case EmptyFile => 50
      case MissingDoctype => 10
      case MissingTitle => 5
      case UnmatchedTags | UnmatchedCssBraces | UnmatchedParentheses | UnmatchedBraces => 15
      case CssTooSimple => 5
      case NoFunctions => 10
    }

    /** The kind of file whose checks can report the issue. */
    predicate AppliesTo(kind: FileKind)
    {
      match this
      case EmptyFile => true
      case MissingDoctype | MissingTitle | UnmatchedTags => kind == Html
      case UnmatchedCssBraces | CssTooSimple => kind == Css
      case UnmatchedParentheses | UnmatchedBraces | NoFunctions => kind == Script
    }
  }

  function When(cond: bool, issue: Issue): seq<Issue>
  {
    if cond then [issue] else []
  }

  /** The checks specific to the file's kind, in the order they run. */
  function KindIssues(kind: FileKind, content: string): (r: seq<Issue>)
    ensures forall i :: 0 <= i < |r| ==> r[i].AppliesTo(kind) && r[i] != EmptyFile
  {
    match kind
    case Html =>
      When(!Contains(content, "<!DOCTYPE html>"), MissingDoctype)
      + When(!Contains(content, "<title>"), MissingTitle)
      + When(CountChar(content, '<') != CountChar(content, '>'), UnmatchedTags)
    case Css =>
      When(CountChar(content, '{') != CountChar(content, '}'), UnmatchedCssBraces)
      + When(|Strip(content)| < 50, CssTooSimple)
    case Script =>
      When(CountChar(content, '(') != CountChar(content, ')'), UnmatchedParentheses)
      + When(CountChar(content, '{') != CountChar(content, '}'), UnmatchedBraces)
      + When(!Contains(content, "function") && !Contains(content, "=>"), NoFunctions)
    case OtherKind => []
  }

  /** Every issue a file shows, the blank-file check first. */
  function FileIssues(filename: string, content: string): (r: seq<Issue>)
    ensures forall i :: 0 <= i < |r| ==> r[i].AppliesTo(KindOf(filename))
    ensures EmptyFile in r <==> Strip(content) == []
  {
    When(Strip(content) == [], EmptyFile) + KindIssues(KindOf(filename), content)
  }

  function TotalDeduction(issues: seq<Issue>): nat
  {
    if |issues| == 0 then 0 else issues[0].Deduction() + TotalDeduction(issues[1..])
  }

  lemma {:induction false} TotalDeductionAppend(a: seq<Issue>, b: seq<Issue>)
    ensures TotalDeduction(a + b) == TotalDeduction(a) + TotalDeduction(b)
  {
    if |a| > 0 {
      assert (a + b)[1..] == a[1..] + b;
      TotalDeductionAppend(a[1..], b);
    } else {
      assert a + b == b;
    }
  }

  lemma {:induction false} TotalDeductionPositive(issues: seq<Issue>)
    ensures TotalDeduction(issues) == 0 <==> |issues| == 0
  {
    if |issues| > 0 {
      assert issues[0].Deduction() > 0;
    }
  }

  datatype FileReport = FileReport(score: int, issues: seq<Issue>, status: string)

  function Status(score: int): string
  {
    if score > 80 then "pass" else if score > 60 then "warning" else "fail"
  }

  /** One file's entry in `test_results`. */
  function CheckFile(filename: string, content: string): (r: FileReport)
    ensures r.issues == FileIssues(filename, content)
    ensures 0 <= r.score <= 100
    ensures r.score == 100 <==> |r.issues| == 0
    ensures r.status == Status(r.score)
  {
    var issues := FileIssues(filename, content);
    TotalDeductionPositive(issues);
    var score := 100 - TotalDeduction(issues);
    var clamped := if score < 0 then 0 else score;
    FileReport(clamped, issues, Status(clamped))
  }

  /** The most a blank file can lose: the blank check and the checks of
   *  its kind that a text without characters still fails. */
  lemma BlankDeduction(filename: string, content: string)
    requires Strip(content) == []
    ensures 50 <= TotalDeduction(FileIssues(filename, content)) <= 65
  {
    BlankIsAllSpace(content);
    forall c | !IsSpace(c) ensures CountChar(content, c) == 0 {
      assert c !in content;
      CountAbsent(content, c);
    }
    assert !IsSpace('<') && !IsSpace('>') && !IsSpace('{') && !IsSpace('}') && !IsSpace('(') && !IsSpace(')');
    var kind := KindIssues(KindOf(filename), content);
    TotalDeductionAppend([EmptyFile], kind);
    assert [EmptyFile][1..] == [];
    KindDeductionBound(KindOf(filename), content);
    match KindOf(filename)
    case Html =>
      TotalDeductionAppend(When(!Contains(content, "<!DOCTYPE html>"), MissingDoctype), When(!Contains(content, "<title>"), MissingTitle));
      assert kind == When(!Contains(content, "<!DOCTYPE html>"), MissingDoctype) + When(!Contains(content, "<title>"), MissingTitle) + [];
    case Css =>
      assert kind == [] + When(|Strip(content)| < 50, CssTooSimple);
    case Script =>
      assert kind == [] + [] + When(!Contains(content, "function") && !Contains(content, "=>"), NoFunctions);
    case OtherKind =>
  }

  /** The most the checks of each kind can deduct from a file. */
  lemma KindDeductionBound(kind: FileKind, content: string)
    ensures TotalDeduction(KindIssues(kind, content)) <= if kind == Script then 40 else 30
  {
    match kind
    case Html =>
      var a := When(!Contains(content, "<!DOCTYPE html>"), MissingDoctype);
      var b := When(!Contains(content, "<title>"), MissingTitle);
      var c := When(CountChar(content, '<') != CountChar(content, '>'), UnmatchedTags);
      TotalDeductionAppend(a, b);
      TotalDeductionAppend(a + b, c);
    case Css =>
      var a := When(CountChar(content, '{') != CountChar(content, '}'), UnmatchedCssBraces);
      var b := When(|Strip(content)| < 50, CssTooSimple);
      TotalDeductionAppend(a, b);
    case Script =>
      var a := When(CountChar(content, '(') != CountChar(content, ')'), UnmatchedParentheses);
      var b := When(CountChar(content, '{') != CountChar(content, '}'), UnmatchedBraces);
      var c := When(!Contains(content, "function") && !Contains(content, "=>"), NoFunctions);
      TotalDeductionAppend(a, b);
      TotalDeductionAppend(a + b, c);
    case OtherKind =>
  }

  /** What a file can score: a blank file scores between 35 and 50 and
   *  always fails, a non-blank one never drops below 60, and only a script
   *  with every script issue reaches that floor; so the clamp at zero
   *  never applies. */
  lemma ScoreBounds(filename: string, content: string)
    ensures var r := CheckFile(filename, content);
      (Strip(content) == [] ==> 35 <= r.score <= 50 && r.status == "fail") &&
      (Strip(content) != [] ==> r.score >= 60) &&
      (Strip(content) != [] && r.score <= 60 ==>
        KindOf(filename) == Script && r.issues == [UnmatchedParentheses, UnmatchedBraces, NoFunctions])
  {
    var kind := KindIssues(KindOf(filename), content);
    if Strip(content) == [] {
      BlankDeduction(filename, content);
    } else {
      assert FileIssues(filename, content) == kind;
      KindDeductionBound(KindOf(filename), content);
      if KindOf(filename) == Script {
        ScriptFloor(content);
      }
    }
  }

  /** A script loses its 40 points only through all three script checks. */
  lemma ScriptFloor(content: string)
    ensures TotalDeduction(KindIssues(Script, content)) == 40 ==>
      KindIssues(Script, content) == [UnmatchedParentheses, UnmatchedBraces, NoFunctions]
  {
    var a := When(CountChar(content, '(') != CountChar(content, ')'), UnmatchedParentheses);
    var b := When(CountChar(content, '{') != CountChar(content, '}'), UnmatchedBraces);
    var c := When(!Contains(content, "function") && !Contains(content, "=>"), NoFunctions);
    TotalDeductionAppend(a, b);
    TotalDeductionAppend(a + b, c);
  }

  /** A well-formed page scores full marks and passes. */
  lemma CompletePagePasses(filename: string, content: string)
    requires KindOf(filename) == Html && Strip(content) != []
    requires Contains(content, "<!DOCTYPE html>") && Contains(content, "<title>")
    requires CountChar(content, '<') == CountChar(content, '>')
    ensures CheckFile(filename, content) == FileReport(100, [], "pass")
  {
  }

  // ---------------------------------------------------------------------
  // The test report over all generated files

  /** The generated files in the order the dict holds them. */
  type SourceFiles = seq<(string, string)>

  predicate DistinctNames(files: SourceFiles)
  {
    forall i, j :: 0 <= i < j < |files| ==> files[i].0 != files[j].0
  }

  function Names(files: SourceFiles): (r: seq<string>)
    ensures |r| == |files| && forall i :: 0 <= i < |files| ==> r[i] == files[i].0
  {
    seq(|files|, i requires 0 <= i < |files| => files[i].0)
  }

  /** The `issues_found` lines one file contributes. */
  function FileLines(name: string, issues: seq<Issue>): (r: seq<string>)
    ensures |r| == |issues| && forall k :: 0 <= k < |issues| ==> r[k] == name + ": " + issues[k].Text()
  {
    seq(|issues|, k requires 0 <= k < |issues| => name + ": " + issues[k].Text())
  }

  /** Reference definition of `issues_found`: each file's lines, file by file. */
  function IssueLines(files: SourceFiles): seq<string>
  {
    if |files| == 0 then []
    else
      var last := files[|files| - 1];
      IssueLines(files[..|files| - 1]) + FileLines(last.0, CheckFile(last.0, last.1).issues)
  }

  /** The sum of the files' scores. */
  function SumScores(files: SourceFiles): int
  {
    if |files| == 0 then 0
    else
      var last := files[|files| - 1];
      SumScores(files[..|files| - 1]) + CheckFile(last.0, last.1).score
  }

  /** `round(total / count, 1)` counted in tenths, ties rounded up. */
  function RoundTenths(total: int, count: int): int
    requires count > 0
  {
    (20 * total + count) / (2 * count)
  }

  /** The recommendations for a quality score in tenths. */
  function Recommend(quality: int, issueCount: nat): seq<string>
  {
    (if quality < 700 then ["Code quality needs improvement"] else [])
    + (if issueCount > 3 then ["Multiple issues found - consider review"] else [])
    + (if quality > 850 then ["Good code quality - ready for deployment"] else [])
  }

  datatype TestReport = TestReport(filesTested: seq<string>, results: map<string, FileReport>,
                                   issuesFound: seq<string>, quality: int, recommendations: seq<string>)

  /** `_test_source_files`: checks every file in order, collects the issue
   *  lines, averages the scores and derives the recommendations. */
  method TestSourceFiles(files: SourceFiles) returns (report: TestReport)
    requires DistinctNames(files)
    ensures report.filesTested == Names(files)
    ensures forall k :: k in report.results <==> k in Names(files)
    ensures forall i :: 0 <= i < |files| ==>
      files[i].0 in report.results && report.results[files[i].0] == CheckFile(files[i].0, files[i].1)
    ensures report.issuesFound == IssueLines(files)
    ensures |files| == 0 ==> report.quality == 0 && report.recommendations == []
    ensures |files| > 0 ==>
      report.quality == RoundTenths(SumScores(files), |files|) &&
      report.recommendations == Recommend(report.quality, |report.issuesFound|)
  {
    var results: map<string, FileReport> := map[];
    var lines: seq<string> := [];
    var total := 0;
    var n := 0;
    while n < |files|
      invariant 0 <= n <= |files|
      invariant results == Keyed(Names(files[..n]), Reports(files[..n]))
      invariant lines == IssueLines(files[..n])
      invariant total == SumScores(files[..n])
    {
      var name := files[n].0;
      var checked := CheckFile(name, files[n].1);
      results := results[name := checked];
      lines := lines + FileLines(name, checked.issues);
      total := total + checked.score;
      PrefixStep(files, n);
      KeyedStep(Names(files[..n]), Reports(files[..n]), name, checked);
      n := n + 1;
    }
    assert files[..n] == files;
    KeyedLookup(Names(files), Reports(files));
    if n > 0 {
      var quality := RoundTenths(total, n);
      report := TestReport(Names(files), results, lines, quality, Recommend(quality, |lines|));
    } else {
      report := TestReport(Names(files), results, lines, 0, []);
    }
  }

  /** Every file's report, in order. */
  function Reports(files: SourceFiles): (r: seq<FileReport>)
    ensures |r| == |files| && forall i :: 0 <= i < |files| ==> r[i] == CheckFile(files[i].0, files[i].1)
  {
    seq(|files|, i requires 0 <= i < |files| => CheckFile(files[i].0, files[i].1))
  }

  /** Reference definition of a dict filled in order: each value under its
   *  key, a later key replacing an earlier equal one. */
  function Keyed<V>(keys: seq<string>, vals: seq<V>): map<string, V>
    requires |keys| == |vals|
  {
    if |keys| == 0 then map[]
    else Keyed(keys[..|keys| - 1], vals[..|vals| - 1])[keys[|keys| - 1] := vals[|vals| - 1]]
  }

  lemma KeyedStep<V>(keys: seq<string>, vals: seq<V>, k: string, v: V)
    requires |keys| == |vals|
    ensures Keyed(keys + [k], vals + [v]) == Keyed(keys, vals)[k := v]
  {
    assert (keys + [k])[..|keys|] == keys && (vals + [v])[..|vals|] == vals;
  }

  /** With distinct keys, each value sits under its own key and nothing
   *  else is in the dict. */
  lemma {:induction false} KeyedLookup<V>(keys: seq<string>, vals: seq<V>)
    requires |keys| == |vals|
    requires forall i, j :: 0 <= i < j < |keys| ==> keys[i] != keys[j]
    ensures forall k :: k in Keyed(keys, vals) <==> k in keys
    ensures forall i :: 0 <= i < |keys| ==> keys[i] in Keyed(keys, vals) && Keyed(keys, vals)[keys[i]] == vals[i]
  {
    if |keys| > 0 {
      var n := |keys| - 1;
      DistinctPrefix(keys);
      KeyedLookup(keys[..n], vals[..n]);
      ButLastAndLast(keys);
      ButLastAndLast(vals);
      KeyedDomain(keys[..n], vals[..n], keys[n], vals[n]);
      KeyedValues(keys[..n], vals[..n], keys[n], vals[n]);
    }
  }

  /** The keys of a dict filled in order grow with the list. */
  lemma KeyedDomain<V>(ks: seq<string>, vs: seq<V>, k: string, v: V)
    requires |ks| == |vs|
    requires forall x :: x in Keyed(ks, vs) <==> x in ks
    ensures forall x :: x in Keyed(ks + [k], vs + [v]) <==> x in ks + [k]
  {
    KeyedStep(ks, vs, k, v);
  }

  /** A new last key holds its value, and the earlier values stay under
   *  their keys. */
  lemma KeyedValues<V>(ks: seq<string>, vs: seq<V>, k: string, v: V)
    requires |ks| == |vs|
    requires forall i :: 0 <= i < |ks| ==> ks[i] != k
    requires forall i :: 0 <= i < |ks| ==> ks[i] in Keyed(ks, vs) && Keyed(ks, vs)[ks[i]] == vs[i]
    ensures forall i :: 0 <= i < |ks| + 1 ==>
      (ks + [k])[i] in Keyed(ks + [k], vs + [v]) && Keyed(ks + [k], vs + [v])[(ks + [k])[i]] == (vs + [v])[i]
  {
    KeyedStep(ks, vs, k, v);
  }

  /** A non-empty list is the list before its last element, then that
   *  element. */
  lemma ButLastAndLast<T>(s: seq<T>)
    requires |s| > 0
    ensures s == s[..|s| - 1] + [s[|s| - 1]]
  {
  }

  /** The keys before the last of a list of distinct keys are distinct. */
  lemma DistinctPrefix(keys: seq<string>)
    requires |keys| > 0
    requires forall i, j :: 0 <= i < j < |keys| ==> keys[i] != keys[j]
    ensures var n := |keys| - 1; forall i, j :: 0 <= i < j < n ==> keys[..n][i] != keys[..n][j]
  {
  }

  /** How the reference definitions grow by one file. */
  lemma PrefixStep(files: SourceFiles, n: nat)
    requires n < |files|
    ensures var f := files[n];
      Names(files[..n + 1]) == Names(files[..n]) + [f.0] &&
      Reports(files[..n + 1]) == Reports(files[..n]) + [CheckFile(f.0, f.1)] &&
      IssueLines(files[..n + 1]) == IssueLines(files[..n]) + FileLines(f.0, CheckFile(f.0, f.1).issues) &&
      SumScores(files[..n + 1]) == SumScores(files[..n]) + CheckFile(f.0, f.1).score
  {
    NamesStep(files, n);
    ReportsStep(files, n);
    FoldStep(files, n);
  }

  lemma NamesStep(files: SourceFiles, n: nat)
    requires n < |files|
    ensures Names(files[..n + 1]) == Names(files[..n]) + [files[n].0]
  {
    var a, b := Names(files[..n + 1]), Names(files[..n]) + [files[n].0];
    forall i | 0 <= i < |a| ensures a[i] == b[i] {
      if i < n { assert b[i] == Names(files[..n])[i]; }
    }
  }

  lemma ReportsStep(files: SourceFiles, n: nat)
    requires n < |files|
    ensures Reports(files[..n + 1]) == Reports(files[..n]) + [CheckFile(files[n].0, files[n].1)]
  {
    var a, b := Reports(files[..n + 1]), Reports(files[..n]);
    forall i | 0 <= i < n ensures a[i] == b[i] {
      assert files[..n + 1][i] == files[..n][i];
    }
    Snoc(a, b, CheckFile(files[n].0, files[n].1));
  }

  lemma Snoc<T>(a: seq<T>, b: seq<T>, y: T)
    requires |a| == |b| + 1 && a[|b|] == y
    requires forall i :: 0 <= i < |b| ==> a[i] == b[i]
    ensures a == b + [y]
  {
  }

  lemma FoldStep(files: SourceFiles, n: nat)
    requires n < |files|
    ensures IssueLines(files[..n + 1]) == IssueLines(files[..n]) + FileLines(files[n].0, CheckFile(files[n].0, files[n].1).issues)
    ensures SumScores(files[..n + 1]) == SumScores(files[..n]) + CheckFile(files[n].0, files[n].1).score
  {
    var p := files[..n + 1];
    assert p[..|p| - 1] == files[..n] && p[|p| - 1] == files[n];
  }

  lemma {:induction false} SumScoresBounds(files: SourceFiles)
    ensures 35 * |files| <= SumScores(files) <= 100 * |files|
  {
    if |files| > 0 {
      var last := files[|files| - 1];
      SumScoresBounds(files[..|files| - 1]);
      ScoreBounds(last.0, last.1);
    }
  }

  lemma DivAtLeast(n: int, d: int, a: int)
    requires d > 0 && n >= a * d
    ensures n / d >= a
  {
    var q := n / d;
    assert n == d * q + n % d;
    assert d * (q + 1) == d * q + d;
    if q < a {
      MulMono(d, q + 1, a);
    }
  }

  lemma DivBelow(n: int, d: int, a: int)
    requires d > 0 && n < a * d
    ensures n / d < a
  {
    var q := n / d;
    assert n == d * q + n % d;
    if q >= a {
      MulMono(d, a, q);
    }
  }

  lemma {:induction false} MulMono(d: int, x: int, y: int)
    requires d >= 0 && x <= y
    ensures d * x <= d * y
    decreases y - x
  {
    if x < y {
      MulMono(d, x, y - 1);
      assert d * y == d * (y - 1) + d;
    }
  }

  /** The rounding keeps an average between 35 and 100 between 35.0 and 100.0. */
  lemma TenthsBounds(t: int, c: int)
    requires c > 0 && 35 * c <= t <= 100 * c
    ensures 350 <= RoundTenths(t, c) <= 1000
  {
    assert 20 * t + c >= 350 * (2 * c);
    DivAtLeast(20 * t + c, 2 * c, 350);
    assert 20 * t + c < 1001 * (2 * c);
    DivBelow(20 * t + c, 2 * c, 1001);
  }

  /** Every file scores at least 35, so a non-empty report's quality lies
   *  between 35.0 and 100.0. */
  lemma QualityBounds(files: SourceFiles)
    requires |files| > 0
    ensures 350 <= RoundTenths(SumScores(files), |files|) <= 1000
  {
    SumScoresBounds(files);
    TenthsBounds(SumScores(files), |files|);
  }

  /** A set of files without a single issue is rated 100.0 and gets only
   *  the ready-for-deployment recommendation. */
  lemma CleanFilesReady(files: SourceFiles)
    requires |files| > 0
    requires forall i :: 0 <= i < |files| ==> CheckFile(files[i].0, files[i].1).issues == []
    ensures RoundTenths(SumScores(files), |files|) == 1000
    ensures IssueLines(files) == []
    ensures Recommend(RoundTenths(SumScores(files), |files|), |IssueLines(files)|)
      == ["Good code quality - ready for deployment"]
  {
    CleanSum(files);
    FullMarks(|files|);
  }

  lemma FullMarks(c: int)
    requires c > 0
    ensures RoundTenths(100 * c, c) == 1000
  {
    assert 20 * (100 * c) + c >= 1000 * (2 * c);
    DivAtLeast(20 * (100 * c) + c, 2 * c, 1000);
    DivBelow(20 * (100 * c) + c, 2 * c, 1001);
  }

  lemma {:induction false} CleanSum(files: SourceFiles)
    requires forall i :: 0 <= i < |files| ==> CheckFile(files[i].0, files[i].1).issues == []
    ensures SumScores(files) == 100 * |files| && IssueLines(files) == []
  {
    if |files| > 0 {
      var init := files[..|files| - 1];
      assert forall i :: 0 <= i < |init| ==> init[i] == files[i];
      CleanSum(init);
    }
  }

  /** Each issue of each file shows up in `issues_found` as
   *  "<file name>: <issue>". */
  lemma {:induction false} IssueLineListed(files: SourceFiles, i: nat, k: nat)
    requires i < |files| && k < |CheckFile(files[i].0, files[i].1).issues|
    ensures files[i].0 + ": " + CheckFile(files[i].0, files[i].1).issues[k].Text() in IssueLines(files)
  {
    var last := files[|files| - 1];
    var init := files[..|files| - 1];
    if i == |files| - 1 {
      var tail := FileLines(last.0, CheckFile(last.0, last.1).issues);
      assert tail[k] in IssueLines(init) + tail;
    } else {
      assert init[i] == files[i];
      IssueLineListed(init, i, k);
    }
  }

  /** A blank file is always reported as empty. */
  lemma BlankFileReported(files: SourceFiles, i: nat)
    requires i < |files| && Strip(files[i].1) == []
    ensures files[i].0 + ": " + EmptyFile.Text() in IssueLines(files)
  {
    var issues := FileIssues(files[i].0, files[i].1);
    assert issues == [EmptyFile] + KindIssues(KindOf(files[i].0), files[i].1);
    assert issues[0] == EmptyFile;
    IssueLineListed(files, i, 0);
  }

  // ---------------------------------------------------------------------
  // Where a generated file is saved

  datatype Place = Docs | ProjectRoot | Src

  const RootFiles: seq<string> := ["package.json", "package-lock.json", ".gitignore"]

  /** Documentation goes to `docs/`, the package and git files to the
   *  project root, everything else to `src/`. */
  function PlaceOf(filename: string): Place
  {
    if EndsWith(filename, ".md") then Docs
    else if filename in RootFiles then ProjectRoot
    else Src
  }

  /** The file's path relative to the project directory: under `docs/`
   *  exactly for markdown, the bare name exactly for the three root files,
   *  and under `src/` for everything else. */
  function RelativePath(filename: string): (r: string)
    ensures EndsWith(r, filename)
    ensures StartsWith(r, "docs/") <==> EndsWith(filename, ".md")
    ensures r == filename <==> !EndsWith(filename, ".md") && filename in RootFiles
    ensures !EndsWith(filename, ".md") && filename !in RootFiles ==> r == "src/" + filename
  {
    match PlaceOf(filename)
    case Docs => "docs/" + filename
    case ProjectRoot =>
      assert filename[0] != 'd';
      filename
    case Src =>
      assert ("src/" + filename)[0] == 's';
      "src/" + filename
  }

  /** The name of the file's tracking artifact: '/' and '.' become '_'. */
  function SafeName(filename: string): string
  {
    ReplaceAll(ReplaceAll(filename, "/", "_"), ".", "_")
  }

  /** `SafeName` keeps every character except '/' and '.', which become '_'. */
  lemma SafeNamePointwise(filename: string)
    ensures |SafeName(filename)| == |filename|
    ensures forall i :: 0 <= i < |filename| ==>
      SafeName(filename)[i] == if filename[i] == '/' || filename[i] == '.' then '_' else filename[i]
    ensures '/' !in SafeName(filename) && '.' !in SafeName(filename)
  {
    var once := ReplaceAll(filename, "/", "_");
    ReplaceCharPointwise(filename, '/', '_');
    ReplaceCharPointwise(once, '.', '_');
    assert "/" == ['/'] && "." == ['.'] && "_" == ['_'];
  }

  /** Distinct files can share a tracking artifact: a name with a '.'
   *  and the same name with '_' in its place (say "app.js" and "app_js")
   *  map to one record, so the later save replaces the earlier one. */
  lemma TrackingNamesCollide(stem: string, ext: string)
    ensures stem + "." + ext != stem + "_" + ext
    ensures SafeName(stem + "." + ext) == SafeName(stem + "_" + ext)
  {
    var x, y := stem + "." + ext, stem + "_" + ext;
    assert x[|stem|] != y[|stem|];
    SafeNamePointwise(x);
    SafeNamePointwise(y);
    forall i | 0 <= i < |x| ensures SafeName(x)[i] == SafeName(y)[i] {
      if i < |stem| {
        assert x[i] == stem[i] == y[i];
      } else if i > |stem| {
        assert x[i] == ext[i - |stem| - 1] == y[i];
      }
    }
  }
}

=== FILE: architect_agent.dfy ===
/** The architect agent: it turns an analysed specification into an
 *  architecture design, revises a stored design on request, and
 *  acknowledges feedback.  Designs and their revisions arrive as JSON
 *  objects from the LLM and are validated into `Design` records. */
module ArchitectAgent {
  import opened Wrappers
  import opened Strings
  import opened Models
  import opened Agent

  /** `TechnicalRequirement` (its acceptance criteria are always empty). */
  datatype Requirement = Requirement(
    id: string,
    name: string,
    description: string,
    category: string,
    priority: Priority)

  /** `ArchitectureDesign`; its tech stack is the declared `Dict[str, str]`. */
  datatype Design = Design(
    id: string,
    projectId: string,
    systemOverview: string,
    techStack: map<string, string>,
    patterns: seq<string>,
    diagrams: seq<string>,
    dataModels: Metadata,
    api: Option<Metadata>,
    nfrs: seq<Requirement>)

  /** Stored designs per project, and the counter standing in for uuid4. */
  datatype ArchState = ArchState(designs: map<string, Design>, nextId: nat)

  function Init(): ArchState
  {
    ArchState(map[], 0)
  }

  function FreshId(n: nat): string
  {
    "id-" + NatToString(n)
  }

  // ---------------------------------------------------------------------
  // Language of a framework

  function LanguageRules(): seq<Rule<string>>
  {
    [Rule(["spring", "java"], "Java"),
     Rule(["django", "fastapi", "flask", "python"], "Python"),
     Rule(["express", "node", "nest"], "JavaScript/TypeScript"),
     Rule(["rails", "ruby"], "Ruby"),
     Rule(["laravel", "php"], "PHP"),
     Rule([".net", "core"], "C#"),
     Rule(["go"], "Go")]
  }

  /** `_extract_language_from_framework`: a case-insensitive cascade. */
  function ExtractLanguage(framework: string): string
  {
    Classify(ToLower(framework), LanguageRules(), "Not specified")
  }

  // ---------------------------------------------------------------------
  // Domain technology stacks and the fallback architecture

  /** The lists of `_initialize_domain_tech_stacks` the fallback reads. */
  datatype StackChoices = StackChoices(
    backend: seq<string>,
    frontend: seq<string>,
    database: seq<string>,
    monitoring: Option<seq<string>>)

  function DomainStack(d: ProjectDomain): (c: StackChoices)
    ensures |c.backend| > 0 && |c.frontend| > 0 && |c.database| > 0
  {
    match d
    case Financial =>
      StackChoices(["Java Spring Boot", "Python Django", "Node.js Express"], ["React", "Angular", "Vue.js"],
                   ["PostgreSQL", "MongoDB", "Redis"], Some(["Prometheus", "Grafana", "ELK Stack"]))
    case Manufacturing =>
      StackChoices(["Python Django", "Java Spring Boot", "C# .NET Core"], ["React", "Angular", "Vue.js"],
                   ["PostgreSQL", "TimescaleDB", "InfluxDB"], Some(["Prometheus", "Grafana", "Elasticsearch"]))
    case Healthcare =>
      StackChoices(["Python Django", "Java Spring Boot", "Node.js"], ["React", "Angular", "Vue.js"],
                   ["PostgreSQL", "MongoDB", "Neo4j"], Some(["Prometheus", "Grafana", "ELK Stack"]))
    case Ecommerce =>
      StackChoices(["Node.js Express", "Python Django", "Java Spring Boot"], ["React", "Next.js", "Vue.js"],
                   ["PostgreSQL", "MongoDB", "Redis"], None)
    case Education =>
      StackChoices(["Python Django", "Node.js Express", "Ruby on Rails"], ["React", "Vue.js", "Angular"],
                   ["PostgreSQL", "MongoDB", "SQLite"], None)
    case Logistics =>
      StackChoices(["Java Spring Boot", "Python Django", "Go"], ["React", "Angular", "Vue.js"],
                   ["PostgreSQL", "MongoDB", "Redis"], None)
    case General =>
      StackChoices(["Python FastAPI", "Node.js Express", "Java Spring Boot"], ["React", "Vue.js", "Angular"],
                   ["PostgreSQL", "MongoDB", "SQLite"], Some(["Prometheus", "Grafana", "Loki"]))
  }

  function NfrEntry(category: string, requirement: string, priority: string): Value
  {
    VObj(map["category" := VStr(category), "requirement" := VStr(requirement), "priority" := VStr(priority)])
  }

  /** The monitoring choices the fallback lists as `additional`. */
  function Additional(c: StackChoices): seq<string>
  {
    c.monitoring.GetOr(["Prometheus", "Grafana"])
  }

  /** The tech stack of the fallback as written: the first backend, frontend
   *  and database of the domain, and its monitoring list as `additional`. */
  function FallbackTechStack(c: StackChoices): Value
    requires |c.backend| > 0 && |c.frontend| > 0 && |c.database| > 0
  {
    VObj(map["backend" := VStr(c.backend[0]), "frontend" := VStr(c.frontend[0]),
             "database" := VStr(c.database[0]), "additional" := Texts(Additional(c))])
  }

  /** The fallback stack corrected to fit `Dict[str, str]`: the same
   *  choices, with the monitoring list joined into one string. */
  function CorrectedStack(c: StackChoices): map<string, string>
    requires |c.backend| > 0 && |c.frontend| > 0 && |c.database| > 0
  {
    map["backend" := c.backend[0], "frontend" := c.frontend[0], "database" := c.database[0],
        "additional" := Join(Additional(c), ", ")]
  }

  const FallbackDiagram: string :=
    "@startuml\nUser -> Frontend: Request\nFrontend -> Backend: API Call\nBackend -> Database: Query\n"
    + "Database -> Backend: Data\nBackend -> Frontend: Response\nFrontend -> User: Display\n@enduml"

  function FallbackNfrs(): seq<Value>
  {
    [NfrEntry("Performance", "API response time < 500ms", "medium"), NfrEntry("Security", "HTTPS encryption", "high")]
  }

  /** The fallback object for a domain of the given name and stack. */
  function FallbackFor(name: string, c: StackChoices): Metadata
    requires |c.backend| > 0 && |c.frontend| > 0 && |c.database| > 0
  {
    map["system_overview" := VStr("A " + name + " application built with modern, scalable architecture"),
        "tech_stack" := FallbackTechStack(c),
        "architecture_patterns" := Texts(["layered", "rest_api"]),
        "sequence_diagrams" := Texts([FallbackDiagram]),
        "data_models" := VObj(map["entities" := VList([VObj(map["name" := VStr("User"), "attributes" := Texts(["id", "name", "email"])])]),
                                  "database_schema" := VStr("CREATE TABLE users (id SERIAL PRIMARY KEY, name VARCHAR(100), email VARCHAR(100));")]),
        "api_specifications" := VObj(map["endpoints" := VList([VObj(map["method" := VStr("GET"), "path" := VStr("/api/users"), "description" := VStr("Get all users")])]),
                                         "authentication" := VStr("JWT tokens")]),
        "nfr_specifications" := VList(FallbackNfrs()),
        "deployment_strategy" := VObj(map["containerization" := VStr("Docker"), "orchestration" := VStr("Docker Compose"),
                                          "ci_cd" := VStr("GitHub Actions")])]
  }

  /** `_create_fallback_architecture`, as written. */
  function FallbackArchitecture(d: ProjectDomain): Metadata
  {
    FallbackFor(d.Name(), DomainStack(d))
  }

  /** The fallback object with the corrected tech stack. */
  function CorrectedFallbackFor(name: string, c: StackChoices): Metadata
    requires |c.backend| > 0 && |c.frontend| > 0 && |c.database| > 0
  {
    FallbackFor(name, c)["tech_stack" := StackValue(CorrectedStack(c))]
  }

  /** `_create_fallback_architecture` with the corrected tech stack. */
  function CorrectedFallbackArchitecture(d: ProjectDomain): Metadata
  {
    CorrectedFallbackFor(d.Name(), DomainStack(d))
  }

  // ---------------------------------------------------------------------
  // Validating a design object

  /** A string map as a JSON object. */
  function StackValue(stack: map<string, string>): (v: Value)
    ensures v.VObj? && v.fields.Keys == stack.Keys
    ensures forall k :: k in stack ==> v.fields[k] == VStr(stack[k])
  {
    VObj(map k | k in stack :: VStr(stack[k]))
  }

  /** `tech_stack: Dict[str, str]` as declared on `ArchitectureDesign`: an
   *  object whose every value is a string. */
  predicate StrictTechStack(v: Value)
  {
    v.VObj? && forall k :: k in v.fields ==> v.fields[k].VStr?
  }

  /** The tech stack as the declared field validates it; pydantic does not
   *  turn other values into strings. */
  function ReadStack(v: Value): (r: Option<map<string, string>>)
    ensures r.Some? <==> StrictTechStack(v)
    ensures r.Some? ==> StackValue(r.value) == v
  {
    if StrictTechStack(v) then
      var stack := map k | k in v.fields :: v.fields[k].s;
      assert StackValue(stack).fields == v.fields;
      Some(stack)
    else None
  }

  /** A stored stack is read back unchanged from its JSON form. */
  lemma StackRoundTrip(stack: map<string, string>)
    ensures ReadStack(StackValue(stack)) == Some(stack)
  {
    var r := ReadStack(StackValue(stack));
    assert r.Some?;
    assert StackValue(r.value) == StackValue(stack);
    assert r.value.Keys == stack.Keys;
    forall k | k in stack ensures r.value[k] == stack[k] {
      assert StackValue(r.value).fields[k] == StackValue(stack).fields[k];
    }
    assert r.value == stack;
  }

  /** `for nfr in data.get("nfr_specifications", [])`: a list gives its
   *  entries; an empty string or dict gives none; the characters or keys of
   *  any other string or dict are strings, whose `.get` raises; other values
   *  are not iterable. */
  function NfrEntries(v: Value): (r: Result<seq<Value>>)
    ensures r.Ok? <==> v.VList? || v == VStr("") || v == VObj(map[])
    ensures v.VList? ==> r == Ok(v.items)
    ensures r.Ok? && !v.VList? ==> r.value == []
  {
    if v.VList? then Ok(v.items)
    else if v == VStr("") || v == VObj(map[]) then Ok([])
    else if v.Iterable() then Err("'str' object has no attribute 'get'")
    else Err("object is not iterable")
  }

  /** One NFR entry: the `.get` defaults, then `Priority(p.lower())`, then
   *  the string fields of `TechnicalRequirement`. */
  function ReadRequirement(v: Value, id: string): (r: Result<Requirement>)
    ensures r.Ok? ==> v.VObj? && r.value.id == id
    ensures r.Ok? ==>
      Get(v.fields, "category", VStr("General")) == VStr(r.value.name) &&
      Get(v.fields, "category", VStr("NFR")) == VStr(r.value.category) &&
      Get(v.fields, "requirement", VStr("")) == VStr(r.value.description) &&
      Get(v.fields, "priority", VStr("medium")).VStr? &&
      r.value.priority.Name() == ToLower(Get(v.fields, "priority", VStr("medium")).s)
  {
    if !v.VObj? then Err("object has no attribute 'get'")
    else
      var name := Get(v.fields, "category", VStr("General"));
      var description := Get(v.fields, "requirement", VStr(""));
      var category := Get(v.fields, "category", VStr("NFR"));
      var p := Get(v.fields, "priority", VStr("medium"));
      if !p.VStr? then Err("object has no attribute 'lower'")
      else
        match ParsePriority(ToLower(p.s))
        case None => Err("'" + ToLower(p.s) + "' is not a valid Priority")
        case Some(priority) =>
          if name.VStr? && description.VStr? && category.VStr? then
            Ok(Requirement(id, name.s, description.s, category.s, priority))
          else Err("validation error for TechnicalRequirement")
  }

  /** The NFR loop: one requirement per entry, in order, each with a fresh
   *  id; the first bad entry raises. */
  function ReadRequirements(vs: seq<Value>, next: nat): (r: Result<seq<Requirement>>)
    ensures r.Ok? ==> |r.value| == |vs|
    decreases |vs|
  {
    if |vs| == 0 then Ok([])
    else
      var head := ReadRequirement(vs[0], FreshId(next));
      var tail := ReadRequirements(vs[1..], next + 1);
      if head.Err? then Err(head.error)
      else if tail.Err? then Err(tail.error)
      else Ok([head.value] + tail.value)
  }

  /** `m` has every key of a design object other than its NFR list. */
  predicate HasDesignKeys(m: Metadata)
  {
    "system_overview" in m && "tech_stack" in m && "architecture_patterns" in m &&
    "sequence_diagrams" in m && "data_models" in m && "api_specifications" in m
  }

  /** A stored design as the JSON fields it is validated from. */
  function DesignFields(d: Design): Metadata
  {
    map["system_overview" := VStr(d.systemOverview), "tech_stack" := StackValue(d.techStack),
        "architecture_patterns" := Texts(d.patterns), "sequence_diagrams" := Texts(d.diagrams),
        "data_models" := VObj(d.dataModels),
        "api_specifications" := if d.api.Some? then VObj(d.api.value) else VNone]
  }

  /** The defaults `_design_architecture` gives missing keys. */
  function EmptyDesignFields(): Metadata
  {
    map["system_overview" := VStr(""), "tech_stack" := VObj(map[]), "architecture_patterns" := VList([]),
        "sequence_diagrams" := VList([]), "data_models" := VObj(map[]), "api_specifications" := VObj(map[])]
  }

  /** The `Optional[Dict]` API field: an object, or null. */
  function ReadApi(v: Value): Result<Option<Metadata>>
  {
    if v.VObj? then Ok(Some(v.fields)) else if v.VNone? then Ok(None)
    else Err("validation error for ArchitectureDesign")
  }

  /** `ArchitectureDesign(...)` from `data`: every key missing from `data`
   *  takes its value from `defaults`, and the NFRs come from `data` alone.
   *  The NFR loop runs first, so its errors win. */
  function Assemble(data: Metadata, defaults: Metadata, projectId: string, next: nat): (r: Result<Design>)
    requires HasDesignKeys(defaults)
    ensures r.Ok? ==> r.value.projectId == projectId
    ensures r.Ok? ==> ReadStack(Get(data, "tech_stack", defaults["tech_stack"])) == Some(r.value.techStack)
    ensures r.Ok? ==> NfrEntries(Get(data, "nfr_specifications", VList([]))).Ok?
  {
    match NfrEntries(Get(data, "nfr_specifications", VList([])))
    case Err(e) => Err(e)
    case Ok(entries) =>
      match ReadRequirements(entries, next)
      case Err(e) => Err(e)
      case Ok(nfrs) =>
        var overview := Get(data, "system_overview", defaults["system_overview"]);
        var stack := ReadStack(Get(data, "tech_stack", defaults["tech_stack"]));
        var patterns := AsTexts(Get(data, "architecture_patterns", defaults["architecture_patterns"]));
        var diagrams := AsTexts(Get(data, "sequence_diagrams", defaults["sequence_diagrams"]));
        var models := Get(data, "data_models", defaults["data_models"]);
        var api := ReadApi(Get(data, "api_specifications", defaults["api_specifications"]));
        if overview.VStr? && stack.Some? && patterns.Some? && diagrams.Some? && models.VObj? && api.Ok? then
          Ok(Design(FreshId(next + |nfrs|), projectId, overview.s, stack.value, patterns.value,
                    diagrams.value, models.fields, api.value, nfrs))
        else Err("validation error for ArchitectureDesign")
  }

  /** The design built by `_design_architecture`: a tech stack with any
   *  value that is not a string fails validation. */
  function DesignFrom(data: Metadata, projectId: string, next: nat): (r: Result<Design>)
    ensures r.Ok? ==> ReadStack(Get(data, "tech_stack", VObj(map[]))) == Some(r.value.techStack)
  {
    Assemble(data, EmptyDesignFields(), projectId, next)
  }

  /** `_update_architecture_design`: the original's fields fill every key the
   *  revision lacks; the project is kept and the id is fresh. */
  function UpdateDesign(original: Design, revised: Metadata, next: nat): Result<Design>
  {
    Assemble(revised, DesignFields(original), original.projectId, next)
  }


  // ---------------------------------------------------------------------
  // Revision

  function RevisionNfrs(): seq<Value>
  {
    [NfrEntry("Performance", "Enhanced performance monitoring", "high"),
     NfrEntry("Security", "Additional security measures", "high")]
  }

  /** One-character strings, as iterating a string yields them. */
  function Chars(s: string): (r: seq<string>)
    ensures |r| == |s| && forall i :: 0 <= i < |s| ==> r[i] == [s[i]]
  {
    seq(|s|, i requires 0 <= i < |s| => [s[i]])
  }

  /** `concerns[:3]` as `'; '.join` reads it: the first three items of a
   *  list, which must be strings, or the first three characters of a
   *  string; a dict cannot be sliced. */
  function CitedConcerns(v: Value): (r: Result<seq<string>>)
    ensures r.Ok? ==> |r.value| <= 3
    ensures v.VList? ==> (r.Ok? <==> forall i :: 0 <= i < |v.items| && i < 3 ==> v.items[i].VStr?)
    ensures v.VList? && r.Ok? ==>
      |r.value| == (if |v.items| <= 3 then |v.items| else 3) &&
      forall i :: 0 <= i < |r.value| ==> v.items[i] == VStr(r.value[i])
    ensures v.VStr? ==> r == Ok(Chars(if |v.s| <= 3 then v.s else v.s[..3]))
    ensures v.VObj? ==> r.Err?
  {
    match v
    case VList(items) =>
      var head := if |items| <= 3 then items else items[..3];
      (match AsTexts(VList(head))
       case Some(xs) => Ok(xs)
       case None => Err("sequence item: expected str instance"))
    case VStr(text) => Ok(Chars(if |text| <= 3 then text else text[..3]))
    case VAgent(a) => Ok(Chars(if |a.Name()| <= 3 then a.Name() else a.Name()[..3]))
    case VObj(_) => Err("unhashable type: 'slice'")
    case _ => Err("object is not subscriptable")
  }

  /** `_create_incremental_revision`: the original design with the first
   *  three concerns cited in its overview and two high-priority NFRs;
   *  concerns that cannot be cited raise. */
  function IncrementalRevision(original: Design, concerns: Value): (r: Result<Metadata>)
    ensures r.Ok? <==> CitedConcerns(concerns).Ok?
  {
    match CitedConcerns(concerns)
    case Err(e) => Err(e)
    case Ok(cited) =>
      Ok(DesignFields(original)[
        "system_overview" := VStr(original.systemOverview + "\n\nRevised to address concerns: " + Join(cited, "; "))][
        "nfr_specifications" := VList(RevisionNfrs())][
        "deployment_strategy" := VObj(map["containerization" := VStr("Docker"), "orchestration" := VStr("Kubernetes"),
                                          "ci_cd" := VStr("GitHub Actions")])])
  }

  function ArtifactTo(projectId: string, metadata: Metadata): (o: Outgoing)
    ensures o.toAgent == BA && o.kind == Artifact && o.projectId == projectId && o.metadata == Some(metadata)
  {
    Outgoing(BA, Artifact, "# System Architecture Design", projectId, Some(metadata), Medium)
  }

  /** The ARTIFACT metadata for a design or a revision of one. */
  function ArtifactMetadata(data: Metadata, design: Design, revision: bool): Metadata
  {
    if revision then
      map["artifact_type" := VStr("architecture_design_revision"), "artifact_data" := VObj(data),
          "architecture_id" := VStr(design.id), "revision_number" := VInt(2)]
    else
      map["artifact_type" := VStr("architecture_design"), "artifact_data" := VObj(data),
          "architecture_id" := VStr(design.id)]
  }

  /** Stores a validated design for its project and sends it to BA; a
   *  validation error stores and sends nothing. */
  function StoreAndSend(s: ArchState, projectId: string, data: Metadata, built: Result<Design>,
                        revision: bool): (r: Run<ArchState>)
    ensures built.Err? ==> r == Run(s, [], Some(built.error))
    ensures built.Ok? ==>
      r.raised == None && r.state.designs == s.designs[projectId := built.value] &&
      r.state.nextId > s.nextId &&
      r.sends == [ArtifactTo(projectId, ArtifactMetadata(data, built.value, revision))]
  {
    match built
    case Err(e) => Run(s, [], Some(e))
    case Ok(design) =>
      Run(ArchState(s.designs[projectId := design], s.nextId + |design.nfrs| + 1),
          [ArtifactTo(projectId, ArtifactMetadata(data, design, revision))], None)
  }

  /** The domain named by the project specification in a SPECIFICATION's
   *  metadata ("general" when absent); anything else raises. */
  function SpecDomain(metadata: Metadata): (r: Result<ProjectDomain>)
    ensures r.Ok? ==> Get(metadata, "project_spec", VObj(map[])).VObj?
    ensures r.Ok? ==> Get(Get(metadata, "project_spec", VObj(map[])).fields, "domain", VStr("general")) == VStr(r.value.Name())
  {
    var spec := Get(metadata, "project_spec", VObj(map[]));
    if !spec.VObj? then Err("object has no attribute 'get'")
    else
      var name := Get(spec.fields, "domain", VStr("general"));
      if !name.VStr? then Err("value is not a valid ProjectDomain")
      else
        match ParseDomain(name.s)
        case None => Err("'" + name.s + "' is not a valid ProjectDomain")
        case Some(d) => Ok(d)
  }

  /** The design object: the parsed reply, or the corrected fallback for
   *  the domain. */
  function DesignData(domain: ProjectDomain, reply: Reply<Metadata>): Metadata
  {
    if reply.Parsed? then reply.data else CorrectedFallbackArchitecture(domain)
  }

  /** The prompt runs a `for` over the specification's requirements and
   *  constraints (empty lists when absent). */
  predicate SpecListsIterate(metadata: Metadata)
  {
    var spec := Get(metadata, "project_spec", VObj(map[]));
    spec.VObj? && Get(spec.fields, "requirements", VList([])).Iterable() &&
    Get(spec.fields, "constraints", VList([])).Iterable()
  }

  /** Everything `_design_architecture` reads before it calls the model. */
  predicate DesignInputsRead(metadata: Metadata)
  {
    SpecDomain(metadata).Ok? && SpecListsIterate(metadata) && Get(metadata, "analysis_data", VObj(map[])).VObj?
  }

  /** `_design_architecture`: the domain, then the requirements and
   *  constraints the prompt lists, then the analysis it reads; the reply, or
   *  the fallback for the project's domain, becomes the stored design, which
   *  goes to BA for review.  A reply's tech stack must map names to strings. */
  function DesignArchitecture(s: ArchState, m: Message, reply: Reply<Metadata>): (r: Run<ArchState>)
    ensures r.raised.Some? ==> r.state == s && r.sends == []
    ensures SpecDomain(m.metadata).Err? ==> r == Run(s, [], Some(SpecDomain(m.metadata).error))
    ensures SpecDomain(m.metadata).Ok? && !SpecListsIterate(m.metadata) ==> r == Run(s, [], Some("object is not iterable"))
    ensures SpecDomain(m.metadata).Ok? && SpecListsIterate(m.metadata) && !Get(m.metadata, "analysis_data", VObj(map[])).VObj? ==>
      r == Run(s, [], Some("object has no attribute 'get'"))
    ensures reply.LlmRaised? ==> r.raised.Some?
    ensures DesignInputsRead(m.metadata) && !reply.LlmRaised? ==>
      var data := DesignData(SpecDomain(m.metadata).value, reply);
      r == StoreAndSend(s, m.projectId, data, DesignFrom(data, m.projectId, s.nextId), false)
  {
    match SpecDomain(m.metadata)
    case Err(e) => Run(s, [], Some(e))
    case Ok(domain) =>
      if !SpecListsIterate(m.metadata) then Run(s, [], Some("object is not iterable"))
      else if !Get(m.metadata, "analysis_data", VObj(map[])).VObj? then Run(s, [], Some("object has no attribute 'get'"))
      else if reply.LlmRaised? then Run(s, [], Some(reply.error))
      else
        var data := DesignData(domain, reply);
        StoreAndSend(s, m.projectId, data, DesignFrom(data, m.projectId, s.nextId), false)
  }

  /** The revision data: the parsed reply, or the incremental revision when
   *  the reply does not parse, which cites the first three concerns. */
  function RevisionData(original: Design, concerns: Value, reply: Reply<Metadata>): (r: Result<Metadata>)
    ensures reply.LlmRaised? ==> r == Err(reply.error)
    ensures reply.Parsed? ==> r == Ok(reply.data)
    ensures reply.Unparseable? ==> r == IncrementalRevision(original, concerns)
    ensures reply.Unparseable? ==> (r.Ok? <==> CitedConcerns(concerns).Ok?)
  {
    match reply
    case LlmRaised(e) => Err(e)
    case Parsed(d) => Ok(d)
    case Unparseable => IncrementalRevision(original, concerns)
  }

  /** `_handle_revision_request`: a project without a stored design is an
   *  error, and so is a review list the prompt cannot iterate; otherwise the
   *  revision (or the incremental fallback) updates the stored design,
   *  which goes back to BA as revision 2. */
  function HandleRevisionRequest(s: ArchState, m: Message, reply: Reply<Metadata>): (r: Run<ArchState>)
    ensures r.raised.Some? ==> r.state == s && r.sends == []
    ensures !Get(m.metadata, "review_data", VObj(map[])).VObj? ==> r == Run(s, [], Some("object has no attribute 'get'"))
    ensures Get(m.metadata, "review_data", VObj(map[])).VObj? && m.projectId !in s.designs ==>
      r == Run(s, [], Some("No architecture design found for project " + m.projectId))
    ensures var review := Get(m.metadata, "review_data", VObj(map[]));
      review.VObj? && m.projectId in s.designs && !ReviewListsIterate(review.fields) ==>
      r == Run(s, [], Some("object is not iterable"))
    ensures var review := Get(m.metadata, "review_data", VObj(map[]));
      review.VObj? && m.projectId in s.designs && ReviewListsIterate(review.fields) ==>
      var original := s.designs[m.projectId];
      match RevisionData(original, Get(review.fields, "concerns", VList([])), reply)
      case Err(e) => r == Run(s, [], Some(e))
      case Ok(data) => r == StoreAndSend(s, m.projectId, data, UpdateDesign(original, data, s.nextId), true)
  {
    var review := Get(m.metadata, "review_data", VObj(map[]));
    if !review.VObj? then Run(s, [], Some("object has no attribute 'get'"))
    else if m.projectId !in s.designs then Run(s, [], Some("No architecture design found for project " + m.projectId))
    else if !ReviewListsIterate(review.fields) then Run(s, [], Some("object is not iterable"))
    else
      var original := s.designs[m.projectId];
      match RevisionData(original, Get(review.fields, "concerns", VList([])), reply)
      case Err(e) => Run(s, [], Some(e))
      case Ok(data) => StoreAndSend(s, m.projectId, data, UpdateDesign(original, data, s.nextId), true)
  }

  /** `_process_feedback`: an acknowledgement back to the sender. */
  function ProcessFeedback(s: ArchState, m: Message, answer: Result<string>): (r: Run<ArchState>)
    ensures r.state == s
    ensures answer.Err? ==> r == Run(s, [], Some(answer.error))
    ensures answer.Ok? ==> (r.raised == None && |r.sends| == 1 &&
      r.sends[0].toAgent == m.fromAgent && r.sends[0].kind == Response &&
      r.sends[0].content == "Architecture feedback processed: " + answer.value &&
      r.sends[0].metadata == Some(map["feedback_processed" := VBool(true)]))
  {
    match answer
    case Err(e) => Run(s, [], Some(e))
    case Ok(text) =>
      Run(s, [Outgoing(m.fromAgent, Response, "Architecture feedback processed: " + text, m.projectId,
                       Some(map["feedback_processed" := VBool(true)]), Medium)], None)
  }

  /** The LLM replies the agent may ask for while handling one message. */
  datatype ArchOracle = ArchOracle(design: Reply<Metadata>, revision: Reply<Metadata>, feedback: Result<string>)

  /** `process_message`: SPECIFICATION designs, QUERY revises, RESPONSE is
   *  acknowledged; every exception becomes an ERROR reply. */
  function Process(s: ArchState, m: Message, o: ArchOracle): (r: (ArchState, Outcome))
    ensures r.1.raised == None
    ensures m.kind == Specification ==> r == CatchAll(m, DesignArchitecture(s, m, o.design))
    ensures m.kind == Query ==> r == CatchAll(m, HandleRevisionRequest(s, m, o.revision))
    ensures m.kind == Response ==> r == CatchAll(m, ProcessFeedback(s, m, o.feedback))
    ensures m.kind !in {Specification, Query, Response} ==> r == (s, Outcome([], None))
  {
    var run :=
      match m.kind
      case Specification => DesignArchitecture(s, m, o.design)
      case Query => HandleRevisionRequest(s, m, o.revision)
      case Response => ProcessFeedback(s, m, o.feedback)
      case _ => Run(s, [], None);
    CatchAll(m, run)
  }

  // ---------------------------------------------------------------------
  // Properties

  /** The language cascade: language i is reported exactly when one of its
   *  keywords occurs in the lower-cased name and no earlier group's does. */
  lemma ExtractLanguageCascade(framework: string, i: nat)
    requires i < |LanguageRules()|
    ensures ExtractLanguage(framework) == LanguageRules()[i].outcome <==>
      ContainsAny(ToLower(framework), LanguageRules()[i].keywords) &&
      forall j :: 0 <= j < i ==> !ContainsAny(ToLower(framework), LanguageRules()[j].keywords)
  {
    ClassifyPicks(ToLower(framework), LanguageRules(), "Not specified", i);
  }

  /** "Not specified" exactly when no keyword occurs, so in particular for
   *  the empty name. */
  lemma ExtractLanguageFallback(framework: string)
    ensures ExtractLanguage(framework) == "Not specified" <==>
      forall j :: 0 <= j < |LanguageRules()| ==> !ContainsAny(ToLower(framework), LanguageRules()[j].keywords)
    ensures ExtractLanguage("") == "Not specified"
  {
    ClassifyFallsBack(ToLower(framework), LanguageRules(), "Not specified");
    EmptyLanguage();
  }

  /** The empty framework name names no language. */
  lemma EmptyLanguage()
    ensures ExtractLanguage("") == "Not specified"
  {
    var rules := LanguageRules();
    forall j | 0 <= j < |rules| ensures !ContainsAny("", rules[j].keywords) {
      EmptyContainsNothing(rules[j].keywords);
    }
    ClassifyFallsBack("", rules, "Not specified");
  }

  /** When every field of `data` has the right shape, `Assemble` builds the
   *  design from exactly those fields and ignores the defaults. */
  lemma AssembleFromFields(data: Metadata, defaults: Metadata, projectId: string, next: nat, nfrs: seq<Requirement>)
    requires HasDesignKeys(defaults) && HasDesignKeys(data)
    requires "nfr_specifications" in data && data["nfr_specifications"].VList?
    requires ReadRequirements(data["nfr_specifications"].items, next) == Ok(nfrs)
    requires data["system_overview"].VStr? && ReadStack(data["tech_stack"]).Some? && data["data_models"].VObj?
    requires AsTexts(data["architecture_patterns"]).Some? && AsTexts(data["sequence_diagrams"]).Some?
    requires ReadApi(data["api_specifications"]).Ok?
    ensures Assemble(data, defaults, projectId, next) ==
      Ok(Design(FreshId(next + |nfrs|), projectId, data["system_overview"].s, ReadStack(data["tech_stack"]).value,
                AsTexts(data["architecture_patterns"]).value, AsTexts(data["sequence_diagrams"]).value,
                data["data_models"].fields, ReadApi(data["api_specifications"]).value, nfrs))
  {
  }

  /** The shape of the fallback object's fields. */
  lemma FallbackForFields(name: string, c: StackChoices)
    requires |c.backend| > 0 && |c.frontend| > 0 && |c.database| > 0
    ensures var data := FallbackFor(name, c);
      HasDesignKeys(data) &&
      data["nfr_specifications"] == VList(FallbackNfrs()) &&
      data["architecture_patterns"] == Texts(["layered", "rest_api"]) &&
      data["sequence_diagrams"] == Texts([FallbackDiagram]) &&
      data["tech_stack"] == FallbackTechStack(c) &&
      data["api_specifications"].VObj? && data["data_models"].VObj? && data["system_overview"].VStr?
  {
  }

  /** The fallback's NFR entries read as a medium performance and a high
   *  security requirement. */
  lemma FallbackNfrsRead(next: nat)
    ensures var nfrs := ReadRequirements(FallbackNfrs(), next);
      nfrs.Ok? && |nfrs.value| == 2 &&
      nfrs.value[0].name == "Performance" && nfrs.value[0].priority == Medium &&
      nfrs.value[1].name == "Security" && nfrs.value[1].priority == High
  {
    LowerPriority("medium", Medium);
    LowerPriority("high", High);
    NfrEntryRead("Performance", "API response time < 500ms", "medium", FreshId(next));
    NfrEntryRead("Security", "HTTPS encryption", "high", FreshId(next + 1));
    ReadRequirementsPair(NfrEntry("Performance", "API response time < 500ms", "medium"),
                         NfrEntry("Security", "HTTPS encryption", "high"), next);
  }

  /** Two readable entries read as a list of both, with consecutive ids. */
  lemma ReadRequirementsPair(a: Value, b: Value, next: nat)
    requires ReadRequirement(a, FreshId(next)).Ok? && ReadRequirement(b, FreshId(next + 1)).Ok?
    ensures ReadRequirements([a, b], next)
      == Ok([ReadRequirement(a, FreshId(next)).value, ReadRequirement(b, FreshId(next + 1)).value])
  {
    var ra, rb := ReadRequirement(a, FreshId(next)).value, ReadRequirement(b, FreshId(next + 1)).value;
    ReadRequirementsCons(b, [], next + 1);
    assert [b] + [] == [b] && [rb] + [] == [rb];
    ReadRequirementsCons(a, [b], next);
    assert [a] + [b] == [a, b] && [ra] + [rb] == [ra, rb];
  }

  /** Reading an entry in front of a readable list. */
  lemma ReadRequirementsCons(v: Value, vs: seq<Value>, next: nat)
    requires ReadRequirement(v, FreshId(next)).Ok? && ReadRequirements(vs, next + 1).Ok?
    ensures ReadRequirements([v] + vs, next)
      == Ok([ReadRequirement(v, FreshId(next)).value] + ReadRequirements(vs, next + 1).value)
  {
    assert ([v] + vs)[0] == v && ([v] + vs)[1..] == vs;
  }

  /** An NFR entry with a known priority reads as a requirement named and
   *  categorised by its category. */
  lemma NfrEntryRead(category: string, requirement: string, priority: string, id: string)
    requires ParsePriority(ToLower(priority)).Some?
    ensures ReadRequirement(NfrEntry(category, requirement, priority), id)
      == Ok(Requirement(id, category, requirement, category, ParsePriority(ToLower(priority)).value))
  {
  }

  /** A lower-case priority name is its own lower-case form. */
  lemma LowerPriority(text: string, p: Priority)
    requires p.Name() == text && ToLower(text) == text
    ensures ParsePriority(ToLower(text)) == Some(p)
  {
  }

  /** The corrected fallback design validates for any domain name and
   *  stack. */
  lemma FallbackForDesign(name: string, c: StackChoices, projectId: string, next: nat)
    requires |c.backend| > 0 && |c.frontend| > 0 && |c.database| > 0
    ensures var r := DesignFrom(CorrectedFallbackFor(name, c), projectId, next);
      r.Ok? && r.value.projectId == projectId &&
      r.value.techStack == CorrectedStack(c) &&
      r.value.patterns == ["layered", "rest_api"] &&
      |r.value.nfrs| == 2 &&
      r.value.nfrs[0].name == "Performance" && r.value.nfrs[0].priority == Medium &&
      r.value.nfrs[1].name == "Security" && r.value.nfrs[1].priority == High
  {
    CorrectedFallbackFields(name, c);
    FallbackNfrsRead(next);
    AssembleFromFields(CorrectedFallbackFor(name, c), EmptyDesignFields(), projectId, next,
                       ReadRequirements(FallbackNfrs(), next).value);
  }

  /** The corrected fallback's fields each read back as the value they
   *  were written from. */
  lemma CorrectedFallbackFields(name: string, c: StackChoices)
    requires |c.backend| > 0 && |c.frontend| > 0 && |c.database| > 0
    ensures var data := CorrectedFallbackFor(name, c);
      HasDesignKeys(data) &&
      "nfr_specifications" in data && data["nfr_specifications"] == VList(FallbackNfrs()) &&
      AsTexts(data["architecture_patterns"]) == Some(["layered", "rest_api"]) &&
      AsTexts(data["sequence_diagrams"]) == Some([FallbackDiagram]) &&
      ReadStack(data["tech_stack"]) == Some(CorrectedStack(c)) &&
      data["system_overview"].VStr? && data["data_models"].VObj? && ReadApi(data["api_specifications"]).Ok?
  {
    FallbackForFields(name, c);
    TextsRoundTrip(["layered", "rest_api"]);
    TextsRoundTrip([FallbackDiagram]);
    StackRoundTrip(CorrectedStack(c));
  }

  /** The fallback tech stack: the first backend, frontend and database
   *  choice, and the monitoring list, or Prometheus and Grafana without one. */
  lemma FallbackTechStackFields(c: StackChoices)
    requires |c.backend| > 0 && |c.frontend| > 0 && |c.database| > 0
    ensures var stack := FallbackTechStack(c).fields;
      stack.Keys == {"backend", "frontend", "database", "additional"} &&
      stack["backend"] == VStr(c.backend[0]) && stack["frontend"] == VStr(c.frontend[0]) &&
      stack["database"] == VStr(c.database[0]) &&
      stack["additional"] == Texts(Additional(c)) &&
      Additional(c) == (if c.monitoring.Some? then c.monitoring.value else ["Prometheus", "Grafana"])
  {
  }

  /** Only the e-commerce, education and logistics stacks lack a
   *  monitoring list. */
  lemma DomainStackMonitoring(d: ProjectDomain)
    ensures DomainStack(d).monitoring.None? <==> d in {Ecommerce, Education, Logistics}
  {
  }

  /** The corrected fallback design validates for every domain, with the
   *  domain's first backend, frontend and database, its monitoring choices
   *  joined as `additional`, the layered REST patterns, and a medium
   *  performance and a high security requirement. */
  lemma FallbackDesign(d: ProjectDomain, projectId: string, next: nat)
    ensures var r := DesignFrom(CorrectedFallbackArchitecture(d), projectId, next);
      var c := DomainStack(d);
      r.Ok? && r.value.projectId == projectId &&
      r.value.techStack.Keys == {"backend", "frontend", "database", "additional"} &&
      r.value.techStack["backend"] == c.backend[0] && r.value.techStack["frontend"] == c.frontend[0] &&
      r.value.techStack["database"] == c.database[0] &&
      r.value.techStack["additional"] == Join(Additional(c), ", ") &&
      r.value.patterns == ["layered", "rest_api"] &&
      |r.value.nfrs| == 2 &&
      r.value.nfrs[0].name == "Performance" && r.value.nfrs[0].priority == Medium &&
      r.value.nfrs[1].name == "Security" && r.value.nfrs[1].priority == High
  {
    var c := DomainStack(d);
    FallbackForDesign(d.Name(), c, projectId, next);
    CorrectedStackFields(c);
  }

  /** The corrected stack's entries. */
  lemma CorrectedStackFields(c: StackChoices)
    requires |c.backend| > 0 && |c.frontend| > 0 && |c.database| > 0
    ensures var stack := CorrectedStack(c);
      stack.Keys == {"backend", "frontend", "database", "additional"} &&
      stack["backend"] == c.backend[0] && stack["frontend"] == c.frontend[0] &&
      stack["database"] == c.database[0] && stack["additional"] == Join(Additional(c), ", ")
  {
  }

  /** As declared, `tech_stack: Dict[str, str]` rejects every fallback
   *  design, because its `additional` entry is a list. */
  lemma FallbackRejectedAsWritten(d: ProjectDomain, projectId: string, next: nat)
    ensures DesignFrom(FallbackArchitecture(d), projectId, next).Err?
  {
    var c := DomainStack(d);
    FallbackForFields(d.Name(), c);
    assert FallbackTechStack(c).fields["additional"].VList?;
    assert !StrictTechStack(FallbackTechStack(c));
  }

  /** A parsed reply is stored only when its tech stack maps every name to a
   *  string, and the stored design carries exactly that stack. */
  lemma ParsedDesignStrict(s: ArchState, m: Message, data: Metadata)
    ensures var r := DesignArchitecture(s, m, Parsed(data));
      r.raised == None ==>
        StrictTechStack(Get(data, "tech_stack", VObj(map[]))) && m.projectId in r.state.designs &&
        ReadStack(Get(data, "tech_stack", VObj(map[]))) == Some(r.state.designs[m.projectId].techStack)
  {
  }

  /** A reply that is not JSON stores the corrected fallback design for the
   *  project, sends it to BA, and raises nothing. */
  lemma UnparseableDesignStored(s: ArchState, m: Message)
    requires DesignInputsRead(m.metadata)
    ensures var r := DesignArchitecture(s, m, Unparseable);
      var c := DomainStack(SpecDomain(m.metadata).value);
      r.raised == None && |r.sends| == 1 && r.sends[0].toAgent == BA &&
      m.projectId in r.state.designs &&
      r.state.designs[m.projectId].techStack == CorrectedStack(c) &&
      r.state.designs[m.projectId].patterns == ["layered", "rest_api"]
  {
    var d := SpecDomain(m.metadata).value;
    FallbackForDesign(d.Name(), DomainStack(d), m.projectId, s.nextId);
  }

  /** Every stored field is read back unchanged from its JSON form. */
  lemma DesignFieldsRoundTrip(d: Design)
    ensures AsTexts(DesignFields(d)["architecture_patterns"]) == Some(d.patterns)
    ensures AsTexts(DesignFields(d)["sequence_diagrams"]) == Some(d.diagrams)
    ensures ReadApi(DesignFields(d)["api_specifications"]) == Ok(d.api)
    ensures ReadStack(DesignFields(d)["tech_stack"]) == Some(d.techStack)
  {
    StackRoundTrip(d.techStack);
    TextsRoundTrip(d.patterns);
    TextsRoundTrip(d.diagrams);
  }

  /** `_update_architecture_design`: the project is kept, every field the
   *  revision lacks keeps the original's value, and the NFRs come from the
   *  revision alone, so a revision without them has none. */
  lemma UpdateKeepsMissingFields(original: Design, revised: Metadata, next: nat)
    requires UpdateDesign(original, revised, next).Ok?
    ensures var u := UpdateDesign(original, revised, next).value;
      u.projectId == original.projectId &&
      ("system_overview" !in revised ==> u.systemOverview == original.systemOverview) &&
      ("tech_stack" !in revised ==> u.techStack == original.techStack) &&
      ("architecture_patterns" !in revised ==> u.patterns == original.patterns) &&
      ("sequence_diagrams" !in revised ==> u.diagrams == original.diagrams) &&
      ("data_models" !in revised ==> u.dataModels == original.dataModels) &&
      ("api_specifications" !in revised ==> u.api == original.api) &&
      ("nfr_specifications" !in revised ==> u.nfrs == [])
  {
    DesignFieldsRoundTrip(original);
  }

  /** An update can fail only through the revision's own entries: with no
   *  keys at all it succeeds and reproduces the original's fields. */
  lemma EmptyRevisionKeepsDesign(original: Design, next: nat)
    ensures var r := UpdateDesign(original, map[], next);
      r.Ok? && r.value == original.(id := r.value.id, nfrs := [])
  {
    DesignFieldsRoundTrip(original);
  }

  /** The shape of an incremental revision's fields. */
  lemma RevisionFields(original: Design, concerns: Value)
    requires CitedConcerns(concerns).Ok?
    ensures var data := IncrementalRevision(original, concerns).value;
      var cited := CitedConcerns(concerns).value;
      HasDesignKeys(data) &&
      data["nfr_specifications"] == VList(RevisionNfrs()) &&
      data["system_overview"] == VStr(original.systemOverview + "\n\nRevised to address concerns: " + Join(cited, "; ")) &&
      data["tech_stack"] == StackValue(original.techStack) &&
      data["architecture_patterns"] == Texts(original.patterns) &&
      data["sequence_diagrams"] == Texts(original.diagrams) &&
      data["data_models"] == VObj(original.dataModels) &&
      data["api_specifications"] == DesignFields(original)["api_specifications"]
  {
  }

  /** The revision's NFR entries read as two high-priority requirements. */
  lemma RevisionNfrsRead(next: nat)
    ensures var nfrs := ReadRequirements(RevisionNfrs(), next);
      nfrs.Ok? && |nfrs.value| == 2 && nfrs.value[0].priority == High && nfrs.value[1].priority == High
  {
  }

  /** The incremental revision always validates against its original: it
   *  keeps the tech stack, patterns, diagrams, data models and APIs, cites at
   *  most the first three concerns after the old overview, and carries two
   *  high-priority requirements. */
  lemma IncrementalRevisionUpdate(original: Design, concerns: Value, next: nat)
    requires CitedConcerns(concerns).Ok?
    ensures var r := UpdateDesign(original, IncrementalRevision(original, concerns).value, next);
      var cited := CitedConcerns(concerns).value;
      r.Ok? &&
      r.value.projectId == original.projectId && r.value.techStack == original.techStack &&
      r.value.patterns == original.patterns && r.value.diagrams == original.diagrams &&
      r.value.dataModels == original.dataModels && r.value.api == original.api &&
      r.value.systemOverview == original.systemOverview + "\n\nRevised to address concerns: " + Join(cited, "; ") &&
      |cited| <= 3 &&
      |r.value.nfrs| == 2 && r.value.nfrs[0].priority == High && r.value.nfrs[1].priority == High
  {
    DesignFieldsRoundTrip(original);
    RevisionFields(original, concerns);
    RevisionNfrsRead(next);
    AssembleFromFields(IncrementalRevision(original, concerns).value, DesignFields(original), original.projectId, next,
                       ReadRequirements(RevisionNfrs(), next).value);
  }
}

=== FILE: ba_agent.dfy ===
/** The business-analyst agent: it turns a user specification into requirements, asks for
 *  clarifications when the analysis has open questions, reviews the architect's design, and
 *  dispatches user stories to the developer and the tester.  Every LLM reply is an oracle
 *  input, read as the JSON value `json.loads` gives, so each field raises where Python would. */
module BaAgent {
  import opened Wrappers
  import opened Strings
  import opened Models
  import opened Agent

  /** The agent's own state: analysed projects, the open clarification
   *  questions per project (the analysis's value, as stored), and the user
   *  stories made per project.  Story ids are uuid4 strings in Python; here
   *  they come from a counter. */
  datatype BaState = BaState(
    projects: map<string, ProjectSpecification>,
    pending: map<string, Value>,
    stories: map<string, seq<UserStory>>,
    nextStory: nat)

  function Init(): BaState
  {
    BaState(map[], map[], map[], 0)
  }

  /** The LLM replies the agent may ask for while handling one message: the
   *  analysis, review, persona and update objects, and the story array. */
  datatype BaOracle = BaOracle(
    analysis: Reply<Metadata>,
    review: Reply<Metadata>,
    stories: Reply<Value>,
    persona: Reply<Metadata>,
    update: Reply<Metadata>,
    answer: Result<string>)

  // ---------------------------------------------------------------------
  // Domain

  function FinancialKeywords(): seq<string> { ["bank", "finance", "payment", "trading", "insurance"] }
  function ManufacturingKeywords(): seq<string> { ["manufactur", "factory", "production", "supply chain"] }
  function HealthcareKeywords(): seq<string> { ["health", "medical", "hospital", "patient"] }
  function EcommerceKeywords(): seq<string> { ["ecommerce", "shop", "retail", "product", "cart"] }
  function EducationKeywords(): seq<string> { ["education", "school", "student", "course", "learning"] }
  function LogisticsKeywords(): seq<string> { ["logistics", "shipping", "delivery", "transport"] }

  function DomainRules(): seq<Rule<ProjectDomain>>
  {
    [Rule(FinancialKeywords(), Financial),
     Rule(ManufacturingKeywords(), Manufacturing),
     Rule(HealthcareKeywords(), Healthcare),
     Rule(EcommerceKeywords(), Ecommerce),
     Rule(EducationKeywords(), Education),
     Rule(LogisticsKeywords(), Logistics)]
  }

  /** `_determine_domain`: a case-insensitive keyword cascade. */
  function DetermineDomain(specification: string): ProjectDomain
  {
    Classify(ToLower(specification), DomainRules(), General)
  }

  // ---------------------------------------------------------------------
  // Outgoing messages

  function ClarificationHeader(): (h: string)
    ensures '\n' !in h
  {
    "I need some clarifications" + " to better understand" + " your requirements:"
  }

  /** The questions as lines "i. question", numbered from `from`. */
  function Numbered(questions: seq<string>, from: nat): string
    decreases |questions|
  {
    if |questions| == 0 then ""
    else NumberedLine(questions[0], from) + "\n" + Numbered(questions[1..], from + 1)
  }

  /** The text `_request_clarifications` sends. */
  function ClarificationText(questions: seq<string>): string
  {
    ClarificationHeader() + "\n\n" + Numbered(questions, 1)
  }

  /** `_request_clarifications`: a QUERY to the orchestrator. */
  function ClarificationQuery(original: Message, questions: seq<string>): (o: Outgoing)
    ensures o.toAgent == Orchestrator && o.kind == Query && o.projectId == original.projectId
    ensures o.metadata == Some(map["awaiting_clarification" := VBool(true), "original_message_id" := VInt(original.id)])
  {
    Outgoing(Orchestrator, Query, ClarificationText(questions), original.projectId,
             Some(map["awaiting_clarification" := VBool(true), "original_message_id" := VInt(original.id)]),
             Medium)
  }

  /** `_request_clarifications`: the questions are numbered as `str` writes
   *  them, so a value a `for` cannot run over raises. */
  function RequestClarifications(original: Message, clarifications: Value): (r: Result<Outgoing>)
    ensures r.Ok? <==> clarifications.Iterable()
    ensures r.Ok? ==> r.value == ClarificationQuery(original, StrEach(Iterate(clarifications).value))
    ensures r.Err? ==> r.error == NotIterable(clarifications)
  {
    match Iterate(clarifications)
    case Err(e) => Err(e)
    case Ok(questions) => Ok(ClarificationQuery(original, StrEach(questions)))
  }

  /** `project_spec.dict()`. */
  function SpecValue(p: ProjectSpecification): Value
  {
    VObj(map["id" := VStr(p.id), "title" := VStr(p.title), "description" := VStr(p.description),
             "domain" := VStr(p.domain.Name()), "requirements" := p.requirements,
             "constraints" := p.constraints])
  }

  /** The SPECIFICATION `_send_to_architect` sends: the analysis and the
   *  project specification. */
  function ToArchitect(projectId: string, p: ProjectSpecification, analysis: Value): (o: Outgoing)
    ensures o.toAgent == Architect && o.kind == Specification && o.projectId == projectId
    ensures o.metadata == Some(map["analysis_data" := analysis, "project_spec" := SpecValue(p)])
  {
    Outgoing(Architect, Specification, "Project Analysis Complete. Please proceed with architecture design.",
             projectId, Some(map["analysis_data" := analysis, "project_spec" := SpecValue(p)]), Medium)
  }

  /** The brief `_send_to_architect` writes lists the requirements, then the
   *  constraints, so either one a `for` cannot run over raises. */
  function SendToArchitect(projectId: string, p: ProjectSpecification, analysis: Value): (r: Result<Outgoing>)
    ensures r.Ok? <==> p.requirements.Iterable() && p.constraints.Iterable()
    ensures r.Ok? ==> r.value == ToArchitect(projectId, p, analysis)
    ensures !p.requirements.Iterable() ==> r == Err(NotIterable(p.requirements))
    ensures p.requirements.Iterable() && !p.constraints.Iterable() ==> r == Err(NotIterable(p.constraints))
  {
    if !p.requirements.Iterable() then Err(NotIterable(p.requirements))
    else if !p.constraints.Iterable() then Err(NotIterable(p.constraints))
    else Ok(ToArchitect(projectId, p, analysis))
  }

  /** `_send_architecture_feedback`: a QUERY asking for a revision.  Its text
   *  lists the review's concerns, missing requirements and recommendations,
   *  so one a `for` cannot run over raises before anything is sent. */
  function ArchitectureFeedback(projectId: string, review: Metadata): (r: Result<Outgoing>)
    ensures r.Ok? <==> ReviewListsIterate(review)
    ensures r.Ok? ==> r.value.toAgent == Architect && r.value.kind == Query && r.value.projectId == projectId
    ensures r.Ok? ==> r.value.metadata == Some(map["review_data" := VObj(review), "revision_requested" := VBool(true)])
    ensures r.Err? ==> r.error == NotIterable(
      var concerns := Get(review, "concerns", VList([]));
      var missing := Get(review, "missing_requirements", VList([]));
      if !concerns.Iterable() then concerns
      else if !missing.Iterable() then missing
      else Get(review, "recommendations", VList([])))
  {
    var concerns := Get(review, "concerns", VList([]));
    var missing := Get(review, "missing_requirements", VList([]));
    var recommendations := Get(review, "recommendations", VList([]));
    if !concerns.Iterable() then Err(NotIterable(concerns))
    else if !missing.Iterable() then Err(NotIterable(missing))
    else if !recommendations.Iterable() then Err(NotIterable(recommendations))
    else
      Ok(Outgoing(Architect, Query, "Architecture Review Feedback", projectId,
                  Some(map["review_data" := VObj(review), "revision_requested" := VBool(true)]), Medium))
  }

  /** A send that may raise, as the last step of a handler. */
  function Finish(s: BaState, send: Result<Outgoing>): (r: Run<BaState>)
    ensures r.state == s
    ensures send.Ok? ==> r.sends == [send.value] && r.raised == None
    ensures send.Err? ==> r.sends == [] && r.raised == Some(send.error)
  {
    match send
    case Ok(o) => Run(s, [o], None)
    case Err(e) => Run(s, [], Some(e))
  }

  // ---------------------------------------------------------------------
  // Specification analysis

  /** `_extract_analysis_manually`: the fallback for an unparseable reply. */
  function ManualAnalysis(): (a: Metadata)
    ensures a.Keys == {"functional_requirements", "non_functional_requirements", "constraints",
                       "clarifications_needed", "domain", "complexity_assessment", "estimated_timeline"}
  {
    map["functional_requirements" := Texts(["Extracted from free text"]), "non_functional_requirements" := VList([]),
        "constraints" := VList([]), "clarifications_needed" := VList([]), "domain" := VStr("general"),
        "complexity_assessment" := VStr("medium"), "estimated_timeline" := VStr("to be determined")]
  }

  /** The specification stored before the LLM is asked. */
  function InitialSpec(m: Message): ProjectSpecification
  {
    ProjectSpecification(m.projectId, "Project from " + m.projectId, m.content,
                         DetermineDomain(m.content), VList([]), VList([]))
  }

  /** The specification `spec` once the analysis `a` is in: its
   *  requirements and constraints are whatever the analysis holds,
   *  unchecked. */
  function AnalysedSpec(spec: ProjectSpecification, a: Metadata): ProjectSpecification
  {
    spec.(requirements := Get(a, "functional_requirements", VList([])),
          constraints := Get(a, "constraints", VList([])))
  }

  /** The rest of `_analyze_specification` once the analysis `a` is in: the
   *  initial specification `spec`, analysed, is stored; truthy open
   *  questions are recorded and asked, otherwise the project goes to the
   *  architect.  Either send raises when the value it lists is not
   *  iterable, after the store. */
  function ApplyAnalysis(s: BaState, m: Message, spec0: ProjectSpecification, a: Metadata): (r: Run<BaState>)
    ensures r.state.projects == s.projects[m.projectId := AnalysedSpec(spec0, a)]
    ensures r.state.stories == s.stories && r.state.nextStory == s.nextStory
    ensures |r.sends| <= 1 && (r.raised == None <==> |r.sends| == 1)
    ensures var questions := Get(a, "clarifications_needed", VList([]));
      questions.Truthy() ==>
        r.state.pending == s.pending[m.projectId := questions] &&
        (questions.Iterable() ==> r.sends == [ClarificationQuery(m, StrEach(Iterate(questions).value))]) &&
        (!questions.Iterable() ==> r.raised == Some(NotIterable(questions)))
    ensures var questions := Get(a, "clarifications_needed", VList([]));
      var spec := AnalysedSpec(spec0, a);
      !questions.Truthy() ==>
        r.state.pending == s.pending &&
        (spec.requirements.Iterable() && spec.constraints.Iterable() ==>
           r.sends == [ToArchitect(m.projectId, spec, VObj(a))]) &&
        (!(spec.requirements.Iterable() && spec.constraints.Iterable()) ==> r.raised.Some?)
  {
    var spec := AnalysedSpec(spec0, a);
    var s1 := s.(projects := s.projects[m.projectId := spec]);
    var questions := Get(a, "clarifications_needed", VList([]));
    if questions.Truthy() then
      Finish(s1.(pending := s1.pending[m.projectId := questions]), RequestClarifications(m, questions))
    else
      Finish(s1, SendToArchitect(m.projectId, spec, VObj(a)))
  }

  /** `_analyze_specification`.  The specification is stored first, so a
   *  raising LLM call leaves it stored with no requirements; an
   *  unparseable reply is replaced by the manual analysis. */
  function AnalyzeSpecification(s: BaState, m: Message, reply: Reply<Metadata>): (r: Run<BaState>)
    ensures reply.LlmRaised? ==>
      r == Run(s.(projects := s.projects[m.projectId := InitialSpec(m)]), [], Some(reply.error))
    ensures !reply.LlmRaised? ==> r == ApplyAnalysis(s, m, InitialSpec(m), ParsedOr(reply, ManualAnalysis()))
  {
    match reply
    case LlmRaised(e) => Run(s.(projects := s.projects[m.projectId := InitialSpec(m)]), [], Some(e))
    case _ => ApplyAnalysis(s, m, InitialSpec(m), ParsedOr(reply, ManualAnalysis()))
  }

  // ---------------------------------------------------------------------
  // User stories and dispatch

  /** `_create_basic_stories`: the single story used when the story reply
   *  does not parse. */
  function BasicStories(p: ProjectSpecification): (v: Value)
    ensures v.VList? && |v.items| == 1 && v.items[0].VObj?
  {
    VList([VObj(map["title" := VStr("Basic User Story"),
                    "description" := VStr("As a user, I want to use the " + p.title + " system"),
                    "acceptance_criteria" := Texts(["System should be functional"]),
                    "gherkin_scenarios" := Texts(["Given the system is running, When I access it, Then it should respond"]),
                    "priority" := VStr("medium"), "story_points" := VInt(5),
                    "dependencies" := VList([]), "tags" := Texts(["general"])])])
  }

  /** `Priority(x.lower())`, which raises ValueError for a non-member. */
  function StoryPriority(text: string): (r: Result<Priority>)
    ensures r.Ok? <==> ParsePriority(ToLower(text)).Some?
    ensures r.Ok? ==> r.value.Name() == ToLower(text)
  {
    match ParsePriority(ToLower(text))
    case Some(p) => Ok(p)
    case None => Err("'" + ToLower(text) + "' is not a valid Priority")
  }

  function StoryId(n: nat): string
  {
    "story-" + NatToString(n)
  }

  /** The priority of a story reply, `"medium"` when absent; only a string
   *  has `.lower()`. */
  function PriorityField(f: Metadata): (r: Result<Priority>)
    ensures r.Ok? <==> Get(f, "priority", VStr("medium")).VStr? &&
                       ParsePriority(ToLower(Get(f, "priority", VStr("medium")).s)).Some?
    ensures r.Ok? ==> r.value.Name() == ToLower(Get(f, "priority", VStr("medium")).s)
  {
    var priority := Get(f, "priority", VStr("medium"));
    if priority.VStr? then StoryPriority(priority.s)
    else Err("'" + TypeName(priority) + "' object has no attribute 'lower'")
  }

  /** What `UserStory(...)` validates of the other fields, each read with its
   *  default: strings, lists of strings, and an optional whole number. */
  predicate StoryFieldsValid(f: Metadata)
  {
    Get(f, "title", VStr("Generated Story")).VStr? && Get(f, "description", VStr("")).VStr? &&
    AsTexts(Get(f, "acceptance_criteria", VList([]))).Some? &&
    AsTexts(Get(f, "gherkin_scenarios", VList([]))).Some? &&
    (Get(f, "story_points", VInt(5)).VInt? || Get(f, "story_points", VInt(5)).VNone?) &&
    AsTexts(Get(f, "dependencies", VList([]))).Some? && AsTexts(Get(f, "tags", VList([]))).Some?
  }

  /** A story reply the loop accepts: a dict with a valid priority and
   *  well-typed fields. */
  predicate StoryReplyValid(d: Value)
  {
    d.VObj? && PriorityField(d.fields).Ok? && StoryFieldsValid(d.fields)
  }

  /** One `UserStory(...)` built from one element of the story array, with
   *  the documented defaults.  `.get` needs a dict, the priority is read
   *  first, and pydantic then checks the other fields. */
  function BuildStory(d: Value, id: string): (r: Result<UserStory>)
    ensures r.Ok? <==> StoryReplyValid(d)
    ensures !d.VObj? ==> r == Err("'" + TypeName(d) + "' object has no attribute 'get'")
    ensures d.VObj? && PriorityField(d.fields).Err? ==> r == Err(PriorityField(d.fields).error)
  {
    if !d.VObj? then Err("'" + TypeName(d) + "' object has no attribute 'get'")
    else
      var f := d.fields;
      match PriorityField(f)
      case Err(e) => Err(e)
      case Ok(priority) =>
        if StoryFieldsValid(f) then
          var points := Get(f, "story_points", VInt(5));
          Ok(UserStory(id, Get(f, "title", VStr("Generated Story")).s, Get(f, "description", VStr("")).s,
                       AsTexts(Get(f, "acceptance_criteria", VList([]))).value,
                       AsTexts(Get(f, "gherkin_scenarios", VList([]))).value, priority,
                       if points.VInt? then Some(points.i) else None,
                       AsTexts(Get(f, "dependencies", VList([]))).value, AsTexts(Get(f, "tags", VList([]))).value))
        else Err("validation error for UserStory")
  }

  /** A built story holds the reply's fields, each read with its default:
   *  the title, description and lists as given, the priority parsed, and
   *  `story_points` as given, a null one staying empty. */
  lemma BuildStoryFields(d: Value, id: string)
    requires BuildStory(d, id).Ok?
    ensures var u := BuildStory(d, id).value;
      var f := d.fields;
      u.id == id && u.priority == PriorityField(f).value &&
      Get(f, "title", VStr("Generated Story")) == VStr(u.title) &&
      Get(f, "description", VStr("")) == VStr(u.description) &&
      Get(f, "acceptance_criteria", VList([])) == Texts(u.acceptanceCriteria) &&
      Get(f, "gherkin_scenarios", VList([])) == Texts(u.gherkinScenarios) &&
      Get(f, "story_points", VInt(5)) == (if u.storyPoints.Some? then VInt(u.storyPoints.value) else VNone) &&
      Get(f, "dependencies", VList([])) == Texts(u.dependencies) &&
      Get(f, "tags", VList([])) == Texts(u.tags)
  {
  }

  /** The story loop with the builder `build`: one story per element, in
   *  order, with fresh ids; the first element that does not build raises
   *  and stops the loop. */
  function BuildStoriesWith(build: (Value, string) -> Result<UserStory>, ds: seq<Value>, next: nat): (r: Result<seq<UserStory>>)
    ensures r.Ok? ==> |r.value| == |ds|
    decreases |ds|
  {
    if |ds| == 0 then Ok([])
    else
      var head := build(ds[0], StoryId(next));
      var tail := BuildStoriesWith(build, ds[1..], next + 1);
      if head.Err? then Err(head.error)
      else if tail.Err? then Err(tail.error)
      else Ok([head.value] + tail.value)
  }

  /** The loop of `_create_user_stories`. */
  function BuildStories(ds: seq<Value>, next: nat): (r: Result<seq<UserStory>>)
    ensures r.Ok? ==> |r.value| == |ds|
  {
    BuildStoriesWith(BuildStory, ds, next)
  }

  lemma {:induction false} BuildStoriesAt(build: (Value, string) -> Result<UserStory>, ds: seq<Value>, next: nat, i: nat)
    requires i < |ds| && BuildStoriesWith(build, ds, next).Ok?
    ensures build(ds[i], StoryId(next + i)).Ok?
    ensures BuildStoriesWith(build, ds, next).value[i] == build(ds[i], StoryId(next + i)).value
    decreases i
  {
    var head := build(ds[0], StoryId(next));
    var tail := BuildStoriesWith(build, ds[1..], next + 1);
    assert head.Ok? && tail.Ok?;
    var whole := BuildStoriesWith(build, ds, next).value;
    assert whole == [head.value] + tail.value;
    if i == 0 {
      assert whole[0] == head.value;
    } else {
      BuildStoriesAt(build, ds[1..], next + 1, i - 1);
      assert ds[1..][i - 1] == ds[i];
      assert StoryId(next + 1 + (i - 1)) == StoryId(next + i);
      assert whole[i] == tail.value[i - 1];
    }
  }

  lemma {:induction false} BuildStoriesSucceed(build: (Value, string) -> Result<UserStory>, ds: seq<Value>, next: nat)
    requires forall i :: 0 <= i < |ds| ==> build(ds[i], StoryId(next + i)).Ok?
    ensures BuildStoriesWith(build, ds, next).Ok?
    decreases |ds|
  {
    if |ds| > 0 {
      assert build(ds[0], StoryId(next + 0)).Ok?;
      forall i | 0 <= i < |ds| - 1
        ensures build(ds[1..][i], StoryId(next + 1 + i)).Ok?
      {
        assert ds[1..][i] == ds[i + 1] && next + 1 + i == next + (i + 1);
      }
      BuildStoriesSucceed(build, ds[1..], next + 1);
    }
  }

  /** The story list is all-or-nothing: it is built exactly when every
   *  element builds, and then its i-th story is the i-th element's. */
  lemma BuildStoriesPointwise(ds: seq<Value>, next: nat)
    ensures BuildStories(ds, next).Ok? <==> forall i :: 0 <= i < |ds| ==> BuildStory(ds[i], StoryId(next + i)).Ok?
    ensures BuildStories(ds, next).Ok? ==>
      forall i :: 0 <= i < |ds| ==> BuildStories(ds, next).value[i] == BuildStory(ds[i], StoryId(next + i)).value
  {
    if BuildStories(ds, next).Ok? {
      forall i | 0 <= i < |ds|
        ensures BuildStory(ds[i], StoryId(next + i)).Ok?
        ensures BuildStories(ds, next).value[i] == BuildStory(ds[i], StoryId(next + i)).value
      {
        BuildStoriesAt(BuildStory, ds, next, i);
      }
    }
    if forall i :: 0 <= i < |ds| ==> BuildStory(ds[i], StoryId(next + i)).Ok? {
      BuildStoriesSucceed(BuildStory, ds, next);
    }
  }

  /** The persona used when the persona reply does not parse. */
  function DefaultPersona(): Metadata
  {
    map["expertise" := Texts(["Python", "JavaScript"]), "experience_level" := VStr("senior"),
        "specialization" := VStr("fullstack"), "persona_description" := VStr("Senior Full-Stack Developer")]
  }

  /** The keys the developer brief indexes, in the order it indexes them;
   *  a missing one raises KeyError. */
  function PersonaKeys(): seq<string>
  {
    ["persona_description", "expertise", "experience_level"]
  }

  /** `', '.join(v)` accepts any iterable of strings: a list of strings, a
   *  string, or a dict, whose keys are strings. */
  predicate Joinable(v: Value)
  {
    v.VStr? || v.VObj? || v.VAgent? || (v.VList? && forall i :: 0 <= i < |v.items| ==> v.items[i].VStr?)
  }

  /** The persona the brief can be written from: the three keys present and
   *  the expertise joinable. */
  predicate PersonaUsable(persona: Metadata)
  {
    (forall k :: k in PersonaKeys() ==> k in persona) && Joinable(persona["expertise"])
  }

  /** The two assignments: the developer gets the persona and the stories,
   *  then the tester gets the same stories. */
  function Assignments(projectId: string, persona: Metadata, stories: seq<UserStory>): (r: seq<Outgoing>)
    ensures |r| == 2
    ensures r[0].toAgent == Developer && r[0].kind == Specification && r[0].projectId == projectId
    ensures r[0].metadata == Some(map["persona_data" := VObj(persona), "user_stories" := StoriesValue(stories)])
    ensures r[1].toAgent == Tester && r[1].kind == Specification && r[1].projectId == projectId
    ensures r[1].metadata == Some(map["user_stories" := StoriesValue(stories)])
  {
    [Outgoing(Developer, Specification, "Project Assignment", projectId,
              Some(map["persona_data" := VObj(persona), "user_stories" := StoriesValue(stories)]), Medium),
     Outgoing(Tester, Specification, "Project Testing Assignment", projectId,
              Some(map["user_stories" := StoriesValue(stories)]), Medium)]
  }

  /** `_assign_personas_and_dispatch`: the persona reply, or the default
   *  persona, must let the brief index the description, join the expertise
   *  and index the experience level; then both assignments are sent. */
  function Dispatch(projectId: string, stories: seq<UserStory>, reply: Reply<Metadata>): (r: Run<()>)
    ensures reply.LlmRaised? ==> r.sends == [] && r.raised == Some(reply.error)
    ensures r.raised == None <==> !reply.LlmRaised? && PersonaUsable(ParsedOr(reply, DefaultPersona()))
    ensures r.raised == None ==> r.sends == Assignments(projectId, ParsedOr(reply, DefaultPersona()), stories)
    ensures r.raised.Some? ==> r.sends == []
  {
    match reply
    case LlmRaised(e) => Run((), [], Some(e))
    case _ =>
      var persona := ParsedOr(reply, DefaultPersona());
      if "persona_description" !in persona then Run((), [], Some("'persona_description'"))
      else if "expertise" !in persona then Run((), [], Some("'expertise'"))
      else if !Joinable(persona["expertise"]) then
        Run((), [], Some(if persona["expertise"].VList? then "sequence item: expected str instance"
                         else "can only join an iterable"))
      else if "experience_level" !in persona then Run((), [], Some("'experience_level'"))
      else Run((), Assignments(projectId, persona, stories), None)
  }

  /** The stories a story reply yields with ids from `next`: the parsed
   *  array, or the basic stories when it does not parse, iterated and built
   *  element by element. */
  function ReplyStories(p: ProjectSpecification, reply: Reply<Value>, next: nat): (r: Result<seq<UserStory>>)
    ensures reply.LlmRaised? ==> r == Err(reply.error)
    ensures !reply.LlmRaised? && !ParsedOr(reply, BasicStories(p)).Iterable() ==>
      r == Err(NotIterable(ParsedOr(reply, BasicStories(p))))
    ensures !reply.LlmRaised? && ParsedOr(reply, BasicStories(p)).Iterable() ==>
      r == BuildStories(Iterate(ParsedOr(reply, BasicStories(p))).value, next)
  {
    match reply
    case LlmRaised(e) => Err(e)
    case _ =>
      match Iterate(ParsedOr(reply, BasicStories(p)))
      case Err(e) => Err(e)
      case Ok(ds) => BuildStories(ds, next)
  }

  /** `_create_user_stories`: an unknown project raises; the prompt lists
   *  the requirements, so ones a `for` cannot run over raise; the stories
   *  are stored before dispatch, so a failing persona step keeps them. */
  function CreateUserStories(s: BaState, m: Message, storiesReply: Reply<Value>,
                             personaReply: Reply<Metadata>): (r: Run<BaState>)
    ensures r.state.projects == s.projects && r.state.pending == s.pending
    ensures m.projectId !in s.projects ==> r == Run(s, [], Some("Project specification not found for " + m.projectId))
    ensures m.projectId in s.projects && !s.projects[m.projectId].requirements.Iterable() ==>
      r == Run(s, [], Some(NotIterable(s.projects[m.projectId].requirements)))
    ensures m.projectId in s.projects && s.projects[m.projectId].requirements.Iterable() ==>
      var made := ReplyStories(s.projects[m.projectId], storiesReply, s.nextStory);
      (made.Err? ==> r == Run(s, [], Some(made.error))) &&
      (made.Ok? ==> r.state.stories == s.stories[m.projectId := made.value] &&
                    r.sends == Dispatch(m.projectId, made.value, personaReply).sends &&
                    r.raised == Dispatch(m.projectId, made.value, personaReply).raised)
  {
    if m.projectId !in s.projects then Run(s, [], Some("Project specification not found for " + m.projectId))
    else
      var p := s.projects[m.projectId];
      if !p.requirements.Iterable() then Run(s, [], Some(NotIterable(p.requirements)))
      else
        match ReplyStories(p, storiesReply, s.nextStory)
        case Err(e) => Run(s, [], Some(e))
        case Ok(us) =>
          var s1 := s.(stories := s.stories[m.projectId := us], nextStory := s.nextStory + |us|);
          var d := Dispatch(m.projectId, us, personaReply);
          Run(s1, d.sends, d.raised)
  }

  // ---------------------------------------------------------------------
  // Review

  /** `json.loads` failing on the review reply gives this verdict. */
  function UnparsedReview(): Metadata
  {
    map["status" := VStr("NEEDS_REVISION"), "concerns" := Texts(["Unable to parse review"]),
        "ready_for_development" := VBool(false)]
  }

  /** The review gate: status "APPROVED" and a truthy readiness flag. */
  predicate Approved(review: Metadata)
  {
    Get(review, "status", VNone) == VStr("APPROVED") && Get(review, "ready_for_development", VNone).Truthy()
  }

  /** `_review_artifact`.  The prompt reads the stored project's
   *  requirements, so an unknown project raises before the LLM is asked;
   *  an approval creates the stories, and any other verdict goes back to
   *  the architect as feedback. */
  function ReviewArtifact(s: BaState, m: Message, o: BaOracle): (r: Run<BaState>)
    ensures r.state.projects == s.projects && r.state.pending == s.pending
    ensures m.projectId !in s.projects ==> r.raised.Some? && r.sends == [] && r.state == s
    ensures m.projectId in s.projects && o.review.LlmRaised? ==> r == Run(s, [], Some(o.review.error))
    ensures m.projectId in s.projects && !o.review.LlmRaised? ==>
      var review := ParsedOr(o.review, UnparsedReview());
      (!Approved(review) && ReviewListsIterate(review) ==>
         r == Run(s, [ArchitectureFeedback(m.projectId, review).value], None)) &&
      (!Approved(review) && !ReviewListsIterate(review) ==>
         r == Run(s, [], Some(ArchitectureFeedback(m.projectId, review).error))) &&
      (Approved(review) ==> r == CreateUserStories(s, m, o.stories, o.persona))
  {
    if m.projectId !in s.projects then Run(s, [], Some("'dict' object has no attribute 'requirements'"))
    else
      match o.review
      case LlmRaised(e) => Run(s, [], Some(e))
      case _ =>
        var review := ParsedOr(o.review, UnparsedReview());
        if Approved(review) then CreateUserStories(s, m, o.stories, o.persona)
        else Finish(s, ArchitectureFeedback(m.projectId, review))
  }

  // ---------------------------------------------------------------------
  // Clarification responses and queries

  function ClarifiedAnalysis(): Value
  {
    VObj(map["complexity_assessment" := VStr("medium")])
  }

  /** The update's new requirements: `updated_requirements`, or the old
   *  ones when absent. */
  function UpdatedRequirements(p: ProjectSpecification, u: Metadata): ProjectSpecification
  {
    p.(requirements := Get(u, "updated_requirements", p.requirements))
  }

  /** `_process_response`: only a project with open questions and a stored
   *  specification is affected.  A parsed update replaces the requirements,
   *  then extends the constraints in place (raising, with the new
   *  requirements kept, when the constraints are not a list or the addition
   *  is not iterable), and, unless `ready_for_architect` is falsy, closes the
   *  questions and goes to the architect.  An unparseable update goes to the
   *  architect too but leaves the questions open. */
  function ProcessResponse(s: BaState, m: Message, reply: Reply<Metadata>): (r: Run<BaState>)
    ensures r.state.stories == s.stories && r.state.nextStory == s.nextStory
    ensures m.projectId !in s.pending || m.projectId !in s.projects ==> r == Run(s, [], None)
    ensures m.projectId in s.pending && m.projectId in s.projects ==>
      var p := s.projects[m.projectId];
      match reply
      case LlmRaised(e) => r == Run(s, [], Some(e))
      case Unparseable => r == Finish(s, SendToArchitect(m.projectId, p, ClarifiedAnalysis()))
      case Parsed(u) =>
        var p1 := UpdatedRequirements(p, u);
        var extended := Extend(p.constraints, Get(u, "additional_constraints", VList([])));
        (extended.Err? ==> r == Run(s.(projects := s.projects[m.projectId := p1]), [], Some(extended.error))) &&
        (extended.Ok? ==>
           var p2 := p1.(constraints := extended.value);
           r.state.projects == s.projects[m.projectId := p2] &&
           (Get(u, "ready_for_architect", VBool(true)).Truthy() ==>
              r.state.pending == s.pending - {m.projectId} &&
              r.sends == Finish(s, SendToArchitect(m.projectId, p2, ClarifiedAnalysis())).sends &&
              r.raised == Finish(s, SendToArchitect(m.projectId, p2, ClarifiedAnalysis())).raised) &&
           (!Get(u, "ready_for_architect", VBool(true)).Truthy() ==>
              r.state.pending == s.pending && r.sends == [] && r.raised == None))
  {
    if m.projectId !in s.pending || m.projectId !in s.projects then Run(s, [], None)
    else
      var p := s.projects[m.projectId];
      match reply
      case LlmRaised(e) => Run(s, [], Some(e))
      case Unparseable => Finish(s, SendToArchitect(m.projectId, p, ClarifiedAnalysis()))
      case Parsed(u) =>
        var p1 := UpdatedRequirements(p, u);
        match Extend(p.constraints, Get(u, "additional_constraints", VList([])))
        case Err(e) => Run(s.(projects := s.projects[m.projectId := p1]), [], Some(e))
        case Ok(constraints) =>
          var p2 := p1.(constraints := constraints);
          var s1 := s.(projects := s.projects[m.projectId := p2]);
          if Get(u, "ready_for_architect", VBool(true)).Truthy() then
            Finish(s1.(pending := s1.pending - {m.projectId}), SendToArchitect(m.projectId, p2, ClarifiedAnalysis()))
          else Run(s1, [], None)
  }

  /** `_handle_query`: the LLM's answer goes back to the asker as a
   *  RESPONSE naming the query. */
  function HandleQuery(s: BaState, m: Message, answer: Result<string>): (r: Run<BaState>)
    ensures r.state == s
    ensures answer.Err? ==> r.sends == [] && r.raised == Some(answer.error)
    ensures answer.Ok? ==> (r.raised == None && |r.sends| == 1 &&
      r.sends[0].toAgent == m.fromAgent && r.sends[0].kind == Response &&
      r.sends[0].content == answer.value && r.sends[0].projectId == m.projectId &&
      r.sends[0].metadata == Some(map["query_response" := VBool(true), "original_query_id" := VInt(m.id)]))
  {
    match answer
    case Err(e) => Run(s, [], Some(e))
    case Ok(text) =>
      Run(s, [Outgoing(m.fromAgent, Response, text, m.projectId,
                       Some(map["query_response" := VBool(true), "original_query_id" := VInt(m.id)]), Medium)], None)
  }

  /** `process_message`: dispatch on the message type; every exception
   *  becomes an ERROR reply and the agent itself never raises. */
  function Process(s: BaState, m: Message, o: BaOracle): (r: (BaState, Outcome))
    ensures r.1.raised == None
    ensures m.kind == Specification ==> r == CatchAll(m, AnalyzeSpecification(s, m, o.analysis))
    ensures m.kind == Response ==> r == CatchAll(m, ProcessResponse(s, m, o.update))
    ensures m.kind == Artifact ==> r == CatchAll(m, ReviewArtifact(s, m, o))
    ensures m.kind == Query ==> r == CatchAll(m, HandleQuery(s, m, o.answer))
    ensures m.kind !in {Specification, Response, Artifact, Query} ==> r == (s, Outcome([], None))
  {
    var run :=
      match m.kind
      case Specification => AnalyzeSpecification(s, m, o.analysis)
      case Response => ProcessResponse(s, m, o.update)
      case Artifact => ReviewArtifact(s, m, o)
      case Query => HandleQuery(s, m, o.answer)
      case _ => Run(s, [], None);
    CatchAll(m, run)
  }

  // ---------------------------------------------------------------------
  // Properties

  /** The domain cascade: each domain is chosen exactly when one of its
   *  keywords occurs in the lower-cased text and no earlier group's does. */
  lemma DetermineDomainCascade(specification: string)
    ensures var t := ToLower(specification);
      var d := DetermineDomain(specification);
      (d == Financial <==> ContainsAny(t, FinancialKeywords())) &&
      (d == Manufacturing <==> !ContainsAny(t, FinancialKeywords()) && ContainsAny(t, ManufacturingKeywords())) &&
      (d == Healthcare <==> !ContainsAny(t, FinancialKeywords()) && !ContainsAny(t, ManufacturingKeywords()) &&
                            ContainsAny(t, HealthcareKeywords())) &&
      (d == Ecommerce <==> !ContainsAny(t, FinancialKeywords()) && !ContainsAny(t, ManufacturingKeywords()) &&
                           !ContainsAny(t, HealthcareKeywords()) && ContainsAny(t, EcommerceKeywords())) &&
      (d == Education <==> !ContainsAny(t, FinancialKeywords()) && !ContainsAny(t, ManufacturingKeywords()) &&
                           !ContainsAny(t, HealthcareKeywords()) && !ContainsAny(t, EcommerceKeywords()) &&
                           ContainsAny(t, EducationKeywords())) &&
      (d == Logistics <==> !ContainsAny(t, FinancialKeywords()) && !ContainsAny(t, ManufacturingKeywords()) &&
                           !ContainsAny(t, HealthcareKeywords()) && !ContainsAny(t, EcommerceKeywords()) &&
                           !ContainsAny(t, EducationKeywords()) && ContainsAny(t, LogisticsKeywords())) &&
      (d == General <==> !ContainsAny(t, FinancialKeywords()) && !ContainsAny(t, ManufacturingKeywords()) &&
                         !ContainsAny(t, HealthcareKeywords()) && !ContainsAny(t, EcommerceKeywords()) &&
                         !ContainsAny(t, EducationKeywords()) && !ContainsAny(t, LogisticsKeywords()))
  {
    var t := ToLower(specification);
    var rules := DomainRules();
    var i := FirstMatch(t, rules);
    assert forall j :: 0 <= j < |rules| && (i == -1 || j < i) ==> !ContainsAny(t, rules[j].keywords);
  }

  lemma TwoBreaks(h: string, rest: string)
    requires '\n' !in h
    ensures Split(h + "\n\n" + rest, '\n') == [h, ""] + Split(rest, '\n')
  {
    var blank: string := [];
    assert h + "\n\n" + rest == h + ['\n'] + (blank + ['\n'] + rest);
    SplitAfter(h, blank + ['\n'] + rest, '\n');
    SplitAfter(blank, rest, '\n');
  }

  lemma ClarificationSplit(questions: seq<string>)
    requires forall j :: 0 <= j < |questions| ==> '\n' !in questions[j]
    ensures Split(ClarificationText(questions), '\n') == [ClarificationHeader(), ""] + Lines(questions, 1)
  {
    TwoBreaks(ClarificationHeader(), Numbered(questions, 1));
    NumberedLines(questions, 1);
  }

  /** The clarification text, split into lines: the header, a blank line,
   *  then question j (from 0) on line j + 2 as "j+1. question", and a final
   *  empty piece after the last newline. */
  lemma ClarificationLines(questions: seq<string>)
    requires forall j :: 0 <= j < |questions| ==> '\n' !in questions[j]
    ensures var lines := Split(ClarificationText(questions), '\n');
      |lines| == |questions| + 3 &&
      lines[0] == ClarificationHeader() && lines[1] == "" && lines[|questions| + 2] == "" &&
      forall j :: 0 <= j < |questions| ==> lines[j + 2] == NatToString(j + 1) + ". " + questions[j]
  {
    ClarificationSplit(questions);
    forall j | 0 <= j < |questions|
      ensures Lines(questions, 1)[j] == NatToString(j + 1) + ". " + questions[j]
    {
      LinesAt(questions, 1, j);
    }
  }

  /** The line "n. question", which holds no newline of its own. */
  function NumberedLine(question: string, n: nat): (line: string)
    ensures '\n' !in question ==> '\n' !in line
  {
    var digits := NatToString(n);
    assert forall i :: 0 <= i < |digits| ==> digits[i] != '\n';
    digits + (". " + question)
  }

  /** The lines of `Numbered(questions, from)`, ending with the empty piece
   *  after the last newline. */
  function Lines(questions: seq<string>, from: nat): (r: seq<string>)
    ensures |r| == |questions| + 1 && r[|questions|] == ""
    decreases |questions|
  {
    if |questions| == 0 then [""] else [NumberedLine(questions[0], from)] + Lines(questions[1..], from + 1)
  }

  lemma {:induction false} LinesAt(questions: seq<string>, from: nat, j: nat)
    requires j < |questions|
    ensures Lines(questions, from)[j] == NumberedLine(questions[j], from + j)
    decreases j
  {
    if j > 0 {
      LinesAt(questions[1..], from + 1, j - 1);
      assert questions[1..][j - 1] == questions[j];
    }
  }

  lemma {:induction false} NumberedLines(questions: seq<string>, from: nat)
    requires forall j :: 0 <= j < |questions| ==> '\n' !in questions[j]
    ensures Split(Numbered(questions, from), '\n') == Lines(questions, from)
    decreases |questions|
  {
    if |questions| > 0 {
      var line := NumberedLine(questions[0], from);
      var tail := Numbered(questions[1..], from + 1);
      assert Numbered(questions, from) == line + ['\n'] + tail;
      SplitAfter(line, tail, '\n');
      NumberedLines(questions[1..], from + 1);
    }
  }

  /** The story list is all-or-nothing: it is built exactly when every
   *  element is a dict whose priority, lower-cased, names a `Priority`
   *  member and whose other fields have the types `UserStory` declares. */
  lemma StoriesNeedValidReplies(ds: seq<Value>, next: nat)
    ensures BuildStories(ds, next).Ok? <==> forall i :: 0 <= i < |ds| ==> StoryReplyValid(ds[i])
  {
    BuildStoriesPointwise(ds, next);
  }

  /** A story the agent wrote out reads back as itself under a new id: the
   *  loop accepts every `story.dict()`. */
  lemma StoryReplyRoundTrip(u: UserStory, id: string)
    ensures BuildStory(StoryValue(u), id) == Ok(u.(id := id))
  {
    var f := StoryValue(u).fields;
    StoryValueScalars(u);
    StoryValuePriority(u);
    StoryValueLists(u);
    assert StoryFieldsValid(f);
    var r := BuildStory(StoryValue(u), id);
    assert r.Ok?;
    BuildStoryFields(StoryValue(u), id);
    var v := r.value;
    assert v.id == id && v.priority == u.priority && v.title == u.title && v.description == u.description;
    assert v.storyPoints == u.storyPoints;
    assert v.acceptanceCriteria == u.acceptanceCriteria by { TextsRoundTrip(v.acceptanceCriteria); }
    assert v.gherkinScenarios == u.gherkinScenarios by { TextsRoundTrip(v.gherkinScenarios); }
    assert v.dependencies == u.dependencies by { TextsRoundTrip(v.dependencies); }
    assert v.tags == u.tags by { TextsRoundTrip(v.tags); }
  }

  /** The scalar fields of `story.dict()`, read back with their defaults. */
  lemma StoryValueScalars(u: UserStory)
    ensures var f := StoryValue(u).fields;
      Get(f, "title", VStr("Generated Story")) == VStr(u.title) &&
      Get(f, "description", VStr("")) == VStr(u.description) &&
      Get(f, "story_points", VInt(5)) == (if u.storyPoints.Some? then VInt(u.storyPoints.value) else VNone)
  {
  }

  /** The priority of `story.dict()` reads back as the story's. */
  lemma StoryValuePriority(u: UserStory)
    ensures PriorityField(StoryValue(u).fields) == Ok(u.priority)
  {
    PriorityNameLower(u.priority);
    assert Get(StoryValue(u).fields, "priority", VStr("medium")) == VStr(u.priority.Name());
  }

  /** The list fields of `story.dict()`, read back with their defaults. */
  lemma StoryValueLists(u: UserStory)
    ensures var f := StoryValue(u).fields;
      Get(f, "acceptance_criteria", VList([])) == Texts(u.acceptanceCriteria) &&
      Get(f, "gherkin_scenarios", VList([])) == Texts(u.gherkinScenarios) &&
      Get(f, "dependencies", VList([])) == Texts(u.dependencies) &&
      Get(f, "tags", VList([])) == Texts(u.tags)
    ensures var f := StoryValue(u).fields;
      AsTexts(Get(f, "acceptance_criteria", VList([]))) == Some(u.acceptanceCriteria) &&
      AsTexts(Get(f, "gherkin_scenarios", VList([]))) == Some(u.gherkinScenarios) &&
      AsTexts(Get(f, "dependencies", VList([]))) == Some(u.dependencies) &&
      AsTexts(Get(f, "tags", VList([]))) == Some(u.tags)
  {
    TextsRoundTrip(u.acceptanceCriteria);
    TextsRoundTrip(u.gherkinScenarios);
    TextsRoundTrip(u.dependencies);
    TextsRoundTrip(u.tags);
  }

  /** A priority's value is already lower-case and parses back. */
  lemma PriorityNameLower(p: Priority)
    ensures StoryPriority(p.Name()) == Ok(p)
  {
    ParseNameRoundTrip(p, General);
    LowerNames();
  }

  lemma LowerNames()
    ensures ToLower("low") == "low" && ToLower("medium") == "medium"
    ensures ToLower("high") == "high" && ToLower("critical") == "critical"
  {
    LowerFixed("low");
    LowerFixed("medium");
    LowerFixed("high");
    LowerFixed("critical");
  }
  /** A list of strings is asked line by line as the strings themselves. */
  lemma StringQuestionsAsked(m: Message, questions: seq<string>)
    ensures RequestClarifications(m, Texts(questions)) == Ok(ClarificationQuery(m, questions))
  {
    StrEachTexts(questions);
  }

  /** A question that is not a string is numbered as `str` writes it. */
  lemma NumberQuestionAsked(m: Message)
    ensures RequestClarifications(m, VList([VInt(5)])).Ok?
    ensures RequestClarifications(m, VList([VInt(5)])).value.content == ClarificationHeader() + "\n\n1. 5\n"
  {
    assert StrEach([VInt(5)]) == ["5"];
    assert NatToString(1) == "1";
    assert Numbered(["5"], 1) == "1. 5\n";
  }

  /** A truthy number of questions is recorded as pending, then the request
   *  raises. */
  lemma ScalarQuestionsRaise(s: BaState, m: Message, spec: ProjectSpecification, a: Metadata)
    requires Get(a, "clarifications_needed", VList([])) == VInt(5)
    ensures var r := ApplyAnalysis(s, m, spec, a);
      r.state.pending == s.pending[m.projectId := VInt(5)] && r.sends == [] &&
      r.raised == Some(NotIterable(VInt(5)))
  {
  }

  /** After an approved review, the developer and the tester receive the
   *  same story list, and it is the list the agent stored. */
  lemma ApprovedReviewDispatchesSameStories(s: BaState, m: Message, o: BaOracle)
    requires m.kind == Artifact && m.projectId in s.projects
    requires o.review.Parsed? && Approved(o.review.data)
    ensures var r := ReviewArtifact(s, m, o);
      r.raised == None ==>
        |r.sends| == 2 && r.sends[0].toAgent == Developer && r.sends[1].toAgent == Tester &&
        r.sends[0].metadata.value["user_stories"] == r.sends[1].metadata.value["user_stories"] ==
          StoriesValue(r.state.stories[m.projectId])
  {
  }

  /** An expertise that is a number cannot be joined, so nothing is sent. */
  lemma NumberExpertiseRaises(projectId: string, stories: seq<UserStory>, persona: Metadata)
    requires "persona_description" in persona && Get(persona, "expertise", VNone) == VInt(5)
    ensures Dispatch(projectId, stories, Parsed(persona)) == Run((), [], Some("can only join an iterable"))
  {
  }

  /** An unparseable analysis never asks for clarifications: the project
   *  goes straight to the architect. */
  lemma UnparseableAnalysisGoesToArchitect(s: BaState, m: Message)
    ensures var r := AnalyzeSpecification(s, m, Unparseable);
      r.raised == None && r.state.pending == s.pending &&
      r.sends == [ToArchitect(m.projectId, r.state.projects[m.projectId], VObj(ManualAnalysis()))]
  {
    ManualAnalysisGoesToArchitect(s, m, InitialSpec(m));
  }

  lemma ManualAnalysisGoesToArchitect(s: BaState, m: Message, spec: ProjectSpecification)
    ensures var r := ApplyAnalysis(s, m, spec, ManualAnalysis());
      r.raised == None && r.state.pending == s.pending &&
      r.sends == [ToArchitect(m.projectId, AnalysedSpec(spec, ManualAnalysis()), VObj(ManualAnalysis()))]
  {
    var a := ManualAnalysis();
    assert Get(a, "clarifications_needed", VList([])) == VList([]);
    assert AnalysedSpec(spec, a).requirements == Texts(["Extracted from free text"]);
    assert AnalysedSpec(spec, a).constraints == VList([]);
  }

  /** An unparseable review is never an approval, and its feedback is
   *  sent. */
  lemma UnparseableReviewRequestsRevision(s: BaState, m: Message, o: BaOracle)
    requires m.projectId in s.projects && o.review.Unparseable?
    ensures ArchitectureFeedback(m.projectId, UnparsedReview()).Ok?
    ensures ReviewArtifact(s, m, o) == Run(s, [ArchitectureFeedback(m.projectId, UnparsedReview()).value], None)
  {
    assert Get(UnparsedReview(), "status", VNone) == VStr("NEEDS_REVISION");
    assert Get(UnparsedReview(), "missing_requirements", VList([])) == VList([]);
    assert Get(UnparsedReview(), "recommendations", VList([])) == VList([]);
  }

  /** A review whose concerns are null raises before any feedback is
   *  sent. */
  lemma NullConcernsRaise(s: BaState, m: Message, o: BaOracle)
    requires m.projectId in s.projects && o.review.Parsed?
    requires !Approved(o.review.data) && Get(o.review.data, "concerns", VList([])) == VNone
    ensures ReviewArtifact(s, m, o) == Run(s, [], Some(NotIterable(VNone)))
  {
  }

  /** A clarification answer without `ready_for_architect` closes the
   *  project's questions and sends it to the architect, when its lists
   *  can be extended and listed. */
  lemma ResponseDefaultsToReady(s: BaState, m: Message, u: Metadata)
    requires m.projectId in s.pending && m.projectId in s.projects && "ready_for_architect" !in u
    requires s.projects[m.projectId].constraints.VList?
    requires Get(u, "additional_constraints", VList([])).Iterable()
    requires Get(u, "updated_requirements", s.projects[m.projectId].requirements).Iterable()
    ensures var r := ProcessResponse(s, m, Parsed(u));
      m.projectId !in r.state.pending && |r.sends| == 1 && r.sends[0].toAgent == Architect
  {
  }

  /** Additional constraints that are a number raise after the requirements
   *  were replaced; the questions stay open. */
  lemma ScalarConstraintsRaise(s: BaState, m: Message, u: Metadata)
    requires m.projectId in s.pending && m.projectId in s.projects
    requires s.projects[m.projectId].constraints.VList? && Get(u, "additional_constraints", VList([])) == VInt(5)
    ensures var r := ProcessResponse(s, m, Parsed(u));
      r.raised == Some(NotIterable(VInt(5))) && r.sends == [] && r.state.pending == s.pending &&
      r.state.projects[m.projectId].requirements == Get(u, "updated_requirements", s.projects[m.projectId].requirements)
  {
  }
}

=== FILE: broker.dfy ===
/** The in-process publish/subscribe broker (one copy per agent): a registry
 *  from topic to subscribed callbacks, and a FIFO queue of published
 *  messages drained by a delivery loop.  The delivery loop is modelled one
 *  iteration at a time. */
module Broker {
  import opened Wrappers
  import opened Models

  /** A subscribed callback, identified by the handler it stands for. */
  type Callback = string

  datatype Envelope = Envelope(topic: string, message: Message)

  datatype BrokerState = BrokerState(
    subscribers: map<string, seq<Callback>>,
    queue: seq<Envelope>,
    connected: bool,
    running: bool)

  /** One call of a subscriber: which callback saw which message, and
   *  whether the callback raised (which the broker logs and ignores). */
  datatype Invocation = Invocation(callback: Callback, message: Message, raised: bool)

  /** No topic is kept with an empty subscriber list. */
  predicate WellFormed(b: BrokerState)
  {
    forall t :: t in b.subscribers ==> |b.subscribers[t]| > 0
  }

  /** The subscribers of a topic; an absent topic has none. */
  function SubscribersOf(subs: map<string, seq<Callback>>, topic: string): seq<Callback>
  {
    if topic in subs then subs[topic] else []
  }

  /** A new broker: no subscribers, empty queue, not connected. */
  function Init(): (b: BrokerState)
    ensures WellFormed(b) && b.queue == [] && !b.connected && !b.running
    ensures forall t :: SubscribersOf(b.subscribers, t) == []
  {
    BrokerState(map[], [], false, false)
  }

  function Connect(b: BrokerState): (r: BrokerState)
    ensures r.connected && r.running
    ensures r.subscribers == b.subscribers && r.queue == b.queue
  {
    b.(connected := true, running := true)
  }

  function Disconnect(b: BrokerState): (r: BrokerState)
    ensures !r.connected && !r.running
    ensures r.subscribers == b.subscribers && r.queue == b.queue
  {
    b.(connected := false, running := false)
  }

  /** `publish_message`: dropped while disconnected, otherwise appended at
   *  the tail.  The `message_id` attribute error raised after the enqueue is
   *  caught inside the method and leaves the queue as it is. */
  function Publish(b: BrokerState, topic: string, message: Message): (r: BrokerState)
    ensures !b.connected ==> r == b
    ensures b.connected ==> r.queue == b.queue + [Envelope(topic, message)]
    ensures r.subscribers == b.subscribers && r.connected == b.connected && r.running == b.running
  {
    if b.connected then b.(queue := b.queue + [Envelope(topic, message)]) else b
  }

  /** `subscribe`: the callback joins the end of the topic's list. */
  function Subscribe(b: BrokerState, topic: string, cb: Callback): (r: BrokerState)
    requires WellFormed(b)
    ensures WellFormed(r)
    ensures SubscribersOf(r.subscribers, topic) == SubscribersOf(b.subscribers, topic) + [cb]
    ensures forall t :: t != topic ==> SubscribersOf(r.subscribers, t) == SubscribersOf(b.subscribers, t)
    ensures r.queue == b.queue && r.connected == b.connected && r.running == b.running
  {
    b.(subscribers := b.subscribers[topic := SubscribersOf(b.subscribers, topic) + [cb]])
  }

  /** `list.index(x)`: the first position of `x`. */
  function IndexOf(s: seq<Callback>, x: Callback): (i: nat)
    requires x in s
    ensures i < |s| && s[i] == x && x !in s[..i]
  {
    if s[0] == x then 0
    else
      var k := IndexOf(s[1..], x);
      assert s[..k + 1] == [s[0]] + s[1..][..k];
      k + 1
  }

  /** `list.remove(x)`: drops the first occurrence of `x`, if any. */
  function RemoveFirst(s: seq<Callback>, x: Callback): (r: seq<Callback>)
    ensures x !in s ==> r == s
    ensures x in s ==> |r| == |s| - 1
  {
    if x in s then
      var i := IndexOf(s, x);
      s[..i] + s[i + 1..]
    else s
  }

  /** `unsubscribe`: removes the first registration of the callback and
   *  deletes the topic once its list is empty; an unknown topic or callback
   *  leaves the broker unchanged. */
  function Unsubscribe(b: BrokerState, topic: string, cb: Callback): (r: BrokerState)
    requires WellFormed(b)
    ensures WellFormed(r)
    ensures SubscribersOf(r.subscribers, topic) == RemoveFirst(SubscribersOf(b.subscribers, topic), cb)
    ensures forall t :: t != topic ==> SubscribersOf(r.subscribers, t) == SubscribersOf(b.subscribers, t)
    ensures topic in r.subscribers <==> |SubscribersOf(r.subscribers, topic)| > 0
    ensures cb !in SubscribersOf(b.subscribers, topic) ==> r == b
    ensures r.queue == b.queue && r.connected == b.connected && r.running == b.running
  {
    if topic in b.subscribers && cb in b.subscribers[topic] then
      var rest := RemoveFirst(b.subscribers[topic], cb);
      if |rest| == 0 then b.(subscribers := b.subscribers - {topic})
      else b.(subscribers := b.subscribers[topic := rest])
    else b
  }

  lemma RemoveFirstAppended(s: seq<Callback>, x: Callback)
    requires x !in s
    ensures RemoveFirst(s + [x], x) == s
  {
    var t := s + [x];
    assert t[..|s|] == s;
    assert IndexOf(t, x) == |s| by {
      var i := IndexOf(t, x);
      assert x in t[..|s|] ==> x in s;
    }
  }

  /** Subscribing a callback that was not yet on the topic and then
   *  unsubscribing it restores the broker exactly. */
  lemma UnsubscribeUndoesSubscribe(b: BrokerState, topic: string, cb: Callback)
    requires WellFormed(b)
    requires cb !in SubscribersOf(b.subscribers, topic)
    ensures Unsubscribe(Subscribe(b, topic, cb), topic, cb) == b
  {
    var s := Subscribe(b, topic, cb);
    RemoveFirstAppended(SubscribersOf(b.subscribers, topic), cb);
    var r := Unsubscribe(s, topic, cb);
    assert r.subscribers.Keys == b.subscribers.Keys;
    assert forall t :: t in r.subscribers ==> r.subscribers[t] == b.subscribers[t] by {
      forall t | t in r.subscribers
        ensures r.subscribers[t] == b.subscribers[t]
      {
        assert SubscribersOf(r.subscribers, t) == SubscribersOf(b.subscribers, t);
      }
    }
  }

  /** The calls made for one message: every subscriber, in subscription
   *  order, whatever the earlier ones did. */
  function Invoke(subs: seq<Callback>, message: Message, raises: (Callback, Message) -> bool): (r: seq<Invocation>)
    ensures |r| == |subs|
    ensures forall i :: 0 <= i < |r| ==> r[i].callback == subs[i] && r[i].message == message
  {
    if |subs| == 0 then []
    else [Invocation(subs[0], message, raises(subs[0], message))] + Invoke(subs[1..], message, raises)
  }

  /** One iteration of the delivery loop.  A stopped loop does nothing, an
   *  empty queue times out and changes nothing; otherwise the head is
   *  dequeued and handed to every subscriber of its topic, and a topic
   *  with no subscribers swallows the message. */
  function DeliverHead(b: BrokerState, raises: (Callback, Message) -> bool): (r: (BrokerState, seq<Invocation>))
    ensures !b.running || |b.queue| == 0 ==> r.0 == b && r.1 == []
    ensures b.running && |b.queue| > 0 ==>
      r.0 == b.(queue := b.queue[1..]) &&
      |r.1| == |SubscribersOf(b.subscribers, b.queue[0].topic)| &&
      forall i :: 0 <= i < |r.1| ==>
        r.1[i].callback == SubscribersOf(b.subscribers, b.queue[0].topic)[i] &&
        r.1[i].message == b.queue[0].message
  {
    if !b.running || |b.queue| == 0 then (b, [])
    else
      var head := b.queue[0];
      (b.(queue := b.queue[1..]), Invoke(SubscribersOf(b.subscribers, head.topic), head.message, raises))
  }

  /** Runs the delivery loop until the queue is empty. */
  function Drain(b: BrokerState, raises: (Callback, Message) -> bool): (r: (BrokerState, seq<Invocation>))
    requires b.running
    ensures r.0.queue == [] && r.0.subscribers == b.subscribers && r.0.running
    decreases |b.queue|
  {
    if |b.queue| == 0 then (b, [])
    else
      var (b1, calls) := DeliverHead(b, raises);
      var (b2, more) := Drain(b1, raises);
      (b2, calls + more)
  }

  /** The messages a given callback received, in the order received. */
  function ReceivedBy(log: seq<Invocation>, cb: Callback): seq<Message>
  {
    if |log| == 0 then []
    else (if log[0].callback == cb then [log[0].message] else []) + ReceivedBy(log[1..], cb)
  }

  function Count(s: seq<Callback>, cb: Callback): nat
  {
    if |s| == 0 then 0 else (if s[0] == cb then 1 else 0) + Count(s[1..], cb)
  }

  function Repeat(m: Message, n: nat): seq<Message>
  {
    if n == 0 then [] else [m] + Repeat(m, n - 1)
  }

  /** What a callback should see from a queue: every queued message, in
   *  queue order, once per registration on that message's topic. */
  function Routed(queue: seq<Envelope>, subs: map<string, seq<Callback>>, cb: Callback): seq<Message>
  {
    if |queue| == 0 then []
    else Repeat(queue[0].message, Count(SubscribersOf(subs, queue[0].topic), cb)) + Routed(queue[1..], subs, cb)
  }

  lemma {:induction false} ReceivedByAppend(a: seq<Invocation>, c: seq<Invocation>, cb: Callback)
    ensures ReceivedBy(a + c, cb) == ReceivedBy(a, cb) + ReceivedBy(c, cb)
    decreases |a|
  {
    if |a| > 0 {
      assert (a + c)[1..] == a[1..] + c;
      ReceivedByAppend(a[1..], c, cb);
    } else {
      assert a + c == c;
    }
  }

  lemma {:induction false} ReceivedFromOneMessage(subs: seq<Callback>, m: Message,
                                                  raises: (Callback, Message) -> bool, cb: Callback)
    ensures ReceivedBy(Invoke(subs, m, raises), cb) == Repeat(m, Count(subs, cb))
    decreases |subs|
  {
    if |subs| > 0 {
      ReceivedFromOneMessage(subs[1..], m, raises, cb);
      var inv := Invoke(subs, m, raises);
      assert inv[1..] == Invoke(subs[1..], m, raises);
    }
  }

  /** Draining delivers FIFO: each callback receives exactly the queued
   *  messages of the topics it subscribes to, in publication order. */
  lemma {:induction false} DrainIsFifoPerCallback(b: BrokerState, raises: (Callback, Message) -> bool, cb: Callback)
    requires b.running
    ensures ReceivedBy(Drain(b, raises).1, cb) == Routed(b.queue, b.subscribers, cb)
    decreases |b.queue|
  {
    if |b.queue| > 0 {
      var (b1, calls) := DeliverHead(b, raises);
      DrainIsFifoPerCallback(b1, raises, cb);
      ReceivedByAppend(calls, Drain(b1, raises).1, cb);
      ReceivedFromOneMessage(SubscribersOf(b.subscribers, b.queue[0].topic), b.queue[0].message, raises, cb);
    }
  }

  /** The methods the `MessageBroker` class defines. */
  datatype Operation =
    | ConnectOp | DisconnectOp | PublishOp | SubscribeOp | UnsubscribeOp
    | ProcessOp | AgentTopicOp | BroadcastTopicOp
  {
    function Name(): string
    {
      match this
      case ConnectOp => "connect"
      case DisconnectOp => "disconnect"
      case PublishOp => "publish_message"
      case SubscribeOp => "subscribe"
      case UnsubscribeOp => "unsubscribe"
      case ProcessOp => "_process_messages"
      case AgentTopicOp => "get_agent_topic"
      case BroadcastTopicOp => "get_broadcast_topic"
    }

    /** Whether the method has a `topic` parameter. */
    predicate TakesTopic()
    {
      this in {PublishOp, SubscribeOp, UnsubscribeOp}
    }
  }

  /** What a name finds on a broker instance: one of the class's methods,
   *  or one of the fields `__init__` sets, known by the type of its value. */
  datatype Member = Method(op: Operation) | Field(typeName: string)

  /** The names of the class's methods. */
  function MethodNames(): set<string>
  {
    {"connect", "disconnect", "publish_message", "subscribe", "unsubscribe",
     "_process_messages", "get_agent_topic", "get_broadcast_topic"}
  }

  /** The names of the fields `__init__` sets. */
  function FieldNames(): set<string>
  {
    {"logger", "subscribers", "message_queue", "connected", "_running"}
  }

  /** Attribute lookup on a broker instance: the class's methods and the
   *  instance's fields resolve, each method under its own name; any other
   *  name is missing. */
  function Attribute(name: string): (r: Option<Member>)
    ensures r == Some(Method(PublishOp)) <==> name == "publish_message"
    ensures r.None? <==> name !in MethodNames() && name !in FieldNames()
    ensures r.Some? && r.value.Method? <==> name in MethodNames()
    ensures r.Some? && r.value.Method? ==> r.value.op.Name() == name
  {
    if name == "connect" then Some(Method(ConnectOp))
    else if name == "disconnect" then Some(Method(DisconnectOp))
    else if name == "publish_message" then Some(Method(PublishOp))
    else if name == "subscribe" then Some(Method(SubscribeOp))
    else if name == "unsubscribe" then Some(Method(UnsubscribeOp))
    else if name == "_process_messages" then Some(Method(ProcessOp))
    else if name == "get_agent_topic" then Some(Method(AgentTopicOp))
    else if name == "get_broadcast_topic" then Some(Method(BroadcastTopicOp))
    else if name == "logger" then Some(Field("Logger"))
    else if name == "subscribers" then Some(Field("dict"))
    else if name == "message_queue" then Some(Field("Queue"))
    else if name == "connected" || name == "_running" then Some(Field("bool"))
    else None
  }

  /** `get_agent_topic`. */
  function AgentTopic(a: AgentType): string
  {
    "agent." + a.Name()
  }

  /** `get_broadcast_topic`. */
  const BroadcastTopic: string := "agent.broadcast"

  /** Every agent has its own topic, and none of them is the broadcast topic. */
  lemma AgentTopicsDistinct(a: AgentType, c: AgentType)
    ensures AgentTopic(a) == AgentTopic(c) ==> a == c
    ensures AgentTopic(a) != BroadcastTopic
  {
    if AgentTopic(a) == AgentTopic(c) {
      assert AgentTopic(a)[6..] == a.Name();
      assert AgentTopic(c)[6..] == c.Name();
    }
    assert BroadcastTopic[6..] == "broadcast";
    assert AgentTopic(a)[6..] == a.Name();
  }
}

=== FILE: developer_agent.dfy ===
/** The developer agent: it takes a persona and user stories from the business analyst, asks
 *  technical questions or builds the application, runs its end-to-end checks, hands the result
 *  to the tester, and reacts to the tester's findings.  Code generation and file writes are
 *  left out; what remains is which message goes where, under which condition. */
module DeveloperAgent {
  import opened Wrappers
  import opened Strings
  import opened Models
  import opened Agent
  import BaAgent

  /** The agent's memory: the assigned persona, the stories of each
   *  project, and each project's workspace directory.  Persona ids and
   *  workspace names are random in Python; here they come from counters. */
  datatype DevState = DevState(
    persona: Option<DeveloperPersona>,
    stories: map<string, seq<UserStory>>,
    workspaces: map<string, string>,
    nextPersona: nat,
    nextWorkspace: nat)

  function Init(): (s: DevState)
    ensures s.persona == None && s.stories == map[] && s.workspaces == map[]
  {
    DevState(None, map[], map[], 0, 0)
  }

  function PersonaId(n: nat): string
  {
    "persona-" + NatToString(n)
  }

  /** `tempfile.mkdtemp(prefix=f"project_{project_id}_")`: never empty. */
  function WorkspacePath(projectId: string, n: nat): (p: string)
    ensures |p| > 0
  {
    "/tmp/project_" + projectId + "_" + NatToString(n)
  }

  /** What the LLM and the file system answer while one message is handled:
   *  the requirements analysis, the first exception of the generation steps
   *  (structure, stories, unit tests, deployment), the failure of the test
   *  report write, the first exception of the fix loop, and a text answer. */
  datatype DevOracle = DevOracle(
    analysis: Reply<Metadata>,
    build: Option<string>,
    report: Option<string>,
    fixes: Option<string>,
    answer: Result<string>)

  // ---------------------------------------------------------------------
  // Reading the assignment

  /** `DeveloperPersona(...)` from the persona object, with the `.get`
   *  defaults for missing keys. */
  function ReadPersona(v: Value, id: string): (r: Result<DeveloperPersona>)
    ensures r.Ok? ==> v.VObj? && r.value.id == id
    ensures r.Ok? ==>
      Get(v.fields, "persona_description", VStr("General Developer")) == VStr(r.value.name) &&
      Get(v.fields, "expertise", VList([])) == Texts(r.value.expertise) &&
      Get(v.fields, "experience_level", VStr("senior")) == VStr(r.value.experienceLevel) &&
      Get(v.fields, "specialization", VStr("fullstack")) == VStr(r.value.specialization)
  {
    if !v.VObj? then Err("object has no attribute 'get'")
    else
      var name := Get(v.fields, "persona_description", VStr("General Developer"));
      var expertise := AsTexts(Get(v.fields, "expertise", VList([])));
      var level := Get(v.fields, "experience_level", VStr("senior"));
      var specialization := Get(v.fields, "specialization", VStr("fullstack"));
      if name.VStr? && expertise.Some? && level.VStr? && specialization.VStr? then
        Ok(DeveloperPersona(id, name.s, expertise.value, level.s, specialization.s))
      else Err("validation error for DeveloperPersona")
  }

  // ---------------------------------------------------------------------
  // Requirements analysis and clarifications

  /** `_analyze_development_requirements`: the parsed
   *  `clarifications_needed`, and an empty list whenever the reply cannot
   *  be used (the call raised, or the text was not JSON). */
  function Clarifications(reply: Reply<Metadata>): (v: Value)
    ensures !reply.Parsed? ==> v == VList([]) && !v.Truthy()
    ensures reply.Parsed? ==> v == Get(reply.data, "clarifications_needed", VList([]))
  {
    if reply.Parsed? then Get(reply.data, "clarifications_needed", VList([])) else VList([])
  }

  /** The lines "i. question" of `_request_technical_clarifications`,
   *  numbered from `from`. */
  function QuestionLines(questions: seq<string>, from: nat): (r: seq<string>)
    ensures |r| == |questions|
    ensures forall i :: 0 <= i < |r| ==> r[i] == BaAgent.NumberedLine(questions[i], from + i)
    decreases |questions|
  {
    if |questions| == 0 then []
    else [BaAgent.NumberedLine(questions[0], from)] + QuestionLines(questions[1..], from + 1)
  }

  const TechnicalHeader: string := "Technical Clarifications Needed for Development:"

  /** The text of the QUERY: the header, a blank line, and the numbered
   *  questions one per line. */
  function TechnicalText(questions: seq<string>): string
  {
    TechnicalHeader + "\n\n" + Join(QuestionLines(questions, 1), "\n")
  }

  /** `_request_technical_clarifications`: the questions are numbered as
   *  `str` writes them, so a value a `for` cannot run over raises; the
   *  questions themselves travel in the metadata. */
  function TechnicalQuery(projectId: string, questions: Value): (r: Result<Outgoing>)
    ensures r.Ok? <==> questions.Iterable()
    ensures r.Err? ==> r.error == NotIterable(questions)
    ensures r.Ok? ==> r.value.toAgent == BA && r.value.kind == Query && r.value.projectId == projectId
    ensures r.Ok? ==> r.value.metadata == Some(map["technical_clarification" := VBool(true), "questions" := questions])
    ensures r.Ok? ==> r.value.content == TechnicalText(StrEach(Iterate(questions).value))
  {
    match Iterate(questions)
    case Err(e) => Err(e)
    case Ok(items) =>
      Ok(Outgoing(BA, Query, TechnicalText(StrEach(items)), projectId,
                  Some(map["technical_clarification" := VBool(true), "questions" := questions]), Medium))
  }

  // ---------------------------------------------------------------------
  // Development

  /** The test results `_run_end_to_end_tests` reports for `n` stories:
   *  three passing unit tests per story, five passing integration tests and
   *  one passing end-to-end test per story; a failed report write turns
   *  them into a FAILED record carrying the error. */
  function EndToEndResults(n: nat, workspace: string, reportFailure: Option<string>): Value
  {
    if reportFailure.Some? then
      VObj(map["overall_status" := VStr("FAILED"), "error" := VStr(reportFailure.value)])
    else
      VObj(map["unit_tests" := VObj(map["total" := VInt(3 * n), "passed" := VInt(3 * n), "failed" := VInt(0),
                                        "coverage" := VStr("85%")]),
               "integration_tests" := VObj(map["total" := VInt(5), "passed" := VInt(5), "failed" := VInt(0)]),
               "end_to_end_tests" := VObj(map["total" := VInt(n), "passed" := VInt(n), "failed" := VInt(0)]),
               "overall_status" := VStr("PASSED"),
               "test_report_path" := VStr(workspace + "/test_results.html")])
  }

  /** `_package_and_send_to_qa`: the application goes to the tester as an
   *  ARTIFACT, then the analyst hears that development is complete. */
  function Package(projectId: string, workspace: string, results: Value, stories: seq<UserStory>): (os: seq<Outgoing>)
    ensures |os| == 2
    ensures os[0].toAgent == Tester && os[0].kind == Artifact && os[0].projectId == projectId
    ensures os[0].metadata == Some(map["artifact_type" := VStr("completed_application"),
                                       "workspace_path" := VStr(workspace), "test_results" := results,
                                       "user_stories" := StoriesValue(stories)])
    ensures os[1].toAgent == BA && os[1].kind == Status && os[1].projectId == projectId
    ensures os[1].metadata == Some(map["phase" := VStr("development_complete"), "test_results" := results])
  {
    [Outgoing(Tester, Artifact, "Development Complete - Application Ready for QA Testing", projectId,
              Some(map["artifact_type" := VStr("completed_application"), "workspace_path" := VStr(workspace),
                       "test_results" := results, "user_stories" := StoriesValue(stories)]), Medium),
     Outgoing(BA, Status, "Development phase completed for project " + projectId + ". Application sent to QA for testing.",
              projectId, Some(map["phase" := VStr("development_complete"), "test_results" := results]), Medium)]
  }

  /** `_start_development`: a fresh workspace is recorded first; without a
   *  persona the structure step raises; a raising generation step stops the
   *  run; otherwise the stories' test results are packaged. */
  function StartDevelopment(s: DevState, m: Message, o: DevOracle): (r: Run<DevState>)
    ensures r.state.workspaces == s.workspaces[m.projectId := WorkspacePath(m.projectId, s.nextWorkspace)]
    ensures r.state.stories == s.stories && r.state.persona == s.persona
    ensures s.persona.None? ==> r.sends == [] && r.raised == Some("No persona assigned for development")
    ensures s.persona.Some? && o.build.Some? ==> r.sends == [] && r.raised == o.build
    ensures r.raised == None <==> s.persona.Some? && o.build.None?
    ensures r.raised == None ==>
      var stories := if m.projectId in s.stories then s.stories[m.projectId] else [];
      var workspace := WorkspacePath(m.projectId, s.nextWorkspace);
      r.sends == Package(m.projectId, workspace, EndToEndResults(|stories|, workspace, o.report), stories)
  {
    var workspace := WorkspacePath(m.projectId, s.nextWorkspace);
    var s1 := s.(workspaces := s.workspaces[m.projectId := workspace], nextWorkspace := s.nextWorkspace + 1);
    if s.persona.None? then Run(s1, [], Some("No persona assigned for development"))
    else if o.build.Some? then Run(s1, [], o.build)
    else
      var stories := if m.projectId in s.stories then s.stories[m.projectId] else [];
      Run(s1, Package(m.projectId, workspace, EndToEndResults(|stories|, workspace, o.report), stories), None)
  }

  /** The persona step of `_receive_development_assignment`: a truthy
   *  persona object replaces the assigned persona; a falsy one keeps it. */
  function AssignPersona(s: DevState, personaData: Value): (r: Result<DevState>)
    ensures !personaData.Truthy() ==> r == Ok(s)
    ensures personaData.Truthy() ==>
      (r.Ok? <==> ReadPersona(personaData, PersonaId(s.nextPersona)).Ok?) &&
      (r.Ok? ==> r.value.persona == Some(ReadPersona(personaData, PersonaId(s.nextPersona)).value))
    ensures r.Ok? ==> r.value.stories == s.stories && r.value.workspaces == s.workspaces
  {
    if !personaData.Truthy() then Ok(s)
    else
      var persona := ReadPersona(personaData, PersonaId(s.nextPersona));
      if persona.Err? then Err(persona.error)
      else Ok(s.(persona := Some(persona.value), nextPersona := s.nextPersona + 1))
  }

  /** `_receive_development_assignment`: the persona and the stories are
   *  recorded; open technical questions go to the analyst as one QUERY
   *  (a truthy value that cannot be numbered raises after the recording),
   *  otherwise development starts at once. */
  function ReceiveAssignment(s: DevState, m: Message, o: DevOracle): (r: Run<DevState>)
    ensures var p := AssignPersona(s, Get(m.metadata, "persona_data", VObj(map[])));
      var stories := ReadStoryList(Get(m.metadata, "user_stories", VList([])));
      (p.Err? ==> r == Run(s, [], Some(p.error))) &&
      (p.Ok? && stories.Err? ==> r == Run(p.value, [], Some(stories.error))) &&
      (p.Ok? && stories.Ok? ==>
        var s2 := p.value.(stories := p.value.stories[m.projectId := stories.value]);
        var questions := Clarifications(o.analysis);
        (questions.Truthy() && questions.Iterable() ==> r == Run(s2, [TechnicalQuery(m.projectId, questions).value], None)) &&
        (questions.Truthy() && !questions.Iterable() ==> r == Run(s2, [], Some(NotIterable(questions)))) &&
        (!questions.Truthy() ==> r == StartDevelopment(s2, m, o)))
  {
    var p := AssignPersona(s, Get(m.metadata, "persona_data", VObj(map[])));
    if p.Err? then Run(s, [], Some(p.error))
    else
      var stories := ReadStoryList(Get(m.metadata, "user_stories", VList([])));
      if stories.Err? then Run(p.value, [], Some(stories.error))
      else
        var s2 := p.value.(stories := p.value.stories[m.projectId := stories.value]);
        var questions := Clarifications(o.analysis);
        if questions.Truthy() then
          match TechnicalQuery(m.projectId, questions)
          case Err(e) => Run(s2, [], Some(e))
          case Ok(query) => Run(s2, [query], None)
        else StartDevelopment(s2, m, o)
  }

  // ---------------------------------------------------------------------
  // QA results

  /** `_fix_qa_issues`: without a recorded workspace it raises; otherwise
   *  every issue goes through a fix attempt (a raising attempt stops the
   *  run) and the application is tested and packaged again. */
  function FixQaIssues(s: DevState, m: Message, o: DevOracle, issues: Value): (r: Run<DevState>)
    ensures r.state == s
    ensures m.projectId !in s.workspaces || s.workspaces[m.projectId] == "" ==>
      r == Run(s, [], Some("No workspace found for project " + m.projectId))
    ensures r.raised.Some? ==> r.sends == []
    ensures r.raised == None ==>
      m.projectId in s.workspaces && o.fixes.None? &&
      var stories := if m.projectId in s.stories then s.stories[m.projectId] else [];
      var workspace := s.workspaces[m.projectId];
      r.sends == Package(m.projectId, workspace, EndToEndResults(|stories|, workspace, o.report), stories)
  {
    if m.projectId !in s.workspaces || s.workspaces[m.projectId] == "" then
      Run(s, [], Some("No workspace found for project " + m.projectId))
    else if !issues.Iterable() then Run(s, [], Some("object is not iterable"))
    else if o.fixes.Some? then Run(s, [], o.fixes)
    else
      var stories := if m.projectId in s.stories then s.stories[m.projectId] else [];
      var workspace := s.workspaces[m.projectId];
      Run(s, Package(m.projectId, workspace, EndToEndResults(|stories|, workspace, o.report), stories), None)
  }

  /** The STATUS that confirms a clean QA pass. */
  function QaApproved(projectId: string): (o: Outgoing)
    ensures o.toAgent == BA && o.kind == Status && o.projectId == projectId
    ensures o.metadata == Some(map["phase" := VStr("qa_approved"), "ready_for_deployment" := VBool(true)])
  {
    Outgoing(BA, Status, "Application for project " + projectId + " has passed all QA tests and is ready for deployment.",
             projectId, Some(map["phase" := VStr("qa_approved"), "ready_for_deployment" := VBool(true)]), Medium)
  }

  /** `_review_test_results`, reading the issue list under `issuesKey` of
   *  `qa_test_results`: a non-empty list is fixed, an empty or absent one
   *  confirms the QA pass to the analyst. */
  function ReviewTestResultsWith(s: DevState, m: Message, o: DevOracle, issuesKey: string): (r: Run<DevState>)
    ensures r.state == s
    ensures var qa := Get(m.metadata, "qa_test_results", VObj(map[]));
      (!qa.VObj? ==> r.raised.Some? && r.sends == []) &&
      (qa.VObj? && !Get(qa.fields, issuesKey, VList([])).Truthy() ==> r == Run(s, [QaApproved(m.projectId)], None)) &&
      (qa.VObj? && Get(qa.fields, issuesKey, VList([])).Truthy() ==>
        r == FixQaIssues(s, m, o, Get(qa.fields, issuesKey, VList([]))))
  {
    var qa := Get(m.metadata, "qa_test_results", VObj(map[]));
    if !qa.VObj? then Run(s, [], Some("object has no attribute 'get'"))
    else
      var issues := Get(qa.fields, issuesKey, VList([]));
      if issues.Truthy() then FixQaIssues(s, m, o, issues)
      else Run(s, [QaApproved(m.projectId)], None)
  }

  /** The review as written: it looks for `issues`. */
  function ReviewTestResultsAsWritten(s: DevState, m: Message, o: DevOracle): Run<DevState>
  {
    ReviewTestResultsWith(s, m, o, "issues")
  }

  /** The review reading the tester's own key, `issues_found`. */
  function ReviewTestResults(s: DevState, m: Message, o: DevOracle): (r: Run<DevState>)
    ensures var qa := Get(m.metadata, "qa_test_results", VObj(map[]));
      QaApproved(m.projectId) in r.sends <==> qa.VObj? && !Get(qa.fields, "issues_found", VList([])).Truthy()
  {
    var qa := Get(m.metadata, "qa_test_results", VObj(map[]));
    var r := ReviewTestResultsWith(s, m, o, "issues_found");
    if qa.VObj? && Get(qa.fields, "issues_found", VList([])).Truthy() && r.raised == None then
      var stories := if m.projectId in s.stories then s.stories[m.projectId] else [];
      var workspace := s.workspaces[m.projectId];
      PackageIsNoApproval(m.projectId, workspace, EndToEndResults(|stories|, workspace, o.report), stories);
      r
    else r
  }

  /** A hand-off to QA is never the approval status. */
  lemma PackageIsNoApproval(projectId: string, workspace: string, results: Value, stories: seq<UserStory>)
    ensures QaApproved(projectId) !in Package(projectId, workspace, results, stories)
  {
    var os := Package(projectId, workspace, results, stories);
    assert QaApproved(projectId).metadata.value["phase"] == VStr("qa_approved");
    assert os[1].metadata.value["phase"] == VStr("development_complete");
  }

  // ---------------------------------------------------------------------
  // Queries and dispatch

  /** `_handle_clarification_query`: the answer goes back to the asker. */
  function HandleQuery(s: DevState, m: Message, answer: Result<string>): (r: Run<DevState>)
    ensures r.state == s
    ensures answer.Err? ==> r == Run(s, [], Some(answer.error))
    ensures answer.Ok? ==>
      r.raised == None && |r.sends| == 1 && r.sends[0].toAgent == m.fromAgent &&
      r.sends[0].kind == Response && r.sends[0].content == answer.value &&
      r.sends[0].projectId == m.projectId &&
      r.sends[0].metadata == Some(map["clarification_response" := VBool(true)])
  {
    if answer.Err? then Run(s, [], Some(answer.error))
    else Run(s, [Outgoing(m.fromAgent, Response, answer.value, m.projectId,
                          Some(map["clarification_response" := VBool(true)]), Medium)], None)
  }

  /** `process_message`: SPECIFICATION, QUERY, RESPONSE and ARTIFACT are
   *  handled, other types are ignored, and every exception becomes an
   *  ERROR reply. */
  function Process(s: DevState, m: Message, o: DevOracle): (r: (DevState, Outcome))
    ensures r.1.raised == None
    ensures m.kind == Specification ==> r == CatchAll(m, ReceiveAssignment(s, m, o))
    ensures m.kind == Query ==> r == CatchAll(m, HandleQuery(s, m, o.answer))
    ensures m.kind == Response ==> r == CatchAll(m, StartDevelopment(s, m, o))
    ensures m.kind == Artifact ==> r == CatchAll(m, ReviewTestResults(s, m, o))
    ensures m.kind !in {Specification, Query, Response, Artifact} ==> r == (s, Outcome([], None))
  {
    match m.kind
    case Specification => CatchAll(m, ReceiveAssignment(s, m, o))
    case Query => CatchAll(m, HandleQuery(s, m, o.answer))
    case Response => CatchAll(m, StartDevelopment(s, m, o))
    case Artifact => CatchAll(m, ReviewTestResults(s, m, o))
    case Approval => (s, Outcome([], None))
    case Error => (s, Outcome([], None))
    case Status => (s, Outcome([], None))
  }

  /** `_create_basic_implementation`'s safe name: the lower-cased title
   *  with spaces, then hyphens, replaced by underscores. */
  function SafeName(title: string): string
  {
    ReplaceAll(ReplaceAll(ToLower(title), " ", "_"), "-", "_")
  }

  /** The two files of the basic implementation of a story. */
  function BasicImplementationFiles(story: UserStory): (paths: seq<string>)
    ensures |paths| == 2 && |paths[0]| == |paths[1]| - 7 == |story.title| + 7
    ensures paths[0][..4] == "src/" && paths[1][..11] == "tests/test_"
    ensures forall i :: 0 <= i < 2 ==> ' ' !in paths[i] && '-' !in paths[i]
  {
    SafeNamePointwise(story.title);
    ["src/" + SafeName(story.title) + ".py", "tests/test_" + SafeName(story.title) + ".py"]
  }

  // ---------------------------------------------------------------------
  // Properties

  /** The safe name keeps the title's length, lower-cases every letter and
   *  turns every space and hyphen into an underscore, so it contains
   *  neither. */
  lemma SafeNamePointwise(title: string)
    ensures |SafeName(title)| == |title|
    ensures forall i :: 0 <= i < |title| ==>
      SafeName(title)[i] == if title[i] == ' ' || title[i] == '-' then '_' else LowerChar(title[i])
    ensures ' ' !in SafeName(title) && '-' !in SafeName(title)
  {
    var lower := ToLower(title);
    ReplaceCharPointwise(lower, ' ', '_');
    ReplaceCharPointwise(ReplaceAll(lower, " ", "_"), '-', '_');
    var r := SafeName(title);
    forall i | 0 <= i < |r| ensures r[i] != ' ' && r[i] != '-' {
    }
  }

  /** An unusable analysis never asks anything: a raising call or a
   *  non-JSON reply lets development start. */
  lemma UnusableAnalysisStartsDevelopment(s: DevState, m: Message, o: DevOracle)
    requires !o.analysis.Parsed?
    requires AssignPersona(s, Get(m.metadata, "persona_data", VObj(map[]))).Ok?
    requires ReadStoryList(Get(m.metadata, "user_stories", VList([]))).Ok?
    ensures forall k :: 0 <= k < |ReceiveAssignment(s, m, o).sends| ==> ReceiveAssignment(s, m, o).sends[k].kind != Query
  {
    var p := AssignPersona(s, Get(m.metadata, "persona_data", VObj(map[]))).value;
    var stories := ReadStoryList(Get(m.metadata, "user_stories", VList([]))).value;
    var s2 := p.(stories := p.stories[m.projectId := stories]);
    assert !Clarifications(o.analysis).Truthy();
    assert ReceiveAssignment(s, m, o) == StartDevelopment(s2, m, o);
    DevelopmentAsksNothing(s2, m, o);
  }

  /** Development hands over an artifact and a status, and never asks. */
  lemma DevelopmentAsksNothing(s: DevState, m: Message, o: DevOracle)
    ensures forall k :: 0 <= k < |StartDevelopment(s, m, o).sends| ==> StartDevelopment(s, m, o).sends[k].kind != Query
  {
    var r := StartDevelopment(s, m, o);
    assert r.sends == [] || (|r.sends| == 2 && r.sends[0].kind == Artifact && r.sends[1].kind == Status);
  }

  /** The numbered questions can be read back line by line: when no
   *  question's text holds a newline, splitting the body of the QUERY at
   *  newlines gives exactly the lines "1. q1", "2. q2", ... */
  lemma TechnicalLinesSplit(questions: seq<string>)
    requires |questions| >= 1
    requires forall i :: 0 <= i < |questions| ==> '\n' !in questions[i]
    ensures Split(Join(QuestionLines(questions, 1), "\n"), '\n') == QuestionLines(questions, 1)
  {
    var lines := QuestionLines(questions, 1);
    forall i | 0 <= i < |lines| ensures '\n' !in lines[i] {
      assert lines[i] == BaAgent.NumberedLine(questions[i], 1 + i);
    }
    SplitJoin(lines, '\n');
  }

  /** A list holding a number is numbered as `str` writes the number. */
  lemma NumberQuestionNumbered(projectId: string)
    ensures TechnicalQuery(projectId, VList([VInt(5)])).Ok?
    ensures TechnicalQuery(projectId, VList([VInt(5)])).value.content == TechnicalHeader + "\n\n1. 5"
  {
    assert StrEach([VInt(5)]) == ["5"];
    assert NatToString(1) == "1";
    assert BaAgent.NumberedLine("5", 1) == "1. 5";
    assert QuestionLines(["5"], 1) == ["1. 5"];
  }

  /** A truthy analysis answer that is not a list, a string or a dictionary
   *  makes the numbering raise: nothing is sent, and the persona and the
   *  stories stay recorded. */
  lemma ScalarClarificationsRaise(s: DevState, m: Message, o: DevOracle, n: int)
    requires n != 0
    requires o.analysis == Parsed(map["clarifications_needed" := VInt(n)])
    requires AssignPersona(s, Get(m.metadata, "persona_data", VObj(map[]))).Ok?
    requires ReadStoryList(Get(m.metadata, "user_stories", VList([]))).Ok?
    ensures var p := AssignPersona(s, Get(m.metadata, "persona_data", VObj(map[]))).value;
      var stories := ReadStoryList(Get(m.metadata, "user_stories", VList([]))).value;
      ReceiveAssignment(s, m, o) == Run(p.(stories := p.stories[m.projectId := stories]), [], Some(NotIterable(VInt(n))))
  {
    assert Clarifications(o.analysis) == VInt(n);
  }

  /** The end-to-end results of `n` stories: every suite passes in full,
   *  with three unit tests per story and one end-to-end test per story. */
  lemma EndToEndCounts(n: nat, workspace: string)
    ensures var r := EndToEndResults(n, workspace, None).fields;
      r["overall_status"] == VStr("PASSED") &&
      r["unit_tests"].fields["total"] == VInt(3 * n) && r["unit_tests"].fields["passed"] == VInt(3 * n) &&
      r["end_to_end_tests"].fields["total"] == VInt(n) && r["end_to_end_tests"].fields["passed"] == VInt(n) &&
      forall k :: k in ["unit_tests", "integration_tests", "end_to_end_tests"] ==>
        r[k].fields["failed"] == VInt(0) && r[k].fields["passed"] == r[k].fields["total"]
  {
  }

  /** The results the tester sends carry their issues under `issues_found`
   *  only; read as written, the review takes them for a clean pass and
   *  confirms QA approval while issues are open. */
  lemma TesterIssuesIgnoredAsWritten(s: DevState, m: Message, o: DevOracle, results: Metadata)
    requires m.metadata == map["qa_test_results" := VObj(results), "needs_fixes" := VBool(true)]
    requires "issues" !in results && "issues_found" in results && results["issues_found"].Truthy()
    ensures ReviewTestResultsAsWritten(s, m, o).sends == [QaApproved(m.projectId)]
    ensures QaApproved(m.projectId) !in ReviewTestResults(s, m, o).sends
  {
    var r := ReviewTestResults(s, m, o);
    if r.raised == None {
      var approved := QaApproved(m.projectId);
      assert approved.metadata.value["phase"] == VStr("qa_approved");
      assert r.sends[1].metadata.value["phase"] == VStr("development_complete");
      assert approved != r.sends[0] && approved != r.sends[1];
    }
  }
}

=== FILE: enhanced_ba.dfy ===
/** The deterministic parts of the enhanced business-analyst agent: how the
 *  model's markdown answer is cut into sections, how the executive summary
 *  is taken from them, how the two iterative phases are merged, and which
 *  export a stored specification gets. */
module EnhancedBA {
  import opened Wrappers
  import opened Strings
  import opened Models

  // ---------------------------------------------------------------------
  // Markdown sections

  const Heading: string := "## "

  /** The splitter's state between lines: the sections saved so far, the
   *  open section's title ("" when none is open, since an empty title is
   *  as falsy as no title), and the lines collected under it. */
  datatype Splitter = Splitter(sections: map<string, string>, current: string, content: seq<string>)

  const Start := Splitter(map[], "", [])

  /** `line.startswith("## ")`, character by character. */
  predicate IsHeading(line: string)
    ensures IsHeading(line) <==> StartsWith(line, Heading)
  {
    |line| >= 3 && line[0] == '#' && line[1] == '#' && line[2] == ' '
  }

  /** Saves the open section, when it has a title. */
  function Flush(st: Splitter): map<string, string>
  {
    if st.current != "" then st.sections[st.current := Strip(Join(st.content, "\n"))] else st.sections
  }

  /** One line: a heading saves the open section and opens a new one;
   *  anything else, "### " lines included, is content. */
  function Feed(st: Splitter, line: string): Splitter
  {
    if IsHeading(line) then Splitter(Flush(st), Strip(line[|Heading|..]), [])
    else st.(content := st.content + [line])
  }

  function FeedAll(st: Splitter, lines: seq<string>): Splitter
    decreases |lines|
  {
    if |lines| == 0 then st else FeedAll(Feed(st, lines[0]), lines[1..])
  }

  /** `_extract_markdown_sections`. */
  function ExtractSections(response: string): map<string, string>
  {
    Flush(FeedAll(Start, Split(response, '\n')))
  }

  lemma FeedAllStep(st: Splitter, lines: seq<string>)
    requires |lines| > 0
    ensures FeedAll(st, lines) == FeedAll(Feed(st, lines[0]), lines[1..])
  {
  }

  lemma {:induction false} FeedAllAppend(st: Splitter, a: seq<string>, b: seq<string>)
    ensures FeedAll(st, a + b) == FeedAll(FeedAll(st, a), b)
    decreases |a|
  {
    if |a| > 0 {
      assert (a + b)[0] == a[0] && (a + b)[1..] == a[1..] + b;
      FeedAllAppend(Feed(st, a[0]), a[1..], b);
    } else {
      assert a + b == b;
    }
  }

  /** Lines without a heading are collected under the open section. */
  lemma {:induction false} FeedBody(st: Splitter, body: seq<string>)
    requires forall i :: 0 <= i < |body| ==> !IsHeading(body[i])
    ensures FeedAll(st, body) == st.(content := st.content + body)
    decreases |body|
  {
    if |body| > 0 {
      FeedBody(Feed(st, body[0]), body[1..]);
      assert st.content + [body[0]] + body[1..] == st.content + body;
    } else {
      assert st.content + body == st.content;
    }
  }

  /** A section as a document writes it: a heading line and its body. */
  datatype Section = Section(title: string, body: seq<string>)

  /** The lines of a run of sections. */
  function Render(doc: seq<Section>): seq<string>
  {
    if |doc| == 0 then [] else [Heading + doc[0].title] + (doc[0].body + Render(doc[1..]))
  }

  /** Reference definition of the result: each section saved under its
   *  stripped title in order, a later equal title replacing the earlier
   *  one, and a section whose title strips to nothing dropped. */
  function Saved(m: map<string, string>, doc: seq<Section>): map<string, string>
    decreases |doc|
  {
    if |doc| == 0 then m
    else
      var title := Strip(doc[0].title);
      Saved(if title != "" then m[title := Strip(Join(doc[0].body, "\n"))] else m, doc[1..])
  }

  /** A well-formed document: no line holds a newline and no body line is a
   *  heading. */
  predicate WellFormed(preamble: seq<string>, doc: seq<Section>)
  {
    (forall i :: 0 <= i < |preamble| ==> '\n' !in preamble[i] && !IsHeading(preamble[i]))
    && (forall j :: 0 <= j < |doc| ==> '\n' !in doc[j].title)
    && (forall j, i :: 0 <= j < |doc| && 0 <= i < |doc[j].body| ==>
          '\n' !in doc[j].body[i] && !IsHeading(doc[j].body[i]))
  }

  lemma {:induction false} SavedFromState(st: Splitter, doc: seq<Section>)
    requires WellFormed([], doc)
    ensures Flush(FeedAll(st, Render(doc))) == Saved(Flush(st), doc)
    decreases |doc|
  {
    if |doc| > 0 {
      var after := Splitter(Flush(st), Strip(doc[0].title), doc[0].body);
      SectionStep(st, doc);
      SavedFromState(after, doc[1..]);
    }
  }

  /** Feeding one rendered section opens it and fills its body. */
  lemma SectionStep(st: Splitter, doc: seq<Section>)
    requires WellFormed([], doc) && |doc| > 0
    ensures FeedAll(st, Render(doc)) == FeedAll(Splitter(Flush(st), Strip(doc[0].title), doc[0].body), Render(doc[1..]))
    ensures WellFormed([], doc[1..])
  {
    var title := doc[0].title;
    var body := doc[0].body;
    var rest := Render(doc[1..]);
    var head := Heading + title;
    assert IsHeading(head) && head[|Heading|..] == title;
    var next := Splitter(Flush(st), Strip(title), []);
    assert Feed(st, head) == next;
    var lines := Render(doc);
    assert lines[0] == head && lines[1..] == body + rest;
    FeedAllStep(st, lines);
    FeedAllAppend(next, body, rest);
    assert forall i :: 0 <= i < |body| ==> !IsHeading(body[i]);
    FeedBody(next, body);
    assert [] + body == body;
    forall j | 0 <= j < |doc[1..]| ensures doc[1..][j] == doc[j + 1] { }
  }

  function Lines(preamble: seq<string>, doc: seq<Section>): seq<string>
  {
    preamble + Render(doc)
  }

  lemma {:induction false} RenderNoNewline(doc: seq<Section>)
    requires WellFormed([], doc)
    ensures forall i :: 0 <= i < |Render(doc)| ==> '\n' !in Render(doc)[i]
  {
    if |doc| > 0 {
      assert WellFormed([], doc[1..]) by {
        forall j | 0 <= j < |doc[1..]| ensures doc[1..][j] == doc[j + 1] { }
      }
      RenderNoNewline(doc[1..]);
      var head := Heading + doc[0].title;
      assert '\n' !in head by {
        forall i | 0 <= i < |head| ensures head[i] != '\n' {
          if i >= |Heading| { assert head[i] == doc[0].title[i - |Heading|]; }
        }
      }
      assert Render(doc) == [head] + (doc[0].body + Render(doc[1..]));
    }
  }

  /** A document cuts back into its sections: the text before the first
   *  heading is dropped, every section's body is its lines joined and
   *  stripped under its stripped title, and a repeated title keeps the
   *  later body. */
  lemma SectionsRoundTrip(preamble: seq<string>, doc: seq<Section>)
    requires WellFormed(preamble, doc) && |preamble| + |doc| > 0
    ensures ExtractSections(Join(Lines(preamble, doc), "\n")) == Saved(map[], doc)
  {
    LinesSplit(preamble, doc);
    LinesFeed(preamble, doc);
  }

  lemma LinesSplit(preamble: seq<string>, doc: seq<Section>)
    requires WellFormed(preamble, doc) && |preamble| + |doc| > 0
    ensures Split(Join(Lines(preamble, doc), "\n"), '\n') == Lines(preamble, doc)
  {
    LinesWithoutNewline(preamble, doc);
    assert "\n" == ['\n'];
    SplitJoin(Lines(preamble, doc), '\n');
  }

  lemma LinesFeed(preamble: seq<string>, doc: seq<Section>)
    requires WellFormed(preamble, doc)
    ensures Flush(FeedAll(Start, Lines(preamble, doc))) == Saved(map[], doc)
  {
    assert WellFormed([], doc);
    FeedAllAppend(Start, preamble, Render(doc));
    FeedBody(Start, preamble);
    SavedFromState(Start.(content := preamble), doc);
  }

  lemma LinesWithoutNewline(preamble: seq<string>, doc: seq<Section>)
    requires WellFormed(preamble, doc) && |preamble| + |doc| > 0
    ensures |Lines(preamble, doc)| >= 1
    ensures forall i :: 0 <= i < |Lines(preamble, doc)| ==> '\n' !in Lines(preamble, doc)[i]
  {
    var lines := Lines(preamble, doc);
    assert WellFormed([], doc);
    RenderNoNewline(doc);
    if |doc| > 0 { assert |Render(doc)| >= 1; }
    forall i | 0 <= i < |lines| ensures '\n' !in lines[i] {
      if i >= |preamble| { assert lines[i] == Render(doc)[i - |preamble|]; }
    }
  }

  /** A text without a heading line has no sections. */
  lemma NoHeadingNoSections(response: string)
    requires forall i :: 0 <= i < |Split(response, '\n')| ==> !IsHeading(Split(response, '\n')[i])
    ensures ExtractSections(response) == map[]
  {
    FeedBody(Start, Split(response, '\n'));
  }

  /** `line` is a heading whose stripped title is `k`. */
  predicate HeadingTitled(line: string, k: string)
  {
    IsHeading(line) && Strip(line[|Heading|..]) == k
  }

  /** Every section key is the stripped title of one of the headings. */
  lemma {:induction false} KeysFromHeadings(st: Splitter, lines: seq<string>, k: string)
    requires k in Flush(FeedAll(st, lines))
    ensures k in st.sections || k == st.current ||
      exists i :: 0 <= i < |lines| && HeadingTitled(lines[i], k)
    decreases |lines|
  {
    if |lines| > 0 {
      var next := Feed(st, lines[0]);
      KeysFromHeadings(next, lines[1..], k);
      if exists i :: 0 <= i < |lines[1..]| && HeadingTitled(lines[1..][i], k) {
        var i :| 0 <= i < |lines[1..]| && HeadingTitled(lines[1..][i], k);
        assert lines[i + 1] == lines[1..][i];
      } else {
        FeedKeys(st, lines[0], k);
      }
    }
  }

  /** One line adds at most its own heading's title as a key. */
  lemma FeedKeys(st: Splitter, line: string, k: string)
    requires k in Feed(st, line).sections || k == Feed(st, line).current
    ensures k in st.sections || k == st.current || HeadingTitled(line, k)
  {
  }

  /** The keys of `_extract_markdown_sections` are titles of heading lines,
   *  and never empty. */
  lemma SectionKeys(response: string, k: string)
    requires k in ExtractSections(response)
    ensures k != ""
    ensures exists i :: 0 <= i < |Split(response, '\n')| && HeadingTitled(Split(response, '\n')[i], k)
  {
    KeysFromHeadings(Start, Split(response, '\n'), k);
    SavedKeysNonEmpty(Start, Split(response, '\n'));
  }

  lemma {:induction false} SavedKeysNonEmpty(st: Splitter, lines: seq<string>)
    requires "" !in st.sections
    ensures "" !in Flush(FeedAll(st, lines))
    decreases |lines|
  {
    if |lines| > 0 {
      SavedKeysNonEmpty(Feed(st, lines[0]), lines[1..]);
    }
  }

  // ---------------------------------------------------------------------
  // Executive summary

  const FunctionalSpecKey: string := "2. Functional Specification"
  const IntroMarker: string := "1.0 Introduction & Purpose"

  /** The scan stops at a "## " line, or at a "### " line that mentions
   *  "2.0" (`and` binds tighter than `or`). */
  predicate StopsIntro(line: string)
    ensures StopsIntro(line) <==> StartsWith(line, "## ") || (StartsWith(line, "### ") && Contains(line, "2.0"))
  {
    IsHeading(line) || (IsSubheading(line) && Contains(line, "2.0"))
  }

  /** `line.startswith("### ")`, character by character. */
  predicate IsSubheading(line: string)
    ensures IsSubheading(line) <==> StartsWith(line, "### ")
  {
    |line| >= 4 && line[0] == '#' && line[1] == '#' && line[2] == '#' && line[3] == ' '
  }

  /** The stripped non-blank lines after a marker line, up to the first
   *  stop line; a marker line re-opens the intro and is itself skipped. */
  function IntroLines(lines: seq<string>, inIntro: bool): (r: seq<string>)
    ensures forall i :: 0 <= i < |r| ==> |r[i]| > 0
  {
    if |lines| == 0 then []
    else
      var line := lines[0];
      if Contains(line, IntroMarker) then IntroLines(lines[1..], true)
      else if StopsIntro(line) then []
      else
        var rest := IntroLines(lines[1..], inIntro);
        var kept := Strip(line);
        if inIntro && kept != [] then
          [kept] + rest
        else rest
  }

  /** `_extract_executive_summary`. */
  function ExecutiveSummary(sections: map<string, string>, requirements: string): string
  {
    var funcSpec := if FunctionalSpecKey in sections then sections[FunctionalSpecKey] else "";
    if Contains(funcSpec, IntroMarker) then
      var intro := IntroLines(Split(funcSpec, '\n'), false);
      if |intro| > 0 then Join(intro, "\n")
      else "Comprehensive functional specification for: " + Head(requirements, 100) + "..."
    else "Functional specification document addressing the requirements: " + Head(requirements, 200) + "..."
  }

  /** Without the introduction marker the summary is the generic sentence
   *  around the first 200 characters of the requirements. */
  lemma SummaryWithoutIntro(sections: map<string, string>, requirements: string)
    requires FunctionalSpecKey !in sections || !Contains(sections[FunctionalSpecKey], IntroMarker)
    ensures var r := ExecutiveSummary(sections, requirements);
      StartsWith(r, "Functional specification document addressing the requirements: ") &&
      r[|"Functional specification document addressing the requirements: "|..] == Head(requirements, 200) + "..."
  {
  }

  /** Lines that neither mark, stop, nor are blank or padded. */
  predicate PlainLine(line: string)
  {
    '\n' !in line && !Contains(line, IntroMarker) && !StopsIntro(line) && |line| > 0 && Strip(line) == line
  }

  lemma {:induction false} IntroLinesPlain(body: seq<string>)
    requires forall i :: 0 <= i < |body| ==> PlainLine(body[i])
    ensures IntroLines(body, true) == body
  {
    if |body| > 0 {
      IntroLinesPlain(body[1..]);
      assert body == [body[0]] + body[1..];
    }
  }

  /** An introduction written under its marker heading is the summary,
   *  line for line. */
  lemma SummaryFromIntro(marker: string, body: seq<string>, requirements: string)
    requires '\n' !in marker && Contains(marker, IntroMarker) && |body| > 0
    requires forall i :: 0 <= i < |body| ==> PlainLine(body[i])
    ensures ExecutiveSummary(map[FunctionalSpecKey := Join([marker] + body, "\n")], requirements) == Join(body, "\n")
  {
    var lines := [marker] + body;
    var spec := Join(lines, "\n");
    MarkedSpecSplits(marker, body);
    JoinCons(marker, body, "\n");
    ContainsExtend(marker, "\n" + Join(body, "\n"), IntroMarker);
    IntroLinesPlain(body);
    assert lines[1..] == body;
    assert IntroLines(lines, false) == body;
  }

  lemma MarkedSpecSplits(marker: string, body: seq<string>)
    requires '\n' !in marker && |body| > 0
    requires forall i :: 0 <= i < |body| ==> '\n' !in body[i]
    ensures Split(Join([marker] + body, "\n"), '\n') == [marker] + body
  {
    var lines := [marker] + body;
    forall i | 0 <= i < |lines| ensures '\n' !in lines[i] {
      if i > 0 { assert lines[i] == body[i - 1]; }
    }
    assert "\n" == ['\n'];
    SplitJoin(lines, '\n');
  }

  // ---------------------------------------------------------------------
  // Iterative generation and export

  /** `{**phase1, **phase2}`: every key of either phase, the second phase
   *  winning where both have one. */
  function MergePhases(phase1: Metadata, phase2: Metadata): (r: Metadata)
    ensures r.Keys == phase1.Keys + phase2.Keys
    ensures forall k :: k in phase2 ==> r[k] == phase2[k]
    ensures forall k :: k in phase1 && k !in phase2 ==> r[k] == phase1[k]
  {
    phase1 + phase2
  }

  /** Merging again with the second phase changes nothing. */
  lemma MergeSettles(phase1: Metadata, phase2: Metadata)
    ensures MergePhases(MergePhases(phase1, phase2), phase2) == MergePhases(phase1, phase2)
  {
  }

  datatype Export = AsMarkdown(spec: Metadata) | AsJson(spec: Metadata)

  /** `export_specification_document`; the rendering itself is left out. */
  function ExportSpecification(specs: map<string, Metadata>, projectId: string, format: string): (r: Result<Export>)
    ensures r.Ok? <==> projectId in specs && ToLower(format) in {"markdown", "json"}
    ensures r.Ok? ==> r.value.spec == specs[projectId] && (r.value.AsMarkdown? <==> ToLower(format) == "markdown")
    ensures projectId !in specs ==> r == Err("No specification found for project " + projectId)
  {
    if projectId !in specs then Err("No specification found for project " + projectId)
    else if ToLower(format) == "markdown" then Ok(AsMarkdown(specs[projectId]))
    else if ToLower(format) == "json" then Ok(AsJson(specs[projectId]))
    else Err("Unsupported export format: " + format)
  }

  /** The format name is read without regard to ASCII case. */
  lemma ExportIgnoresCase(specs: map<string, Metadata>, projectId: string, f: string, g: string)
    requires ToLower(f) == ToLower(g) && ExportSpecification(specs, projectId, f).Ok?
    ensures ExportSpecification(specs, projectId, f) == ExportSpecification(specs, projectId, g)
  {
  }
}

=== FILE: mcp_tools.dfy ===
/** The enhanced MCP server's tools: `call_tool` dispatches to five
 *  handlers over the project registry, turns every exception into an error
 *  document naming the tool, and a created project's workflow runs in the
 *  background and reports its phases back to the registry. */
module McpTools {
  import opened Wrappers
  import opened Models
  import opened ProjectRegistry
  import Workflow

  /** The JSON document a tool returns, by kind.  `Failure` is the error
   *  document `{"error", "tool", "timestamp"}` without its timestamp. */
  datatype Output =
    | Created(projectId: string, title: Value, domain: Value, priority: Value, status: string, trackingUri: string)
    | StatusReport(project: Metadata)
    | Listing(projects: seq<Metadata>, totalCount: nat, statusFilter: Value, domainFilter: Value, limit: Value)
    | ArtifactSet(projectId: string, artifacts: map<string, Value>, artifactCount: nat)
    | ProgressReport(progress: Progress)
    | Failure(error: string, tool: string)

  /** A file's size and its modification time, as an ISO text. */
  datatype FileStat = FileStat(size: int, modified: string)

  /** What the handlers read besides the registry: the clock, the next
   *  uuid4, the JSON files other than `project_summary.json` in each
   *  existing project output directory, by file stem, the parsed
   *  `project_summary.json` of those directories that have one, and the
   *  size and time of a file given by project and stem. */
  datatype Env = Env(now: string, freshId: string, outputDirs: map<string, map<string, Value>>,
                     summaries: map<string, Metadata>, stat: (string, string) -> FileStat)

  const SummaryStem: string := "project_summary"

  const ToolNames: seq<string> :=
    ["create_project", "get_project_status", "list_projects", "get_project_artifacts", "monitor_project_progress"]

  /** The text of a KeyError: the quoted key. */
  function KeyError(key: string): string
  {
    "'" + key + "'"
  }

  /** `arguments[key]`: a missing key is a KeyError. */
  function Required(args: Metadata, key: string): (r: Result<Value>)
    ensures r.Ok? <==> key in args
    ensures r.Ok? ==> r.value == args[key]
    ensures r.Err? ==> r.error == KeyError(key)
  {
    if key in args then Ok(args[key]) else Err(KeyError(key))
  }

  /** A string argument; a value of another kind is rejected. */
  function TextArg(args: Metadata, key: string): (r: Result<string>)
    ensures r.Ok? <==> key in args && args[key].VStr?
    ensures r.Ok? ==> args[key] == VStr(r.value)
    ensures key !in args ==> r == Err(KeyError(key))
  {
    var v := Required(args, key);
    if v.Err? then Err(v.error)
    else if v.value.VStr? then Ok(v.value.s)
    else Err("argument '" + key + "' is not a string")
  }

  // ---------------------------------------------------------------------
  // create_project

  /** The message of the TypeError `json.dumps` raises on a coroutine. */
  const CoroutineError: string := "Object of type coroutine is not JSON serializable"

  /** `handle_create_project_enhanced` as written: `create_project` resolves
   *  to the async method, so the call only builds a coroutine and stores
   *  nothing; `update_project` on that coroutine finds no project; and the
   *  coroutine in the result document makes `json.dumps` raise. */
  function CreateToolAsWritten(reg: Registry, args: Metadata): (r: (Registry, Output))
    ensures r.0 == reg
    ensures "specification" !in args ==> r.1 == Failure(KeyError("specification"), "create_project")
    ensures "specification" in args ==> r.1 == Failure(CoroutineError, "create_project")
  {
    var spec := Required(args, "specification");
    if spec.Err? then (reg, Failure(spec.error, "create_project"))
    else (reg, Failure(CoroutineError, "create_project"))
  }

  /** The arguments' title, defaulting to "Untitled Project". */
  function TitleArg(args: Metadata): Value { Get(args, "title", VStr("Untitled Project")) }

  /** The arguments' domain, defaulting to "general". */
  function DomainArg(args: Metadata): Value { Get(args, "domain", VStr("general")) }

  /** The arguments' priority, defaulting to "medium". */
  function PriorityArg(args: Metadata): Value { Get(args, "priority", VStr("medium")) }

  /** `handle_create_project_enhanced` as intended: the synchronous
   *  `create_project` stores a record under a fresh id, the priority and
   *  the two "TBD" estimates are merged in, and the document echoes the
   *  arguments. */
  function CreateTool(reg: Registry, args: Metadata, env: Env): (r: (Registry, Output))
    requires reg.Valid()
    ensures r.0.Valid()
    ensures "specification" !in args ==> r == (reg, Failure(KeyError("specification"), "create_project"))
    ensures "specification" in args ==>
      env.freshId in r.0.records &&
      (env.freshId !in reg.records ==> r.0.ids == reg.ids + [env.freshId]) &&
      r.1 == Created(env.freshId, TitleArg(args), DomainArg(args), PriorityArg(args), "initiated",
                     ProjectScheme + env.freshId)
  {
    var spec := Required(args, "specification");
    if spec.Err? then (reg, Failure(spec.error, "create_project"))
    else
      var id := env.freshId;
      var reg1 := CreateWithDefaults(reg, id, spec.value, TitleArg(args), DomainArg(args), env.now);
      var reg2 := Update(reg1, id, Estimates(args), env.now);
      (reg2, Created(id, TitleArg(args), DomainArg(args), PriorityArg(args), "initiated", ProjectScheme + id))
  }

  /** The metadata merged into a new project. */
  function Estimates(args: Metadata): (m: Metadata)
    ensures "priority" in m && m["priority"] == PriorityArg(args)
    ensures "complexity" in m && m["complexity"] == VStr("TBD")
    ensures "estimated_duration" in m && m["estimated_duration"] == VStr("TBD")
    ensures m.Keys == {"priority", "complexity", "estimated_duration"}
  {
    map["priority" := PriorityArg(args), "estimated_duration" := VStr("TBD"), "complexity" := VStr("TBD")]
  }

  /** The stored record: initiated, with the specification, the priority
   *  and "TBD" estimates; a falsy title or domain falls back to its default
   *  in the record while the document echoes the argument. */
  lemma CreatedRecord(reg: Registry, args: Metadata, env: Env)
    requires reg.Valid() && "specification" in args
    ensures var r := CreateTool(reg, args, env);
      var id := env.freshId;
      id in r.0.records &&
      Get(r.0.records[id], "status", VNone) == VStr("initiated") &&
      Get(r.0.records[id], "specification", VNone) == args["specification"] &&
      Get(r.0.records[id], "priority", VNone) == PriorityArg(args) &&
      Get(r.0.records[id], "complexity", VNone) == VStr("TBD") &&
      Get(r.0.records[id], "title", VNone) ==
        (if TitleArg(args).Truthy() then TitleArg(args) else VStr("Untitled Project")) &&
      Get(r.0.records[id], "domain", VNone) ==
        (if DomainArg(args).Truthy() then DomainArg(args) else VStr("General"))
  {
    var id := env.freshId;
    var reg1 := CreateWithDefaults(reg, id, args["specification"], TitleArg(args), DomainArg(args), env.now);
    var m := Estimates(args);
    var rec := reg1.records[id];
    CreateToolStores(reg, args, env);
    EstimateKeys(args);
    MergedGet(rec, m, env.now, "status");
    MergedGet(rec, m, env.now, "specification");
    MergedGet(rec, m, env.now, "priority");
    MergedGet(rec, m, env.now, "complexity");
    MergedGet(rec, m, env.now, "title");
    MergedGet(rec, m, env.now, "domain");
  }

  /** The estimates name none of the keys the record is created with. */
  lemma EstimateKeys(args: Metadata)
    ensures "status" !in Estimates(args) && "specification" !in Estimates(args)
    ensures "title" !in Estimates(args) && "domain" !in Estimates(args)
  {
  }

  /** A merged record reads each key from the updates when they name it,
   *  and from the old record otherwise. */
  lemma MergedGet(rec: Metadata, updates: Metadata, now: string, key: string)
    requires key != "updated_at"
    ensures Get((rec + updates)["updated_at" := VStr(now)], key, VNone)
      == if key in updates then updates[key] else Get(rec, key, VNone)
  {
  }

  /** The registry a successful create leaves: the defaults-filled record,
   *  with the estimates merged in. */
  lemma CreateToolStores(reg: Registry, args: Metadata, env: Env)
    requires reg.Valid() && "specification" in args
    ensures var reg1 := CreateWithDefaults(reg, env.freshId, args["specification"], TitleArg(args), DomainArg(args), env.now);
      env.freshId in CreateTool(reg, args, env).0.records &&
      CreateTool(reg, args, env).0.records[env.freshId] ==
        (reg1.records[env.freshId] + Estimates(args))["updated_at" := VStr(env.now)]
  {
    var reg1 := CreateWithDefaults(reg, env.freshId, args["specification"], TitleArg(args), DomainArg(args), env.now);
    assert CreateTool(reg, args, env).0 == Update(reg1, env.freshId, Estimates(args), env.now);
  }

  /** Creating a project leaves every other project as it was. */
  lemma CreateKeepsOthers(reg: Registry, args: Metadata, env: Env, other: string)
    requires reg.Valid() && other != env.freshId
    ensures Lookup(CreateTool(reg, args, env).0, other) == Lookup(reg, other)
  {
  }

  /** The shadowing loses every project: as written the create tool never
   *  stores anything and always answers with an error, where the intended
   *  tool registers the project under its tracking id. */
  lemma CreateFindingShows(reg: Registry, args: Metadata, env: Env)
    requires reg.Valid() && "specification" in args && env.freshId !in reg.records
    ensures CreateToolAsWritten(reg, args).0 == reg && CreateToolAsWritten(reg, args).1.Failure?
    ensures env.freshId !in CreateToolAsWritten(reg, args).0.records
    ensures CreateTool(reg, args, env).1.Created? && env.freshId in CreateTool(reg, args, env).0.records
  {
  }

  // ---------------------------------------------------------------------
  // The read-only tools

  /** The entry `get_project_status` lists for one artifact file. */
  function ArtifactInfo(id: string, stem: string, st: FileStat): Value
  {
    VObj(map["file" := VStr(stem + ".json"), "size" := VInt(st.size), "modified" := VStr(st.modified),
             "uri" := VStr(ArtifactScheme + id + "/" + stem)])
  }

  /** The artifact listing of one output directory. */
  function ArtifactListing(id: string, files: map<string, Value>, stat: (string, string) -> FileStat): (v: Value)
    ensures v.VObj? && v.fields.Keys == files.Keys
    ensures forall stem :: stem in files ==> v.fields[stem] == ArtifactInfo(id, stem, stat(id, stem))
  {
    VObj(map stem | stem in files :: ArtifactInfo(id, stem, stat(id, stem)))
  }

  /** The stored record as `get_project_status` leaves it: when the
   *  project's output directory exists, its summary is merged in and, when
   *  asked for, the artifact listing is added. */
  function Enriched(rec: Metadata, id: string, includeArtifacts: Value, env: Env): (e: Metadata)
    ensures id !in env.outputDirs ==> e == rec
    ensures id in env.outputDirs && includeArtifacts.Truthy() ==>
      "artifacts" in e && e["artifacts"] == ArtifactListing(id, env.outputDirs[id], env.stat)
    ensures id in env.outputDirs && id in env.summaries ==>
      forall k :: k in env.summaries[id] && !(k == "artifacts" && includeArtifacts.Truthy()) ==>
        k in e && e[k] == env.summaries[id][k]
    ensures forall k :: k in rec && !(id in env.outputDirs && id in env.summaries && k in env.summaries[id]) &&
                        !(k == "artifacts" && id in env.outputDirs && includeArtifacts.Truthy()) ==>
      k in e && e[k] == rec[k]
    ensures forall k :: k in e ==>
      k in rec || (id in env.outputDirs && id in env.summaries && k in env.summaries[id]) ||
      (k == "artifacts" && id in env.outputDirs && includeArtifacts.Truthy())
  {
    if id !in env.outputDirs then rec
    else
      var merged := if id in env.summaries then rec + env.summaries[id] else rec;
      if includeArtifacts.Truthy() then merged["artifacts" := ArtifactListing(id, env.outputDirs[id], env.stat)]
      else merged
  }

  /** `handle_get_project_status_enhanced`: the stored record, enriched in
   *  place from the output directory (the record is fetched by reference,
   *  so the registry keeps the enrichment), is reported. */
  function StatusTool(reg: Registry, args: Metadata, env: Env): (r: (Registry, Output))
    requires reg.Valid()
    ensures r.0.Valid() && r.0.ids == reg.ids
    ensures r.1.StatusReport? <==> TextArg(args, "project_id").Ok? && GetStatus(reg, args["project_id"].s).Ok?
    ensures r.1.StatusReport? ==>
      var id := args["project_id"].s;
      r.1.project == Enriched(reg.records[id], id, Get(args, "include_artifacts", VBool(false)), env) &&
      r.0.records == reg.records[id := r.1.project]
    ensures r.1.Failure? ==> r.0 == reg && r.1.tool == "get_project_status"
  {
    var id := TextArg(args, "project_id");
    if id.Err? then (reg, Failure(id.error, "get_project_status"))
    else
      var found := GetStatus(reg, id.value);
      if found.Err? then (reg, Failure(found.error, "get_project_status"))
      else
        var e := Enriched(found.value, id.value, Get(args, "include_artifacts", VBool(false)), env);
        (Put(reg, id.value, e), StatusReport(e))
  }

  /** A status call on a project whose output directory holds a summary
   *  reports and stores the summary's values over the record's, so the
   *  summary's status replaces the stored one for later calls too. */
  lemma StatusAdoptsSummary(reg: Registry, id: string, env: Env)
    requires reg.Valid() && GetStatus(reg, id).Ok?
    requires id in env.outputDirs && id in env.summaries && "status" in env.summaries[id]
    ensures var r := CallTool(reg, "get_project_status", map["project_id" := VStr(id)], env);
      r.1.StatusReport? && id in r.0.records && Get(r.0.records[id], "status", VNone) == env.summaries[id]["status"] &&
      Get(r.1.project, "status", VNone) == env.summaries[id]["status"]
  {
    var args := map["project_id" := VStr(id)];
    assert TextArg(args, "project_id") == Ok(id);
    assert Get(args, "include_artifacts", VBool(false)) == VBool(false);
  }

  /** `projects[:limit]` accepts an int (a bool counts as one), or None for
   *  no cut; anything else raises a TypeError. */
  function LimitOf(limit: Value, count: nat): (r: Result<int>)
    ensures limit.VInt? ==> r == Ok(limit.i)
    ensures limit.VNone? ==> r.Ok? && r.value >= count
    ensures r.Ok? <==> limit.VInt? || limit.VBool? || limit.VNone?
  {
    match limit
    case VInt(n) => Ok(n)
    case VBool(b) => Ok(if b then 1 else 0)
    case VNone => Ok(count)
    case VStr(_) => Err("slice indices must be integers or None or have an __index__ method")
    case VList(_) => Err("slice indices must be integers or None or have an __index__ method")
    case VObj(_) => Err("slice indices must be integers or None or have an __index__ method")
    case VAgent(_) => Err("slice indices must be integers or None or have an __index__ method")
  }

  /** The records of a keyed listing, in order. */
  function RecordsOf(ks: seq<Keyed>): (ps: seq<Metadata>)
    ensures |ps| == |ks| && forall i :: 0 <= i < |ks| ==> ps[i] == ks[i].1
  {
    seq(|ks|, i requires 0 <= i < |ks| => ks[i].1)
  }

  /** `handle_list_projects_enhanced`: a limit of 20 unless given. */
  function ListTool(reg: Registry, args: Metadata): (r: Output)
    requires reg.Valid()
    ensures r.Failure? ==> r.tool == "list_projects"
    ensures r.Listing? ==>
      r.totalCount == |r.projects| && r.limit == Get(args, "limit", VInt(20)) &&
      r.statusFilter == Get(args, "status", VNone) && r.domainFilter == Get(args, "domain", VNone) &&
      (r.limit.VInt? && r.limit.i >= 0 ==> |r.projects| <= r.limit.i) &&
      forall p :: p in r.projects ==>
        p in Values(reg) &&
        (r.statusFilter.Truthy() ==> Get(p, "status", VNone) == r.statusFilter) &&
        (r.domainFilter.Truthy() ==> Get(p, "domain", VNone) == r.domainFilter)
  {
    var status := Get(args, "status", VNone);
    var domain := Get(args, "domain", VNone);
    var limit := Get(args, "limit", VInt(20));
    var n := LimitOf(limit, |reg.ids|);
    if n.Err? then Failure(n.error, "list_projects")
    else
      var listed := ListProjects(reg, status, domain, n.value);
      if listed.Err? then Failure(listed.error, "list_projects")
      else
        var ps := RecordsOf(listed.value);
        assert forall p :: p in ps ==> exists e :: e in listed.value && e.1 == p by {
          forall p | p in ps ensures exists e :: e in listed.value && e.1 == p {
            var i :| 0 <= i < |ps| && ps[i] == p;
            assert listed.value[i] in listed.value;
          }
        }
        Listing(ps, |ps|, status, domain, limit)
  }

  /** `handle_get_project_artifacts_enhanced`: every JSON file of the
   *  project's output directory but the summary, or the one named by
   *  `artifact_type`, which may be the summary. */
  function ArtifactsTool(args: Metadata, env: Env): (r: Output)
    ensures r.Failure? ==> r.tool == "get_project_artifacts"
    ensures r.ArtifactSet? ==>
      r.projectId in env.outputDirs && r.artifactCount == |r.artifacts| &&
      forall k :: k in r.artifacts ==>
        (k in env.outputDirs[r.projectId] && r.artifacts[k] == env.outputDirs[r.projectId][k]) ||
        (k == SummaryStem && r.projectId in env.summaries && r.artifacts[k] == VObj(env.summaries[r.projectId]))
    ensures TextArg(args, "project_id").Ok? && TextArg(args, "project_id").value in env.outputDirs &&
            Get(args, "artifact_type", VStr("all")) == VStr(SummaryStem) ==>
      (TextArg(args, "project_id").value in env.summaries <==> r.ArtifactSet?)
    ensures TextArg(args, "project_id").Ok? && TextArg(args, "project_id").value !in env.outputDirs ==>
      r == Failure("No artifacts found for project " + TextArg(args, "project_id").value, "get_project_artifacts")
  {
    var id := TextArg(args, "project_id");
    if id.Err? then Failure(id.error, "get_project_artifacts")
    else if id.value !in env.outputDirs then Failure("No artifacts found for project " + id.value, "get_project_artifacts")
    else
      var files := env.outputDirs[id.value];
      var kind := Get(args, "artifact_type", VStr("all"));
      if !kind.VStr? then Failure("argument 'artifact_type' is not a string", "get_project_artifacts")
      else if kind.s == "all" then ArtifactSet(id.value, files, |files|)
      else if kind.s == SummaryStem then
        if id.value in env.summaries then ArtifactSet(id.value, map[SummaryStem := VObj(env.summaries[id.value])], 1)
        else Failure("Artifact " + kind.s + " not found for project " + id.value, "get_project_artifacts")
      else if kind.s in files then ArtifactSet(id.value, map[kind.s := files[kind.s]], 1)
      else Failure("Artifact " + kind.s + " not found for project " + id.value, "get_project_artifacts")
  }

  /** `handle_monitor_project_progress`. */
  function MonitorTool(reg: Registry, args: Metadata): (r: Output)
    ensures r.Failure? ==> r.tool == "monitor_project_progress"
    ensures r.ProgressReport? <==> TextArg(args, "project_id").Ok? && Monitor(reg, args["project_id"].s).Ok?
    ensures r.ProgressReport? ==> Monitor(reg, args["project_id"].s) == Ok(r.progress)
  {
    var id := TextArg(args, "project_id");
    if id.Err? then Failure(id.error, "monitor_project_progress")
    else
      var m := Monitor(reg, id.value);
      if m.Err? then Failure(m.error, "monitor_project_progress") else ProgressReport(m.value)
  }

  // ---------------------------------------------------------------------
  // call_tool

  /** `call_tool`: dispatch on the name; an unknown name is a ValueError,
   *  and every error becomes a failure document naming the tool.  Only
   *  `create_project` and `get_project_status` change the registry, and
   *  the status tool only rewrites the record it reports. */
  function CallTool(reg: Registry, name: string, args: Metadata, env: Env): (r: (Registry, Output))
    requires reg.Valid()
    ensures r.0.Valid()
    ensures name !in ToolNames ==> r == (reg, Failure("Unknown tool: " + name, name))
    ensures name != "create_project" && name != "get_project_status" ==> r.0 == reg
    ensures name == "get_project_status" ==>
      r.0.ids == reg.ids && (TextArg(args, "project_id").Err? ==> r.0 == reg) &&
      forall other :: TextArg(args, "project_id") != Ok(other) ==> Lookup(r.0, other) == Lookup(reg, other)
    ensures r.1.Failure? ==> r.1.tool == name
  {
    if name == "create_project" then CreateTool(reg, args, env)
    else if name == "get_project_status" then StatusTool(reg, args, env)
    else if name == "list_projects" then (reg, ListTool(reg, args))
    else if name == "get_project_artifacts" then (reg, ArtifactsTool(args, env))
    else if name == "monitor_project_progress" then (reg, MonitorTool(reg, args))
    else (reg, Failure("Unknown tool: " + name, name))
  }

  /** A created project can be read back: its status and its progress
   *  (nothing completed, all four phases remaining) through the tools, and
   *  its record through the tracking URI. */
  lemma CreatedProjectReadsBack(reg: Registry, args: Metadata, env: Env, artifacts: map<(string, string), string>)
    requires reg.Valid() && "specification" in args
    requires !Strings.Contains(env.freshId, ProjectScheme) && env.freshId !in env.outputDirs
    ensures var r := CallTool(reg, "create_project", args, env);
      var query := map["project_id" := VStr(env.freshId)];
      r.1.Created? && env.freshId in r.0.records &&
      CallTool(r.0, "get_project_status", query, env).1 == StatusReport(r.0.records[env.freshId]) &&
      ReadResource(r.0, r.1.trackingUri, artifacts) == Ok(ProjectResource(r.0.records[env.freshId]))
  {
    var id := env.freshId;
    var r := CreateTool(reg, args, env);
    assert CallTool(reg, "create_project", args, env) == r;
    CreatedRecord(reg, args, env);
    assert r.0.records[id] != map[] by {
      assert Get(r.0.records[id], "status", VNone) == VStr("initiated");
    }
    ProjectUriRoundTrip(r.0, id, artifacts);
    var query := map["project_id" := VStr(id)];
    assert TextArg(query, "project_id") == Ok(id);
    assert CallTool(r.0, "get_project_status", query, env).1 == StatusTool(r.0, query, env).1;
  }

  // ---------------------------------------------------------------------
  // The background workflow

  /** The key under which the workflow state keeps a phase's result. */
  function StateKey(p: Workflow.Phase): string
  {
    match p
    case BusinessAnalysis => "business_analysis"
    case ArchitectureDesign => "system_architecture"
    case ImplementationPlanning => "implementation_plan"
    case TestStrategy => "test_strategy"
  }

  function ResultValue(s: Workflow.ProjectState, p: Workflow.Phase): Value
  {
    if p in s.results then s.results[p] else VNone
  }

  /** The final workflow state as the dictionary stored under
   *  `final_state`. */
  function StateValue(s: Workflow.ProjectState): (v: Value)
    ensures v.VObj? && Get(v.fields, "status", VNone) == VStr(s.status)
    ensures Get(v.fields, "errors", VNone) == Texts(s.errors)
  {
    VObj(map[
      "project_id" := VStr(s.projectId),
      "original_specification" := VStr(s.specification),
      "current_phase" := VStr(s.currentPhase),
      StateKey(Workflow.BusinessAnalysis) := ResultValue(s, Workflow.BusinessAnalysis),
      StateKey(Workflow.ArchitectureDesign) := ResultValue(s, Workflow.ArchitectureDesign),
      StateKey(Workflow.ImplementationPlanning) := ResultValue(s, Workflow.ImplementationPlanning),
      StateKey(Workflow.TestStrategy) := ResultValue(s, Workflow.TestStrategy),
      "messages" := MessagesValue(s.messages),
      "errors" := Texts(s.errors),
      "status" := VStr(s.status)])
  }

  /** The messages as the list of dictionaries the state holds. */
  function MessagesValue(ms: seq<Workflow.ChatMessage>): Value
  {
    VList(seq(|ms|, i requires 0 <= i < |ms| => VObj(map["role" := VStr(ms[i].role), "content" := VStr(ms[i].content)])))
  }

  /** The stored final state carries every workflow message, in order,
   *  each with its role and content. */
  lemma StateKeepsMessages(s: Workflow.ProjectState)
    ensures var ms := Get(StateValue(s).fields, "messages", VNone);
      ms.VList? && |ms.items| == |s.messages| &&
      forall i :: 0 <= i < |s.messages| ==>
        ms.items[i].VObj? &&
        Get(ms.items[i].fields, "role", VNone) == VStr(s.messages[i].role) &&
        Get(ms.items[i].fields, "content", VNone) == VStr(s.messages[i].content)
  {
  }

  /** The workflow's inputs that lie outside this module: the fresh id it
   *  would use, each agent's outcome, and a graph-level exception. */
  datatype WorkflowOracle = WorkflowOracle(freshId: string, agents: Workflow.Phase -> Result<Value>,
                                           graphError: Option<string>)

  /** An agent outcome its node can count: a dictionary whose counted
   *  entry has a length. */
  predicate AgentSucceeds(p: Workflow.Phase, outcome: Result<Value>)
  {
    outcome.Ok? && Workflow.CountOf(outcome.value, Workflow.CountKey(p)).Ok?
  }

  /** The first update of `run_project_workflow_enhanced`. */
  function Started(now: string): Metadata
  {
    map["status" := VStr("in_progress"), "current_phase" := VStr("business_analysis"), "started_at" := VStr(now)]
  }

  /** The four nodes' oracles: each agent's outcome, and the one outcome
   *  every call of the callback has. */
  function Wired(agents: Workflow.Phase -> Result<Value>, callbackError: Option<string>): (t: Workflow.Tools)
    ensures forall p :: t.At(p) == Workflow.NodeOracle(agents(p), callbackError)
  {
    Workflow.Tools(Workflow.NodeOracle(agents(Workflow.BusinessAnalysis), callbackError),
                   Workflow.NodeOracle(agents(Workflow.ArchitectureDesign), callbackError),
                   Workflow.NodeOracle(agents(Workflow.ImplementationPlanning), callbackError),
                   Workflow.NodeOracle(agents(Workflow.TestStrategy), callbackError))
  }

  /** The workflow run with `phase_completed` as its callback, and the
   *  registry after those callbacks.  Whether a callback raises is read
   *  off the registry after the workflow has started. */
  function Phased(reg: Registry, id: string, specification: string, o: WorkflowOracle, now: string)
    : (r: (Registry, Workflow.ProjectState))
    requires reg.Valid()
    ensures r.0.Valid() && r.0.ids == reg.ids
    ensures r.1 == Workflow.RunProject(specification, Some(id), o.freshId, true,
                                       Wired(o.agents, CallbackError(Update(reg, id, Started(now), now), id)),
                                       o.graphError)
  {
    var reg1 := Update(reg, id, Started(now), now);
    var final := Workflow.RunProject(specification, Some(id), o.freshId, true,
                                     Wired(o.agents, CallbackError(reg1, id)), o.graphError);
    (PhasesCompleted(reg1, id, final.callbacks, now), final)
  }

  /** The callback succeeds for a registered project whose
   *  `completed_phases` is a list (or absent), and then every phase whose
   *  node called back is appended, in order, to that list. */
  lemma PhasedCallbacks(reg: Registry, id: string, specification: string, o: WorkflowOracle, now: string)
    requires reg.Valid() && id in reg.records
    requires ListOf(Get(reg.records[id], "completed_phases", VList([]))).Some?
    ensures var r := Phased(reg, id, specification, o, now);
      CallbackError(Update(reg, id, Started(now), now), id).None? && id in r.0.records &&
      Get(r.0.records[id], "completed_phases", VList([])) ==
        VList(ListOf(Get(reg.records[id], "completed_phases", VList([]))).value + Texts(r.1.callbacks).items)
  {
    CallbacksAppend(reg, id, Phased(reg, id, specification, o, now).1.callbacks, now);
  }

  /** `PhasedCallbacks` for any phases the workflow may call back with. */
  lemma CallbacksAppend(reg: Registry, id: string, phases: seq<string>, now: string)
    requires reg.Valid() && id in reg.records
    requires ListOf(Get(reg.records[id], "completed_phases", VList([]))).Some?
    ensures var reg1 := Update(reg, id, Started(now), now);
      var r := PhasesCompleted(reg1, id, phases, now);
      CallbackError(reg1, id).None? && id in r.records &&
      Get(r.records[id], "completed_phases", VList([])) ==
        VList(ListOf(Get(reg.records[id], "completed_phases", VList([]))).value + Texts(phases).items)
  {
    var reg1 := Update(reg, id, Started(now), now);
    assert Get(reg1.records[id], "completed_phases", VList([])) == Get(reg.records[id], "completed_phases", VList([]));
    PhasesCompletedAppend(reg1, id, ListOf(Get(reg1.records[id], "completed_phases", VList([]))).value, phases, now);
  }

  /** The callback raises for an unregistered project or a
   *  `completed_phases` that is not a list, and then the callbacks change
   *  nothing: the registry is left as the workflow's start made it. */
  lemma PhasedCallbacksRaise(reg: Registry, id: string, specification: string, o: WorkflowOracle, now: string)
    requires reg.Valid()
    requires id !in reg.records || ListOf(Get(reg.records[id], "completed_phases", VList([]))).None?
    ensures CallbackError(Update(reg, id, Started(now), now), id).Some?
    ensures Phased(reg, id, specification, o, now).0 == Update(reg, id, Started(now), now)
  {
    CallbacksRaise(reg, id, Phased(reg, id, specification, o, now).1.callbacks, now);
  }

  /** `PhasedCallbacksRaise` for any phases the workflow may call back with. */
  lemma CallbacksRaise(reg: Registry, id: string, phases: seq<string>, now: string)
    requires reg.Valid()
    requires id !in reg.records || ListOf(Get(reg.records[id], "completed_phases", VList([]))).None?
    ensures var reg1 := Update(reg, id, Started(now), now);
      CallbackError(reg1, id).Some? && PhasesCompleted(reg1, id, phases, now) == reg1
  {
    var reg1 := Update(reg, id, Started(now), now);
    assert id in reg.records ==>
      Get(reg1.records[id], "completed_phases", VList([])) == Get(reg.records[id], "completed_phases", VList([]));
    PhasesCompletedRaising(reg1, id, phases, now);
  }

  /** The last update of a workflow that ended. */
  function Finished(final: Workflow.ProjectState, now: string): (m: Metadata)
    ensures "status" in m && m["status"] == VStr("completed")
    ensures "current_phase" in m && m["current_phase"] == VStr("completed")
    ensures "workflow_completed" in m && m["workflow_completed"] == VBool(true)
    ensures "final_state" in m && m["final_state"] == StateValue(final)
    ensures "completed_phases" !in m && "updated_at" !in m
  {
    map["status" := VStr("completed"), "current_phase" := VStr("completed"), "completed_at" := VStr(now),
        "workflow_completed" := VBool(true), "final_state" := StateValue(final)]
  }

  /** The update of a workflow that raised. */
  function Failed(id: string, error: string, now: string): (m: Metadata)
    ensures "status" in m && m["status"] == VStr("failed")
    ensures "error" in m && m["error"] == VStr("Enhanced workflow failed for project " + id + ": " + error)
    ensures "completed_phases" !in m && "updated_at" !in m
  {
    map["status" := VStr("failed"), "error" := VStr("Enhanced workflow failed for project " + id + ": " + error),
        "failed_at" := VStr(now)]
  }

  /** The TypeError raised by awaiting the dictionary the synchronous
   *  workflow returns. */
  const AwaitError: string := "object dict can't be used in 'await' expression"

  /** `run_project_workflow_enhanced` as written: the synchronous workflow
   *  runs to its end, calling back as phases complete, and the `await` on
   *  its result then raises, so the project is always marked failed. */
  function RunWorkflowAsWritten(reg: Registry, id: string, specification: string, o: WorkflowOracle, now: string)
    : (r: Registry)
    requires reg.Valid()
    ensures r.Valid() && r.ids == reg.ids
    ensures id in reg.records <==> id in r.records
    ensures id in reg.records ==>
      Get(r.records[id], "status", VNone) == VStr("failed") &&
      Get(r.records[id], "error", VNone) == VStr("Enhanced workflow failed for project " + id + ": " + AwaitError)
  {
    var phased := Phased(reg, id, specification, o, now);
    var m := Failed(id, AwaitError, now);
    if id in phased.0.records then
      UpdateSets(phased.0, id, m, now, "status");
      UpdateSets(phased.0, id, m, now, "error");
      Update(phased.0, id, m, now)
    else Update(phased.0, id, m, now)
  }

  /** `run_project_workflow_enhanced` as intended: the workflow's result
   *  is used directly, and the project is marked completed with the final
   *  state attached, whatever errors that state records. */
  function RunWorkflow(reg: Registry, id: string, specification: string, o: WorkflowOracle, now: string)
    : (r: Registry)
    requires reg.Valid()
    ensures r.Valid() && r.ids == reg.ids
    ensures id in reg.records <==> id in r.records
    ensures id in reg.records ==>
      Get(r.records[id], "status", VNone) == VStr("completed") &&
      Get(r.records[id], "current_phase", VNone) == VStr("completed") &&
      Get(r.records[id], "workflow_completed", VNone) == VBool(true) &&
      Get(r.records[id], "final_state", VNone) ==
        StateValue(Phased(reg, id, specification, o, now).1)
  {
    var phased := Phased(reg, id, specification, o, now);
    var m := Finished(phased.1, now);
    if id in phased.0.records then
      UpdateSets(phased.0, id, m, now, "status");
      UpdateSets(phased.0, id, m, now, "current_phase");
      UpdateSets(phased.0, id, m, now, "workflow_completed");
      UpdateSets(phased.0, id, m, now, "final_state");
      Update(phased.0, id, m, now)
    else Update(phased.0, id, m, now)
  }

  /** A workflow for an unregistered project changes nothing. */
  lemma RunWorkflowUnknown(reg: Registry, id: string, specification: string, o: WorkflowOracle, now: string)
    requires reg.Valid() && id !in reg.records
    ensures RunWorkflow(reg, id, specification, o, now) == reg
    ensures RunWorkflowAsWritten(reg, id, specification, o, now) == reg
  {
    PhasedCallbacksRaise(reg, id, specification, o, now);
  }

  /** When every agent succeeds the callbacks record all four phases in
   *  order. */
  lemma CleanRunPhases(reg: Registry, id: string, specification: string, o: WorkflowOracle, now: string)
    requires reg.Valid() && id in reg.records && id != ""
    requires Get(reg.records[id], "completed_phases", VNone) == VList([])
    requires o.graphError.None? && forall p :: AgentSucceeds(p, o.agents(p))
    ensures var r := Phased(reg, id, specification, o, now).0;
      id in r.records && Get(r.records[id], "completed_phases", VNone) == Texts(DefaultPhases)
  {
    CleanRunCallsBack(reg, id, specification, o, now);
    PhasedCallbacks(reg, id, specification, o, now);
    var r := Phased(reg, id, specification, o, now).0;
    assert [] + Texts(DefaultPhases).items == Texts(DefaultPhases).items;
    assert "completed_phases" in r.records[id] by {
      assert Get(r.records[id], "completed_phases", VList([])) == Texts(DefaultPhases);
    }
  }

  /** When every agent succeeds and the callback does not raise, every
   *  node calls back, in order. */
  lemma CleanRunCallsBack(reg: Registry, id: string, specification: string, o: WorkflowOracle, now: string)
    requires reg.Valid() && id in reg.records
    requires Get(reg.records[id], "completed_phases", VNone) == VList([])
    requires o.graphError.None? && forall p :: AgentSucceeds(p, o.agents(p))
    ensures Phased(reg, id, specification, o, now).1.callbacks == DefaultPhases
  {
    var reg1 := Update(reg, id, Started(now), now);
    var tools := Wired(o.agents, CallbackError(reg1, id));
    assert Get(reg1.records[id], "completed_phases", VList([])) == VList([]);
    assert forall p :: Workflow.Succeeds(p, tools.At(p));
    Workflow.CleanRunCallbacks(specification, Some(id), o.freshId, tools);
  }

  /** The await on the synchronous workflow marks a fully successful run
   *  as failed: every phase is recorded as completed and yet the status
   *  says failed, where the intended code reports it completed. */
  lemma WorkflowFindingShows(reg: Registry, id: string, specification: string, o: WorkflowOracle, now: string)
    requires reg.Valid() && id in reg.records && id != ""
    requires Get(reg.records[id], "completed_phases", VNone) == VList([])
    requires o.graphError.None? && forall p :: AgentSucceeds(p, o.agents(p))
    ensures var w := RunWorkflowAsWritten(reg, id, specification, o, now);
      id in w.records && Get(w.records[id], "completed_phases", VNone) == Texts(DefaultPhases) &&
      Get(w.records[id], "status", VNone) == VStr("failed")
    ensures var c := RunWorkflow(reg, id, specification, o, now);
      id in c.records && Get(c.records[id], "completed_phases", VNone) == Texts(DefaultPhases) &&
      Get(c.records[id], "status", VNone) == VStr("completed")
  {
    CleanRunPhases(reg, id, specification, o, now);
    var phased := Phased(reg, id, specification, o, now);
    UpdateKeeps(phased.0, id, Failed(id, AwaitError, now), now, "completed_phases");
    UpdateKeeps(phased.0, id, Finished(phased.1, now), now, "completed_phases");
  }
}

=== FILE: models.dfy ===
/** The shared records and closed enumerations every agent exchanges. */
module Models {
  import opened Wrappers
  import opened Strings

  datatype AgentType = BA | Architect | Developer | Tester | Orchestrator
  {
    /** The enumeration's string value. */
    function Name(): string
    {
      match this
      case BA => "ba"
      case Architect => "architect"
      case Developer => "developer"
      case Tester => "tester"
      case Orchestrator => "orchestrator"
    }
  }

  datatype MessageType = Specification | Query | Response | Approval | Artifact | Error | Status
  {
    function Name(): string
    {
      match this
      case Specification => "specification"
      case Query => "query"
      case Response => "response"
      case Approval => "approval"
      case Artifact => "artifact"
      case Error => "error"
      case Status => "status"
    }
  }

  datatype Priority = Low | Medium | High | Critical
  {
    function Name(): string
    {
      match this
      case Low => "low"
      case Medium => "medium"
      case High => "high"
      case Critical => "critical"
    }
  }

  datatype ProjectDomain = Financial | Manufacturing | Healthcare | Ecommerce | Education | Logistics | General
  {
    function Name(): string
    {
      match this
      case Financial => "financial"
      case Manufacturing => "manufacturing"
      case Healthcare => "healthcare"
      case Ecommerce => "ecommerce"
      case Education => "education"
      case Logistics => "logistics"
      case General => "general"
    }
  }

  /** Every agent type, in declaration order, with pairwise distinct values. */
  function AllAgentTypes(): (r: seq<AgentType>)
    ensures |r| == 5
    ensures forall i, j :: 0 <= i < j < |r| ==> r[i].Name() != r[j].Name()
  {
    [BA, Architect, Developer, Tester, Orchestrator]
  }

  function AllMessageTypes(): (r: seq<MessageType>)
    ensures |r| == 7
    ensures forall i, j :: 0 <= i < j < |r| ==> r[i].Name() != r[j].Name()
  {
    [Specification, Query, Response, Approval, Artifact, Error, Status]
  }

  function AllPriorities(): (r: seq<Priority>)
    ensures |r| == 4
    ensures forall i, j :: 0 <= i < j < |r| ==> r[i].Name() != r[j].Name()
  {
    [Low, Medium, High, Critical]
  }

  function AllDomains(): (r: seq<ProjectDomain>)
    ensures |r| == 7 && General in r
    ensures forall i, j :: 0 <= i < j < |r| ==> r[i].Name() != r[j].Name()
  {
    [Financial, Manufacturing, Healthcare, Ecommerce, Education, Logistics, General]
  }

  /** Each enumeration lists every one of its members. */
  lemma EnumerationsClosed(a: AgentType, t: MessageType, p: Priority, d: ProjectDomain)
    ensures a in AllAgentTypes() && t in AllMessageTypes()
    ensures p in AllPriorities() && d in AllDomains()
  {
    match a {
      case BA =>
      case Architect =>
      case Developer =>
      case Tester =>
      case Orchestrator =>
    }
    match t {
      case Specification =>
      case Query =>
      case Response =>
      case Approval =>
      case Artifact =>
      case Error =>
      case Status =>
    }
    match p {
      case Low =>
      case Medium =>
      case High =>
      case Critical =>
    }
    match d {
      case Financial =>
      case Manufacturing =>
      case Healthcare =>
      case Ecommerce =>
      case Education =>
      case Logistics =>
      case General =>
    }
  }

  /** `Priority(s)`: the member whose value is `s`; Python raises ValueError
   *  for any other string, modelled as `None`. */
  function ParsePriority(s: string): (r: Option<Priority>)
    ensures r.Some? ==> r.value.Name() == s
    ensures r.None? ==> forall p: Priority :: p.Name() != s
  {
    if s == "low" then Some(Low)
    else if s == "medium" then Some(Medium)
    else if s == "high" then Some(High)
    else if s == "critical" then Some(Critical)
    else None
  }

  /** `ProjectDomain(s)`, with the same error convention. */
  function ParseDomain(s: string): (r: Option<ProjectDomain>)
    ensures r.Some? ==> r.value.Name() == s
    ensures r.None? ==> forall d: ProjectDomain :: d.Name() != s
  {
    if s == "financial" then Some(Financial)
    else if s == "manufacturing" then Some(Manufacturing)
    else if s == "healthcare" then Some(Healthcare)
    else if s == "ecommerce" then Some(Ecommerce)
    else if s == "education" then Some(Education)
    else if s == "logistics" then Some(Logistics)
    else if s == "general" then Some(General)
    else None
  }

  /** Parsing a member's own value gives the member back. */
  lemma ParseNameRoundTrip(p: Priority, d: ProjectDomain)
    ensures ParsePriority(p.Name()) == Some(p)
    ensures ParseDomain(d.Name()) == Some(d)
  {
  }

  /** A JSON-like value as found in message metadata and parsed replies.
   *  `VAgent` is an `AgentType` member stored in a metadata dict. */
  datatype Value =
    | VNone
    | VBool(b: bool)
    | VInt(i: int)
    | VStr(s: string)
    | VList(items: seq<Value>)
    | VObj(fields: map<string, Value>)
    | VAgent(agent: AgentType)
  {
    /** Python truthiness. */
    predicate Truthy()
    {
      match this
      case VNone => false
      case VBool(b) => b
      case VInt(i) => i != 0
      case VStr(s) => |s| > 0
      case VList(items) => |items| > 0
      case VObj(fields) => |fields| > 0
      case VAgent(_) => true
    }

    /** Whether a `for` loop can run over the value: lists, strings (an
     *  `AgentType` is a `str` enum) and dicts are iterable. */
    predicate Iterable()
    {
      VList? || VStr? || VObj? || VAgent?
    }
  }

  type Metadata = map<string, Value>

  /** `d.get(key, default)`. */
  function Get(d: map<string, Value>, key: string, default: Value): (r: Value)
    ensures key in d ==> r == d[key]
    ensures key !in d ==> r == default
  {
    if key in d then d[key] else default
  }

  /** A list of strings as a JSON value. */
  function Texts(xs: seq<string>): (v: Value)
    ensures v.VList? && |v.items| == |xs|
    ensures forall i :: 0 <= i < |xs| ==> v.items[i] == VStr(xs[i])
  {
    VList(seq(|xs|, i requires 0 <= i < |xs| => VStr(xs[i])))
  }

  /** A JSON value read back as a list of strings, as a `List[str]` field
   *  validates it; anything else is rejected. */
  function AsTexts(v: Value): (r: Option<seq<string>>)
    ensures r.Some? <==> v.VList? && forall i :: 0 <= i < |v.items| ==> v.items[i].VStr?
    ensures r.Some? ==> Texts(r.value) == v
  {
    if v.VList? && forall i :: 0 <= i < |v.items| ==> v.items[i].VStr? then
      var xs := seq(|v.items|, i requires 0 <= i < |v.items| => v.items[i].s);
      assert Texts(xs).items == v.items;
      Some(xs)
    else None
  }

  /** The name of a value's Python type, as error messages print it. */
  function TypeName(v: Value): string
  {
    match v
    case VNone => "NoneType"
    case VBool(_) => "bool"
    case VInt(_) => "int"
    case VStr(_) => "str"
    case VList(_) => "list"
    case VObj(_) => "dict"
    case VAgent(_) => "AgentType"
  }

  /** The TypeError a `for` over a value that is not iterable raises. */
  function NotIterable(v: Value): string
  {
    "'" + TypeName(v) + "' object is not iterable"
  }

  /** `k` is the least of the keys `ks` in Python's string order. */
  predicate Least(k: string, ks: set<string>)
  {
    k in ks && forall j :: j in ks && j != k ==> Below(k, j)
  }

  lemma {:induction false} LeastExists(ks: set<string>)
    requires ks != {}
    ensures exists k :: Least(k, ks)
    decreases |ks|
  {
    var x :| x in ks;
    var rest := ks - {x};
    if rest != {} {
      LeastExists(rest);
      var m :| Least(m, rest);
      BelowTotal(x, m);
      if Below(x, m) {
        forall j | j in ks && j != x ensures Below(x, j) {
          if j != m { BelowTransitive(x, m, j); }
        }
        assert Least(x, ks);
      } else {
        assert Least(m, ks);
      }
    } else {
      assert ks == {x};
      assert Least(x, ks);
    }
  }

  lemma LeastUnique(ks: set<string>)
    ensures forall a, b :: Least(a, ks) && Least(b, ks) ==> a == b
  {
    forall a, b | Least(a, ks) && Least(b, ks) ensures a == b {
      if a != b {
        BelowTransitive(a, b, a);
        BelowIrreflexive(a);
      }
    }
  }

  /** The keys of a dict, each once, in ascending order.  Python iterates a
   *  dict in insertion order, which a map does not keep; ascending order
   *  stands in for it. */
  function KeysInOrder(ks: set<string>): (r: seq<string>)
    ensures |r| == |ks|
    ensures forall i :: 0 <= i < |r| ==> r[i] in ks
    ensures forall k :: k in ks ==> k in r
    ensures forall i, j :: 0 <= i < j < |r| ==> Below(r[i], r[j])
    decreases |ks|
  {
    if ks == {} then []
    else
      LeastExists(ks);
      LeastUnique(ks);
      var k :| Least(k, ks);
      [k] + KeysInOrder(ks - {k})
  }

  /** The one-character strings a `for` over a string yields. */
  function CharTexts(text: string): (r: seq<Value>)
    ensures |r| == |text| && forall i :: 0 <= i < |text| ==> r[i] == VStr([text[i]])
  {
    seq(|text|, i requires 0 <= i < |text| => VStr([text[i]]))
  }

  /** The keys a `for` over a dict yields, each once. */
  function KeyTexts(fields: Metadata): (r: seq<Value>)
    ensures |r| == |fields.Keys|
    ensures forall i :: 0 <= i < |r| ==> r[i].VStr? && r[i].s in fields
    ensures forall k :: k in fields ==> VStr(k) in r
  {
    var ks := KeysInOrder(fields.Keys);
    var r := Texts(ks).items;
    assert forall k :: k in fields ==> VStr(k) in r by {
      forall k | k in fields ensures VStr(k) in r {
        var i :| 0 <= i < |ks| && ks[i] == k;
        assert r[i] == VStr(k);
      }
    }
    r
  }

  /** A `for` loop over a value: a list gives its items, a string its
   *  one-character strings, a dict its keys; anything else raises. */
  function Iterate(v: Value): (r: Result<seq<Value>>)
    ensures r.Ok? <==> v.Iterable()
    ensures r.Err? ==> r.error == NotIterable(v)
    ensures v.VList? ==> r == Ok(v.items)
    ensures v.VStr? ==> r == Ok(CharTexts(v.s))
    ensures v.VObj? ==> r == Ok(KeyTexts(v.fields))
  {
    match v
    case VList(items) => Ok(items)
    case VStr(text) => Ok(CharTexts(text))
    case VAgent(a) => Ok(CharTexts(a.Name()))
    case VObj(fields) => Ok(KeyTexts(fields))
    case _ => Err(NotIterable(v))
  }

  /** `list.extend(extra)` on a value: only a list has `extend`, and the
   *  argument must be iterable; the list grows by the argument's items. */
  function Extend(list: Value, extra: Value): (r: Result<Value>)
    ensures r.Ok? <==> list.VList? && extra.Iterable()
    ensures r.Ok? ==> r.value == VList(list.items + Iterate(extra).value)
    ensures !list.VList? ==> r == Err("'" + TypeName(list) + "' object has no attribute 'extend'")
  {
    if !list.VList? then Err("'" + TypeName(list) + "' object has no attribute 'extend'")
    else match Iterate(extra)
      case Err(e) => Err(e)
      case Ok(xs) => Ok(VList(list.items + xs))
  }

  /** `repr(s)` of a string: single quotes, or double quotes when the text
   *  holds a single quote and no double quote. */
  function QuoteText(text: string): string
  {
    if '\'' in text && '"' !in text then "\"" + text + "\"" else "'" + text + "'"
  }

  /** `str(v)`: `None`, `True`, `False`, digits, a string's own text, and
   *  the bracketed `repr`s of a list's items or a dict's entries. */
  function Str(v: Value): string
    decreases v, 0
  {
    match v
    case VNone => "None"
    case VBool(b) => if b then "True" else "False"
    case VInt(i) => IntToString(i)
    case VStr(text) => text
    case VAgent(a) => a.Name()
    case VList(items) => "[" + Join(seq(|items|, i requires 0 <= i < |items| => Repr(items[i])), ", ") + "]"
    case VObj(fields) =>
      var ks := KeysInOrder(fields.Keys);
      "{" + Join(seq(|ks|, i requires 0 <= i < |ks| => QuoteText(ks[i]) + ": " + Repr(fields[ks[i]])), ", ") + "}"
  }

  /** `repr(v)`: a string is quoted, anything else is written as `str`. */
  function Repr(v: Value): string
    decreases v, 1
  {
    if v.VStr? then QuoteText(v.s) else Str(v)
  }

  /** `str` of each value, in order. */
  function StrEach(vs: seq<Value>): (r: seq<string>)
    ensures |r| == |vs| && forall i :: 0 <= i < |vs| ==> r[i] == Str(vs[i])
  {
    seq(|vs|, i requires 0 <= i < |vs| => Str(vs[i]))
  }

  /** `str` gives a list of strings back as the strings themselves. */
  lemma StrEachTexts(xs: seq<string>)
    ensures StrEach(Texts(xs).items) == xs
  {
  }

  /** The lists of a design review that a prompt runs a `for` over: its
   *  concerns, missing requirements and recommendations (empty lists when
   *  absent). */
  predicate ReviewListsIterate(review: Metadata)
  {
    Get(review, "concerns", VList([])).Iterable() && Get(review, "missing_requirements", VList([])).Iterable() &&
    Get(review, "recommendations", VList([])).Iterable()
  }

  /** Reading back a written list of strings gives the list. */
  lemma TextsRoundTrip(xs: seq<string>)
    ensures AsTexts(Texts(xs)) == Some(xs)
  {
    var v := Texts(xs);
    assert forall i :: 0 <= i < |v.items| ==> v.items[i].VStr?;
    var r := AsTexts(v);
    assert |r.value| == |xs|;
    assert forall i :: 0 <= i < |xs| ==> r.value[i] == xs[i] by {
      forall i | 0 <= i < |xs| ensures r.value[i] == xs[i] {
        assert Texts(r.value).items[i] == v.items[i];
      }
    }
    assert r.value == xs;
  }

  /** Message ids are uuid4 strings in Python; here they are naturals drawn
   *  from a per-sender counter, which keeps them distinct. */
  type MessageId = nat

  datatype Message = Message(
    id: MessageId,
    fromAgent: AgentType,
    toAgent: AgentType,
    kind: MessageType,
    content: string,
    metadata: Metadata,
    projectId: string,
    priority: Priority)

  /** A `Message` built without the optional fields takes their defaults. */
  function NewMessage(id: MessageId, fromAgent: AgentType, toAgent: AgentType,
                      kind: MessageType, content: string, projectId: string): (m: Message)
    ensures m.priority == Medium && m.metadata == map[]
    ensures m.id == id && m.fromAgent == fromAgent && m.toAgent == toAgent
    ensures m.kind == kind && m.content == content && m.projectId == projectId
  {
    Message(id, fromAgent, toAgent, kind, content, map[], projectId, Medium)
  }

  /** Completion is a percentage; every value the code assigns is whole. */
  datatype ProjectStatus = ProjectStatus(
    projectId: string,
    currentPhase: string,
    completion: int,
    activeAgents: seq<AgentType>,
    issues: seq<string>,
    nextActions: seq<string>)

  /** A `ProjectStatus` built without issues or next actions. */
  function NewProjectStatus(projectId: string, phase: string, completion: int,
                            agents: seq<AgentType>): (s: ProjectStatus)
    ensures s.issues == [] && s.nextActions == []
    ensures s.projectId == projectId && s.currentPhase == phase
    ensures s.completion == completion && s.activeAgents == agents
  {
    ProjectStatus(projectId, phase, completion, agents, [], [])
  }

  /** The requirements and constraints are declared `List[str]`, but
   *  pydantic does not validate assignment, so they hold whatever value an
   *  analysis assigned to them. */
  datatype ProjectSpecification = ProjectSpecification(
    id: string,
    title: string,
    description: string,
    domain: ProjectDomain,
    requirements: Value,
    constraints: Value)

  datatype UserStory = UserStory(
    id: string,
    title: string,
    description: string,
    acceptanceCriteria: seq<string>,
    gherkinScenarios: seq<string>,
    priority: Priority,
    storyPoints: Option<int>,
    dependencies: seq<string>,
    tags: seq<string>)

  /** `story.dict()`: a user story as a JSON object. */
  function StoryValue(u: UserStory): Value
  {
    VObj(map["id" := VStr(u.id), "title" := VStr(u.title), "description" := VStr(u.description),
             "acceptance_criteria" := Texts(u.acceptanceCriteria),
             "gherkin_scenarios" := Texts(u.gherkinScenarios),
             "priority" := VStr(u.priority.Name()),
             "story_points" := if u.storyPoints.Some? then VInt(u.storyPoints.value) else VNone,
             "dependencies" := Texts(u.dependencies), "tags" := Texts(u.tags)])
  }

  function StoriesValue(us: seq<UserStory>): (v: Value)
    ensures v.VList? && |v.items| == |us|
  {
    VList(seq(|us|, i requires 0 <= i < |us| => StoryValue(us[i])))
  }

  /** The keys `UserStory` requires. */
  predicate HasStoryKeys(f: Metadata)
  {
    "id" in f && "title" in f && "description" in f && "acceptance_criteria" in f &&
    "gherkin_scenarios" in f && "priority" in f
  }

  /** `UserStory(**story_data)`: the required fields must be present and
   *  well-typed, the priority must be a member's value, and the optional
   *  fields take their defaults. */
  function ReadStory(v: Value): (r: Result<UserStory>)
    ensures r.Ok? ==> v.VObj? && HasStoryKeys(v.fields)
    ensures r.Ok? ==>
      var f := v.fields;
      f["id"] == VStr(r.value.id) && f["title"] == VStr(r.value.title) &&
      f["description"] == VStr(r.value.description) &&
      f["acceptance_criteria"] == Texts(r.value.acceptanceCriteria) &&
      f["gherkin_scenarios"] == Texts(r.value.gherkinScenarios) &&
      f["priority"] == VStr(r.value.priority.Name()) &&
      Get(f, "story_points", VNone) == (if r.value.storyPoints.Some? then VInt(r.value.storyPoints.value) else VNone) &&
      Get(f, "dependencies", VList([])) == Texts(r.value.dependencies) &&
      Get(f, "tags", VList([])) == Texts(r.value.tags)
    ensures v.VObj? && !HasStoryKeys(v.fields) ==> r.Err?
  {
    if !v.VObj? then Err("argument after ** must be a mapping")
    else if !HasStoryKeys(v.fields) then Err("validation error for UserStory")
    else
      var f := v.fields;
      var criteria := AsTexts(f["acceptance_criteria"]);
      var scenarios := AsTexts(f["gherkin_scenarios"]);
      var dependencies := AsTexts(Get(f, "dependencies", VList([])));
      var tags := AsTexts(Get(f, "tags", VList([])));
      var points := Get(f, "story_points", VNone);
      var priority := f["priority"];
      if f["id"].VStr? && f["title"].VStr? && f["description"].VStr? && criteria.Some? && scenarios.Some? &&
         dependencies.Some? && tags.Some? && (points.VNone? || points.VInt?) &&
         priority.VStr? && ParsePriority(priority.s).Some? then
        Ok(UserStory(f["id"].s, f["title"].s, f["description"].s, criteria.value, scenarios.value,
                     ParsePriority(priority.s).value, if points.VInt? then Some(points.i) else None,
                     dependencies.value, tags.value))
      else Err("validation error for UserStory")
  }

  /** The story loop: every entry in order; the first bad one raises. */
  function ReadStories(vs: seq<Value>): (r: Result<seq<UserStory>>)
    ensures r.Ok? ==> |r.value| == |vs|
    decreases |vs|
  {
    if |vs| == 0 then Ok([])
    else
      var head := ReadStory(vs[0]);
      var tail := ReadStories(vs[1..]);
      if head.Err? then Err(head.error)
      else if tail.Err? then Err(tail.error)
      else Ok([head.value] + tail.value)
  }

  /** `for story_data in user_stories_data`: a list is read entry by entry;
   *  an empty string or object iterates nothing; anything else yields
   *  values that are not mappings, or is not iterable at all. */
  function ReadStoryList(v: Value): (r: Result<seq<UserStory>>)
    ensures v.VList? ==> r == ReadStories(v.items)
    ensures v == VStr("") || v == VObj(map[]) ==> r == Ok([])
  {
    if v.VList? then ReadStories(v.items)
    else if v == VStr("") || v == VObj(map[]) then Ok([])
    else Err("argument after ** must be a mapping")
  }

  /** Every story is read back unchanged from its `dict()`. */
  lemma StoryRoundTrip(u: UserStory)
    ensures ReadStory(StoryValue(u)) == Ok(u)
  {
    TextsRoundTrip(u.acceptanceCriteria);
    TextsRoundTrip(u.gherkinScenarios);
    TextsRoundTrip(u.dependencies);
    TextsRoundTrip(u.tags);
    ParseNameRoundTrip(u.priority, General);
  }

  /** A list of stories is read back as the same list. */
  lemma {:induction false} StoriesRoundTrip(us: seq<UserStory>)
    ensures ReadStoryList(StoriesValue(us)) == Ok(us)
    decreases |us|
  {
    if |us| > 0 {
      StoryRoundTrip(us[0]);
      StoriesRoundTrip(us[1..]);
      StoriesValueCons(us);
      ReadStoriesCons(StoryValue(us[0]), StoriesValue(us[1..]).items);
    }
  }

  /** The value of a list of stories is the first story's value in front of
   *  the rest's. */
  lemma StoriesValueCons(us: seq<UserStory>)
    requires |us| > 0
    ensures StoriesValue(us).items == [StoryValue(us[0])] + StoriesValue(us[1..]).items
    ensures us == [us[0]] + us[1..]
  {
    assert StoriesValue(us).items[1..] == StoriesValue(us[1..]).items;
  }

  /** Reading a story in front of a readable list. */
  lemma ReadStoriesCons(v: Value, vs: seq<Value>)
    requires ReadStory(v).Ok? && ReadStories(vs).Ok?
    ensures ReadStories([v] + vs) == Ok([ReadStory(v).value] + ReadStories(vs).value)
  {
    assert ([v] + vs)[0] == v && ([v] + vs)[1..] == vs;
  }

  datatype DeveloperPersona = DeveloperPersona(
    id: string,
    name: string,
    expertise: seq<string>,
    experienceLevel: string,
    specialization: string)

  /** The status strings the base agent assigns. */
  datatype AgentStatus = Idle | Working | Stopped
  {
    function Name(): string
    {
      match this
      case Idle => "idle"
      case Working => "working"
      case Stopped => "stopped"
    }
  }

  datatype AgentState = AgentState(
    agentId: string,
    agentType: AgentType,
    status: AgentStatus,
    currentTask: Option<string>,
    assignedProjects: seq<string>)

  /** A freshly constructed agent: idle, no task, no projects. */
  function NewAgentState(agentId: string, agentType: AgentType): (s: AgentState)
    ensures s.status == Idle && s.currentTask == None && s.assignedProjects == []
    ensures s.agentId == agentId && s.agentType == agentType
  {
    AgentState(agentId, agentType, Idle, None, [])
  }
}

=== FILE: orchestrator.dfy ===
/** The orchestrator's project state machine: per-project status records,
 *  an append-only per-project message history, the dispatch on message
 *  type and sender, error recovery with escalation, and the routing of
 *  user clarifications to the last unresolved query. */
module Orchestrator {
  import opened Wrappers
  import opened Strings
  import opened Models
  import opened Agent

  /** How the agent's send primitive behaves for the sends of one step: it
   *  either publishes, or raises with the given message. */
  datatype SendResult = Delivered | Raised(error: string)

  datatype OrchState = OrchState(
    agentId: string,
    projects: map<string, ProjectSpecification>,
    statuses: map<string, ProjectStatus>,
    history: map<string, seq<Message>>)

  /** Records are filed under their own project id, completion stays a
   *  percentage, and every recorded message belongs to the project it is
   *  filed under. */
  predicate Valid(s: OrchState)
  {
    (forall p :: p in s.projects ==> s.projects[p].id == p) &&
    (forall p :: p in s.statuses ==> s.statuses[p].projectId == p && 0 <= s.statuses[p].completion <= 100) &&
    (forall p :: p in s.history ==> forall i :: 0 <= i < |s.history[p]| ==> s.history[p][i].projectId == p)
  }

  function Init(agentId: string): (s: OrchState)
    ensures Valid(s) && s.projects == map[] && s.statuses == map[] && s.history == map[]
  {
    OrchState(agentId, map[], map[], map[])
  }

  function HistoryOf(s: OrchState, projectId: string): seq<Message>
  {
    if projectId in s.history then s.history[projectId] else []
  }

  /** The outbox of a step whose sends all succeed or whose first send raised. */
  function Emit(send: SendResult, os: seq<Outgoing>): seq<Outgoing>
  {
    if send.Delivered? then os else []
  }

  // ---------------------------------------------------------------------
  // Status updates

  /** The optional arguments of `_update_project_status`. */
  datatype StatusUpdate = StatusUpdate(
    phase: Option<string>,
    completion: Option<int>,
    agents: Option<seq<AgentType>>,
    nextActions: Option<seq<string>>,
    issues: Option<seq<string>>)

  /** The record an unknown project id gets before it is updated. */
  function FreshStatus(projectId: string): ProjectStatus
  {
    ProjectStatus(projectId, "unknown", 0, [], [], [])
  }

  function StatusOf(statuses: map<string, ProjectStatus>, projectId: string): ProjectStatus
  {
    if projectId in statuses then statuses[projectId] else FreshStatus(projectId)
  }

  /** `_update_project_status`: a partial update.  An empty or absent phase
   *  and an absent completion leave those fields alone; agents and next
   *  actions are replaced when given; issues are only ever appended; an
   *  unknown project first gets a fresh "unknown" record. */
  function UpdateProjectStatus(statuses: map<string, ProjectStatus>, projectId: string, u: StatusUpdate)
    : (r: map<string, ProjectStatus>)
    ensures r.Keys == statuses.Keys + {projectId}
    ensures forall p :: p in statuses && p != projectId ==> r[p] == statuses[p]
    ensures var before := StatusOf(statuses, projectId);
      var after := r[projectId];
      after.projectId == before.projectId &&
      (u.phase.Some? && u.phase.value != "" ==> after.currentPhase == u.phase.value) &&
      (u.phase.None? || u.phase.value == "" ==> after.currentPhase == before.currentPhase) &&
      (u.completion.Some? ==> after.completion == u.completion.value) &&
      (u.completion.None? ==> after.completion == before.completion) &&
      (u.agents.Some? ==> after.activeAgents == u.agents.value) &&
      (u.agents.None? ==> after.activeAgents == before.activeAgents) &&
      (u.nextActions.Some? ==> after.nextActions == u.nextActions.value) &&
      (u.nextActions.None? ==> after.nextActions == before.nextActions) &&
      (u.issues.Some? ==> after.issues == before.issues + u.issues.value) &&
      (u.issues.None? ==> after.issues == before.issues)
  {
    var before := StatusOf(statuses, projectId);
    var phase := if u.phase.Some? && u.phase.value != "" then u.phase.value else before.currentPhase;
    var issues := if u.issues.Some? then before.issues + u.issues.value else before.issues;
    var after := ProjectStatus(before.projectId, phase, u.completion.GetOr(before.completion),
                               u.agents.GetOr(before.activeAgents), issues,
                               u.nextActions.GetOr(before.nextActions));
    statuses[projectId := after]
  }

  /** A status update with a phase, completion, agents and next actions. */
  function SetTo(phase: string, completion: int, agents: seq<AgentType>, next: string): StatusUpdate
  {
    StatusUpdate(Some(phase), Some(completion), Some(agents), Some([next]), None)
  }

  function Apply(s: OrchState, projectId: string, u: StatusUpdate): (r: OrchState)
    ensures r.history == s.history && r.projects == s.projects && r.agentId == s.agentId
  {
    s.(statuses := UpdateProjectStatus(s.statuses, projectId, u))
  }

  // ---------------------------------------------------------------------
  // Dispatch

  /** `_determine_initial_domain`: the first keyword group found in the
   *  lower-cased specification decides the domain; otherwise general. */
  function InitialDomainRules(): seq<Rule<ProjectDomain>>
  {
    [Rule(["bank", "finance", "payment", "trading"], Financial),
     Rule(["manufactur", "factory", "production"], Manufacturing),
     Rule(["health", "medical", "hospital"], Healthcare),
     Rule(["ecommerce", "shop", "retail"], Ecommerce),
     Rule(["education", "school", "student"], Education),
     Rule(["logistics", "shipping", "delivery"], Logistics)]
  }

  function InitialDomain(specification: string): ProjectDomain
  {
    Classify(ToLower(specification), InitialDomainRules(), General)
  }

  /** `_handle_user_specification`: the project and its first status are
   *  stored before the specification is forwarded to BA, so a failing send
   *  keeps them. */
  function HandleUserSpecification(s: OrchState, m: Message, send: SendResult): (r: (OrchState, seq<Outgoing>))
    ensures var p := m.projectId;
      p in r.0.projects && r.0.projects[p].description == m.content && r.0.projects[p].id == p &&
      r.0.projects[p].domain == InitialDomain(m.content) &&
      r.0.statuses == s.statuses[p := ProjectStatus(p, "requirements_analysis", 0, [BA], [], ["BA Agent analyzing requirements"])] &&
      r.0.history == s.history && r.0.agentId == s.agentId &&
      (forall q :: q in s.projects && q != p ==> q in r.0.projects && r.0.projects[q] == s.projects[q])
    ensures send.Delivered? ==> (|r.1| == 1 && r.1[0].toAgent == BA && r.1[0].kind == Specification &&
                                 r.1[0].content == m.content && r.1[0].projectId == m.projectId)
    ensures send.Raised? ==> r.1 == []
  {
    var p := m.projectId;
    var spec := ProjectSpecification(p, "Project " + p, m.content, InitialDomain(m.content), VList([]), VList([]));
    var status := ProjectStatus(p, "requirements_analysis", 0, [BA], [], ["BA Agent analyzing requirements"]);
    var forward := Outgoing(BA, Specification, m.content, p,
                            Some(map["initiated_by" := VStr("user"), "orchestrator_id" := VStr(s.agentId)]), Medium);
    (s.(projects := s.projects[p := spec], statuses := s.statuses[p := status]), Emit(send, [forward]))
  }

  /** `_handle_agent_query`: whoever asks, the project waits for the user. */
  function HandleAgentQuery(s: OrchState, m: Message): (r: OrchState)
    ensures m.projectId in r.statuses && r.statuses[m.projectId].currentPhase == "awaiting_clarification"
    ensures r.statuses[m.projectId].nextActions == ["Waiting for user response to " + m.fromAgent.Name() + " agent query"]
    ensures r.statuses[m.projectId].completion == StatusOf(s.statuses, m.projectId).completion
    ensures r.projects == s.projects && r.history == s.history && r.agentId == s.agentId
  {
    Apply(s, m.projectId, StatusUpdate(Some("awaiting_clarification"), None, None,
                                        Some(["Waiting for user response to " + m.fromAgent.Name() + " agent query"]), None))
  }

  /** The `phase` marker of a status message (`"unknown"` when absent). */
  function PhaseMarker(m: Message): Value
  {
    Get(m.metadata, "phase", VStr("unknown"))
  }

  /** `_handle_status_update` and its per-sender handlers. */
  function HandleStatusUpdate(s: OrchState, m: Message): (r: OrchState)
    ensures r.history == s.history && r.projects == s.projects && r.agentId == s.agentId
  {
    var p := m.projectId;
    match m.fromAgent
    case BA =>
      if PhaseMarker(m) == VStr("test_preparation_complete") then
        Apply(s, p, SetTo("test_preparation", 20, [Tester], "QA Agent preparing test cases"))
      else if PhaseMarker(m) == VStr("development_complete") then
        Apply(s, p, SetTo("qa_testing", 70, [Tester], "QA Agent testing application"))
      else s
    case Architect =>
      Apply(s, p, SetTo("architecture_design", 30, [Architect, BA], "BA Agent reviewing architecture design"))
    case Developer =>
      if PhaseMarker(m) == VStr("development_complete") then
        Apply(s, p, SetTo("development_complete", 60, [Tester], "QA Agent testing developed application"))
      else s
    case Tester =>
      if Get(m.metadata, "qa_signoff", VBool(false)).Truthy() then
        Apply(s, p, SetTo("completed", 100, [], "Project completed and ready for deployment"))
      else
        Apply(s, p, SetTo("qa_review", 85, [Developer], "Developer fixing issues identified by QA"))
    case Orchestrator => s
  }

  /** `_escalate_error`: the project is failed and one issue is recorded. */
  function Escalate(s: OrchState, projectId: string, details: string): (r: OrchState)
    ensures r.history == s.history && r.projects == s.projects && r.agentId == s.agentId
  {
    Apply(s, projectId, StatusUpdate(Some("failed"), Some(0), Some([]), Some(["Manual intervention required"]),
                                     Some(["Critical error: " + details])))
  }

  /** The specification `_recover_<agent>_error` re-sends to a failing agent. */
  function RecoveryRequest(m: Message): (o: Outgoing)
    requires m.fromAgent != Orchestrator
    ensures o.toAgent == m.fromAgent && o.kind == Specification && o.projectId == m.projectId
    ensures o.metadata.Some? && "recovery_attempt" in o.metadata.value && o.metadata.value["recovery_attempt"] == VBool(true)
  {
    var p := m.projectId;
    match m.fromAgent
    case BA => Outgoing(BA, Specification, "Simplified version of original specification for project " + p, p,
                        Some(map["recovery_attempt" := VBool(true), "original_error" := VStr(m.content)]), Medium)
    case Architect => Outgoing(Architect, Specification, "Please provide a simplified architecture design for project " + p, p,
                               Some(map["recovery_attempt" := VBool(true)]), Medium)
    case Developer => Outgoing(Developer, Specification, "Please implement a simplified version for project " + p, p,
                               Some(map["recovery_attempt" := VBool(true)]), Medium)
    case Tester => Outgoing(Tester, Specification, "Please perform basic testing for project " + p, p,
                            Some(map["recovery_attempt" := VBool(true)]), Medium)
  }

  /** `_handle_error` followed by `_attempt_error_recovery`. */
  function HandleError(s: OrchState, m: Message, send: SendResult): (r: (OrchState, seq<Outgoing>))
    ensures r.0.history == s.history && r.0.projects == s.projects && r.0.agentId == s.agentId
  {
    var p := m.projectId;
    var marked := Apply(s, p, StatusUpdate(Some("error_recovery"), None, None,
                                           Some(["Recovering from " + m.fromAgent.Name() + " agent error"]), None));
    if m.fromAgent != Orchestrator then
      match send
      case Delivered => (marked, [RecoveryRequest(m)])
      case Raised(e) => (Escalate(marked, p, e), [])
    else if p in marked.projects then
      var restart := Outgoing(BA, Specification, marked.projects[p].description, p,
                              Some(map["workflow_restart" := VBool(true)]), Medium);
      match send
      case Delivered =>
        (Apply(marked, p, StatusUpdate(Some("workflow_restart"), None, None,
                                       Some(["Restarting workflow from requirements analysis"]), None)), [restart])
      case Raised(e) => (Escalate(marked, p, "Workflow restart failed: " + e), [])
    else (marked, [])
  }

  /** `_handle_response`: a user clarification is forwarded to the agent
   *  named by `original_requester` (BA by default).  A requester that is
   *  not an agent type makes the send raise, which `process_message`
   *  swallows. */
  function HandleResponse(s: OrchState, m: Message, send: SendResult): (r: (OrchState, seq<Outgoing>))
    ensures r.0 == s
    ensures |r.1| <= 1
    ensures |r.1| == 1 ==>
              (Get(m.metadata, "clarification_response", VNone).Truthy() && r.1[0].kind == Response &&
               r.1[0].content == m.content && Get(m.metadata, "original_requester", VAgent(BA)) == VAgent(r.1[0].toAgent))
    ensures (send.Delivered? && Get(m.metadata, "clarification_response", VNone).Truthy() &&
             Get(m.metadata, "original_requester", VAgent(BA)).VAgent?) ==> |r.1| == 1
  {
    if Get(m.metadata, "clarification_response", VNone).Truthy() then
      var requester := Get(m.metadata, "original_requester", VAgent(BA));
      if requester.VAgent? then
        (s, Emit(send, [Outgoing(requester.agent, Response, m.content, m.projectId,
                                 Some(map["user_clarification" := VBool(true)]), Medium)]))
      else (s, [])
    else (s, [])
  }

  /** The history entry for a message: a BA query is annotated in place
   *  as a pending requirements clarification. */
  function Recorded(m: Message): (e: Message)
    ensures e == m.(metadata := e.metadata)
    ensures m.fromAgent != BA || m.kind != Query ==> e == m
  {
    if m.kind == Query && m.fromAgent == BA then
      m.(metadata := m.metadata["pending_clarification" := VBool(true)]["clarification_type" := VStr("requirements")])
    else m
  }

  /** `process_message`: the message is appended to its project's history,
   *  then dispatched on its type. */
  function Step(s: OrchState, m: Message, send: SendResult): (r: (OrchState, seq<Outgoing>))
    ensures r.0.history == s.history[m.projectId := HistoryOf(s, m.projectId) + [Recorded(m)]]
    ensures r.0.agentId == s.agentId
  {
    var s1 := s.(history := s.history[m.projectId := HistoryOf(s, m.projectId) + [Recorded(m)]]);
    match m.kind
    case Specification => HandleUserSpecification(s1, m, send)
    case Query => (HandleAgentQuery(s1, m), [])
    case Status => (HandleStatusUpdate(s1, m), [])
    case Error => HandleError(s1, m, send)
    case Response => HandleResponse(s1, m, send)
    case Approval => (s1, [])
    case Artifact => (s1, [])
  }

  // ---------------------------------------------------------------------
  // User clarifications

  /** A recorded query the user has not yet answered. */
  predicate Pending(m: Message)
  {
    m.kind == Query && !Get(m.metadata, "resolved", VBool(false)).Truthy()
  }

  /** The index of the last pending query, or -1 when there is none. */
  function LastPending(h: seq<Message>): (k: int)
    ensures -1 <= k < |h|
    ensures k >= 0 ==> Pending(h[k])
    ensures forall i :: k < i < |h| ==> !Pending(h[i])
    decreases |h|
  {
    if |h| == 0 then -1
    else if Pending(h[|h| - 1]) then |h| - 1
    else LastPending(h[..|h| - 1])
  }

  /** `send_user_clarification`: the answer goes to the sender of the last
   *  unresolved query, and only that query is marked resolved.  A failing
   *  send is caught and reported as `false`, leaving the query pending. */
  function SendUserClarification(s: OrchState, projectId: string, text: string, send: SendResult)
    : (r: (OrchState, bool, seq<Outgoing>))
    ensures (forall i :: 0 <= i < |HistoryOf(s, projectId)| ==> !Pending(HistoryOf(s, projectId)[i])) ==> r == (s, false, [])
    ensures send.Raised? ==> r == (s, false, [])
    ensures r.1 <==> send.Delivered? && exists i :: 0 <= i < |HistoryOf(s, projectId)| && Pending(HistoryOf(s, projectId)[i])
    ensures r.1 ==>
      var h := HistoryOf(s, projectId);
      var h2 := HistoryOf(r.0, projectId);
      var k := LastPending(h);
      |r.2| == 1 && r.2[0].toAgent == h[k].fromAgent && r.2[0].kind == Response && r.2[0].content == text &&
      |h2| == |h| && !Pending(h2[k]) &&
      (forall i :: 0 <= i < |h| && i != k ==> h2[i] == h[i]) &&
      (forall i :: k < i < |h| ==> !Pending(h[i])) &&
      r.0.statuses == s.statuses && r.0.projects == s.projects
  {
    var h := HistoryOf(s, projectId);
    var k := LastPending(h);
    if k < 0 then (s, false, [])
    else
      match send
      case Raised(_) => (s, false, [])
      case Delivered =>
        var q := h[k];
        var answer := Outgoing(q.fromAgent, Response, text, projectId,
                               Some(map["user_clarification" := VBool(true), "original_query_id" := VInt(q.id)]), Medium);
        var resolved := q.(metadata := q.metadata["resolved" := VBool(true)]);
        (s.(history := s.history[projectId := h[k := resolved]]), true, [answer])
  }
}

=== FILE: orchestrator_properties.dfy ===
/** Properties of the orchestrator's state machine over all inputs. */
module OrchestratorProperties {
  import opened Wrappers
  import opened Models
  import opened Agent
  import opened Orchestrator

  /** The (phase, completion, active agents) triple of a project. */
  function Triple(s: OrchState, p: string): (string, int, seq<AgentType>)
  {
    var st := StatusOf(s.statuses, p);
    (st.currentPhase, st.completion, st.activeAgents)
  }

  lemma ApplyKeepsValid(s: OrchState, p: string, u: StatusUpdate)
    requires Valid(s)
    requires u.completion.None? || 0 <= u.completion.value <= 100
    ensures Valid(Apply(s, p, u))
  {
    var r := Apply(s, p, u);
    forall q | q in r.statuses
      ensures r.statuses[q].projectId == q && 0 <= r.statuses[q].completion <= 100
    {
      if q != p {
        assert r.statuses[q] == s.statuses[q];
      }
    }
  }

  lemma StatusUpdateKeepsValid(s: OrchState, m: Message)
    requires Valid(s)
    ensures Valid(HandleStatusUpdate(s, m))
  {
    match m.fromAgent {
      case BA => BaStatusKeepsValid(s, m);
      case Architect =>
        SetToKeepsValid(s, m.projectId, "architecture_design", 30, [Architect, BA],
                        "BA Agent reviewing architecture design", HandleStatusUpdate(s, m));
      case Developer => DeveloperStatusKeepsValid(s, m);
      case Tester => TesterStatusKeepsValid(s, m);
      case Orchestrator =>
    }
  }

  /** The analyst's two markers each apply a full update; any other marker changes nothing. */
  lemma BaStatusKeepsValid(s: OrchState, m: Message)
    requires Valid(s) && m.fromAgent == BA
    ensures Valid(HandleStatusUpdate(s, m))
  {
    var r := HandleStatusUpdate(s, m);
    if PhaseMarker(m) == VStr("test_preparation_complete") {
      SetToKeepsValid(s, m.projectId, "test_preparation", 20, [Tester], "QA Agent preparing test cases", r);
    } else if PhaseMarker(m) == VStr("development_complete") {
      SetToKeepsValid(s, m.projectId, "qa_testing", 70, [Tester], "QA Agent testing application", r);
    }
  }

  lemma DeveloperStatusKeepsValid(s: OrchState, m: Message)
    requires Valid(s) && m.fromAgent == Developer
    ensures Valid(HandleStatusUpdate(s, m))
  {
    if PhaseMarker(m) == VStr("development_complete") {
      SetToKeepsValid(s, m.projectId, "development_complete", 60, [Tester], "QA Agent testing developed application",
                      HandleStatusUpdate(s, m));
    }
  }

  lemma TesterStatusKeepsValid(s: OrchState, m: Message)
    requires Valid(s) && m.fromAgent == Tester
    ensures Valid(HandleStatusUpdate(s, m))
  {
    var r := HandleStatusUpdate(s, m);
    if Get(m.metadata, "qa_signoff", VBool(false)).Truthy() {
      SetToKeepsValid(s, m.projectId, "completed", 100, [], "Project completed and ready for deployment", r);
    } else {
      SetToKeepsValid(s, m.projectId, "qa_review", 85, [Developer], "Developer fixing issues identified by QA", r);
    }
  }

  /** A full status update with a completion in range keeps the state well
   *  formed; `r` names the resulting state. */
  lemma SetToKeepsValid(s: OrchState, p: string, phase: string, completion: int, agents: seq<AgentType>, next: string,
                        r: OrchState)
    requires Valid(s) && 0 <= completion <= 100
    requires r == Apply(s, p, SetTo(phase, completion, agents, next))
    ensures Valid(r)
  {
    ApplyKeepsValid(s, p, SetTo(phase, completion, agents, next));
  }

  lemma ErrorKeepsValid(s: OrchState, m: Message, send: SendResult)
    requires Valid(s)
    ensures Valid(HandleError(s, m, send).0)
  {
    var p := m.projectId;
    var u := StatusUpdate(Some("error_recovery"), None, None,
                          Some(["Recovering from " + m.fromAgent.Name() + " agent error"]), None);
    ApplyKeepsValid(s, p, u);
    var marked := Apply(s, p, u);
    if send.Raised? {
      EscalateKeepsValid(marked, p, send.error);
      EscalateKeepsValid(marked, p, "Workflow restart failed: " + send.error);
    } else {
      ApplyKeepsValid(marked, p, StatusUpdate(Some("workflow_restart"), None, None,
                                              Some(["Restarting workflow from requirements analysis"]), None));
    }
  }

  lemma EscalateKeepsValid(s: OrchState, p: string, d: string)
    requires Valid(s)
    ensures Valid(Escalate(s, p, d))
  {
    ApplyKeepsValid(s, p, StatusUpdate(Some("failed"), Some(0), Some([]), Some(["Manual intervention required"]),
                                       Some(["Critical error: " + d])));
  }

  /** Every step keeps the state well formed: records under their own ids,
   *  completion within 0..100, history entries filed under their project. */
  lemma StepPreservesValid(s: OrchState, m: Message, send: SendResult)
    requires Valid(s)
    ensures Valid(Step(s, m, send).0)
  {
    var s1 := s.(history := s.history[m.projectId := HistoryOf(s, m.projectId) + [Recorded(m)]]);
    RecordKeepsValid(s, m);
    match m.kind {
      case Specification => SpecificationKeepsValid(s1, m, send);
      case Query =>
        ApplyKeepsValid(s1, m.projectId, StatusUpdate(Some("awaiting_clarification"), None, None,
                                  Some(["Waiting for user response to " + m.fromAgent.Name() + " agent query"]), None));
      case Status => StatusUpdateKeepsValid(s1, m);
      case Error => ErrorKeepsValid(s1, m, send);
      case Response =>
      case Approval =>
      case Artifact =>
    }
  }

  lemma RecordKeepsValid(s: OrchState, m: Message)
    requires Valid(s)
    ensures Valid(s.(history := s.history[m.projectId := HistoryOf(s, m.projectId) + [Recorded(m)]]))
  {
  }

  lemma SpecificationKeepsValid(s: OrchState, m: Message, send: SendResult)
    requires Valid(s)
    ensures Valid(HandleUserSpecification(s, m, send).0)
  {
    var r := HandleUserSpecification(s, m, send).0;
    forall q | q in r.statuses
      ensures r.statuses[q].projectId == q && 0 <= r.statuses[q].completion <= 100
    {
      if q != m.projectId {
        assert r.statuses[q] == s.statuses[q];
      }
    }
  }

  /** Appending to the history never disturbs the entries already there. */
  lemma HistoryIsAppendOnly(s: OrchState, m: Message, send: SendResult, p: string)
    ensures var h := HistoryOf(s, p);
      var h2 := HistoryOf(Step(s, m, send).0, p);
      h2[..|h|] == h && (p == m.projectId ==> |h2| == |h| + 1) && (p != m.projectId ==> h2 == h)
  {
  }

  /** The STATUS table: which sender and marker set which
   *  (phase, completion, agents), and that every other status leaves the
   *  status records unchanged.  No STATUS sends anything. */
  lemma StatusTable(s: OrchState, m: Message, send: SendResult)
    requires m.kind == Status
    ensures var (r, out) := Step(s, m, send);
      var p := m.projectId;
      out == [] &&
      (m.fromAgent == BA && PhaseMarker(m) == VStr("test_preparation_complete") ==>
        Triple(r, p) == ("test_preparation", 20, [Tester])) &&
      (m.fromAgent == BA && PhaseMarker(m) == VStr("development_complete") ==>
        Triple(r, p) == ("qa_testing", 70, [Tester])) &&
      (m.fromAgent == Architect ==> Triple(r, p) == ("architecture_design", 30, [Architect, BA])) &&
      (m.fromAgent == Developer && PhaseMarker(m) == VStr("development_complete") ==>
        Triple(r, p) == ("development_complete", 60, [Tester])) &&
      (m.fromAgent == Tester && Get(m.metadata, "qa_signoff", VBool(false)).Truthy() ==>
        Triple(r, p) == ("completed", 100, [])) &&
      (m.fromAgent == Tester && !Get(m.metadata, "qa_signoff", VBool(false)).Truthy() ==>
        Triple(r, p) == ("qa_review", 85, [Developer])) &&
      ((m.fromAgent == Orchestrator ||
        (m.fromAgent == BA && PhaseMarker(m) != VStr("test_preparation_complete") && PhaseMarker(m) != VStr("development_complete")) ||
        (m.fromAgent == Developer && PhaseMarker(m) != VStr("development_complete"))) ==>
        r.statuses == s.statuses)
  {
    var s1 := s.(history := s.history[m.projectId := HistoryOf(s, m.projectId) + [Recorded(m)]]);
    assert Step(s, m, send) == (HandleStatusUpdate(s1, m), []);
    assert s1.statuses == s.statuses;
    StatusEffects(s1, m);
  }

  /** The per-sender effect of a STATUS message on the status records. */
  lemma StatusEffects(s: OrchState, m: Message)
    ensures var r := HandleStatusUpdate(s, m);
      var p := m.projectId;
      (m.fromAgent == BA && PhaseMarker(m) == VStr("test_preparation_complete") ==>
        Triple(r, p) == ("test_preparation", 20, [Tester])) &&
      (m.fromAgent == BA && PhaseMarker(m) == VStr("development_complete") ==>
        Triple(r, p) == ("qa_testing", 70, [Tester])) &&
      (m.fromAgent == Architect ==> Triple(r, p) == ("architecture_design", 30, [Architect, BA])) &&
      (m.fromAgent == Developer && PhaseMarker(m) == VStr("development_complete") ==>
        Triple(r, p) == ("development_complete", 60, [Tester])) &&
      (m.fromAgent == Tester && Get(m.metadata, "qa_signoff", VBool(false)).Truthy() ==>
        Triple(r, p) == ("completed", 100, [])) &&
      (m.fromAgent == Tester && !Get(m.metadata, "qa_signoff", VBool(false)).Truthy() ==>
        Triple(r, p) == ("qa_review", 85, [Developer])) &&
      ((m.fromAgent == Orchestrator ||
        (m.fromAgent == BA && PhaseMarker(m) != VStr("test_preparation_complete") && PhaseMarker(m) != VStr("development_complete")) ||
        (m.fromAgent == Developer && PhaseMarker(m) != VStr("development_complete"))) ==>
        r == s)
  {
    match m.fromAgent {
      case BA => BaStatusEffects(s, m);
      case Architect =>
        SetToTriple(s, m.projectId, "architecture_design", 30, [Architect, BA], "BA Agent reviewing architecture design");
      case Developer =>
        SetToTriple(s, m.projectId, "development_complete", 60, [Tester], "QA Agent testing developed application");
      case Tester => TesterStatusEffects(s, m);
      case Orchestrator =>
    }
  }

  /** The analyst's markers select the testing phases; any other marker changes nothing. */
  lemma BaStatusEffects(s: OrchState, m: Message)
    requires m.fromAgent == BA
    ensures var r := HandleStatusUpdate(s, m);
      (PhaseMarker(m) == VStr("test_preparation_complete") ==>
        Triple(r, m.projectId) == ("test_preparation", 20, [Tester])) &&
      (PhaseMarker(m) == VStr("development_complete") ==>
        Triple(r, m.projectId) == ("qa_testing", 70, [Tester])) &&
      (PhaseMarker(m) != VStr("test_preparation_complete") && PhaseMarker(m) != VStr("development_complete") ==>
        r == s)
  {
    if PhaseMarker(m) == VStr("test_preparation_complete") {
      SetToTriple(s, m.projectId, "test_preparation", 20, [Tester], "QA Agent preparing test cases");
    } else if PhaseMarker(m) == VStr("development_complete") {
      SetToTriple(s, m.projectId, "qa_testing", 70, [Tester], "QA Agent testing application");
    }
  }

  /** A tester sign-off completes the project; otherwise it goes back to the developer. */
  lemma TesterStatusEffects(s: OrchState, m: Message)
    requires m.fromAgent == Tester
    ensures var r := HandleStatusUpdate(s, m);
      (Get(m.metadata, "qa_signoff", VBool(false)).Truthy() ==> Triple(r, m.projectId) == ("completed", 100, [])) &&
      (!Get(m.metadata, "qa_signoff", VBool(false)).Truthy() ==> Triple(r, m.projectId) == ("qa_review", 85, [Developer]))
  {
    if Get(m.metadata, "qa_signoff", VBool(false)).Truthy() {
      SetToTriple(s, m.projectId, "completed", 100, [], "Project completed and ready for deployment");
    } else {
      SetToTriple(s, m.projectId, "qa_review", 85, [Developer], "Developer fixing issues identified by QA");
    }
  }

  /** A full status update sets the project's phase, completion and agents. */
  lemma SetToTriple(s: OrchState, p: string, phase: string, completion: int, agents: seq<AgentType>, next: string)
    requires phase != ""
    ensures Triple(Apply(s, p, SetTo(phase, completion, agents, next)), p) == (phase, completion, agents)
  {
  }

  /** An ERROR whose recovery send succeeds: the project is in
   *  "error_recovery" with completion and active agents untouched and a
   *  specification goes back to the failing agent; an error reported by
   *  the orchestrator itself restarts a known project at BA with its
   *  stored description, and does nothing more for an unknown one. */
  lemma ErrorRecovery(s: OrchState, m: Message)
    requires m.kind == Error
    ensures var (r, out) := Step(s, m, Delivered);
      var p := m.projectId;
      var before := StatusOf(s.statuses, p);
      p in r.statuses &&
      r.statuses[p].completion == before.completion &&
      r.statuses[p].activeAgents == before.activeAgents &&
      r.statuses[p].issues == before.issues &&
      (m.fromAgent != Orchestrator ==>
        r.statuses[p].currentPhase == "error_recovery" &&
        |out| == 1 && out[0].toAgent == m.fromAgent && out[0].kind == Specification && out[0].projectId == p) &&
      (m.fromAgent == Orchestrator && p in s.projects ==>
        r.statuses[p].currentPhase == "workflow_restart" &&
        |out| == 1 && out[0].toAgent == BA && out[0].kind == Specification &&
        out[0].content == s.projects[p].description) &&
      (m.fromAgent == Orchestrator && p !in s.projects ==>
        r.statuses[p].currentPhase == "error_recovery" && out == [])
  {
    var p := m.projectId;
    var s1 := s.(history := s.history[p := HistoryOf(s, p) + [Recorded(m)]]);
    StepOnError(s, m, Delivered);
    assert s1.statuses == s.statuses && s1.projects == s.projects;
    ErrorEffects(s1, m);
  }

  /** An ERROR is recorded, then handled. */
  lemma StepOnError(s: OrchState, m: Message, send: SendResult)
    requires m.kind == Error
    ensures Step(s, m, send)
      == HandleError(s.(history := s.history[m.projectId := HistoryOf(s, m.projectId) + [Recorded(m)]]), m, send)
  {
  }

  /** `ErrorRecovery` for the handler alone, before the history step. */
  lemma ErrorEffects(s: OrchState, m: Message)
    ensures var (r, out) := HandleError(s, m, Delivered);
      var p := m.projectId;
      var before := StatusOf(s.statuses, p);
      p in r.statuses &&
      r.statuses[p].completion == before.completion &&
      r.statuses[p].activeAgents == before.activeAgents &&
      r.statuses[p].issues == before.issues &&
      (m.fromAgent != Orchestrator ==>
        r.statuses[p].currentPhase == "error_recovery" &&
        |out| == 1 && out[0].toAgent == m.fromAgent && out[0].kind == Specification && out[0].projectId == p) &&
      (m.fromAgent == Orchestrator && p in s.projects ==>
        r.statuses[p].currentPhase == "workflow_restart" &&
        |out| == 1 && out[0].toAgent == BA && out[0].kind == Specification &&
        out[0].content == s.projects[p].description) &&
      (m.fromAgent == Orchestrator && p !in s.projects ==>
        r.statuses[p].currentPhase == "error_recovery" && out == [])
  {
    var p := m.projectId;
    var marked := Apply(s, p, StatusUpdate(Some("error_recovery"), None, None,
                                           Some(["Recovering from " + m.fromAgent.Name() + " agent error"]), None));
    assert marked.statuses[p].currentPhase == "error_recovery";
    if m.fromAgent == Orchestrator && p in s.projects {
      var u := StatusUpdate(Some("workflow_restart"), None, None,
                            Some(["Restarting workflow from requirements analysis"]), None);
      assert HandleError(s, m, Delivered).0 == Apply(marked, p, u);
      assert StatusOf(marked.statuses, p) == marked.statuses[p];
    }
  }

  /** An ERROR whose recovery send raises escalates: the project is failed
   *  with completion 0, no active agents, one next action, and exactly one
   *  issue appended. */
  lemma RecoveryFailureEscalates(s: OrchState, m: Message, e: string)
    requires m.kind == Error
    requires m.fromAgent != Orchestrator || m.projectId in s.projects
    ensures var (r, out) := Step(s, m, Raised(e));
      var p := m.projectId;
      var before := StatusOf(s.statuses, p);
      out == [] && p in r.statuses &&
      Triple(r, p) == ("failed", 0, []) &&
      r.statuses[p].nextActions == ["Manual intervention required"] &&
      |r.statuses[p].issues| == |before.issues| + 1 &&
      r.statuses[p].issues[..|before.issues|] == before.issues
  {
  }

  /** Any QUERY, whoever sent it, puts the project in
   *  "awaiting_clarification" and sends nothing. */
  lemma QueryAwaitsClarification(s: OrchState, m: Message, send: SendResult)
    requires m.kind == Query
    ensures var (r, out) := Step(s, m, send);
      out == [] && m.projectId in r.statuses &&
      r.statuses[m.projectId].currentPhase == "awaiting_clarification"
  {
  }

  /** Pending queries are answered newest first: after one successful
   *  clarification the next one goes to an earlier query, if any. */
  lemma ClarificationsAnswerNewestFirst(s: OrchState, p: string, text: string)
    requires SendUserClarification(s, p, text, Delivered).1
    ensures var s2 := SendUserClarification(s, p, text, Delivered).0;
      LastPending(HistoryOf(s2, p)) < LastPending(HistoryOf(s, p))
  {
  }

  /** Completion is not monotone: a DEVELOPER "development_complete" after
   *  BA reported "development_complete" moves completion from 70 back to 60. */
  lemma CompletionCanDecrease(s: OrchState, m: Message, send: SendResult)
    requires m.kind == Status && m.fromAgent == Developer && PhaseMarker(m) == VStr("development_complete")
    requires m.projectId in s.statuses && s.statuses[m.projectId].completion == 70
    ensures Step(s, m, send).0.statuses[m.projectId].completion < s.statuses[m.projectId].completion
  {
  }

  /** A failed project is not terminal: a later ERROR moves it back to
   *  "error_recovery" and re-sends a specification to the failing agent. */
  lemma FailedProjectRecoversAgain(s: OrchState, m: Message)
    requires m.kind == Error && m.fromAgent == Tester
    requires m.projectId in s.statuses && s.statuses[m.projectId].currentPhase == "failed"
    ensures var (r, out) := Step(s, m, Delivered);
      r.statuses[m.projectId].currentPhase == "error_recovery" && |out| == 1 && out[0].toAgent == Tester
  {
  }

  /** A STATUS for a project the orchestrator has never seen creates its
   *  status record. */
  lemma StatusForUnknownProjectCreatesRecord(s: OrchState, m: Message, send: SendResult)
    requires m.kind == Status && m.fromAgent == Architect && m.projectId !in s.statuses
    ensures m.projectId in Step(s, m, send).0.statuses
  {
  }
}

=== FILE: project_registry.dfy ===
/** The MCP server's in-memory project registry: a dict of project records
 *  in insertion order, the operations on it, the list filter/sort/limit,
 *  progress monitoring, the phase sequence and resource URIs. */
module ProjectRegistry {
  import opened Wrappers
  import opened Strings
  import opened Models

  // ---------------------------------------------------------------------
  // The registry

  /** `active_projects`: the ids in insertion order, and the records. */
  datatype Registry = Registry(ids: seq<string>, records: map<string, Metadata>)
  {
    /** Ids are distinct and are exactly the keys of the records. */
    ghost predicate Valid()
    {
      (forall i, j :: 0 <= i < j < |ids| ==> ids[i] != ids[j]) &&
      (forall id :: id in records <==> id in ids)
    }
  }

  function Empty(): (r: Registry)
    ensures r.Valid() && r.ids == []
  {
    Registry([], map[])
  }

  /** `get_project`. */
  function Lookup(reg: Registry, id: string): (r: Option<Metadata>)
    ensures r.Some? <==> id in reg.records
  {
    if id in reg.records then Some(reg.records[id]) else None
  }

  /** `d[id] = rec`: an existing key keeps its place, a new one goes last. */
  function Put(reg: Registry, id: string, rec: Metadata): (r: Registry)
    requires reg.Valid()
    ensures r.Valid()
    ensures r.records == reg.records[id := rec]
    ensures id in reg.records ==> r.ids == reg.ids
    ensures id !in reg.records ==> r.ids == reg.ids + [id]
  {
    if id in reg.records then Registry(reg.ids, reg.records[id := rec])
    else Registry(reg.ids + [id], reg.records[id := rec])
  }

  /** `list_projects`: the records in insertion order. */
  function Values(reg: Registry): (vs: seq<Metadata>)
    requires reg.Valid()
    ensures |vs| == |reg.ids|
    ensures forall i :: 0 <= i < |vs| ==> vs[i] == reg.records[reg.ids[i]]
  {
    seq(|reg.ids|, i requires 0 <= i < |reg.ids| && reg.Valid() => reg.records[reg.ids[i]])
  }

  const DefaultPhases: seq<string> := ["business_analysis", "architecture", "implementation", "testing"]

  /** A fresh record: initiated, initiating, no progress, the four phases
   *  and none completed. */
  function NewRecord(id: string, title: Value, specification: Value, domain: Value, now: string): (rec: Metadata)
    ensures Get(rec, "id", VNone) == VStr(id) && Get(rec, "status", VNone) == VStr("initiated")
    ensures Get(rec, "current_phase", VNone) == VStr("initiating") && Get(rec, "progress", VNone) == VInt(0)
    ensures Get(rec, "completed_phases", VNone) == VList([]) && Get(rec, "created_at", VNone) == VStr(now)
    ensures AsTexts(Get(rec, "phases", VNone)) == Some(DefaultPhases)
    ensures Get(rec, "title", VNone) == title && Get(rec, "specification", VNone) == specification
    ensures Get(rec, "domain", VNone) == domain
  {
    TextsRoundTrip(DefaultPhases);
    map["id" := VStr(id), "title" := title, "domain" := domain, "specification" := specification,
        "status" := VStr("initiated"), "created_at" := VStr(now), "current_phase" := VStr("initiating"),
        "progress" := VInt(0), "phases" := Texts(DefaultPhases), "completed_phases" := VList([])]
  }

  /** The async `create_project` (the one the class keeps): the record is
   *  stored under the given id, replacing any earlier one. */
  function Create(reg: Registry, id: string, title: string, specification: string, domain: string, now: string): (r: Registry)
    requires reg.Valid()
    ensures r.Valid() && id in r.records
    ensures Get(r.records[id], "status", VNone) == VStr("initiated") && Get(r.records[id], "progress", VNone) == VInt(0)
    ensures Get(r.records[id], "title", VNone) == VStr(title)
    ensures Get(r.records[id], "specification", VNone) == VStr(specification)
    ensures forall other :: other != id ==> Lookup(r, other) == Lookup(reg, other)
    ensures |r.ids| == |reg.ids| + (if id in reg.records then 0 else 1)
  {
    Put(reg, id, NewRecord(id, VStr(title), VStr(specification), VStr(domain), now))
  }

  /** The sync `create_project`, shadowed by the async one: the record is
   *  stored under a fresh id (a uuid4 here given as a parameter), and a
   *  falsy title or domain is replaced by its default. */
  function CreateWithDefaults(reg: Registry, freshId: string, specification: Value, title: Value, domain: Value,
                              now: string): (r: Registry)
    requires reg.Valid()
    ensures r.Valid() && freshId in r.records
    ensures freshId !in reg.records ==> r.ids == reg.ids + [freshId]
    ensures Get(r.records[freshId], "status", VNone) == VStr("initiated")
    ensures Get(r.records[freshId], "specification", VNone) == specification
    ensures forall other :: other != freshId ==> Lookup(r, other) == Lookup(reg, other)
    ensures Get(r.records[freshId], "title", VNone) == (if title.Truthy() then title else VStr("Untitled Project"))
    ensures Get(r.records[freshId], "domain", VNone) == (if domain.Truthy() then domain else VStr("General"))
  {
    Put(reg, freshId, NewRecord(freshId, if title.Truthy() then title else VStr("Untitled Project"), specification,
                                if domain.Truthy() then domain else VStr("General"), now))
  }

  /** `update_project`: for a known id the updates are merged in and
   *  `updated_at` is set; an unknown id changes nothing. */
  function Update(reg: Registry, id: string, updates: Metadata, now: string): (r: Registry)
    requires reg.Valid()
    ensures r.Valid() && r.ids == reg.ids
    ensures id !in reg.records ==> r == reg
    ensures id in reg.records ==>
      r.records == reg.records[id := (reg.records[id] + updates)["updated_at" := VStr(now)]]
  {
    if id in reg.records then Put(reg, id, (reg.records[id] + updates)["updated_at" := VStr(now)]) else reg
  }

  /** After an update, a key it names holds the new value. */
  lemma UpdateSets(reg: Registry, id: string, updates: Metadata, now: string, key: string)
    requires reg.Valid() && id in reg.records && key in updates && key != "updated_at"
    ensures id in Update(reg, id, updates, now).records
    ensures Get(Update(reg, id, updates, now).records[id], key, VNone) == updates[key]
  {
  }

  /** After an update, a key it does not name keeps its value. */
  lemma UpdateKeeps(reg: Registry, id: string, updates: Metadata, now: string, key: string)
    requires reg.Valid() && id in reg.records && key !in updates && key != "updated_at"
    ensures id in Update(reg, id, updates, now).records
    ensures Get(Update(reg, id, updates, now).records[id], key, VNone) == Get(reg.records[id], key, VNone)
  {
  }

  /** `update_project_status`: the status always, the progress only when
   *  given. */
  function UpdateStatus(reg: Registry, id: string, status: string, progress: Option<int>, now: string): (r: Registry)
    requires reg.Valid()
    ensures r.Valid() && r.ids == reg.ids
    ensures id !in reg.records ==> r == reg
    ensures id in reg.records ==>
      Get(r.records[id], "status", VNone) == VStr(status) && Get(r.records[id], "updated_at", VNone) == VStr(now) &&
      (progress.Some? ==> Get(r.records[id], "progress", VNone) == VInt(progress.value)) &&
      (progress.None? ==> Get(r.records[id], "progress", VNone) == Get(reg.records[id], "progress", VNone))
    ensures forall other :: other != id ==> Lookup(r, other) == Lookup(reg, other)
  {
    if id !in reg.records then reg
    else
      var rec := reg.records[id]["status" := VStr(status)];
      var rec1 := if progress.Some? then rec["progress" := VInt(progress.value)] else rec;
      Put(reg, id, rec1["updated_at" := VStr(now)])
  }

  /** `get_project_status`: a missing (or empty) record is a ValueError. */
  function GetStatus(reg: Registry, id: string): (r: Result<Metadata>)
    ensures r.Ok? <==> id in reg.records && reg.records[id] != map[]
    ensures r.Ok? ==> r.value == reg.records[id]
    ensures r.Err? ==> r.error == "Project " + id + " not found"
  {
    if id in reg.records && reg.records[id] != map[] then Ok(reg.records[id]) else Err("Project " + id + " not found")
  }

  // ---------------------------------------------------------------------
  // Listing

  /** A record with its sort key, `x.get("created_at", "")`. */
  type Keyed = (string, Metadata)

  /** Newest first: no later key is above an earlier one. */
  predicate Descending(s: seq<Keyed>)
  {
    forall i, j :: 0 <= i < j < |s| ==> !Below(s[i].0, s[j].0)
  }

  /** Places `e` before the first entry whose key is below its own, so
   *  after every entry with an equal key. */
  function InsertDesc(e: Keyed, s: seq<Keyed>): seq<Keyed>
  {
    if |s| == 0 then [e]
    else if Below(s[0].0, e.0) then [e] + s
    else [s[0]] + InsertDesc(e, s[1..])
  }

  /** Insertion adds `e` and keeps everything else. */
  lemma {:induction false} InsertDescMultiset(e: Keyed, s: seq<Keyed>)
    ensures multiset(InsertDesc(e, s)) == multiset(s) + multiset{e}
    decreases |s|
  {
    if |s| > 0 && !Below(s[0].0, e.0) {
      InsertDescMultiset(e, s[1..]);
      assert s == [s[0]] + s[1..];
    }
  }

  /** Nothing in `s` is above `k`. */
  predicate NoneAbove(s: seq<Keyed>, k: string)
  {
    forall j :: 0 <= j < |s| ==> !Below(k, s[j].0)
  }

  lemma {:induction false} InsertDescBound(e: Keyed, s: seq<Keyed>, k: string)
    requires NoneAbove(s, k) && !Below(k, e.0)
    ensures NoneAbove(InsertDesc(e, s), k)
    decreases |s|
  {
    if |s| > 0 && !Below(s[0].0, e.0) {
      InsertDescBound(e, s[1..], k);
      var t := InsertDesc(e, s[1..]);
      assert forall j :: 0 <= j < |s[1..]| ==> s[1..][j] == s[j + 1];
      assert InsertDesc(e, s) == [s[0]] + t;
    }
  }

  /** Insertion into a newest-first list keeps it newest first. */
  lemma {:induction false} InsertDescSorted(e: Keyed, s: seq<Keyed>)
    requires Descending(s)
    ensures Descending(InsertDesc(e, s))
    decreases |s|
  {
    if |s| == 0 {
    } else if Below(s[0].0, e.0) {
      forall j | 0 <= j < |s| ensures !Below(e.0, s[j].0) {
        if Below(e.0, s[j].0) {
          BelowTransitive(s[0].0, e.0, s[j].0);
          BelowIrreflexive(s[0].0);
        }
      }
      var r := [e] + s;
      forall i, j | 0 <= i < j < |r| ensures !Below(r[i].0, r[j].0) {
        if i > 0 { assert r[i] == s[i - 1] && r[j] == s[j - 1]; }
        else { assert r[j] == s[j - 1]; }
      }
    } else {
      var rest := s[1..];
      assert Descending(rest) by {
        forall i, j | 0 <= i < j < |rest| ensures !Below(rest[i].0, rest[j].0) {
          assert rest[i] == s[i + 1] && rest[j] == s[j + 1];
        }
      }
      assert NoneAbove(rest, s[0].0) by {
        forall j | 0 <= j < |rest| ensures !Below(s[0].0, rest[j].0) {
          assert rest[j] == s[j + 1];
        }
      }
      InsertDescSorted(e, rest);
      InsertDescBound(e, rest, s[0].0);
      var t := InsertDesc(e, rest);
      var r := [s[0]] + t;
      forall i, j | 0 <= i < j < |r| ensures !Below(r[i].0, r[j].0) {
        if i > 0 { assert r[i] == t[i - 1] && r[j] == t[j - 1]; }
        else { assert r[j] == t[j - 1]; }
      }
    }
  }

  /** `sort(key=created_at, reverse=True)`, stable: equal keys keep their
   *  order. */
  function SortDesc(xs: seq<Keyed>): seq<Keyed>
  {
    if |xs| == 0 then [] else InsertDesc(xs[|xs| - 1], SortDesc(xs[..|xs| - 1]))
  }

  /** The sort yields a newest-first permutation of its input. */
  lemma {:induction false} SortDescCorrect(xs: seq<Keyed>)
    ensures Descending(SortDesc(xs))
    ensures multiset(SortDesc(xs)) == multiset(xs)
    decreases |xs|
  {
    if |xs| > 0 {
      var init := xs[..|xs| - 1];
      SortDescCorrect(init);
      InsertDescSorted(xs[|xs| - 1], SortDesc(init));
      InsertDescMultiset(xs[|xs| - 1], SortDesc(init));
      assert xs == init + [xs[|xs| - 1]];
    }
  }

  /** The entries with one key, in order. */
  function WithKey(s: seq<Keyed>, k: string): seq<Keyed>
  {
    if |s| == 0 then [] else (if s[0].0 == k then [s[0]] else []) + WithKey(s[1..], k)
  }

  /** Inserting `e` leaves the entries of every other key in order and puts
   *  `e` after the entries of its own key. */
  lemma {:induction false} InsertDescStable(e: Keyed, s: seq<Keyed>, k: string)
    requires Descending(s)
    ensures WithKey(InsertDesc(e, s), k) == WithKey(s, k) + (if e.0 == k then [e] else [])
    decreases |s|
  {
    if |s| == 0 {
    } else if Below(s[0].0, e.0) {
      if e.0 == k {
        NoneWithKeyBelow(s, k);
        assert WithKey([e] + s, k) == [e] + WithKey(s, k) by {
          assert ([e] + s)[1..] == s;
        }
      } else {
        assert ([e] + s)[1..] == s;
      }
    } else {
      DescendingTail(s);
      InsertDescStable(e, s[1..], k);
      var t := InsertDesc(e, s[1..]);
      WithKeyCons(s[0], t, k);
      WithKeyCons(s[0], s[1..], k);
      assert [s[0]] + s[1..] == s;
    }
  }

  lemma WithKeyCons(x: Keyed, t: seq<Keyed>, k: string)
    ensures WithKey([x] + t, k) == (if x.0 == k then [x] else []) + WithKey(t, k)
  {
    assert ([x] + t)[1..] == t;
  }

  lemma DescendingTail(s: seq<Keyed>)
    requires Descending(s) && |s| > 0
    ensures Descending(s[1..])
  {
    forall i, j | 0 <= i < j < |s[1..]| ensures !Below(s[1..][i].0, s[1..][j].0) {
      assert s[1..][i] == s[i + 1] && s[1..][j] == s[j + 1];
    }
  }

  /** In a newest-first list whose head is below `k`, nothing has key `k`. */
  lemma {:induction false} NoneWithKeyBelow(s: seq<Keyed>, k: string)
    requires Descending(s) && |s| > 0 && Below(s[0].0, k)
    ensures WithKey(s, k) == []
    decreases |s|
  {
    BelowIrreflexive(k);
    if |s| > 1 {
      assert Below(s[1].0, k) by {
        BelowTotal(s[0].0, s[1].0);
        if s[1].0 != s[0].0 {
          BelowTransitive(s[1].0, s[0].0, k);
        }
      }
      assert Descending(s[1..]) by {
        forall i, j | 0 <= i < j < |s[1..]| ensures !Below(s[1..][i].0, s[1..][j].0) {
          assert s[1..][i] == s[i + 1] && s[1..][j] == s[j + 1];
        }
      }
      NoneWithKeyBelow(s[1..], k);
    }
  }

  lemma {:induction false} WithKeyAppend(a: seq<Keyed>, b: seq<Keyed>, k: string)
    ensures WithKey(a + b, k) == WithKey(a, k) + WithKey(b, k)
    decreases |a|
  {
    if |a| > 0 {
      WithKeyAppend(a[1..], b, k);
      assert (a + b)[0] == a[0] && (a + b)[1..] == a[1..] + b;
    } else {
      assert a + b == b;
    }
  }

  /** The sort is stable: the entries of each key keep their input order. */
  lemma {:induction false} SortDescStable(xs: seq<Keyed>, k: string)
    ensures WithKey(SortDesc(xs), k) == WithKey(xs, k)
    decreases |xs|
  {
    if |xs| > 0 {
      var init := xs[..|xs| - 1];
      var last := xs[|xs| - 1];
      SortDescStable(init, k);
      SortDescCorrect(init);
      InsertDescStable(last, SortDesc(init), k);
      assert xs == init + [last];
      WithKeyAppend(init, [last], k);
      assert WithKey([last], k) == (if last.0 == k then [last] else []) by {
        assert [last][1..] == [];
      }
    }
  }

  /** The sort key; a non-string `created_at` cannot be compared with the
   *  others. */
  function SortKey(p: Metadata): Option<string>
  {
    var v := Get(p, "created_at", VStr(""));
    if v.VStr? then Some(v.s) else None
  }

  /** `p.get(field) == wanted` when the filter is truthy; a falsy filter
   *  keeps everything. */
  function FilterBy(ps: seq<Metadata>, field: string, wanted: Value): (r: seq<Metadata>)
    ensures forall p :: p in r ==> p in ps && (wanted.Truthy() ==> Get(p, field, VNone) == wanted)
    ensures forall p :: p in ps && (!wanted.Truthy() || Get(p, field, VNone) == wanted) ==> p in r
  {
    if !wanted.Truthy() then ps else Keep(ps, field, wanted)
  }

  function Keep(ps: seq<Metadata>, field: string, wanted: Value): (r: seq<Metadata>)
    ensures forall p :: p in r <==> p in ps && Get(p, field, VNone) == wanted
  {
    if |ps| == 0 then []
    else (if Get(ps[0], field, VNone) == wanted then [ps[0]] else []) + Keep(ps[1..], field, wanted)
  }

  /** Python's `xs[:n]`, including a negative `n` counted from the end. */
  function SliceTo<T>(xs: seq<T>, n: int): (r: seq<T>)
    ensures n >= 0 ==> |r| == if n < |xs| then n else |xs|
    ensures n < 0 ==> |r| == if -n < |xs| then |xs| + n else 0
    ensures r == xs[..|r|]
  {
    if n >= 0 then (if n < |xs| then xs[..n] else xs)
    else if -n < |xs| then xs[..|xs| + n] else []
  }

  function KeyAll(ps: seq<Metadata>): (r: Option<seq<Keyed>>)
    ensures r.Some? ==> |r.value| == |ps| && forall i :: 0 <= i < |ps| ==> r.value[i].1 == ps[i]
  {
    if |ps| == 0 then Some([])
    else
      var k := SortKey(ps[0]);
      var rest := KeyAll(ps[1..]);
      if k.None? || rest.None? then None else Some([(k.value, ps[0])] + rest.value)
  }

  /** A prefix of a newest-first list is newest first. */
  lemma DescendingPrefix(s: seq<Keyed>, n: nat)
    requires Descending(s) && n <= |s|
    ensures Descending(s[..n])
  {
    forall i, j | 0 <= i < j < n ensures !Below(s[..n][i].0, s[..n][j].0) {
      assert s[..n][i] == s[i] && s[..n][j] == s[j];
    }
  }

  /** Sort newest first and keep `limit`: the result is newest first, no
   *  longer than a non-negative limit, and made of input entries. */
  function Listing(ks: seq<Keyed>, limit: int): (r: seq<Keyed>)
    ensures Descending(r)
    ensures limit >= 0 ==> |r| <= limit
    ensures forall e :: e in r ==> e in ks
  {
    SortDescCorrect(ks);
    var sorted := SortDesc(ks);
    var out := SliceTo(sorted, limit);
    DescendingPrefix(sorted, |out|);
    assert forall e :: e in out ==> e in ks by {
      forall e | e in out ensures e in ks {
        assert e in multiset(sorted);
      }
    }
    out
  }

  /** Every keyed entry carries a record of the input. */
  lemma KeyedFrom(ps: seq<Metadata>, ks: seq<Keyed>)
    requires |ks| == |ps| && forall i :: 0 <= i < |ps| ==> ks[i].1 == ps[i]
    ensures forall e :: e in ks ==> e.1 in ps
  {
    forall e | e in ks ensures e.1 in ps {
      var i :| 0 <= i < |ks| && ks[i] == e;
      assert ps[i] == e.1;
    }
  }

  /** `handle_list_projects_enhanced`: filter by status, then domain, sort
   *  newest first, and keep `limit`.  Only string creation times are
   *  ordered: with two or more records and any other key this fails, where
   *  Python also sorts keys that are all numbers (or all lists) and raises
   *  only on a mix it cannot compare. */
  function ListProjects(reg: Registry, status: Value, domain: Value, limit: int): (r: Result<seq<Keyed>>)
    requires reg.Valid()
    ensures r.Ok? ==> Descending(r.value)
    ensures r.Ok? && limit >= 0 ==> |r.value| <= limit
    ensures r.Ok? ==> forall e :: e in r.value ==>
      e.1 in Values(reg) &&
      (status.Truthy() ==> Get(e.1, "status", VNone) == status) &&
      (domain.Truthy() ==> Get(e.1, "domain", VNone) == domain)
  {
    var ps := FilterBy(FilterBy(Values(reg), "status", status), "domain", domain);
    var keyed := KeyAll(ps);
    if keyed.None? && |ps| >= 2 then Err("'<' not supported between instances")
    else
      var ks := if keyed.Some? then keyed.value else [("", ps[0])];
      assert keyed.None? ==> |ps| == 1;
      KeyedFrom(ps, ks);
      Ok(Listing(ks, limit))
  }

  /** With every creation time a string, the listing holds the filtered
   *  records newest first, keeps equal times in registry order, and cuts
   *  at `limit`. */
  lemma ListIsSortedFilter(reg: Registry, status: Value, domain: Value, limit: int)
    requires reg.Valid()
    requires forall p :: p in Values(reg) ==> SortKey(p).Some?
    ensures var ps := FilterBy(FilterBy(Values(reg), "status", status), "domain", domain);
      KeyAll(ps).Some? &&
      ListProjects(reg, status, domain, limit) == Ok(SliceTo(SortDesc(KeyAll(ps).value), limit))
  {
    var ps := FilterBy(FilterBy(Values(reg), "status", status), "domain", domain);
    AllKeyed(ps);
  }

  lemma {:induction false} AllKeyed(ps: seq<Metadata>)
    requires forall p :: p in ps ==> SortKey(p).Some?
    ensures KeyAll(ps).Some?
    decreases |ps|
  {
    if |ps| > 0 {
      assert ps[0] in ps;
      AllKeyed(ps[1..]);
    }
  }

  // ---------------------------------------------------------------------
  // Progress

  /** What `handle_monitor_project_progress` reports. */
  datatype Progress = Progress(
    projectId: string,
    title: Value,
    currentPhase: Value,
    status: Value,
    completedCount: nat,
    totalCount: nat,
    completed: seq<Value>,
    remaining: seq<Value>,
    lastUpdated: Value)

  /** `round(completed / total * 100, 1)` in tenths of a percent: the
   *  tenth nearest to the exact ratio, a tie going up; 0 without phases. */
  function Percentage(p: Progress): (r: nat)
    ensures p.totalCount == 0 ==> r == 0
    ensures p.totalCount > 0 ==>
      2 * p.totalCount * r <= 2000 * p.completedCount + p.totalCount < 2 * p.totalCount * (r + 1)
  {
    if p.totalCount > 0 then (2000 * p.completedCount + p.totalCount) / (2 * p.totalCount) else 0
  }

  /** The reported percentage never exceeds 100.0 while no more phases are
   *  completed than listed, and is exactly 100.0 when all are. */
  lemma PercentageBounds(p: Progress)
    ensures p.completedCount <= p.totalCount ==> Percentage(p) <= 1000
    ensures 0 < p.completedCount == p.totalCount ==> Percentage(p) == 1000
  {
    var r, c, t := Percentage(p), p.completedCount, p.totalCount;
    if c <= t && t > 0 {
      if r > 1000 {
        ScaleMonotone(2 * t, 1001, r);
      }
      if c == t && r < 1000 {
        ScaleMonotone(2 * t, r + 1, 1000);
      }
    }
  }

  lemma ScaleMonotone(k: nat, a: nat, b: nat)
    requires a <= b
    ensures k * a <= k * b
  {
  }

  /** `[p for p in phases if p not in completed]`. */
  function Remaining(phases: seq<Value>, completed: seq<Value>): (r: seq<Value>)
    ensures forall v :: v in r <==> v in phases && v !in completed
    ensures |r| <= |phases|
  {
    if |phases| == 0 then []
    else (if phases[0] in completed then [] else [phases[0]]) + Remaining(phases[1..], completed)
  }

  /** Nothing remains once every phase is completed. */
  lemma {:induction false} RemainingNone(phases: seq<Value>, completed: seq<Value>)
    requires forall i :: 0 <= i < |phases| ==> phases[i] in completed
    ensures Remaining(phases, completed) == []
    decreases |phases|
  {
    if |phases| > 0 {
      RemainingNone(phases[1..], completed);
    }
  }

  /** A phase list as `len`, `in` and the comprehension read it.  Only a
   *  list is accepted: Python also takes the length of, and tests
   *  membership in, a string or a dictionary, which the model reports as a
   *  failure instead. */
  function ListOf(v: Value): Option<seq<Value>>
  {
    if v.VList? then Some(v.items) else None
  }

  /** `handle_monitor_project_progress`, leaving out the recent-files scan. */
  function Monitor(reg: Registry, id: string): (r: Result<Progress>)
    ensures (id !in reg.records || reg.records[id] == map[]) ==> r == Err("Project " + id + " not found")
    ensures r.Ok? <==>
      (id in reg.records && reg.records[id] != map[] &&
       ListOf(Get(reg.records[id], "phases", VList([]))).Some? &&
       ListOf(Get(reg.records[id], "completed_phases", VList([]))).Some?)
    ensures r.Ok? ==> r.value.projectId == id && r.value.completedCount == |r.value.completed|
    ensures r.Ok? ==>
      var phases := ListOf(Get(reg.records[id], "phases", VList([]))).value;
      var completed := ListOf(Get(reg.records[id], "completed_phases", VList([]))).value;
      r.value.totalCount == |phases| && r.value.completed == completed &&
      r.value.remaining == Remaining(phases, completed)
  {
    var found := GetStatus(reg, id);
    if found.Err? then Err(found.error)
    else
      var p := found.value;
      var phases := ListOf(Get(p, "phases", VList([])));
      var completed := ListOf(Get(p, "completed_phases", VList([])));
      if phases.None? || completed.None? then Err("unsupported phase lists")
      else
        Ok(Progress(id, Get(p, "title", VStr("Unknown")), Get(p, "current_phase", VStr("unknown")),
                    Get(p, "status", VStr("unknown")), |completed.value|, |phases.value|, completed.value,
                    Remaining(phases.value, completed.value),
                    Get(p, "updated_at", Get(p, "created_at", VNone))))
  }

  // ---------------------------------------------------------------------
  // Phases

  /** `get_next_phase`. */
  function NextPhase(current: string): (r: string)
    ensures current !in DefaultPhases ==> r == "unknown"
    ensures current == DefaultPhases[3] ==> r == "completed"
  {
    if current == DefaultPhases[0] then DefaultPhases[1]
    else if current == DefaultPhases[1] then DefaultPhases[2]
    else if current == DefaultPhases[2] then DefaultPhases[3]
    else if current == DefaultPhases[3] then "completed"
    else "unknown"
  }

  /** Each listed phase is followed by the next one in the list. */
  lemma NextPhaseFollowsList(i: nat)
    requires i + 1 < |DefaultPhases|
    ensures NextPhase(DefaultPhases[i]) == DefaultPhases[i + 1]
  {
  }

  /** The `phase_completed` callback: the phase is appended to the
   *  project's completed phases and the current phase moves on; a missing
   *  project makes the callback raise. */
  function PhaseCompleted(reg: Registry, id: string, phase: string, now: string): (r: Result<Registry>)
    requires reg.Valid()
    ensures id !in reg.records ==> r.Err?
    ensures r.Ok? ==>
      r.value.Valid() && r.value.ids == reg.ids && id in r.value.records &&
      Get(r.value.records[id], "current_phase", VNone) == VStr(NextPhase(phase)) &&
      ListOf(Get(reg.records[id], "completed_phases", VList([]))).Some? &&
      ListOf(Get(r.value.records[id], "completed_phases", VNone)) ==
        Some(ListOf(Get(reg.records[id], "completed_phases", VList([]))).value + [VStr(phase)])
  {
    if id !in reg.records then Err("'NoneType' object has no attribute 'get'")
    else
      var done := ListOf(Get(reg.records[id], "completed_phases", VList([])));
      if done.None? then Err("object has no attribute 'append'")
      else
        Ok(Update(reg, id, map["completed_phases" := VList(done.value + [VStr(phase)]),
                               "current_phase" := VStr(NextPhase(phase))], now))
  }

  /** The callbacks of a run, applied in order.  A raising callback leaves
   *  the registry as it was: the workflow node that called it catches the
   *  exception and records it as an error of its own. */
  function PhasesCompleted(reg: Registry, id: string, phases: seq<string>, now: string): (r: Registry)
    requires reg.Valid()
    ensures r.Valid() && r.ids == reg.ids
    decreases |phases|
  {
    if |phases| == 0 then reg
    else
      var first := PhaseCompleted(reg, id, phases[0], now);
      PhasesCompleted(if first.Ok? then first.value else reg, id, phases[1..], now)
  }

  /** What `phase_completed` raises for project `id`: the same error for
   *  every phase and every time, and nothing exactly when the project is
   *  registered with a list of completed phases (or none yet). */
  function CallbackError(reg: Registry, id: string): (e: Option<string>)
    requires reg.Valid()
    ensures e.None? <==> id in reg.records && ListOf(Get(reg.records[id], "completed_phases", VList([]))).Some?
    ensures forall phase, now :: e.None? <==> PhaseCompleted(reg, id, phase, now).Ok?
    ensures forall phase, now :: e.Some? ==> PhaseCompleted(reg, id, phase, now) == Err(e.value)
  {
    var r := PhaseCompleted(reg, id, "", "");
    if r.Ok? then None else Some(r.error)
  }

  /** A callback that succeeded leaves the next one succeeding too, so a
   *  run's callbacks either all raise or all succeed. */
  lemma CallbackErrorSteady(reg: Registry, id: string, phase: string, now: string)
    requires reg.Valid() && CallbackError(reg, id).None?
    ensures PhaseCompleted(reg, id, phase, now).Ok? && CallbackError(PhaseCompleted(reg, id, phase, now).value, id).None?
  {
    var r := PhaseCompleted(reg, id, phase, now).value;
    assert "completed_phases" in r.records[id];
  }

  /** When the callback raises, every callback of a run leaves the registry
   *  as it was. */
  lemma {:induction false} PhasesCompletedRaising(reg: Registry, id: string, phases: seq<string>, now: string)
    requires reg.Valid() && CallbackError(reg, id).Some?
    ensures PhasesCompleted(reg, id, phases, now) == reg
    decreases |phases|
  {
    if |phases| > 0 {
      PhasesCompletedRaising(reg, id, phases[1..], now);
    }
  }

  /** When the callback succeeds, the callbacks of a run append their
   *  phases, in order, to whatever list the project held. */
  lemma {:induction false} PhasesCompletedAppend(reg: Registry, id: string, done: seq<Value>, phases: seq<string>,
                                                 now: string)
    requires reg.Valid() && id in reg.records
    requires ListOf(Get(reg.records[id], "completed_phases", VList([]))) == Some(done)
    ensures var r := PhasesCompleted(reg, id, phases, now);
      id in r.records && Get(r.records[id], "completed_phases", VList([])) == VList(done + Texts(phases).items)
    decreases |phases|
  {
    if |phases| == 0 {
      assert PhasesCompleted(reg, id, phases, now) == reg;
      assert done + Texts(phases).items == done;
    } else {
      PhaseCompletedList(reg, id, done, phases[0], now);
      var r1 := PhaseCompleted(reg, id, phases[0], now).value;
      PhasesCompletedUnfold(reg, id, phases, now);
      var first := VStr(phases[0]);
      PhasesCompletedAppend(r1, id, done + [first], phases[1..], now);
      TextsShift(done, phases);
    }
  }

  lemma TextsShift(done: seq<Value>, phases: seq<string>)
    requires |phases| > 0
    ensures (done + [VStr(phases[0])]) + Texts(phases[1..]).items == done + Texts(phases).items
  {
    var t := Texts(phases).items;
    var tail := Texts(phases[1..]).items;
    assert t == [VStr(phases[0])] + tail by {
      assert forall i :: 1 <= i < |t| ==> t[i] == tail[i - 1];
    }
  }

  lemma PhaseCompletedList(reg: Registry, id: string, done: seq<Value>, phase: string, now: string)
    requires reg.Valid() && id in reg.records
    requires ListOf(Get(reg.records[id], "completed_phases", VList([]))) == Some(done)
    ensures var r := PhaseCompleted(reg, id, phase, now);
      r.Ok? && id in r.value.records &&
      ListOf(Get(r.value.records[id], "completed_phases", VList([]))) == Some(done + [VStr(phase)])
  {
    assert "completed_phases" in PhaseCompleted(reg, id, phase, now).value.records[id];
  }

  /** The callbacks of one project leave every other project alone. */
  lemma {:induction false} PhasesCompletedOthers(reg: Registry, id: string, phases: seq<string>, now: string, other: string)
    requires reg.Valid() && other != id
    ensures Lookup(PhasesCompleted(reg, id, phases, now), other) == Lookup(reg, other)
    decreases |phases|
  {
    if |phases| > 0 {
      var first := PhaseCompleted(reg, id, phases[0], now);
      PhasesCompletedOthers(if first.Ok? then first.value else reg, id, phases[1..], now, other);
    }
  }

  /** The callbacks of an unregistered project all raise and change
   *  nothing. */
  lemma {:induction false} PhasesCompletedMissing(reg: Registry, id: string, phases: seq<string>, now: string)
    requires reg.Valid() && id !in reg.records
    ensures PhasesCompleted(reg, id, phases, now) == reg
    decreases |phases|
  {
    if |phases| > 0 {
      PhasesCompletedMissing(reg, id, phases[1..], now);
    }
  }

  /** Completing one phase appends it to the completed list. */
  lemma PhaseCompletedAppends(reg: Registry, id: string, done: seq<string>, phase: string, now: string)
    requires reg.Valid() && id in reg.records
    requires Get(reg.records[id], "completed_phases", VNone) == Texts(done)
    ensures var r := PhaseCompleted(reg, id, phase, now);
      r.Ok? && r.value.Valid() && id in r.value.records &&
      Get(r.value.records[id], "completed_phases", VNone) == Texts(done + [phase]) &&
      Get(r.value.records[id], "current_phase", VNone) == VStr(NextPhase(phase))
  {
    assert Texts(done).items + [VStr(phase)] == Texts(done + [phase]).items;
  }

  /** Completing `phases` one by one appends them, in order, to the
   *  completed list, and leaves the current phase after the last one. */
  lemma {:induction false} PhasesCompletedRecords(reg: Registry, id: string, done: seq<string>, phases: seq<string>,
                                                  now: string)
    requires reg.Valid() && id in reg.records
    requires Get(reg.records[id], "completed_phases", VNone) == Texts(done)
    ensures var r := PhasesCompleted(reg, id, phases, now);
      id in r.records &&
      Get(r.records[id], "completed_phases", VNone) == Texts(done + phases) &&
      (|phases| > 0 ==> Get(r.records[id], "current_phase", VNone) == VStr(NextPhase(phases[|phases| - 1])))
    decreases |phases|
  {
    if |phases| == 0 {
      assert done + phases == done;
    } else {
      var tail := phases[1..];
      assert |tail| > 0 ==> tail[|tail| - 1] == phases[|phases| - 1];
      AppendShift(done, phases);
      PhaseCompletedAppends(reg, id, done, phases[0], now);
      var r1 := PhaseCompleted(reg, id, phases[0], now).value;
      PhasesCompletedUnfold(reg, id, phases, now);
      PhasesCompletedRecords(r1, id, done + [phases[0]], tail, now);
    }
  }

  lemma PhasesCompletedUnfold(reg: Registry, id: string, phases: seq<string>, now: string)
    requires reg.Valid() && |phases| > 0 && PhaseCompleted(reg, id, phases[0], now).Ok?
    ensures PhasesCompleted(reg, id, phases, now) ==
      PhasesCompleted(PhaseCompleted(reg, id, phases[0], now).value, id, phases[1..], now)
  {
  }

  lemma AppendShift<T>(done: seq<T>, xs: seq<T>)
    requires |xs| > 0
    ensures (done + [xs[0]]) + xs[1..] == done + xs
  {
    assert xs == [xs[0]] + xs[1..];
  }

  /** A fresh project that completes all four phases in order ends with all
   *  four recorded and current phase "completed". */
  lemma FullRunProgress(reg: Registry, id: string, now: string)
    requires reg.Valid() && id in reg.records && Get(reg.records[id], "completed_phases", VNone) == VList([])
    ensures var r := PhasesCompleted(reg, id, DefaultPhases, now);
      id in r.records &&
      Get(r.records[id], "completed_phases", VNone) == Texts(DefaultPhases) &&
      Get(r.records[id], "current_phase", VNone) == VStr("completed")
  {
    assert Texts([]) == VList([]);
    PhasesCompletedRecords(reg, id, [], DefaultPhases, now);
    assert [] + DefaultPhases == DefaultPhases;
  }

  /** Once every listed phase is completed, progress is 100% and nothing
   *  remains. */
  lemma CompleteProgress(reg: Registry, id: string, p: Progress)
    requires Monitor(reg, id) == Ok(p)
    requires id in reg.records && AsTexts(Get(reg.records[id], "phases", VNone)) == Some(DefaultPhases)
    requires Get(reg.records[id], "completed_phases", VNone) == Texts(DefaultPhases)
    ensures p.remaining == [] && Percentage(p) == 1000
  {
    var v := Texts(DefaultPhases);
    assert p.completed == v.items && p.totalCount == |v.items| == 4;
    RemainingNone(v.items, v.items);
    PercentageBounds(p);
  }

  // ---------------------------------------------------------------------
  // Resources

  datatype Resource = ProjectResource(record: Metadata) | ArtifactResource(text: string)

  const ProjectScheme: string := "project://"
  const ArtifactScheme: string := "artifact://"

  /** `read_resource`: `project://<id>` reads a record, and
   *  `artifact://<project>/<name>` an artifact file (a parameter here);
   *  the scheme prefix is removed wherever it occurs, as `str.replace`
   *  does; any other scheme is a ValueError. */
  function ReadResource(reg: Registry, uri: string, artifacts: map<(string, string), string>): (r: Result<Resource>)
    ensures !StartsWith(uri, ProjectScheme) && !StartsWith(uri, ArtifactScheme) ==>
      r == Err("Unsupported URI scheme: " + uri)
    ensures StartsWith(uri, ArtifactScheme) && !StartsWith(uri, ProjectScheme) &&
            |Split(ReplaceAll(uri, ArtifactScheme, ""), '/')| != 2 ==>
      r == Err("Invalid artifact URI format")
  {
    if StartsWith(uri, ProjectScheme) then
      var id := ReplaceAll(uri, ProjectScheme, "");
      if id in reg.records && reg.records[id] != map[] then Ok(ProjectResource(reg.records[id]))
      else Err("Project " + id + " not found")
    else if StartsWith(uri, ArtifactScheme) then
      var parts := Split(ReplaceAll(uri, ArtifactScheme, ""), '/');
      if |parts| != 2 then Err("Invalid artifact URI format")
      else if (parts[0], parts[1]) in artifacts then Ok(ArtifactResource(artifacts[(parts[0], parts[1])]))
      else Err("Artifact " + parts[1] + " not found for project " + parts[0])
    else Err("Unsupported URI scheme: " + uri)
  }

  /** Removing a prefix that occurs nowhere else gives back the rest. */
  lemma StripScheme(scheme: string, rest: string)
    requires |scheme| > 0 && !Contains(rest, scheme)
    ensures ReplaceAll(scheme + rest, scheme, "") == rest
  {
    var s := scheme + rest;
    assert s[..|scheme|] == scheme && s[|scheme|..] == rest;
  }

  /** A character absent from the text cannot start an occurrence of a
   *  pattern that begins with it. */
  lemma {:induction false} NoCharNoPattern(s: string, pat: string)
    requires |pat| > 0 && pat[0] !in s
    ensures !Contains(s, pat)
    decreases |s|
  {
    if |s| > 0 {
      assert s[1..] == s[1..] && forall c :: c in s[1..] ==> c in s;
      NoCharNoPattern(s[1..], pat);
    }
  }

  /** A character that does not occur in the text means no split. */
  lemma SplitWithout(s: string, sep: char)
    requires sep !in s
    ensures Split(s, sep) == [s]
  {
  }

  /** `project://<id>` reads back the registered record. */
  lemma ProjectUriRoundTrip(reg: Registry, id: string, artifacts: map<(string, string), string>)
    requires id in reg.records && reg.records[id] != map[] && !Contains(id, ProjectScheme)
    ensures ReadResource(reg, ProjectScheme + id, artifacts) == Ok(ProjectResource(reg.records[id]))
  {
    StripScheme(ProjectScheme, id);
    assert StartsWith(ProjectScheme + id, ProjectScheme) by {
      assert (ProjectScheme + id)[..|ProjectScheme|] == ProjectScheme;
    }
  }

  /** `artifact://<project>/<name>` splits back into its two parts when
   *  neither holds a '/'. */
  lemma ArtifactUriParts(project: string, name: string)
    requires '/' !in project && '/' !in name
    ensures Split(ReplaceAll(ArtifactScheme + project + "/" + name, ArtifactScheme, ""), '/') == [project, name]
  {
    var rest := project + "/" + name;
    assert !Contains(rest, ArtifactScheme) by {
      NoSlashNoScheme(project, name);
    }
    assert ArtifactScheme + project + "/" + name == ArtifactScheme + rest;
    StripScheme(ArtifactScheme, rest);
    SplitAfter(project, name, '/');
    SplitWithout(name, '/');
  }

  /** The artifact scheme holds "//", which `<project>/<name>` cannot
   *  hold when neither part has a '/'. */
  lemma NoSlashNoScheme(project: string, name: string)
    requires '/' !in project && '/' !in name
    ensures !Contains(project + "/" + name, ArtifactScheme)
  {
    var rest := project + "/" + name;
    forall i: nat ensures !OccursAt(rest, ArtifactScheme, i) {
      assert ArtifactScheme[9] == '/' && ArtifactScheme[10] == '/';
      if i + |ArtifactScheme| <= |rest| {
        var w := rest[i..i + |ArtifactScheme|];
        assert w[9] == rest[i + 9] && w[10] == rest[i + 10];
        if i + 9 < |project| {
          assert rest[i + 9] == project[i + 9];
        } else if i + 9 > |project| {
          assert rest[i + 9] == name[i + 9 - |project| - 1];
        } else {
          assert rest[i + 10] == name[0];
        }
      }
    }
    NoOccurrence(rest, ArtifactScheme);
  }
}

=== FILE: prompts.dfy ===
/** The prompt store: templates with optional metadata, parameter validation, choosing a loader
 *  by file extension, the two-level registry, loading a directory of prompt files, and the
 *  lookup that turns every failure into an empty prompt.  Reading files, the directory listing
 *  and Python's `str.format` are parameters. */
module Prompts {
  import opened Wrappers
  import opened Strings
  import opened Models

  // ---------------------------------------------------------------------
  // Templates and their metadata

  /** `PromptMetadata`.  The dataclass does not check types, so each field
   *  holds whatever the prompt file gave. */
  datatype PromptMetadata = PromptMetadata(name: Value, description: Value, version: Value,
                                           requiredParams: Value, optionalParams: Value, category: Value)

  datatype Template = Template(content: Value, metadata: Option<PromptMetadata>)

  /** `_extract_metadata`: only a dict with a `_metadata` entry carries
   *  metadata; a `_metadata` that is not a dict makes `.get` raise. */
  function ExtractMetadata(data: Value): (r: Result<Option<PromptMetadata>>)
    ensures !(data.VObj? && "_metadata" in data.fields) ==> r == Ok(None)
    ensures data.VObj? && "_metadata" in data.fields ==>
      (r.Ok? <==> data.fields["_metadata"].VObj?) && (r.Ok? ==> r.value.Some?)
  {
    if data.VObj? && "_metadata" in data.fields then
      var meta := data.fields["_metadata"];
      if !meta.VObj? then Err("object has no attribute 'get'")
      else
        var m := meta.fields;
        Ok(Some(PromptMetadata(Get(m, "name", VStr("")), Get(m, "description", VStr("")),
                               Get(m, "version", VStr("1.0")), Get(m, "required_params", VList([])),
                               Get(m, "optional_params", VList([])), Get(m, "category", VStr("general")))))
    else Ok(None)
  }

  /** The defaults: an empty `_metadata` dict gives version "1.0", category
   *  "general", empty names and empty parameter lists; a field that is
   *  present is taken as it is. */
  lemma MetadataDefaults(data: Value, key: string)
    requires data.VObj? && "_metadata" in data.fields && data.fields["_metadata"].VObj?
    ensures var meta := data.fields["_metadata"].fields;
      var md := ExtractMetadata(data).value.value;
      (meta == map[] ==> md == PromptMetadata(VStr(""), VStr(""), VStr("1.0"), VList([]), VList([]), VStr("general")))
      && ("version" in meta ==> md.version == meta["version"])
      && ("required_params" in meta ==> md.requiredParams == meta["required_params"])
      && ("category" in meta ==> md.category == meta["category"])
  {
  }

  // ---------------------------------------------------------------------
  // Parameter validation

  /** `set(required_params)`: the members of a list (which must all be
   *  hashable), the characters of a string, or the keys of a dict; any
   *  other value is not iterable. */
  function ParamSet(v: Value): Option<set<Value>>
  {
    match v
    case VList(items) =>
      if forall i :: 0 <= i < |items| ==> !items[i].VList? && !items[i].VObj? then Some(set x | x in items)
      else None
    case VStr(s) => Some(set i | 0 <= i < |s| :: VStr([s[i]]))
    case VObj(fields) => Some(set k | k in fields :: VStr(k))
    case _ => None
  }

  predicate Provided(x: Value, provided: set<string>)
  {
    x.VStr? && x.s in provided
  }

  /** The outcome of `validate_params`: true, the ValueError naming the
   *  missing parameters, or the TypeError of `set()` on a value it cannot
   *  iterate. */
  datatype Validation = Valid | Missing(params: set<Value>) | NotIterable

  function ValidateParams(t: Template, provided: set<string>): (r: Validation)
    ensures t.metadata.None? ==> r == Valid
    ensures t.metadata.Some? ==> (r == NotIterable <==> ParamSet(t.metadata.value.requiredParams).None?)
    ensures t.metadata.Some? && ParamSet(t.metadata.value.requiredParams).Some? ==>
      (r == Valid <==> forall x :: x in ParamSet(t.metadata.value.requiredParams).value ==> Provided(x, provided))
    ensures r.Missing? ==> r.params != {} && forall x :: x in r.params ==> !Provided(x, provided)
  {
    if t.metadata.None? then Valid
    else
      var required := ParamSet(t.metadata.value.requiredParams);
      if required.None? then NotIterable
      else
        var missing := set x | x in required.value && !Provided(x, provided);
        assert forall x :: x in required.value && !Provided(x, provided) ==> x in missing;
        if missing == {} then Valid else Missing(missing)
  }

  /** Extra parameters never make a valid call invalid. */
  lemma ExtraParamsIgnored(t: Template, provided: set<string>, extra: set<string>)
    requires ValidateParams(t, provided) == Valid
    ensures ValidateParams(t, provided + extra) == Valid
  {
    if t.metadata.Some? {
      var required := ParamSet(t.metadata.value.requiredParams).value;
      forall x | x in required ensures Provided(x, provided + extra) {
        assert Provided(x, provided);
      }
    }
  }

  /** A required name the caller leaves out is reported as missing. */
  lemma MissingParamReported(t: Template, provided: set<string>, p: string)
    requires t.metadata.Some? && t.metadata.value.requiredParams.VList?
    requires VStr(p) in t.metadata.value.requiredParams.items && p !in provided
    requires ParamSet(t.metadata.value.requiredParams).Some?
    ensures ValidateParams(t, provided).Missing? && VStr(p) in ValidateParams(t, provided).params
  {
    assert !Provided(VStr(p), provided);
  }

  // ---------------------------------------------------------------------
  // Choosing a loader

  /** A loader and the extensions it accepts, in lower case. */
  datatype Loader = Loader(format: string, extensions: seq<string>)

  const JsonLoader := Loader("json", [".json"])
  const YamlLoader := Loader("yaml", [".yaml", ".yml"])
  const DefaultLoaders: seq<Loader> := [JsonLoader, YamlLoader]

  predicate Supports(l: Loader, extension: string)
  {
    ToLower(extension) in l.extensions
  }

  /** The last path component. */
  function FileName(path: string): (r: string)
    ensures '/' !in r
  {
    var i := RFindChar(path, '/');
    if i < 0 then path else path[i + 1..]
  }

  /** `Path.suffix`: from the last '.' of the file name, unless that dot
   *  opens or ends the name. */
  function Suffix(path: string): (r: string)
    ensures r == "" || (r[0] == '.' && EndsWith(FileName(path), r) && '.' !in r[1..])
  {
    var name := FileName(path);
    var i := RFindChar(name, '.');
    if 0 < i < |name| - 1 then name[i..] else ""
  }

  /** `Path.stem`: the file name without its suffix. */
  function Stem(path: string): (r: string)
    ensures FileName(path) == r + Suffix(path)
  {
    var name := FileName(path);
    var i := RFindChar(name, '.');
    if 0 < i < |name| - 1 then name[..i] else name
  }

  /** `l` is a loader of the list and none before it accepts `extension`. */
  predicate FirstSupporting(loaders: seq<Loader>, extension: string, l: Loader)
  {
    exists i :: 0 <= i < |loaders| && loaders[i] == l && forall j :: 0 <= j < i ==> !Supports(loaders[j], extension)
  }

  /** `get_loader`: the first registered loader that accepts the suffix. */
  function GetLoader(loaders: seq<Loader>, path: string): (r: Option<Loader>)
    ensures r.None? <==> forall i :: 0 <= i < |loaders| ==> !Supports(loaders[i], Suffix(path))
    ensures r.Some? ==> Supports(r.value, Suffix(path)) && FirstSupporting(loaders, Suffix(path), r.value)
  {
    if |loaders| == 0 then None
    else if Supports(loaders[0], Suffix(path)) then Some(loaders[0])
    else
      var rest := GetLoader(loaders[1..], path);
      if rest.Some? then
        assert forall i :: 0 <= i < |loaders[1..]| ==> loaders[1..][i] == loaders[i + 1];
        rest
      else rest
  }

  /** The built-in choice: ".json" in any case reads JSON, ".yaml" and
   *  ".yml" read YAML, and anything else has no loader. */
  lemma DefaultLoaderChoice(path: string)
    ensures GetLoader(DefaultLoaders, path) == Some(JsonLoader) <==> ToLower(Suffix(path)) == ".json"
    ensures GetLoader(DefaultLoaders, path) == Some(YamlLoader) <==> ToLower(Suffix(path)) in [".yaml", ".yml"]
    ensures GetLoader(DefaultLoaders, path) == None <==> ToLower(Suffix(path)) !in [".json", ".yaml", ".yml"]
  {
    DefaultLoaderUnfold(path);
    assert JsonLoader.format[0] != YamlLoader.format[0];
  }

  /** The built-in loaders tried in order on a path's suffix. */
  lemma DefaultLoaderUnfold(path: string)
    ensures var x := ToLower(Suffix(path));
      GetLoader(DefaultLoaders, path)
        == if x == ".json" then Some(JsonLoader) else if x in [".yaml", ".yml"] then Some(YamlLoader) else None
  {
    assert DefaultLoaders[0] == JsonLoader && DefaultLoaders[1] == YamlLoader;
    assert DefaultLoaders[1..][0] == YamlLoader && DefaultLoaders[1..][1..] == [];
  }

  /** `register_loader` appends, so a registered loader never takes over
   *  an extension an earlier loader already accepts. */
  lemma {:induction false} RegisteredLoaderComesLast(loaders: seq<Loader>, l: Loader, path: string)
    requires GetLoader(loaders, path).Some?
    ensures GetLoader(loaders + [l], path) == GetLoader(loaders, path)
  {
    assert (loaders + [l])[0] == loaders[0];
    if !Supports(loaders[0], Suffix(path)) {
      assert (loaders + [l])[1..] == loaders[1..] + [l];
      RegisteredLoaderComesLast(loaders[1..], l, path);
    }
  }

  // ---------------------------------------------------------------------
  // The registry

  /** Templates and metadata by agent, then by prompt name.  The listing
   *  order of the dicts is not modelled: listings are sets. */
  datatype Registry = Registry(prompts: map<string, map<string, Template>>,
                               metadata: map<string, map<string, PromptMetadata>>)
  {
    /** Both dicts know the same agents, and metadata is only kept for
     *  prompts that exist. */
    predicate Valid()
    {
      prompts.Keys == metadata.Keys &&
      forall a :: a in metadata ==> metadata[a].Keys <= prompts[a].Keys
    }
  }

  const EmptyRegistry := Registry(map[], map[])

  function GetPrompt(r: Registry, agent: string, name: string): Option<Template>
  {
    if agent in r.prompts && name in r.prompts[agent] then Some(r.prompts[agent][name]) else None
  }

  function GetMetadata(r: Registry, agent: string, name: string): Option<PromptMetadata>
  {
    if agent in r.metadata && name in r.metadata[agent] then Some(r.metadata[agent][name]) else None
  }

  function ListAgents(r: Registry): set<string>
  {
    r.prompts.Keys
  }

  function ListPrompts(r: Registry, agent: string): set<string>
  {
    if agent in r.prompts then r.prompts[agent].Keys else {}
  }

  /** `register_prompt`: stores the template, replacing one of the same
   *  name; metadata is written only when the template has some, so a
   *  replacement without metadata leaves the old metadata in place. */
  function Register(r: Registry, agent: string, name: string, t: Template): (r': Registry)
    requires r.Valid()
    ensures r'.Valid()
    ensures GetPrompt(r', agent, name) == Some(t)
    ensures t.metadata.Some? ==> GetMetadata(r', agent, name) == t.metadata
    ensures ListAgents(r') == ListAgents(r) + {agent}
    ensures ListPrompts(r', agent) == ListPrompts(r, agent) + {name}
  {
    var base := if agent in r.prompts then r else Put(r, agent, map[], map[]);
    var pm := base.prompts[agent][name := t];
    var mm := if t.metadata.Some? then base.metadata[agent][name := t.metadata.value] else base.metadata[agent];
    Put(base, agent, pm, mm)
  }

  /** Replaces one agent's prompts and metadata. */
  function Put(r: Registry, agent: string, pm: map<string, Template>, mm: map<string, PromptMetadata>): (r': Registry)
    requires r.Valid() && mm.Keys <= pm.Keys
    ensures r'.Valid()
    ensures r'.prompts == r.prompts[agent := pm] && r'.metadata == r.metadata[agent := mm]
    ensures ListAgents(r') == ListAgents(r) + {agent} && ListPrompts(r', agent) == pm.Keys
  {
    var r' := Registry(r.prompts[agent := pm], r.metadata[agent := mm]);
    assert forall a :: a in r'.metadata ==> r'.metadata[a].Keys <= r'.prompts[a].Keys by {
      forall a | a in r'.metadata ensures r'.metadata[a].Keys <= r'.prompts[a].Keys {
        if a != agent { assert r'.metadata[a] == r.metadata[a] && r'.prompts[a] == r.prompts[a]; }
      }
    }
    r'
  }

  /** Registering touches one prompt: every other prompt, and without new
   *  metadata every metadata entry, reads as before. */
  lemma RegisterKeepsOthers(r: Registry, agent: string, name: string, t: Template, a: string, n: string)
    requires r.Valid()
    ensures (a, n) != (agent, name) ==> GetPrompt(Register(r, agent, name, t), a, n) == GetPrompt(r, a, n)
    ensures (a, n) != (agent, name) || t.metadata.None? ==>
      GetMetadata(Register(r, agent, name, t), a, n) == GetMetadata(r, a, n)
  {
  }

  /** An agent nobody registered lists no prompts and has none. */
  lemma UnknownAgentEmpty(r: Registry, agent: string, name: string)
    requires agent !in ListAgents(r)
    ensures ListPrompts(r, agent) == {} && GetPrompt(r, agent, name) == None
  {
  }

  // ---------------------------------------------------------------------
  // Loading prompt files

  /** What reading a file gives: an error, a document that is not a dict,
   *  or the dict's entries in file order. */
  datatype FileData = Unreadable | NotADict | Entries(items: seq<(string, Value)>)

  datatype PromptFile = PromptFile(path: string, modTime: int, data: FileData)

  /** The manager's state: the registry, the modification time of every
   *  file loaded, and whether unchanged files are skipped. */
  datatype Manager = Manager(registry: Registry, loaded: map<string, int>, autoReload: bool)

  /** Registers a file's entries in order; an entry whose metadata cannot
   *  be read stops the file, keeping the entries before it. */
  function RegisterEntries(r: Registry, agent: string, items: seq<(string, Value)>): (r': Registry)
    requires r.Valid()
    ensures r'.Valid()
    ensures ListAgents(r') <= ListAgents(r) + {agent}
    decreases |items|
  {
    if |items| == 0 then r
    else
      var meta := ExtractMetadata(items[0].1);
      if meta.Err? then r
      else RegisterEntries(Register(r, agent, items[0].0, Template(items[0].1, meta.value)), agent, items[1..])
  }

  /** `_load_prompt_file` for a file of the given loaders. */
  function LoadFile(m: Manager, loaders: seq<Loader>, f: PromptFile): (m': Manager)
    requires m.registry.Valid()
    ensures m'.registry.Valid() && m'.autoReload == m.autoReload
    ensures GetLoader(loaders, f.path).None? || f.data.Unreadable? ==> m' == m
    ensures m.autoReload && f.path in m.loaded && m.loaded[f.path] >= f.modTime ==> m' == m
    ensures !m.autoReload ==> m'.loaded == m.loaded
    ensures m'.loaded.Keys <= m.loaded.Keys + {f.path}
    ensures forall p :: p in m.loaded && p != f.path ==> p in m'.loaded && m'.loaded[p] == m.loaded[p]
    ensures m.autoReload && GetLoader(loaders, f.path).Some? && !f.data.Unreadable? ==>
      f.path in m'.loaded && m'.loaded[f.path] >= f.modTime
  {
    if GetLoader(loaders, f.path).None? || f.data.Unreadable? then m
    else if m.autoReload && f.path in m.loaded && m.loaded[f.path] >= f.modTime then m
    else
      var loaded := if m.autoReload then m.loaded[f.path := f.modTime] else m.loaded;
      if f.data.NotADict? then m.(loaded := loaded)
      else m.(registry := RegisterEntries(m.registry, Stem(f.path), f.data.items), loaded := loaded)
  }

  function LoadAll(m: Manager, loaders: seq<Loader>, files: seq<PromptFile>): (m': Manager)
    requires m.registry.Valid()
    ensures m'.registry.Valid() && m'.autoReload == m.autoReload
    ensures !m.autoReload ==> m'.loaded == m.loaded
    ensures forall p :: p in m'.loaded && p !in m.loaded ==> exists i :: 0 <= i < |files| && files[i].path == p
    decreases |files|
  {
    if |files| == 0 then m else LoadAll(LoadFile(m, loaders, files[0]), loaders, files[1..])
  }

  /** `reload_prompts`: forgets every prompt and every modification time,
   *  then loads the directory's files again with the factory's current
   *  loaders. */
  function Reload(m: Manager, loaders: seq<Loader>, files: seq<PromptFile>): (m': Manager)
    ensures m'.registry.Valid() && m'.autoReload == m.autoReload
    ensures !m.autoReload ==> m'.loaded == map[]
    ensures forall p :: p in m'.loaded ==> exists i :: 0 <= i < |files| && files[i].path == p
  {
    LoadAll(Manager(EmptyRegistry, map[], m.autoReload), loaders, files)
  }

  /** With automatic reloading on, loading a file a second time, unchanged,
   *  is skipped: loading is idempotent. */
  lemma LoadTwiceSkips(m: Manager, loaders: seq<Loader>, f: PromptFile)
    requires m.registry.Valid() && m.autoReload
    ensures LoadFile(LoadFile(m, loaders, f), loaders, f) == LoadFile(m, loaders, f)
  {
  }

  /** A file with an unsupported extension changes nothing. */
  lemma UnsupportedFileIgnored(m: Manager, loaders: seq<Loader>, f: PromptFile)
    requires m.registry.Valid() && GetLoader(loaders, f.path).None?
    ensures LoadFile(m, loaders, f) == m
  {
  }

  /** Reloading forgets what was loaded before: two managers that differ
   *  only in their registries reload to the same state. */
  lemma ReloadForgets(m1: Manager, m2: Manager, loaders: seq<Loader>, files: seq<PromptFile>)
    requires m1.autoReload == m2.autoReload
    ensures Reload(m1, loaders, files) == Reload(m2, loaders, files)
  {
  }

  /** The entries of a well-formed file are all found under the file's
   *  stem, each with the metadata it carries. */
  lemma {:induction false} EntriesRegistered(r: Registry, agent: string, items: seq<(string, Value)>, i: nat)
    requires r.Valid() && i < |items|
    requires AllMetadataOk(items)
    requires DistinctNames(items)
    ensures GetPrompt(RegisterEntries(r, agent, items), agent, items[i].0)
      == Some(Template(items[i].1, ExtractMetadata(items[i].1).value))
    decreases |items|
  {
    if i == 0 {
      EntriesHead(r, agent, items);
    } else {
      var r1 := Register(r, agent, items[0].0, Template(items[0].1, ExtractMetadata(items[0].1).value));
      assert AllMetadataOk(items[1..]) && DistinctNames(items[1..]) by {
        TailFacts(items);
      }
      EntriesRegistered(r1, agent, items[1..], i - 1);
      EntriesStep(r, agent, items, i);
    }
  }

  /** The first entry of a file is found after the whole file is
   *  registered, when no later entry has its name. */
  lemma EntriesHead(r: Registry, agent: string, items: seq<(string, Value)>)
    requires r.Valid() && |items| > 0 && ExtractMetadata(items[0].1).Ok?
    requires forall j :: 1 <= j < |items| ==> items[j].0 != items[0].0
    ensures GetPrompt(RegisterEntries(r, agent, items), agent, items[0].0)
      == Some(Template(items[0].1, ExtractMetadata(items[0].1).value))
  {
    var t := Template(items[0].1, ExtractMetadata(items[0].1).value);
    var r1 := Register(r, agent, items[0].0, t);
    var rest := items[1..];
    assert GetPrompt(r1, agent, items[0].0) == Some(t);
    EntriesUnfold(r, agent, items);
    assert forall j :: 0 <= j < |rest| ==> rest[j].0 != items[0].0 by {
      forall j | 0 <= j < |rest| ensures rest[j].0 != items[0].0 {
        assert rest[j] == items[j + 1];
      }
    }
    EntriesKeep(r1, agent, rest, items[0].0);
  }

  /** A well-formed first entry is registered before the rest. */
  lemma EntriesUnfold(r: Registry, agent: string, items: seq<(string, Value)>)
    requires r.Valid() && |items| > 0 && ExtractMetadata(items[0].1).Ok?
    ensures RegisterEntries(r, agent, items)
      == RegisterEntries(Register(r, agent, items[0].0, Template(items[0].1, ExtractMetadata(items[0].1).value)), agent, items[1..])
  {
  }

  /** An entry after the first is found after the whole file is registered
   *  when it is found after the rest of the file is registered on top of
   *  the first entry. */
  lemma EntriesStep(r: Registry, agent: string, items: seq<(string, Value)>, i: nat)
    requires r.Valid() && 0 < i < |items| && ExtractMetadata(items[0].1).Ok?
    requires
      var r1 := Register(r, agent, items[0].0, Template(items[0].1, ExtractMetadata(items[0].1).value));
      var e := items[1..][i - 1];
      ExtractMetadata(e.1).Ok? &&
      GetPrompt(RegisterEntries(r1, agent, items[1..]), agent, e.0) == Some(Template(e.1, ExtractMetadata(e.1).value))
    ensures ExtractMetadata(items[i].1).Ok?
    ensures GetPrompt(RegisterEntries(r, agent, items), agent, items[i].0)
      == Some(Template(items[i].1, ExtractMetadata(items[i].1).value))
  {
    EntriesUnfold(r, agent, items);
    assert items[1..][i - 1] == items[i];
  }

  /** Every entry of a file carries well-formed metadata. */
  predicate AllMetadataOk(items: seq<(string, Value)>)
  {
    forall j :: 0 <= j < |items| ==> ExtractMetadata(items[j].1).Ok?
  }

  /** No two entries of a file share a name. */
  predicate DistinctNames(items: seq<(string, Value)>)
  {
    forall j, k :: 0 <= j < k < |items| ==> items[j].0 != items[k].0
  }

  /** The tail of a well-formed file with distinct names is one too. */
  lemma TailFacts(items: seq<(string, Value)>)
    requires |items| > 0
    requires AllMetadataOk(items)
    requires DistinctNames(items)
    ensures AllMetadataOk(items[1..]) && DistinctNames(items[1..])
  {
    assert forall j :: 0 <= j < |items[1..]| ==> items[1..][j] == items[j + 1];
  }

  /** Registering other names leaves a prompt where it is. */
  lemma {:induction false} EntriesKeep(r: Registry, agent: string, items: seq<(string, Value)>, name: string)
    requires r.Valid()
    requires forall j :: 0 <= j < |items| ==> items[j].0 != name
    ensures GetPrompt(RegisterEntries(r, agent, items), agent, name) == GetPrompt(r, agent, name)
    decreases |items|
  {
    if |items| > 0 {
      var meta := ExtractMetadata(items[0].1);
      if meta.Ok? {
        var r1 := Register(r, agent, items[0].0, Template(items[0].1, meta.value));
        RegisterKeepsOthers(r, agent, items[0].0, Template(items[0].1, meta.value), agent, name);
        assert forall j :: 0 <= j < |items[1..]| ==> items[1..][j] == items[j + 1];
        EntriesKeep(r1, agent, items[1..], name);
      }
    }
  }

  // ---------------------------------------------------------------------
  // Looking a prompt up

  /** `PromptManager.get_prompt`: a missing template, a failed validation
   *  or a failed format all give "".  `format` stands for
   *  `PromptTemplate.format`, which relies on Python's `str.format`. */
  function GetPromptText(r: Registry, agent: string, promptType: string, provided: set<string>,
                         format: Template -> Result<string>): (text: string)
    ensures GetPrompt(r, agent, promptType).None? ==> text == ""
    ensures text != "" ==>
      GetPrompt(r, agent, promptType).Some? && format(GetPrompt(r, agent, promptType).value) == Ok(text)
  {
    var t := GetPrompt(r, agent, promptType);
    if t.None? then ""
    else if t.value.metadata.Some? && t.value.metadata.value.requiredParams.Truthy()
         && ValidateParams(t.value, provided) != Valid then ""
    else
      var formatted := format(t.value);
      if formatted.Err? then "" else formatted.value
  }

  /** A prompt whose required parameter is left out is "", whatever the
   *  template would format to. */
  lemma MissingParamGivesEmpty(r: Registry, agent: string, promptType: string, provided: set<string>,
                               format: Template -> Result<string>, p: string)
    requires GetPrompt(r, agent, promptType).Some?
    requires var t := GetPrompt(r, agent, promptType).value;
      t.metadata.Some? && t.metadata.value.requiredParams.VList? &&
      VStr(p) in t.metadata.value.requiredParams.items && p !in provided &&
      ParamSet(t.metadata.value.requiredParams).Some?
    ensures GetPromptText(r, agent, promptType, provided, format) == ""
  {
    MissingParamReported(GetPrompt(r, agent, promptType).value, provided, p);
  }

  /** A prompt without metadata is formatted as registered. */
  lemma PlainPromptFormats(r: Registry, agent: string, name: string, t: Template, provided: set<string>,
                           format: Template -> Result<string>)
    requires r.Valid() && t.metadata.None? && format(t).Ok?
    ensures GetPromptText(Register(r, agent, name, t), agent, name, provided, format) == format(t).value
  {
  }
}

=== FILE: strings.dfy ===
/** The Python `str` operations the modelled code relies on, over
 *  `seq<char>`.  Case mapping covers ASCII letters only; whitespace is the
 *  set `str.isspace()` accepts. */
module Strings {

  /** `c.isspace()`. */
  predicate IsSpace(c: char)
  {
    var n := c as int;
    (9 <= n <= 13) || (28 <= n <= 32) || n == 0x85 || n == 0xA0 || n == 0x1680
    || (0x2000 <= n <= 0x200A) || n == 0x2028 || n == 0x2029 || n == 0x202F
    || n == 0x205F || n == 0x3000
  }

  function LowerChar(c: char): char
  {
    if 'A' <= c <= 'Z' then (c as int + 32) as char else c
  }

  /** `s.lower()` on ASCII letters. */
  function ToLower(s: string): (r: string)
    ensures |r| == |s|
    ensures forall i :: 0 <= i < |s| ==> r[i] == LowerChar(s[i])
  {
    if |s| == 0 then "" else [LowerChar(s[0])] + ToLower(s[1..])
  }

  /** Lower-casing leaves a string without capitals as it is. */
  lemma LowerFixed(s: string)
    requires forall i :: 0 <= i < |s| ==> !('A' <= s[i] <= 'Z')
    ensures ToLower(s) == s
  {
  }

  predicate StartsWith(s: string, prefix: string)
  {
    |prefix| <= |s| && s[..|prefix|] == prefix
  }

  predicate EndsWith(s: string, suffix: string)
  {
    |suffix| <= |s| && s[|s| - |suffix|..] == suffix
  }

  /** `sub in s`. */
  predicate Contains(s: string, sub: string)
    decreases |s|
  {
    StartsWith(s, sub) || (|s| > 0 && Contains(s[1..], sub))
  }

  /** An occurrence at a known index makes `Contains` hold. */
  lemma {:induction false} ContainsAt(s: string, sub: string, i: nat)
    requires i + |sub| <= |s| && s[i..i + |sub|] == sub
    ensures Contains(s, sub)
    decreases i
  {
    if i == 0 {
      assert s[..|sub|] == sub;
    } else {
      assert s[1..][i - 1..i - 1 + |sub|] == s[i..i + |sub|];
      ContainsAt(s[1..], sub, i - 1);
    }
  }

  /** `sub` occurs in `s` starting at index `i`. */
  predicate OccursAt(s: string, sub: string, i: nat)
  {
    i + |sub| <= |s| && s[i..i + |sub|] == sub
  }

  /** A text with no occurrence at any index does not contain the pattern. */
  lemma {:induction false} NoOccurrence(s: string, sub: string)
    requires forall i: nat :: !OccursAt(s, sub, i)
    ensures !Contains(s, sub)
    decreases |s|
  {
    assert !OccursAt(s, sub, 0);
    assert |sub| <= |s| ==> s[0..|sub|] == s[..|sub|];
    if |s| > 0 {
      forall i: nat ensures !OccursAt(s[1..], sub, i) {
        assert !OccursAt(s, sub, i + 1);
        if i + |sub| <= |s[1..]| {
          assert s[1..][i..i + |sub|] == s[i + 1..i + 1 + |sub|];
        }
      }
      NoOccurrence(s[1..], sub);
    }
  }

  /** Where `Contains` holds, an occurrence sits at some index. */
  lemma {:induction false} ContainsIndex(s: string, sub: string) returns (i: nat)
    requires Contains(s, sub)
    ensures OccursAt(s, sub, i)
    decreases |s|
  {
    if StartsWith(s, sub) {
      i := 0;
      assert s[0..|sub|] == s[..|sub|];
    } else {
      var j := ContainsIndex(s[1..], sub);
      assert s[1..][j..j + |sub|] == s[j + 1..j + 1 + |sub|];
      i := j + 1;
    }
  }

  /** A lower-case-only fragment survives `ToLower` unchanged. */
  lemma LowerKeepsLowerFragment(s: string, sub: string, i: nat)
    requires i + |sub| <= |s| && s[i..i + |sub|] == sub
    requires forall j :: 0 <= j < |sub| ==> !('A' <= sub[j] <= 'Z')
    ensures ToLower(s)[i..i + |sub|] == sub
  {
    var t := ToLower(s);
    forall j | 0 <= j < |sub|
      ensures t[i + j] == sub[j]
    {
      assert s[i + j] == sub[j];
    }
  }

  /** An occurrence survives appending text. */
  lemma ContainsExtend(s: string, t: string, sub: string)
    requires Contains(s, sub)
    ensures Contains(s + t, sub)
  {
    var i := ContainsIndex(s, sub);
    assert (s + t)[i..i + |sub|] == s[i..i + |sub|];
    ContainsAt(s + t, sub, i);
  }

  /** `any(k in text for k in keywords)`. */
  predicate ContainsAny(text: string, keywords: seq<string>)
  {
    exists k :: k in keywords && Contains(text, k)
  }

  /** `s.find(c)`: the first index of `c`, or -1. */
  function FindChar(s: string, c: char): (r: int)
    ensures -1 <= r < |s|
    ensures r >= 0 ==> s[r] == c && c !in s[..r]
    ensures r == -1 ==> c !in s
  {
    if |s| == 0 then -1
    else if s[0] == c then 0
    else
      var k := FindChar(s[1..], c);
      if k < 0 then -1
      else
        assert s[..k + 1] == [s[0]] + s[1..][..k];
        k + 1
  }

  /** `s.rfind(c)`: the last index of `c`, or -1. */
  function RFindChar(s: string, c: char): (r: int)
    ensures -1 <= r < |s|
    ensures r >= 0 ==> s[r] == c && c !in s[r + 1..]
    ensures r == -1 ==> c !in s
  {
    if |s| == 0 then -1
    else if s[|s| - 1] == c then |s| - 1
    else
      var k := RFindChar(s[..|s| - 1], c);
      RFindStep(s, c, k);
      k
  }

  /** A last occurrence in all but the last character, which differs from
   *  `c`, is the last occurrence in the whole text. */
  lemma RFindStep(s: string, c: char, k: int)
    requires |s| > 0 && s[|s| - 1] != c && -1 <= k < |s| - 1
    requires k >= 0 ==> s[..|s| - 1][k] == c && c !in s[..|s| - 1][k + 1..]
    requires k == -1 ==> c !in s[..|s| - 1]
    ensures k >= 0 ==> s[k] == c && c !in s[k + 1..]
    ensures k == -1 ==> c !in s
  {
    var init := s[..|s| - 1];
    assert s == init + [s[|s| - 1]];
    if k >= 0 {
      assert s[k + 1..] == init[k + 1..] + [s[|s| - 1]];
    }
  }

  /** `s.split(sep)` for a one-character separator: never empty, and no
   *  piece contains the separator. */
  function Split(s: string, sep: char): (r: seq<string>)
    ensures |r| >= 1
    ensures forall i :: 0 <= i < |r| ==> sep !in r[i]
    decreases |s|
  {
    var k := FindChar(s, sep);
    if k < 0 then [s] else [s[..k]] + Split(s[k + 1..], sep)
  }

  /** `sep.join(parts)`. */
  function Join(parts: seq<string>, sep: string): string
  {
    if |parts| == 0 then ""
    else if |parts| == 1 then parts[0]
    else parts[0] + sep + Join(parts[1..], sep)
  }

  /** Joining the pieces of a split with the separator gives back the text. */
  lemma {:induction false} JoinSplit(s: string, sep: char)
    ensures Join(Split(s, sep), [sep]) == s
    decreases |s|
  {
    var k := FindChar(s, sep);
    if k >= 0 {
      JoinSplit(s[k + 1..], sep);
      JoinAfter(s, k, sep);
    }
  }

  /** One step of `JoinSplit`: the text before a separator put back in
   *  front of the rejoined split of the text after it. */
  lemma JoinAfter(s: string, k: nat, sep: char)
    requires k < |s| && s[k] == sep
    requires Join(Split(s[k + 1..], sep), [sep]) == s[k + 1..]
    ensures Join([s[..k]] + Split(s[k + 1..], sep), [sep]) == s
  {
    JoinCons(s[..k], Split(s[k + 1..], sep), [sep]);
    assert s[..k] + ([sep] + s[k + 1..]) == s;
  }

  /** Splitting at the first separator: the text before it is the first
   *  piece, and the rest is split on its own. */
  lemma SplitAfter(a: string, b: string, sep: char)
    requires sep !in a
    ensures Split(a + [sep] + b, sep) == [a] + Split(b, sep)
  {
    var s := a + [sep] + b;
    var k := FindChar(s, sep);
    assert s[|a|] == sep && s[..|a|] == a;
    assert k == |a| by {
      assert forall j :: 0 <= j < |a| ==> s[j] == a[j];
    }
    assert s[..k] == a && s[k + 1..] == b;
  }

  /** Joining a first piece in front of at least one more. */
  lemma JoinCons(x: string, rest: seq<string>, sep: string)
    requires |rest| > 0
    ensures Join([x] + rest, sep) == x + (sep + Join(rest, sep))
  {
    assert ([x] + rest)[0] == x && ([x] + rest)[1..] == rest;
  }

  /** Splitting a join of separator-free pieces gives the pieces back. */
  lemma {:induction false} SplitJoin(parts: seq<string>, sep: char)
    requires |parts| >= 1
    requires forall i :: 0 <= i < |parts| ==> sep !in parts[i]
    ensures Split(Join(parts, [sep]), sep) == parts
  {
    if |parts| == 1 {
      assert FindChar(parts[0], sep) == -1;
    } else {
      SplitJoin(parts[1..], sep);
      SplitAfter(parts[0], Join(parts[1..], [sep]), sep);
      assert parts == [parts[0]] + parts[1..];
    }
  }

  /** `s[:n]`: the first `n` characters, or all of a shorter text. */
  function Head(s: string, n: nat): (r: string)
    ensures |r| == if |s| <= n then |s| else n
    ensures StartsWith(s, r)
  {
    if |s| <= n then s else s[..n]
  }

  /** `s.replace(pat, rep)`: every non-overlapping occurrence, left to right. */
  function ReplaceAll(s: string, pat: string, rep: string): (r: string)
    requires |pat| > 0
    ensures !Contains(s, pat) ==> r == s
    decreases |s|
  {
    if |s| < |pat| then s
    else if s[..|pat|] == pat then rep + ReplaceAll(s[|pat|..], pat, rep)
    else [s[0]] + ReplaceAll(s[1..], pat, rep)
  }

  /** Replacing one character by another maps the text character by
   *  character. */
  lemma {:induction false} ReplaceCharPointwise(s: string, a: char, b: char)
    ensures |ReplaceAll(s, [a], [b])| == |s|
    ensures forall i :: 0 <= i < |s| ==> ReplaceAll(s, [a], [b])[i] == if s[i] == a then b else s[i]
    decreases |s|
  {
    if |s| > 0 {
      ReplaceCharPointwise(s[1..], a, b);
      var r := ReplaceAll(s, [a], [b]);
      var t := ReplaceAll(s[1..], [a], [b]);
      if s[0] == a {
        assert s[..1] == [a];
        assert r == [b] + t;
      } else {
        assert s[..1] != [a];
        assert r == [s[0]] + t;
      }
    }
  }

  /** `s.count(c)` for one character. */
  function CountChar(s: string, c: char): nat
  {
    if |s| == 0 then 0 else (if s[0] == c then 1 else 0) + CountChar(s[1..], c)
  }

  function DigitChar(d: nat): (c: char)
    requires d < 10
    ensures '0' <= c <= '9'
  {
    ('0' as int + d) as char
  }

  /** `str(n)` for a natural number. */
  function NatToString(n: nat): (r: string)
    ensures |r| >= 1
    ensures forall i :: 0 <= i < |r| ==> '0' <= r[i] <= '9'
    decreases n
  {
    if n < 10 then [DigitChar(n)] else NatToString(n / 10) + [DigitChar(n % 10)]
  }

  /** `str(i)` for any integer: a minus sign before the digits of a
   *  negative one. */
  function IntToString(i: int): (r: string)
    ensures i >= 0 ==> r == NatToString(i)
    ensures i < 0 ==> r == "-" + NatToString(-i)
  {
    if i >= 0 then NatToString(i) else "-" + NatToString(-i)
  }

  function TrimStart(s: string): (r: string)
    ensures |r| <= |s| && r == s[|s| - |r|..]
    ensures forall i :: 0 <= i < |s| - |r| ==> IsSpace(s[i])
    ensures |r| > 0 ==> !IsSpace(r[0])
  {
    if |s| > 0 && IsSpace(s[0]) then TrimStart(s[1..]) else s
  }

  function TrimEnd(s: string): (r: string)
    ensures |r| <= |s| && r == s[..|r|]
    ensures forall i :: |r| <= i < |s| ==> IsSpace(s[i])
    ensures |r| > 0 ==> !IsSpace(r[|r| - 1])
  {
    if |s| > 0 && IsSpace(s[|s| - 1]) then TrimEnd(s[..|s| - 1]) else s
  }

  /** `s.strip()`: neither end of the result is whitespace. */
  function Strip(s: string): (r: string)
    ensures |r| <= |s|
    ensures |r| > 0 ==> !IsSpace(r[0]) && !IsSpace(r[|r| - 1])
  {
    TrimEnd(TrimStart(s))
  }

  /** Every character of `s` is whitespace. */
  predicate AllSpace(s: string)
  {
    forall i :: 0 <= i < |s| ==> IsSpace(s[i])
  }

  /** `not s.strip()` holds exactly for texts made of whitespace only. */
  lemma BlankIsAllSpace(s: string)
    requires Strip(s) == []
    ensures AllSpace(s)
  {
    var t := TrimStart(s);
    assert forall i :: 0 <= i < |t| ==> IsSpace(t[i]);
    assert |t| == 0;
  }

  /** A character that does not occur is counted zero times. */
  lemma {:induction false} CountAbsent(s: string, c: char)
    requires c !in s
    ensures CountChar(s, c) == 0
  {
    if |s| > 0 {
      assert c !in s[1..] by {
        assert forall i :: 0 <= i < |s[1..]| ==> s[1..][i] == s[i + 1];
      }
      CountAbsent(s[1..], c);
    }
  }

  /** Stripping removes exactly the whitespace padding around a text that
   *  neither starts nor ends with whitespace. */
  lemma StripPadded(pre: string, body: string, post: string)
    requires AllSpace(pre) && AllSpace(post)
    requires |body| > 0 && !IsSpace(body[0]) && !IsSpace(body[|body| - 1])
    ensures Strip(pre + body + post) == body
  {
    TrimStartPadded(pre, body + post);
    assert pre + body + post == pre + (body + post);
    TrimEndPadded(body, post);
  }

  lemma {:induction false} TrimStartPadded(pre: string, rest: string)
    requires AllSpace(pre) && |rest| > 0 && !IsSpace(rest[0])
    ensures TrimStart(pre + rest) == rest
    decreases |pre|
  {
    if |pre| > 0 {
      assert (pre + rest)[1..] == pre[1..] + rest;
      TrimStartPadded(pre[1..], rest);
    } else {
      assert pre + rest == rest;
    }
  }

  lemma {:induction false} TrimEndPadded(body: string, post: string)
    requires AllSpace(post) && |body| > 0 && !IsSpace(body[|body| - 1])
    ensures TrimEnd(body + post) == body
    decreases |post|
  {
    if |post| > 0 {
      assert (body + post)[..|body + post| - 1] == body + post[..|post| - 1];
      TrimEndPadded(body, post[..|post| - 1]);
    } else {
      assert body + post == body;
    }
  }

  /** A keyword cascade: the first rule any of whose keywords occurs in the
   *  text decides the outcome. */
  datatype Rule<T> = Rule(keywords: seq<string>, outcome: T)

  /** Index of the first matching rule, or -1 when none matches. */
  function FirstMatch<T>(text: string, rules: seq<Rule<T>>): (r: int)
    ensures -1 <= r < |rules|
    ensures r >= 0 ==> ContainsAny(text, rules[r].keywords)
    ensures forall j :: 0 <= j < |rules| && (r == -1 || j < r) ==> !ContainsAny(text, rules[j].keywords)
    decreases |rules|
  {
    if |rules| == 0 then -1
    else if ContainsAny(text, rules[0].keywords) then 0
    else
      var k := FirstMatch(text, rules[1..]);
      if k < 0 then -1 else k + 1
  }

  function Classify<T>(text: string, rules: seq<Rule<T>>, fallback: T): T
  {
    var i := FirstMatch(text, rules);
    if i < 0 then fallback else rules[i].outcome
  }

  /** With pairwise distinct outcomes, none equal to the fallback, the
   *  cascade yields rule i's outcome exactly when rule i is the first rule
   *  that matches. */
  lemma ClassifyPicks<T>(text: string, rules: seq<Rule<T>>, fallback: T, i: nat)
    requires i < |rules|
    requires forall j, k :: 0 <= j < k < |rules| ==> rules[j].outcome != rules[k].outcome
    requires forall j :: 0 <= j < |rules| ==> rules[j].outcome != fallback
    ensures Classify(text, rules, fallback) == rules[i].outcome <==>
      ContainsAny(text, rules[i].keywords) && forall j :: 0 <= j < i ==> !ContainsAny(text, rules[j].keywords)
  {
    var k := FirstMatch(text, rules);
    if ContainsAny(text, rules[i].keywords) && forall j :: 0 <= j < i ==> !ContainsAny(text, rules[j].keywords) {
      assert k == i;
    }
  }

  /** The cascade falls back exactly when no rule matches. */
  lemma ClassifyFallsBack<T>(text: string, rules: seq<Rule<T>>, fallback: T)
    requires forall j :: 0 <= j < |rules| ==> rules[j].outcome != fallback
    ensures Classify(text, rules, fallback) == fallback <==>
      forall j :: 0 <= j < |rules| ==> !ContainsAny(text, rules[j].keywords)
  {
  }

  /** Nothing non-empty occurs in the empty text. */
  lemma EmptyContainsNothing(keywords: seq<string>)
    requires forall j :: 0 <= j < |keywords| ==> |keywords[j]| > 0
    ensures !ContainsAny("", keywords)
  {
    forall k | k in keywords ensures !Contains("", k) {
      assert !StartsWith("", k);
    }
  }

  /** Python's `<` on strings: code-point lexicographic order. */
  predicate Below(a: string, b: string)
    decreases |a|
  {
    |b| > 0 && (|a| == 0 || a[0] < b[0] || (a[0] == b[0] && Below(a[1..], b[1..])))
  }

  lemma {:induction false} BelowIrreflexive(a: string)
    ensures !Below(a, a)
    decreases |a|
  {
    if |a| > 0 {
      BelowIrreflexive(a[1..]);
    }
  }

  lemma {:induction false} BelowTransitive(a: string, b: string, c: string)
    requires Below(a, b) && Below(b, c)
    ensures Below(a, c)
    decreases |a|
  {
    if |a| > 0 && a[0] == b[0] && b[0] == c[0] {
      BelowTransitive(a[1..], b[1..], c[1..]);
    }
  }

  lemma {:induction false} BelowTotal(a: string, b: string)
    ensures a == b || Below(a, b) || Below(b, a)
    decreases |a|
  {
    if |a| > 0 && |b| > 0 && a[0] == b[0] {
      BelowTotal(a[1..], b[1..]);
      if a[1..] == b[1..] {
        assert a == [a[0]] + a[1..] && b == [b[0]] + b[1..];
      }
    }
  }
}

=== FILE: tester_agent.dfy ===
/** The tester agent: it turns user stories into test cases, runs the counted kinds of test
 *  against the developer's application, folds the findings into an overall status, and reports
 *  to the developer and the analyst.  Test execution is an LLM simulation; each verdict is an
 *  oracle input. */
module TesterAgent {
  import opened Wrappers
  import opened Strings
  import opened Models
  import opened Agent

  datatype TestCase = TestCase(
    id: string,
    storyId: string,
    title: string,
    description: string,
    testType: string,
    scenario: string,
    expected: string,
    testData: Option<Metadata>)

  /** The agent's memory per project: its test cases, its last results,
   *  its stories and its test environment.  Ids and directory names are
   *  random in Python; here they come from counters. */
  datatype TesterState = TesterState(
    cases: map<string, seq<TestCase>>,
    results: map<string, Metadata>,
    stories: map<string, seq<UserStory>>,
    environments: map<string, string>,
    nextId: nat,
    nextEnv: nat)

  function Init(): (s: TesterState)
    ensures s.cases == map[] && s.results == map[] && s.stories == map[] && s.environments == map[]
  {
    TesterState(map[], map[], map[], map[], 0, 0)
  }

  function CaseId(n: nat): string
  {
    "tc-" + NatToString(n)
  }

  function EnvironmentPath(projectId: string, n: nat): string
  {
    "/tmp/test_env_" + projectId + "_" + NatToString(n)
  }

  /** The LLM's test-case lists per story and for the NFRs, its verdict per
   *  executed case, and its text answers; the exceptions of the
   *  environment set-up and of the report generation; and the uuid4 text
   *  stored as the execution date. */
  datatype TesterOracle = TesterOracle(
    storyCases: UserStory -> Reply<seq<Metadata>>,
    nfrCases: Reply<seq<Metadata>>,
    environment: Option<string>,
    execute: TestCase -> Reply<Metadata>,
    report: Option<string>,
    answer: Result<string>,
    executionDate: string)

  // ---------------------------------------------------------------------
  // Test case creation

  /** `TestCase(...)` from one entry, with the `.get` defaults. */
  function ReadTestCase(d: Metadata, storyId: string, id: string, defaultTitle: string, defaultType: string): (r: Result<TestCase>)
    ensures r.Ok? ==> r.value.id == id && r.value.storyId == storyId
    ensures r.Ok? ==> Get(d, "title", VStr(defaultTitle)) == VStr(r.value.title) &&
                      Get(d, "test_type", VStr(defaultType)) == VStr(r.value.testType)
  {
    var title := Get(d, "title", VStr(defaultTitle));
    var description := Get(d, "description", VStr(""));
    var testType := Get(d, "test_type", VStr(defaultType));
    var scenario := Get(d, "gherkin_scenario", VStr(""));
    var expected := Get(d, "expected_result", VStr(""));
    var data := Get(d, "test_data", VObj(map[]));
    if title.VStr? && description.VStr? && testType.VStr? && scenario.VStr? && expected.VStr? &&
       (data.VObj? || data.VNone?) then
      Ok(TestCase(id, storyId, title.s, description.s, testType.s, scenario.s, expected.s,
                  if data.VObj? then Some(data.fields) else None))
    else Err("validation error for TestCase")
  }

  /** The case loop: one case per entry, in order, each with a fresh id. */
  function ReadTestCases(ds: seq<Metadata>, storyId: string, next: nat, defaultTitle: string,
                         defaultType: string): (r: Result<seq<TestCase>>)
    ensures r.Ok? ==> |r.value| == |ds|
    ensures r.Ok? ==> forall i :: 0 <= i < |r.value| ==> r.value[i].storyId == storyId
    decreases |ds|
  {
    if |ds| == 0 then Ok([])
    else
      var head := ReadTestCase(ds[0], storyId, CaseId(next), defaultTitle, defaultType);
      var tail := ReadTestCases(ds[1..], storyId, next + 1, defaultTitle, defaultType);
      if head.Err? then Err(head.error)
      else if tail.Err? then Err(tail.error)
      else Ok([head.value] + tail.value)
  }

  /** The fields of one case of a basic fallback list; story cases also
   *  carry a priority, which the case loop does not read. */
  datatype BasicCase = BasicCase(
    title: string,
    description: string,
    testType: string,
    scenario: string,
    expected: string,
    data: Metadata,
    priority: Option<string>)

  /** The dict a basic case is written as. */
  function CaseEntry(b: BasicCase): Metadata
  {
    var entry := map["title" := VStr(b.title), "description" := VStr(b.description), "test_type" := VStr(b.testType),
                     "gherkin_scenario" := VStr(b.scenario), "expected_result" := VStr(b.expected),
                     "test_data" := VObj(b.data)];
    if b.priority.Some? then entry["priority" := VStr(b.priority.value)] else entry
  }

  function CaseEntries(bs: seq<BasicCase>): (ds: seq<Metadata>)
    ensures |ds| == |bs| && forall i :: 0 <= i < |bs| ==> ds[i] == CaseEntry(bs[i])
  {
    seq(|bs|, i requires 0 <= i < |bs| => CaseEntry(bs[i]))
  }

  /** The test case a basic case stands for. */
  function BasicTestCase(b: BasicCase, storyId: string, id: string): TestCase
  {
    TestCase(id, storyId, b.title, b.description, b.testType, b.scenario, b.expected, Some(b.data))
  }

  /** A basic entry reads as the test case holding exactly its fields,
   *  whatever the defaults. */
  lemma CaseEntryRead(b: BasicCase, storyId: string, id: string, defaultTitle: string, defaultType: string)
    ensures ReadTestCase(CaseEntry(b), storyId, id, defaultTitle, defaultType) == Ok(BasicTestCase(b, storyId, id))
  {
  }

  /** A list of basic entries reads as their test cases, in order, under
   *  consecutive ids. */
  lemma {:induction false} CaseEntriesRead(bs: seq<BasicCase>, storyId: string, next: nat, defaultTitle: string,
                                           defaultType: string)
    ensures var r := ReadTestCases(CaseEntries(bs), storyId, next, defaultTitle, defaultType);
      r.Ok? && |r.value| == |bs| &&
      forall i :: 0 <= i < |bs| ==> r.value[i] == BasicTestCase(bs[i], storyId, CaseId(next + i))
    decreases |bs|
  {
    var ds := CaseEntries(bs);
    if |bs| > 0 {
      CaseEntryRead(bs[0], storyId, CaseId(next), defaultTitle, defaultType);
      CaseEntriesRead(bs[1..], storyId, next + 1, defaultTitle, defaultType);
      assert ds[1..] == CaseEntries(bs[1..]);
      var tail := ReadTestCases(ds[1..], storyId, next + 1, defaultTitle, defaultType);
      var r := ReadTestCases(ds, storyId, next, defaultTitle, defaultType);
      assert r == Ok([BasicTestCase(bs[0], storyId, CaseId(next))] + tail.value);
      forall i | 0 <= i < |bs| ensures r.value[i] == BasicTestCase(bs[i], storyId, CaseId(next + i)) {
        if i > 0 {
          assert r.value[i] == tail.value[i - 1];
          assert bs[1..][i - 1] == bs[i];
        }
      }
    }
  }

  // The fixed texts of the basic fallback cases.
  const HappyDescription: string := "Test the main functionality of "
  const HappyScenarioHead: string := "Given the system is ready, When I execute "
  const HappyScenarioTail: string := ", Then it should work correctly"
  const HappyExpected: string := "Feature works as expected"
  const ErrorDescription: string := "Test error handling for "
  const ErrorScenarioHead: string := "Given invalid input, When I execute "
  const ErrorScenarioTail: string := ", Then appropriate error should be shown"
  const ErrorExpected: string := "Error is handled gracefully"
  const PerformanceTitle: string := "Performance Test - Response Time"
  const PerformanceDescription: string := "Test API response times are within acceptable limits"
  const PerformanceScenario: string :=
    "Given the application is running, When I make API requests, Then response time should be < 500ms"
  const PerformanceExpected: string := "All API responses within 500ms"
  const SecurityTitle: string := "Security Test - Authentication"
  const SecurityDescription: string := "Test that authentication is required for protected endpoints"
  const SecurityScenario: string :=
    "Given no authentication token, When I access protected endpoints, Then I should get 401 Unauthorized"
  const SecurityExpected: string := "Unauthorized access is blocked"
  const UsabilityTitle: string := "Usability Test - User Interface"
  const UsabilityDescription: string := "Test that the user interface is intuitive and accessible"
  const UsabilityScenario: string := "Given I am a new user, When I navigate the application, Then it should be intuitive"
  const UsabilityExpected: string := "Interface is user-friendly"

  /** `_create_basic_test_cases_for_story`: a happy path at the story's
   *  priority and an error case at medium priority, both functional. */
  function BasicStoryTable(story: UserStory): (bs: seq<BasicCase>)
    ensures |bs| == 2 && bs[0].testType == "functional" && bs[1].testType == "functional"
    ensures bs[0].title == "Test " + story.title + " - Happy Path" && bs[1].title == "Test " + story.title + " - Error Handling"
    ensures bs[0].priority == Some(story.priority.Name()) && bs[1].priority == Some("medium")
  {
    [BasicCase("Test " + story.title + " - Happy Path", HappyDescription + story.title, "functional",
               HappyScenarioHead + story.title + HappyScenarioTail, HappyExpected,
               map["test" := VStr("data")], Some(story.priority.Name())),
     BasicCase("Test " + story.title + " - Error Handling", ErrorDescription + story.title, "functional",
               ErrorScenarioHead + story.title + ErrorScenarioTail, ErrorExpected,
               map["invalid" := VStr("data")], Some("medium"))]
  }

  /** `_create_basic_nfr_test_cases`: a performance, a security and a
   *  usability case, none with a priority. */
  function BasicNfrTable(): (bs: seq<BasicCase>)
    ensures |bs| == 3 && bs[0].testType == "performance" && bs[1].testType == "security" && bs[2].testType == "usability"
    ensures bs[0].data.Keys == {"endpoints"} && bs[1].data.Keys == {"protected_endpoints"} &&
            bs[2].data.Keys == {"accessibility_standards"}
    ensures forall i :: 0 <= i < 3 ==> bs[i].priority.None?
  {
    [BasicCase(PerformanceTitle, PerformanceDescription, "performance", PerformanceScenario, PerformanceExpected,
               map["endpoints" := Texts(["/api/health", "/api/users"])], None),
     BasicCase(SecurityTitle, SecurityDescription, "security", SecurityScenario, SecurityExpected,
               map["protected_endpoints" := Texts(["/api/admin", "/api/user/profile"])], None),
     BasicCase(UsabilityTitle, UsabilityDescription, "usability", UsabilityScenario, UsabilityExpected,
               map["accessibility_standards" := VStr("WCAG 2.1")], None)]
  }

  /** `_create_test_cases_for_story`: the parsed list, or the two basic
   *  cases for an unparseable reply; a raising call or a bad entry yields
   *  no case at all. */
  function StoryCases(story: UserStory, reply: Reply<seq<Metadata>>, next: nat): (cs: seq<TestCase>)
    ensures reply.LlmRaised? ==> cs == []
    ensures forall i :: 0 <= i < |cs| ==> cs[i].storyId == story.id
    ensures reply.Parsed? ==> cs == [] || |cs| == |reply.data|
    ensures reply.Unparseable? ==>
      |cs| == 2 && forall i :: 0 <= i < 2 ==> cs[i] == BasicTestCase(BasicStoryTable(story)[i], story.id, CaseId(next + i))
  {
    if reply.LlmRaised? then []
    else
      var read := ReadTestCases(ParsedOr(reply, CaseEntries(BasicStoryTable(story))), story.id, next,
                                "Test for " + story.title, "functional");
      CaseEntriesRead(BasicStoryTable(story), story.id, next, "Test for " + story.title, "functional");
      if read.Ok? then read.value else []
  }

  /** `_create_nfr_test_cases`, with the NFR defaults: the parsed list, or
   *  the three basic cases for an unparseable reply. */
  function NfrCases(reply: Reply<seq<Metadata>>, next: nat): (cs: seq<TestCase>)
    ensures reply.LlmRaised? ==> cs == []
    ensures forall i :: 0 <= i < |cs| ==> cs[i].storyId == "nfr"
    ensures reply.Parsed? ==> cs == [] || |cs| == |reply.data|
    ensures reply.Unparseable? ==>
      |cs| == 3 && forall i :: 0 <= i < 3 ==> cs[i] == BasicTestCase(BasicNfrTable()[i], "nfr", CaseId(next + i))
  {
    if reply.LlmRaised? then []
    else
      var read := ReadTestCases(ParsedOr(reply, CaseEntries(BasicNfrTable())), "nfr", next, "NFR Test", "performance");
      CaseEntriesRead(BasicNfrTable(), "nfr", next, "NFR Test", "performance");
      if read.Ok? then read.value else []
  }

  /** An unparseable reply for a story gives its happy-path and
   *  error-handling cases, both functional. */
  lemma UnparseableStoryCases(story: UserStory, next: nat)
    ensures var cs := StoryCases(story, Unparseable, next);
      |cs| == 2 && cs[0].testType == "functional" && cs[1].testType == "functional" &&
      cs[0].title == "Test " + story.title + " - Happy Path" && cs[1].title == "Test " + story.title + " - Error Handling" &&
      cs[0].id == CaseId(next) && cs[1].id == CaseId(next + 1) && cs[0].storyId == story.id
  {
    var cs := StoryCases(story, Unparseable, next);
    assert cs[0] == BasicTestCase(BasicStoryTable(story)[0], story.id, CaseId(next));
    assert cs[1] == BasicTestCase(BasicStoryTable(story)[1], story.id, CaseId(next + 1));
  }

  /** An unparseable NFR reply gives a performance, a security and a
   *  usability case, each with a scenario and test data. */
  lemma UnparseableNfrCases(next: nat)
    ensures var cs := NfrCases(Unparseable, next);
      |cs| == 3 && cs[0].testType == "performance" && cs[1].testType == "security" && cs[2].testType == "usability" &&
      cs[0].title == PerformanceTitle && cs[1].title == SecurityTitle && cs[2].title == UsabilityTitle &&
      cs[0].scenario == PerformanceScenario && cs[1].scenario == SecurityScenario && cs[2].scenario == UsabilityScenario &&
      forall i :: 0 <= i < 3 ==> cs[i].id == CaseId(next + i) && cs[i].storyId == "nfr" && cs[i].testData.Some?
  {
    var cs := NfrCases(Unparseable, next);
    forall i | 0 <= i < 3 ensures cs[i] == BasicTestCase(BasicNfrTable()[i], "nfr", CaseId(next + i)) {
    }
  }

  /** The cases of every story, in story order. */
  function AllStoryCases(stories: seq<UserStory>, oracle: UserStory -> Reply<seq<Metadata>>, next: nat): (cs: seq<TestCase>)
    ensures forall i :: 0 <= i < |cs| ==> exists j :: 0 <= j < |stories| && cs[i].storyId == stories[j].id
    decreases |stories|
  {
    if |stories| == 0 then []
    else
      var first := StoryCases(stories[0], oracle(stories[0]), next);
      var rest := AllStoryCases(stories[1..], oracle, next + |first|);
      assert forall i :: 0 <= i < |rest| ==> exists j :: 0 <= j < |stories| && rest[i].storyId == stories[j].id by {
        forall i | 0 <= i < |rest| ensures exists j :: 0 <= j < |stories| && rest[i].storyId == stories[j].id {
          var j :| 0 <= j < |stories[1..]| && rest[i].storyId == stories[1..][j].id;
          assert rest[i].storyId == stories[j + 1].id;
        }
      }
      first + rest
  }

  /** `_create_test_cases`: every story's cases in story order, then the
   *  NFR cases. */
  function PlannedCases(stories: seq<UserStory>, o: TesterOracle, next: nat): (cs: seq<TestCase>)
    ensures var storyCases := AllStoryCases(stories, o.storyCases, next);
      |storyCases| <= |cs| && cs[..|storyCases|] == storyCases && cs[|storyCases|..] == NfrCases(o.nfrCases, next + |storyCases|)
  {
    var storyCases := AllStoryCases(stories, o.storyCases, next);
    var nfr := NfrCases(o.nfrCases, next + |storyCases|);
    storyCases + nfr
  }

  /** The stories, their cases and a fresh test environment are recorded
   *  under the project; nothing else changes. */
  function Prepare(s: TesterState, projectId: string, stories: seq<UserStory>, o: TesterOracle): (t: TesterState)
    ensures t.stories == s.stories[projectId := stories]
    ensures t.cases == s.cases[projectId := PlannedCases(stories, o, s.nextId)]
    ensures projectId in t.environments && t.results == s.results
  {
    var cases := PlannedCases(stories, o, s.nextId);
    TesterState(s.cases[projectId := cases], s.results, s.stories[projectId := stories],
                s.environments[projectId := EnvironmentPath(projectId, s.nextEnv)], s.nextId + |cases|, s.nextEnv + 1)
  }

  /** The STATUS telling the analyst that preparation is complete. */
  function PreparationComplete(projectId: string, count: nat): (o: Outgoing)
    ensures o.toAgent == BA && o.kind == Status && o.projectId == projectId
    ensures o.metadata == Some(map["phase" := VStr("test_preparation_complete")])
  {
    Outgoing(BA, Status, "Test preparation completed for project " + projectId + ". Created " + NatToString(count) +
             " test cases. Ready to receive application from Developer.",
             projectId, Some(map["phase" := VStr("test_preparation_complete")]), Medium)
  }

  /** `_receive_testing_assignment`: the stories, their cases and a test
   *  environment are recorded, then the analyst hears that test
   *  preparation is complete; an entry that is not a valid story records
   *  nothing, and a failing environment set-up sends nothing. */
  function ReceiveAssignment(s: TesterState, m: Message, o: TesterOracle): (r: Run<TesterState>)
    ensures var stories := ReadStoryList(Get(m.metadata, "user_stories", VList([])));
      (stories.Err? ==> r == Run(s, [], Some(stories.error))) &&
      (stories.Ok? ==> r.state == Prepare(s, m.projectId, stories.value, o)) &&
      (stories.Ok? && o.environment.Some? ==> r.sends == [] && r.raised == o.environment) &&
      (stories.Ok? && o.environment.None? ==>
        r.raised == None &&
        r.sends == [PreparationComplete(m.projectId, |PlannedCases(stories.value, o, s.nextId)|)])
  {
    var stories := ReadStoryList(Get(m.metadata, "user_stories", VList([])));
    if stories.Err? then Run(s, [], Some(stories.error))
    else
      var s1 := Prepare(s, m.projectId, stories.value, o);
      if o.environment.Some? then Run(s1, [], o.environment)
      else Run(s1, [PreparationComplete(m.projectId, |PlannedCases(stories.value, o, s.nextId)|)], None)
  }

  // ---------------------------------------------------------------------
  // Execution

  /** The detail entry `_execute_test_cases` appends for one executed case:
   *  its id, title and status, and the result's details and screenshot. */
  datatype CaseRun = CaseRun(id: string, title: string, status: Value, details: Value, screenshot: Value)

  /** Cases run and counted per kind, with one detail entry per case run. */
  datatype Tally = Tally(total: nat, passed: nat, failed: nat, runs: seq<CaseRun>)

  const EmptyTally: Tally := Tally(0, 0, 0, [])

  datatype Tallies = Tallies(functional: Tally, integration: Tally, e2e: Tally)

  /** Only these kinds are executed and counted. */
  predicate Counted(testType: string)
  {
    testType == "functional" || testType == "integration" || testType == "e2e"
  }

  /** The kinds `_execute_test_cases` keeps a tally for. */
  datatype TestKind = Functional | Integration | EndToEnd
  {
    function Name(): string
    {
      match this
      case Functional => "functional"
      case Integration => "integration"
      case EndToEnd => "e2e"
    }
  }

  /** The kind a test type names, when it is one of the counted kinds. */
  function KindOf(testType: string): (k: Option<TestKind>)
    ensures k.Some? <==> Counted(testType)
    ensures k.Some? ==> k.value.Name() == testType
  {
    if testType == "functional" then Some(Functional)
    else if testType == "integration" then Some(Integration)
    else if testType == "e2e" then Some(EndToEnd)
    else None
  }

  const SimulatedPassDetailsHead: string := "Test case "
  const SimulatedPassDetailsTail: string := " executed successfully"
  const SimulatedScreenshot: string := "Test execution screenshot"
  const ExecutionErrorHead: string := "Test execution error: "

  /** `_execute_single_test_case`'s result: the parsed reply itself, a
   *  passing simulation when the reply is not JSON, and a failure carrying
   *  the error when the call raises. */
  function ExecutionResult(t: TestCase, reply: Reply<Metadata>): (r: Metadata)
    ensures reply.Parsed? ==> r == reply.data
    ensures reply.Unparseable? ==>
      "status" in r && r["status"] == VStr("PASSED") && "details" in r &&
      r["details"] == VStr(SimulatedPassDetailsHead + t.title + SimulatedPassDetailsTail)
    ensures reply.LlmRaised? ==>
      "status" in r && r["status"] == VStr("FAILED") && "details" in r &&
      r["details"] == VStr(ExecutionErrorHead + reply.error) && "screenshot" in r && r["screenshot"] == VStr("")
  {
    match reply
    case Parsed(d) => d
    case Unparseable =>
      map["status" := VStr("PASSED"), "details" := VStr(SimulatedPassDetailsHead + t.title + SimulatedPassDetailsTail),
          "screenshot" := VStr(SimulatedScreenshot), "execution_time" := VStr("1.2s")]
    case LlmRaised(e) =>
      map["status" := VStr("FAILED"), "details" := VStr(ExecutionErrorHead + e),
          "screenshot" := VStr(""), "execution_time" := VStr("0s")]
  }

  /** `execution_result["status"]`, read off the reply: an unparseable reply
   *  counts as PASSED, a raising call as FAILED, and a parsed reply without
   *  a status raises KeyError. */
  function Verdict(reply: Reply<Metadata>): (r: Result<Value>)
    ensures reply.Unparseable? ==> r == Ok(VStr("PASSED"))
    ensures reply.LlmRaised? ==> r == Ok(VStr("FAILED"))
    ensures reply.Parsed? ==> ("status" in reply.data <==> r.Ok?) && (r.Ok? ==> r.value == reply.data["status"])
  {
    if reply.LlmRaised? then Ok(VStr("FAILED"))
    else if reply.Unparseable? then Ok(VStr("PASSED"))
    else if "status" in reply.data then Ok(reply.data["status"])
    else Err("'status'")
  }

  /** `execution_result.get("details", "")`, read off the reply. */
  function RunDetails(t: TestCase, reply: Reply<Metadata>): Value
  {
    match reply
    case Parsed(d) => Get(d, "details", VStr(""))
    case Unparseable => VStr(SimulatedPassDetailsHead + t.title + SimulatedPassDetailsTail)
    case LlmRaised(e) => VStr(ExecutionErrorHead + e)
  }

  /** `execution_result.get("screenshot", "")`, read off the reply. */
  function RunScreenshot(reply: Reply<Metadata>): Value
  {
    match reply
    case Parsed(d) => Get(d, "screenshot", VStr(""))
    case Unparseable => VStr(SimulatedScreenshot)
    case LlmRaised(_) => VStr("")
  }

  /** The detail entry of one executed case with the given status. */
  function RunOf(t: TestCase, reply: Reply<Metadata>, status: Value): CaseRun
  {
    CaseRun(t.id, t.title, status, RunDetails(t, reply), RunScreenshot(reply))
  }

  function Bump(t: Tally, passed: bool, run: CaseRun): (r: Tally)
    ensures r.total == t.total + 1
    ensures r.passed == t.passed + (if passed then 1 else 0) && r.failed == t.failed + (if passed then 0 else 1)
    ensures r.runs == t.runs + [run]
  {
    if passed then Tally(t.total + 1, t.passed + 1, t.failed, t.runs + [run])
    else Tally(t.total + 1, t.passed, t.failed + 1, t.runs + [run])
  }

  /** Adds one verdict and its detail entry to the tally of its kind. */
  function Record(ts: Tallies, kind: TestKind, passed: bool, run: CaseRun): Tallies
  {
    match kind
    case Functional => ts.(functional := Bump(ts.functional, passed, run))
    case Integration => ts.(integration := Bump(ts.integration, passed, run))
    case EndToEnd => ts.(e2e := Bump(ts.e2e, passed, run))
  }

  /** The tally of one kind. */
  function TallyOf(ts: Tallies, kind: TestKind): Tally
  {
    match kind
    case Functional => ts.functional
    case Integration => ts.integration
    case EndToEnd => ts.e2e
  }

  /** A tally adds up: each counted case either passed or failed, and left
   *  one detail entry. */
  predicate TallyBalanced(t: Tally)
  {
    t.total == t.passed + t.failed && |t.runs| == t.total
  }

  predicate Balanced(ts: Tallies)
  {
    TallyBalanced(ts.functional) && TallyBalanced(ts.integration) && TallyBalanced(ts.e2e)
  }

  /** The number of cases of one kind. */
  function CountOfType(cases: seq<TestCase>, testType: string): nat
  {
    if |cases| == 0 then 0
    else CountOfType(cases[..|cases| - 1], testType) + (if cases[|cases| - 1].testType == testType then 1 else 0)
  }

  /** The ids of the cases of one kind, in order. */
  function IdsOfType(cases: seq<TestCase>, testType: string): seq<string>
  {
    if |cases| == 0 then []
    else IdsOfType(cases[..|cases| - 1], testType) + (if cases[|cases| - 1].testType == testType then [cases[|cases| - 1].id] else [])
  }

  /** The ids of a tally's detail entries. */
  function RunIds(runs: seq<CaseRun>): (ids: seq<string>)
    ensures |ids| == |runs| && forall i :: 0 <= i < |runs| ==> ids[i] == runs[i].id
  {
    seq(|runs|, i requires 0 <= i < |runs| => runs[i].id)
  }

  /** `_execute_test_cases`: the cases in order; a case of a counted kind is
   *  executed and counted as passed exactly when its status is PASSED;
   *  other kinds are skipped; a KeyError ends the whole run. */
  function ExecuteTestCases(cases: seq<TestCase>, execute: TestCase -> Reply<Metadata>): (r: Result<Tallies>)
    ensures r.Ok? ==> Balanced(r.value)
    ensures r.Ok? ==> r.value.functional.total == CountOfType(cases, "functional") &&
                      r.value.integration.total == CountOfType(cases, "integration") &&
                      r.value.e2e.total == CountOfType(cases, "e2e")
    decreases |cases|
  {
    if |cases| == 0 then Ok(Tallies(EmptyTally, EmptyTally, EmptyTally))
    else
      var before := ExecuteTestCases(cases[..|cases| - 1], execute);
      if before.Err? then before else ExecuteCase(before.value, cases[|cases| - 1], execute)
  }

  /** One iteration of `_execute_test_cases`: a case of a counted kind is
   *  executed and recorded; a case of another kind leaves the tallies as
   *  they are. */
  function ExecuteCase(ts: Tallies, t: TestCase, execute: TestCase -> Reply<Metadata>): Result<Tallies>
  {
    var kind := KindOf(t.testType);
    if kind.None? then Ok(ts)
    else
      var verdict := Verdict(execute(t));
      if verdict.Err? then Err(verdict.error)
      else Ok(Record(ts, kind.value, verdict.value == VStr("PASSED"), RunOf(t, execute(t), verdict.value)))
  }

  // ---------------------------------------------------------------------
  // Analysis

  datatype Vulnerability = Vulnerability(severity: Option<string>, description: Option<string>, recommendation: Option<string>)

  /** What `_analyze_test_results` reads from the combined results. */
  datatype Findings = Findings(
    functional: Tally,
    vulnerabilities: seq<Vulnerability>,
    loadStatus: Option<string>,
    usabilityIssues: seq<string>)

  datatype Analysis = Analysis(status: string, issues: seq<string>, recommendations: seq<string>)

  predicate Severe(v: Vulnerability)
  {
    v.severity == Some("high") || v.severity == Some("critical")
  }

  function SecurityIssue(v: Vulnerability): string
  {
    "Security issue: " + v.description.GetOr("Unknown vulnerability")
  }

  function SecurityAdvice(v: Vulnerability): string
  {
    v.recommendation.GetOr("Address security concerns")
  }

  /** The vulnerability loop's issues: one per severe vulnerability. */
  function SecurityIssues(vs: seq<Vulnerability>): seq<string>
  {
    if |vs| == 0 then []
    else (if Severe(vs[0]) then [SecurityIssue(vs[0])] else []) + SecurityIssues(vs[1..])
  }

  /** The vulnerability loop's recommendations: one per other vulnerability. */
  function SecurityRecommendations(vs: seq<Vulnerability>): seq<string>
  {
    if |vs| == 0 then []
    else (if Severe(vs[0]) then [] else [SecurityAdvice(vs[0])]) + SecurityRecommendations(vs[1..])
  }

  function UsabilityRecommendations(issues: seq<string>): (rs: seq<string>)
    ensures |rs| == |issues|
    ensures forall i :: 0 <= i < |issues| ==> rs[i] == "Usability: " + issues[i]
  {
    seq(|issues|, i requires 0 <= i < |issues| => "Usability: " + issues[i])
  }

  /** The word whose presence, in any letter case, marks an issue as a failure. */
  const FailedWord: string := "failed"

  /** `len([i for i in issues if "failed" in i.lower()])`. */
  function CountFailed(issues: seq<string>): nat
  {
    if |issues| == 0 then 0
    else (if Contains(ToLower(issues[0]), FailedWord) then 1 else 0) + CountFailed(issues[1..])
  }

  /** The overall status: PASSED without issues, FAILED when an issue
   *  mentions a failure in any letter case, PASSED_WITH_ISSUES otherwise. */
  function OverallStatus(issues: seq<string>): string
  {
    if |issues| == 0 then "PASSED"
    else if CountFailed(issues) > 0 then "FAILED"
    else "PASSED_WITH_ISSUES"
  }

  function FunctionalIssue(t: Tally): string
  {
    "Functional tests " + FailedWord + ": " + NatToString(t.failed) + " out of " + NatToString(t.total)
  }

  const LoadIssue: string := "Performance testing " + FailedWord + " - application may not handle expected load"

  /** `_analyze_test_results`. */
  function Analyze(f: Findings): (a: Analysis)
    ensures a.issues == (if f.functional.failed > 0 then [FunctionalIssue(f.functional)] else []) +
                        SecurityIssues(f.vulnerabilities) +
                        (if f.loadStatus == Some("FAILED") then [LoadIssue] else [])
    ensures a.recommendations == SecurityRecommendations(f.vulnerabilities) + UsabilityRecommendations(f.usabilityIssues)
    ensures a.status == OverallStatus(a.issues)
  {
    var issues := (if f.functional.failed > 0 then [FunctionalIssue(f.functional)] else []) +
                  SecurityIssues(f.vulnerabilities) +
                  (if f.loadStatus == Some("FAILED") then [LoadIssue] else []);
    Analysis(OverallStatus(issues), issues,
             SecurityRecommendations(f.vulnerabilities) + UsabilityRecommendations(f.usabilityIssues))
  }

  // ---------------------------------------------------------------------
  // Testing an application

  /** One detail entry as the results record holds it. */
  function RunValue(c: CaseRun): (v: Value)
    ensures v.VObj? && v.fields.Keys == {"test_case_id", "title", "status", "details", "screenshot"}
    ensures v.fields["test_case_id"] == VStr(c.id) && v.fields["title"] == VStr(c.title) && v.fields["status"] == c.status
    ensures v.fields["details"] == c.details && v.fields["screenshot"] == c.screenshot
  {
    VObj(map["test_case_id" := VStr(c.id), "title" := VStr(c.title), "status" := c.status,
             "details" := c.details, "screenshot" := c.screenshot])
  }

  /** A tally as the results record holds it. */
  function TallyValue(t: Tally): (v: Value)
    ensures v.VObj? && v.fields.Keys == {"total", "passed", "failed", "details"}
    ensures v.fields["total"] == VInt(t.total) && v.fields["passed"] == VInt(t.passed) && v.fields["failed"] == VInt(t.failed)
    ensures v.fields["details"].VList? && |v.fields["details"].items| == |t.runs|
    ensures forall i :: 0 <= i < |t.runs| ==> v.fields["details"].items[i] == RunValue(t.runs[i])
  {
    VObj(map["total" := VInt(t.total), "passed" := VInt(t.passed), "failed" := VInt(t.failed),
             "details" := VList(seq(|t.runs|, i requires 0 <= i < |t.runs| => RunValue(t.runs[i])))])
  }

  /** The simulated security run: one medium input-validation finding. */
  function SimulatedVulnerabilities(): seq<Vulnerability>
  {
    [Vulnerability(Some("medium"), Some("Some input fields may need additional validation"),
                   Some("Implement comprehensive input sanitization"))]
  }

  /** The simulated usability run's two issues. */
  function SimulatedUsabilityIssues(): seq<string>
  {
    ["Some images missing alt text", "Consider improving error message styling"]
  }

  /** The seven simulated security checks. */
  const SecurityChecks: nat := 7

  /** One vulnerability as the security results list it, with its kind. */
  function VulnerabilityValue(v: Vulnerability, kind: string): Value
  {
    VObj(map["severity" := VStr(v.severity.GetOr("")), "type" := VStr(kind),
             "description" := VStr(v.description.GetOr("")), "recommendation" := VStr(v.recommendation.GetOr(""))])
  }

  /** `_perform_security_testing`: one of the seven checks fails, with the
   *  simulated vulnerability. */
  function SecurityResults(): Value
  {
    VObj(map["total_tests" := VInt(SecurityChecks), "passed" := VInt(SecurityChecks - 1), "failed" := VInt(1),
             "vulnerabilities" := VList([VulnerabilityValue(SimulatedVulnerabilities()[0], "Input Validation")]),
             "overall_security_rating" := VStr("B+")])
  }

  const LoadTesting: Value :=
    VObj(map["concurrent_users" := VInt(100), "test_duration" := VStr("5 minutes"), "avg_response_time" := VStr("245ms"),
             "max_response_time" := VStr("1.2s"), "throughput" := VStr("150 requests/second"),
             "error_rate" := VStr("0.2%"), "status" := VStr("PASSED")])
  const StressTesting: Value :=
    VObj(map["peak_users" := VInt(500), "breaking_point" := VStr("450 concurrent users"),
             "recovery_time" := VStr("30s"), "status" := VStr("PASSED")])
  const ResourceUsage: Value :=
    VObj(map["cpu_peak" := VStr("75%"), "memory_peak" := VStr("2.1GB"), "disk_io" := VStr("Normal"),
             "network_io" := VStr("Normal")])
  const PerformanceAdvice: seq<string> :=
    ["Consider implementing caching for frequently accessed data",
     "Database connection pooling is working effectively",
     "Response times are within acceptable limits"]

  /** `_perform_performance_testing`: load and stress runs that pass. */
  function PerformanceResults(): Value
  {
    VObj(map["load_testing" := LoadTesting, "stress_testing" := StressTesting, "resource_usage" := ResourceUsage,
             "recommendations" := Texts(PerformanceAdvice)])
  }

  const Accessibility: Value :=
    VObj(map["wcag_compliance" := VStr("AA"), "keyboard_navigation" := VStr("PASSED"),
             "screen_reader_support" := VStr("PASSED"), "color_contrast" := VStr("PASSED"),
             "alt_text" := VStr("NEEDS_IMPROVEMENT")])
  const UserExperience: Value :=
    VObj(map["navigation_clarity" := VStr("Good"), "error_messages" := VStr("Clear and helpful"),
             "form_usability" := VStr("Good"), "mobile_responsiveness" := VStr("PASSED"),
             "load_time_perception" := VStr("Fast")])
  const BrowserCompatibility: Value :=
    VObj(map["chrome" := VStr("PASSED"), "firefox" := VStr("PASSED"), "safari" := VStr("PASSED"),
             "edge" := VStr("PASSED")])

  /** `_perform_usability_testing`: the simulated issues and a score. */
  function UsabilityResults(): Value
  {
    VObj(map["accessibility" := Accessibility, "user_experience" := UserExperience,
             "browser_compatibility" := BrowserCompatibility, "issues" := Texts(SimulatedUsabilityIssues()),
             "overall_usability_score" := VStr("8.5/10")])
  }

  /** What the analysis reads off one execution: the functional tally, or
   *  nothing when the execution ended in an error, next to the simulated
   *  security, load (PASSED) and usability results. */
  function FindingsOf(exec: Result<Tallies>): Findings
  {
    Findings(if exec.Ok? then exec.value.functional else EmptyTally, SimulatedVulnerabilities(), Some("PASSED"),
             SimulatedUsabilityIssues())
  }

  /** The combined results record, with its eleven fields; `date` is the
   *  uuid4 text stored as the execution date, and `security`, `performance`
   *  and `usability` are the results of the three simulated runs. */
  function ResultsRecord(projectId: string, date: string, exec: Result<Tallies>, security: Value, performance: Value,
                         usability: Value, devResults: Value, a: Analysis): (r: Metadata)
    ensures r.Keys == {"project_id", "test_execution_date", "functional_tests", "integration_tests", "security_tests",
                       "performance_tests", "usability_tests", "developer_test_results", "overall_status",
                       "issues_found", "recommendations"}
  {
    map["project_id" := VStr(projectId),
        "test_execution_date" := VStr(date),
        "functional_tests" := if exec.Ok? then TallyValue(exec.value.functional) else VObj(map[]),
        "integration_tests" := if exec.Ok? then TallyValue(exec.value.integration) else VObj(map[]),
        "security_tests" := security,
        "performance_tests" := performance,
        "usability_tests" := usability,
        "developer_test_results" := devResults,
        "overall_status" := VStr(a.status),
        "issues_found" := Texts(a.issues),
        "recommendations" := Texts(a.recommendations)]
  }

  /** `_send_test_results`: the developer gets the results and whether
   *  fixes are needed, the analyst the final report and the sign-off. */
  function SendTestResults(projectId: string, results: Metadata, a: Analysis): (os: seq<Outgoing>)
    ensures |os| == 2
    ensures os[0].toAgent == Developer && os[0].kind == Artifact && os[0].projectId == projectId
    ensures os[0].metadata == Some(map["qa_test_results" := VObj(results), "needs_fixes" := VBool(|a.issues| > 0)])
    ensures os[1].toAgent == BA && os[1].kind == Artifact && os[1].projectId == projectId
    ensures os[1].metadata == Some(map["final_qa_report" := VObj(results),
                                       "qa_signoff" := VBool(a.status == "PASSED" || a.status == "PASSED_WITH_ISSUES")])
  {
    [Outgoing(Developer, Artifact, "QA Testing Complete for Project " + projectId + "\nOverall Status: " + a.status, projectId,
              Some(map["qa_test_results" := VObj(results), "needs_fixes" := VBool(|a.issues| > 0)]), Medium),
     Outgoing(BA, Artifact, "QA Testing Complete - Final Report\nStatus: " + a.status, projectId,
              Some(map["final_qa_report" := VObj(results),
                       "qa_signoff" := VBool(a.status == "PASSED" || a.status == "PASSED_WITH_ISSUES")]), Medium)]
  }

  /** `_send_test_failure_notification`: an ERROR to the developer and one
   *  to the analyst. */
  function FailureNotification(projectId: string, error: string): (os: seq<Outgoing>)
    ensures |os| == 2 && os[0].toAgent == Developer && os[1].toAgent == BA
    ensures forall i :: 0 <= i < 2 ==>
      (os[i].kind == Error && os[i].projectId == projectId &&
       os[i].metadata == Some(map["testing_failed" := VBool(true), "error" := VStr(error)]))
  {
    var md := Some(map["testing_failed" := VBool(true), "error" := VStr(error)]);
    var text := "QA Testing Failed for Project " + projectId + "\nError: " + error;
    [Outgoing(Developer, Error, text, projectId, md, Medium), Outgoing(BA, Error, text, projectId, md, Medium)]
  }

  /** `_test_application`: the stored cases are executed, the results are
   *  analysed and stored, and then reported; a failing report step sends
   *  the failure notification instead.  It never raises. */
  function TestApplication(s: TesterState, m: Message, o: TesterOracle): (r: Run<TesterState>)
    ensures r.raised == None && |r.sends| == 2
    ensures var cases := if m.projectId in s.cases then s.cases[m.projectId] else [];
      var exec := ExecuteTestCases(cases, o.execute);
      var a := Analyze(FindingsOf(exec));
      var results := ResultsRecord(m.projectId, o.executionDate, exec, SecurityResults(), PerformanceResults(), UsabilityResults(),
                                 Get(m.metadata, "test_results", VObj(map[])), a);
      r.state == s.(results := s.results[m.projectId := results]) &&
      (o.report.None? ==> r.sends == SendTestResults(m.projectId, results, a)) &&
      (o.report.Some? ==> r.sends == FailureNotification(m.projectId, o.report.value))
  {
    var cases := if m.projectId in s.cases then s.cases[m.projectId] else [];
    var exec := ExecuteTestCases(cases, o.execute);
    var a := Analyze(FindingsOf(exec));
    var results := ResultsRecord(m.projectId, o.executionDate, exec, SecurityResults(), PerformanceResults(), UsabilityResults(),
                                 Get(m.metadata, "test_results", VObj(map[])), a);
    var s1 := s.(results := s.results[m.projectId := results]);
    if o.report.Some? then Run(s1, FailureNotification(m.projectId, o.report.value), None)
    else Run(s1, SendTestResults(m.projectId, results, a), None)
  }

  // ---------------------------------------------------------------------
  // Queries, responses and dispatch

  /** `_handle_testing_query`: the answer goes back to the asker. */
  function HandleQuery(s: TesterState, m: Message, answer: Result<string>): (r: Run<TesterState>)
    ensures r.state == s
    ensures answer.Err? ==> r == Run(s, [], Some(answer.error))
    ensures answer.Ok? ==>
      r.raised == None && |r.sends| == 1 && r.sends[0].toAgent == m.fromAgent && r.sends[0].kind == Response &&
      r.sends[0].content == answer.value && r.sends[0].projectId == m.projectId &&
      r.sends[0].metadata == Some(map["testing_query_response" := VBool(true)])
  {
    if answer.Err? then Run(s, [], Some(answer.error))
    else Run(s, [Outgoing(m.fromAgent, Response, answer.value, m.projectId,
                          Some(map["testing_query_response" := VBool(true)]), Medium)], None)
  }

  /** `_process_response`: an acknowledging STATUS to the responder. */
  function Acknowledge(m: Message): (o: Outgoing)
    ensures o.toAgent == m.fromAgent && o.kind == Status && o.projectId == m.projectId
    ensures o.metadata == Some(map["response_processed" := VBool(true)])
  {
    Outgoing(m.fromAgent, Status, "Response received and processed.", m.projectId,
             Some(map["response_processed" := VBool(true)]), Medium)
  }

  /** `process_message`. */
  function Process(s: TesterState, m: Message, o: TesterOracle): (r: (TesterState, Outcome))
    ensures r.1.raised == None
    ensures m.kind == Specification ==> r == CatchAll(m, ReceiveAssignment(s, m, o))
    ensures m.kind == Artifact ==> r == CatchAll(m, TestApplication(s, m, o))
    ensures m.kind == Query ==> r == CatchAll(m, HandleQuery(s, m, o.answer))
    ensures m.kind == Response ==> r == (s, Outcome([Acknowledge(m)], None))
    ensures m.kind !in {Specification, Artifact, Query, Response} ==> r == (s, Outcome([], None))
  {
    match m.kind
    case Specification => CatchAll(m, ReceiveAssignment(s, m, o))
    case Artifact => CatchAll(m, TestApplication(s, m, o))
    case Query => CatchAll(m, HandleQuery(s, m, o.answer))
    case Response => (s, Outcome([Acknowledge(m)], None))
    case Approval => (s, Outcome([], None))
    case Error => (s, Outcome([], None))
    case Status => (s, Outcome([], None))
  }

  // ---------------------------------------------------------------------
  // Properties

  /** `CountFailed` counts exactly the issues that mention a failure. */
  lemma {:induction false} CountFailedPositive(issues: seq<string>)
    ensures CountFailed(issues) > 0 <==> exists i :: 0 <= i < |issues| && Contains(ToLower(issues[i]), FailedWord)
    decreases |issues|
  {
    if |issues| > 0 {
      CountFailedPositive(issues[1..]);
      if exists i :: 0 <= i < |issues| && Contains(ToLower(issues[i]), FailedWord) {
        var i :| 0 <= i < |issues| && Contains(ToLower(issues[i]), FailedWord);
        if i > 0 {
          assert issues[1..][i - 1] == issues[i];
        }
      }
      if exists i :: 0 <= i < |issues[1..]| && Contains(ToLower(issues[1..][i]), FailedWord) {
        var i :| 0 <= i < |issues[1..]| && Contains(ToLower(issues[1..][i]), FailedWord);
        assert issues[i + 1] == issues[1..][i];
      }
    }
  }

  /** The three outcomes of the overall status. */
  lemma OverallStatusCases(issues: seq<string>)
    ensures OverallStatus(issues) == "PASSED" <==> issues == []
    ensures OverallStatus(issues) == "FAILED" <==>
      exists i :: 0 <= i < |issues| && Contains(ToLower(issues[i]), FailedWord)
    ensures OverallStatus(issues) == "PASSED_WITH_ISSUES" <==>
      issues != [] && forall i :: 0 <= i < |issues| ==> !Contains(ToLower(issues[i]), FailedWord)
  {
    CountFailedPositive(issues);
  }

  /** Text that holds the failure word at a known position mentions a
   *  failure whatever the case of the rest. */
  lemma MentionsFailure(prefix: string, rest: string)
    ensures Contains(ToLower(prefix + FailedWord + rest), FailedWord)
  {
    var t := prefix + FailedWord + rest;
    assert t[|prefix|..|prefix| + |FailedWord|] == FailedWord;
    LowerKeepsLowerFragment(t, FailedWord, |prefix|);
    ContainsAt(ToLower(t), FailedWord, |prefix|);
  }

  /** One issue that mentions a failure makes the status FAILED. */
  lemma FailedIssueFails(issues: seq<string>, i: nat)
    requires i < |issues| && Contains(ToLower(issues[i]), FailedWord)
    ensures OverallStatus(issues) == "FAILED"
  {
    OverallStatusCases(issues);
  }

  /** A failed functional case makes the whole run FAILED. */
  lemma FunctionalFailureFails(f: Findings)
    requires f.functional.failed > 0
    ensures Analyze(f).status == "FAILED"
  {
    var a := Analyze(f);
    var rest := ": " + NatToString(f.functional.failed) + " out of " + NatToString(f.functional.total);
    MentionsFailure("Functional tests ", rest);
    assert a.issues[0] == "Functional tests " + FailedWord + rest;
    FailedIssueFails(a.issues, 0);
  }

  /** A failed load test makes the whole run FAILED. */
  lemma LoadFailureFails(f: Findings)
    requires f.loadStatus == Some("FAILED")
    ensures Analyze(f).status == "FAILED"
  {
    var a := Analyze(f);
    MentionsFailure("Performance testing ", " - application may not handle expected load");
    var k := |a.issues| - 1;
    assert a.issues[k] == LoadIssue;
    FailedIssueFails(a.issues, k);
  }

  /** The vulnerabilities split into issues and recommendations: every
   *  severe one contributes its issue, every other one its advice, and
   *  nothing else appears. */
  lemma {:induction false} VulnerabilitiesPartition(vs: seq<Vulnerability>)
    ensures |SecurityIssues(vs)| + |SecurityRecommendations(vs)| == |vs|
    ensures forall v :: v in vs && Severe(v) ==> SecurityIssue(v) in SecurityIssues(vs)
    ensures forall v :: v in vs && !Severe(v) ==> SecurityAdvice(v) in SecurityRecommendations(vs)
    ensures forall t :: t in SecurityIssues(vs) ==> exists v :: v in vs && Severe(v) && t == SecurityIssue(v)
    ensures forall t :: t in SecurityRecommendations(vs) ==> exists v :: v in vs && !Severe(v) && t == SecurityAdvice(v)
    decreases |vs|
  {
    if |vs| > 0 {
      VulnerabilitiesPartition(vs[1..]);
      assert forall v :: v in vs[1..] ==> v in vs;
      assert forall v :: v in vs ==> v == vs[0] || v in vs[1..];
    }
  }

  /** `needs_fixes` is set exactly when issues were found, and `qa_signoff`
   *  exactly when no issue mentions a failure. */
  lemma SignoffFlags(projectId: string, results: Metadata, issues: seq<string>, recommendations: seq<string>)
    ensures var a := Analysis(OverallStatus(issues), issues, recommendations);
      var os := SendTestResults(projectId, results, a);
      os[0].metadata.value["needs_fixes"] == VBool(issues != []) &&
      os[1].metadata.value["qa_signoff"] ==
        VBool(forall i :: 0 <= i < |issues| ==> !Contains(ToLower(issues[i]), FailedWord))
  {
    OverallStatusCases(issues);
  }

  /** With the simulated security, load and usability runs, only the
   *  functional tests decide: the run is FAILED exactly when a functional
   *  case failed and PASSED otherwise, never PASSED_WITH_ISSUES. */
  lemma SimulatedRunStatus(exec: Result<Tallies>)
    ensures var a := Analyze(FindingsOf(exec));
      var failed := exec.Ok? && exec.value.functional.failed > 0;
      (failed ==> a.status == "FAILED") && (!failed ==> a.status == "PASSED")
  {
    var f := FindingsOf(exec);
    assert !Severe(SimulatedVulnerabilities()[0]);
    assert SecurityIssues(SimulatedVulnerabilities()) == [];
    if f.functional.failed > 0 {
      FunctionalFailureFails(f);
    }
  }

  /** The detail entry's fields are what `_execute_test_cases` reads from
   *  the execution result: its status, and its details and screenshot with
   *  an empty text when missing. */
  lemma RunReadsResult(t: TestCase, reply: Reply<Metadata>)
    ensures var result := ExecutionResult(t, reply);
      ("status" in result <==> Verdict(reply).Ok?) &&
      (Verdict(reply).Ok? ==> Verdict(reply).value == result["status"]) &&
      RunDetails(t, reply) == Get(result, "details", VStr("")) &&
      RunScreenshot(reply) == Get(result, "screenshot", VStr(""))
  {
  }

  /** The detail entry of a case whose verdict is not JSON carries the
   *  simulated success text and screenshot; that of a case whose execution
   *  raised carries the error and no screenshot. */
  lemma FallbackRuns(t: TestCase, reply: Reply<Metadata>)
    ensures reply.Unparseable? ==>
              RunOf(t, reply, VStr("PASSED")) ==
              CaseRun(t.id, t.title, VStr("PASSED"), VStr(SimulatedPassDetailsHead + t.title + SimulatedPassDetailsTail), VStr(SimulatedScreenshot))
    ensures reply.LlmRaised? ==>
              RunOf(t, reply, VStr("FAILED")) == CaseRun(t.id, t.title, VStr("FAILED"), VStr(ExecutionErrorHead + reply.error), VStr(""))
  {
  }

  /** A case whose verdict is not JSON passes. */
  lemma UnparseableCasePasses(ts: Tallies, t: TestCase, execute: TestCase -> Reply<Metadata>, kind: TestKind)
    requires t.testType == kind.Name() && execute(t).Unparseable?
    ensures ExecuteCase(ts, t, execute) == Ok(Record(ts, kind, true, RunOf(t, execute(t), VStr("PASSED"))))
  {
    KindOfName(kind);
  }

  /** A case whose execution raises fails. */
  lemma RaisingCaseFails(ts: Tallies, t: TestCase, execute: TestCase -> Reply<Metadata>, kind: TestKind)
    requires t.testType == kind.Name() && execute(t).LlmRaised?
    ensures ExecuteCase(ts, t, execute) == Ok(Record(ts, kind, false, RunOf(t, execute(t), VStr("FAILED"))))
  {
    KindOfName(kind);
    assert VStr("FAILED") != VStr("PASSED");
  }

  /** The detail entries of each kind name the cases of that kind, in the
   *  order they were given. */
  lemma {:induction false} ExecutedRunIds(cases: seq<TestCase>, execute: TestCase -> Reply<Metadata>, kind: TestKind)
    requires ExecuteTestCases(cases, execute).Ok?
    ensures RunIds(TallyOf(ExecuteTestCases(cases, execute).value, kind).runs) == IdsOfType(cases, kind.Name())
    decreases |cases|
  {
    if |cases| == 0 {
      NoCasesNoRuns(cases, execute, kind);
    } else {
      assert ExecuteTestCases(cases[..|cases| - 1], execute).Ok?;
      ExecutedRunIds(cases[..|cases| - 1], execute, kind);
      RunIdsStep(cases, execute, kind);
    }
  }

  lemma NoCasesNoRuns(cases: seq<TestCase>, execute: TestCase -> Reply<Metadata>, kind: TestKind)
    requires |cases| == 0
    ensures ExecuteTestCases(cases, execute).Ok?
    ensures RunIds(TallyOf(ExecuteTestCases(cases, execute).value, kind).runs) == IdsOfType(cases, kind.Name())
  {
    assert cases == [];
    match kind
    case Functional =>
    case Integration =>
    case EndToEnd =>
  }

  /** One step of `ExecutedRunIds`: the last case adds its id to the
   *  entries of its own kind only. */
  lemma RunIdsStep(cases: seq<TestCase>, execute: TestCase -> Reply<Metadata>, kind: TestKind)
    requires |cases| > 0 && ExecuteTestCases(cases, execute).Ok?
    requires ExecuteTestCases(cases[..|cases| - 1], execute).Ok?
    requires RunIds(TallyOf(ExecuteTestCases(cases[..|cases| - 1], execute).value, kind).runs) ==
             IdsOfType(cases[..|cases| - 1], kind.Name())
    ensures RunIds(TallyOf(ExecuteTestCases(cases, execute).value, kind).runs) == IdsOfType(cases, kind.Name())
  {
    if cases[|cases| - 1].testType == kind.Name() {
      RunIdsOwnKind(cases, execute, kind);
    } else {
      RunIdsOtherKind(cases, execute, kind);
    }
  }

  lemma RunIdsOwnKind(cases: seq<TestCase>, execute: TestCase -> Reply<Metadata>, kind: TestKind)
    requires |cases| > 0 && ExecuteTestCases(cases, execute).Ok? && cases[|cases| - 1].testType == kind.Name()
    requires ExecuteTestCases(cases[..|cases| - 1], execute).Ok?
    requires RunIds(TallyOf(ExecuteTestCases(cases[..|cases| - 1], execute).value, kind).runs) ==
             IdsOfType(cases[..|cases| - 1], kind.Name())
    ensures RunIds(TallyOf(ExecuteTestCases(cases, execute).value, kind).runs) == IdsOfType(cases, kind.Name())
  {
    var r := ExecuteTestCases(cases, execute);
    var before := ExecuteTestCases(cases[..|cases| - 1], execute);
    var last := cases[|cases| - 1];
    var t := TallyOf(before.value, kind);
    KindOfName(kind);
    var verdict := Verdict(execute(last));
    var run := RunOf(last, execute(last), verdict.value);
    assert r == Ok(Record(before.value, kind, verdict.value == VStr("PASSED"), run));
    RunIdsAppend(t.runs, run);
    assert IdsOfType(cases, kind.Name()) == IdsOfType(cases[..|cases| - 1], kind.Name()) + [last.id];
  }

  lemma RunIdsOtherKind(cases: seq<TestCase>, execute: TestCase -> Reply<Metadata>, kind: TestKind)
    requires |cases| > 0 && ExecuteTestCases(cases, execute).Ok? && cases[|cases| - 1].testType != kind.Name()
    requires ExecuteTestCases(cases[..|cases| - 1], execute).Ok?
    ensures TallyOf(ExecuteTestCases(cases, execute).value, kind) == TallyOf(ExecuteTestCases(cases[..|cases| - 1], execute).value, kind)
    ensures IdsOfType(cases, kind.Name()) == IdsOfType(cases[..|cases| - 1], kind.Name())
  {
    var r := ExecuteTestCases(cases, execute);
    var before := ExecuteTestCases(cases[..|cases| - 1], execute);
    var last := cases[|cases| - 1];
    var k := KindOf(last.testType);
    if k.None? {
      assert r == before;
    } else {
      assert k.value != kind;
      var verdict := Verdict(execute(last));
      assert r == Ok(Record(before.value, k.value, verdict.value == VStr("PASSED"), RunOf(last, execute(last), verdict.value)));
      RecordOtherKind(before.value, k.value, verdict.value == VStr("PASSED"), RunOf(last, execute(last), verdict.value), kind);
    }
  }

  /** Recording a verdict leaves the tallies of the other kinds alone. */
  lemma RecordOtherKind(ts: Tallies, recorded: TestKind, passed: bool, run: CaseRun, kind: TestKind)
    requires recorded != kind
    ensures TallyOf(Record(ts, recorded, passed, run), kind) == TallyOf(ts, kind)
  {
  }

  /** Each counted kind is read back from its own name. */
  lemma KindOfName(kind: TestKind)
    ensures KindOf(kind.Name()) == Some(kind)
  {
    match kind
    case Functional =>
    case Integration =>
    case EndToEnd =>
  }

  lemma RunIdsAppend(runs: seq<CaseRun>, run: CaseRun)
    ensures RunIds(runs + [run]) == RunIds(runs) + [run.id]
  {
    assert forall i :: 0 <= i < |runs| ==> (runs + [run])[i] == runs[i];
  }

  /** The record names the project and the date of its execution. */
  lemma RecordNamesProject(projectId: string, date: string, exec: Result<Tallies>, security: Value, performance: Value,
                           usability: Value, devResults: Value, a: Analysis)
    ensures var r := ResultsRecord(projectId, date, exec, security, performance, usability, devResults, a);
      r["project_id"] == VStr(projectId) && r["test_execution_date"] == VStr(date)
  {
  }

  /** The record holds the functional and integration tallies of the
   *  execution, or empty dictionaries when it ended in an error. */
  lemma RecordHoldsTallies(projectId: string, date: string, exec: Result<Tallies>, security: Value, performance: Value,
                           usability: Value, devResults: Value, a: Analysis)
    ensures var r := ResultsRecord(projectId, date, exec, security, performance, usability, devResults, a);
      (exec.Ok? ==> r["functional_tests"] == TallyValue(exec.value.functional) &&
                    r["integration_tests"] == TallyValue(exec.value.integration)) &&
      (exec.Err? ==> r["functional_tests"] == VObj(map[]) && r["integration_tests"] == VObj(map[]))
  {
  }

  /** The record holds the security, performance and usability results and
   *  the developer's own results as given. */
  lemma RecordHoldsOtherResults(projectId: string, date: string, exec: Result<Tallies>, security: Value, performance: Value,
                                usability: Value, devResults: Value, a: Analysis)
    ensures var r := ResultsRecord(projectId, date, exec, security, performance, usability, devResults, a);
      r["security_tests"] == security && r["performance_tests"] == performance && r["usability_tests"] == usability &&
      r["developer_test_results"] == devResults
  {
  }

  /** The record holds the analysis: its status, issues and recommendations. */
  lemma RecordHoldsAnalysis(projectId: string, date: string, exec: Result<Tallies>, security: Value, performance: Value,
                            usability: Value, devResults: Value, a: Analysis)
    ensures var r := ResultsRecord(projectId, date, exec, security, performance, usability, devResults, a);
      r["overall_status"] == VStr(a.status) && r["issues_found"] == Texts(a.issues) &&
      r["recommendations"] == Texts(a.recommendations)
  {
  }

  /** The simulated security results list the vulnerabilities the
   *  analysis reads, with their severity, description and recommendation. */
  lemma SecurityCarriesVulnerabilities(exec: Result<Tallies>)
    ensures var f := FindingsOf(exec);
      var security := SecurityResults();
      security.VObj? && "vulnerabilities" in security.fields && security.fields["vulnerabilities"].VList? &&
      |security.fields["vulnerabilities"].items| == |f.vulnerabilities| &&
      forall i :: 0 <= i < |f.vulnerabilities| ==>
        var v := security.fields["vulnerabilities"].items[i];
        v.VObj? && v.fields["severity"] == VStr(f.vulnerabilities[i].severity.value) &&
        v.fields["description"] == VStr(f.vulnerabilities[i].description.value) &&
        v.fields["recommendation"] == VStr(f.vulnerabilities[i].recommendation.value)
  {
    assert |FindingsOf(exec).vulnerabilities| == 1;
  }

  /** The simulated load test passes, as the analysis reads it, and the
   *  simulated usability results list the issues the analysis reads. */
  lemma PerformanceAndUsabilityCarryFindings(exec: Result<Tallies>)
    ensures PerformanceResults().fields["load_testing"].fields["status"] == VStr(FindingsOf(exec).loadStatus.value)
    ensures AsTexts(UsabilityResults().fields["issues"]) == Some(FindingsOf(exec).usabilityIssues)
  {
    assert LoadTesting.fields["status"] == VStr("PASSED");
    TextsRoundTrip(SimulatedUsabilityIssues());
  }
}

=== FILE: workflow.dfy ===
/** The LangGraph software-development pipeline: four phase nodes in a fixed line, each calling
 *  one tool, then a completion node.  A node catches its own exceptions, so a failing phase
 *  records an error and the pipeline carries on.  Tool outcomes are oracles; what the phase
 *  callback raises is a parameter, read by the MCP server off its registry (`McpTools.Phased`). */
module Workflow {
  import opened Wrappers
  import opened Strings
  import opened Models

  // ---------------------------------------------------------------------
  // The graph

  /** The graph's vertices: START, the four phase nodes, completion, END. */
  datatype Vertex = Start | PhaseNode(phase: Phase) | CompletionNode | End

  function VertexName(v: Vertex): string
  {
    match v
    case Start => "__start__"
    case PhaseNode(p) => NodeName(p)
    case CompletionNode => "completion"
    case End => "__end__"
  }

  /** `_build_workflow`'s edges, in the order they are added. */
  const Edges: seq<(Vertex, Vertex)> := [
    (Start, PhaseNode(BusinessAnalysis)),
    (PhaseNode(BusinessAnalysis), PhaseNode(ArchitectureDesign)),
    (PhaseNode(ArchitectureDesign), PhaseNode(ImplementationPlanning)),
    (PhaseNode(ImplementationPlanning), PhaseNode(TestStrategy)),
    (PhaseNode(TestStrategy), CompletionNode),
    (CompletionNode, End)]

  /** The target of the first edge leaving `v`, if any. */
  function Successor(edges: seq<(Vertex, Vertex)>, v: Vertex): (r: Option<Vertex>)
  {
    if |edges| == 0 then None
    else if edges[0].0 == v then Some(edges[0].1)
    else Successor(edges[1..], v)
  }

  /** `Successor` follows the first edge that leaves the vertex, and finds
   *  none exactly when no edge leaves it. */
  lemma {:induction false} SuccessorFirstEdge(edges: seq<(Vertex, Vertex)>, v: Vertex)
    ensures Successor(edges, v).None? <==> forall i :: 0 <= i < |edges| ==> edges[i].0 != v
    ensures Successor(edges, v).Some? ==>
      exists i :: 0 <= i < |edges| && edges[i] == (v, Successor(edges, v).value) &&
                  forall j :: 0 <= j < i ==> edges[j].0 != v
    decreases |edges|
  {
    if |edges| > 0 && edges[0].0 != v {
      SuccessorFirstEdge(edges[1..], v);
      var r := Successor(edges[1..], v);
      if r.Some? {
        var i :| 0 <= i < |edges[1..]| && edges[1..][i] == (v, r.value) &&
                 forall j :: 0 <= j < i ==> edges[1..][j].0 != v;
        assert edges[i + 1] == (v, r.value);
        assert forall j :: 0 <= j < i + 1 ==> edges[j].0 != v by {
          forall j | 0 <= j < i + 1 ensures edges[j].0 != v {
            if j > 0 { assert edges[j] == edges[1..][j - 1]; }
          }
        }
      } else {
        assert forall i :: 0 <= i < |edges| ==> edges[i].0 != v by {
          forall i | 0 <= i < |edges| ensures edges[i].0 != v {
            if i > 0 { assert edges[i] == edges[1..][i - 1]; }
          }
        }
      }
    }
  }

  /** The vertices visited after `v`, following edges until END or until
   *  `fuel` steps have been taken. */
  function Walk(edges: seq<(Vertex, Vertex)>, v: Vertex, fuel: nat): (path: seq<Vertex>)
    ensures |path| <= fuel
    ensures End !in path
    decreases fuel
  {
    if fuel == 0 then []
    else
      var next := Successor(edges, v);
      if next.None? || next.value == End then []
      else [next.value] + Walk(edges, next.value, fuel - 1)
  }

  // ---------------------------------------------------------------------
  // State

  datatype Phase = BusinessAnalysis | ArchitectureDesign | ImplementationPlanning | TestStrategy

  /** The phases in the order the graph runs them. */
  const Phases: seq<Phase> := [BusinessAnalysis, ArchitectureDesign, ImplementationPlanning, TestStrategy]

  function NodeName(p: Phase): string
  {
    match p
    case BusinessAnalysis => "business_analysis"
    case ArchitectureDesign => "architecture_design"
    case ImplementationPlanning => "implementation_planning"
    case TestStrategy => "test_strategy_creation"
  }

  /** The `current_phase` a successful node leaves behind. */
  function CompletedPhase(p: Phase): string
  {
    match p
    case BusinessAnalysis => "business_analysis_completed"
    case ArchitectureDesign => "architecture_design_completed"
    case ImplementationPlanning => "implementation_planning_completed"
    case TestStrategy => "test_strategy_completed"
  }

  /** The name the phase callback receives. */
  function CallbackName(p: Phase): string
  {
    match p
    case BusinessAnalysis => "business_analysis"
    case ArchitectureDesign => "architecture"
    case ImplementationPlanning => "implementation"
    case TestStrategy => "testing"
  }

  /** The result entry whose length the phase's message reports. */
  function CountKey(p: Phase): string
  {
    match p
    case BusinessAnalysis => "user_stories"
    case ArchitectureDesign => "components"
    case ImplementationPlanning => "implementation_phases"
    case TestStrategy => "test_cases"
  }

  function ErrorPrefix(p: Phase): string
  {
    match p
    case BusinessAnalysis => "Business analysis failed: "
    case ArchitectureDesign => "Architecture design failed: "
    case ImplementationPlanning => "Implementation planning failed: "
    case TestStrategy => "Test strategy creation failed: "
  }

  function Summary(p: Phase, n: nat): string
  {
    match p
    case BusinessAnalysis => "Business analysis completed. Generated " + NatToString(n) + " user stories."
    case ArchitectureDesign => "System architecture designed with " + NatToString(n) + " components."
    case ImplementationPlanning => "Implementation plan created with " + NatToString(n) + " phases."
    case TestStrategy => "Test strategy created with " + NatToString(n) + " test cases."
  }

  datatype ChatMessage = ChatMessage(role: string, content: string)

  /** `ProjectState`; the four optional results are one map keyed by phase
   *  (absent means None), and `callbacks` records every callback call. */
  datatype ProjectState = ProjectState(
    projectId: string,
    specification: string,
    currentPhase: string,
    results: map<Phase, Value>,
    messages: seq<ChatMessage>,
    errors: seq<string>,
    status: string,
    callbacks: seq<string>)

  /** One node's inputs: the tool's outcome and, when a callback is set,
   *  what it raises. */
  datatype NodeOracle = NodeOracle(tool: Result<Value>, callbackError: Option<string>)

  /** The oracles of the four nodes. */
  datatype Tools = Tools(analysis: NodeOracle, architecture: NodeOracle, planning: NodeOracle, strategy: NodeOracle)
  {
    function At(p: Phase): NodeOracle
    {
      match p
      case BusinessAnalysis => analysis
      case ArchitectureDesign => architecture
      case ImplementationPlanning => planning
      case TestStrategy => strategy
    }
  }

  /** `len(result.get(key, []))`: a non-dict result has no `get`, and an
   *  entry without a length raises as well. */
  function CountOf(result: Value, key: string): (r: Result<nat>)
    ensures r.Ok? <==>
      (result.VObj? && var e := Get(result.fields, key, VList([])); e.VList? || e.VStr? || e.VObj?)
    ensures r.Ok? && Get(result.fields, key, VList([])).VList? ==> r.value == |Get(result.fields, key, VList([])).items|
    ensures r.Ok? && Get(result.fields, key, VList([])).VStr? ==> r.value == |Get(result.fields, key, VList([])).s|
    ensures r.Ok? && Get(result.fields, key, VList([])).VObj? ==> r.value == |Get(result.fields, key, VList([])).fields|
    ensures result.VObj? && key !in result.fields ==> r == Ok(0)
  {
    if !result.VObj? then Err("object has no attribute 'get'")
    else
      var entry := Get(result.fields, key, VList([]));
      if entry.VList? then Ok(|entry.items|)
      else if entry.VStr? then Ok(|entry.s|)
      else if entry.VObj? then Ok(|entry.fields|)
      else Err("object has no len()")
  }

  // ---------------------------------------------------------------------
  // Nodes

  function Fail(s: ProjectState, p: Phase, error: string): ProjectState
  {
    s.(errors := s.errors + [ErrorPrefix(p) + error], status := "failed")
  }

  /** One phase node: the tool's result is stored and the phase advanced
   *  before the message is written, so a result without a countable entry
   *  is kept and still records an error; a raising callback records an
   *  error after its call. */
  function Node(s: ProjectState, p: Phase, callback: bool, o: NodeOracle): (r: ProjectState)
    ensures r.projectId == s.projectId && r.specification == s.specification
    ensures r.messages == s.messages ||
      (|r.messages| == |s.messages| + 1 && r.messages[..|s.messages|] == s.messages && r.messages[|s.messages|].role == "assistant")
    ensures r.errors == s.errors ||
      (|r.errors| == |s.errors| + 1 && r.errors[..|s.errors|] == s.errors && r.status == "failed" &&
       StartsWith(r.errors[|s.errors|], ErrorPrefix(p)))
    ensures r.errors == s.errors ==> r.status == s.status
    ensures r.callbacks == s.callbacks || (callback && r.callbacks == s.callbacks + [CallbackName(p)])
    ensures forall q :: q != p ==> (q in r.results <==> q in s.results) && (q in s.results ==> r.results[q] == s.results[q])
    ensures o.tool.Err? ==> r == Fail(s, p, o.tool.error)
    ensures o.tool.Ok? ==> p in r.results && r.results[p] == o.tool.value && r.currentPhase == CompletedPhase(p)
  {
    if o.tool.Err? then Fail(s, p, o.tool.error)
    else
      var s1 := s.(results := s.results[p := o.tool.value], currentPhase := CompletedPhase(p));
      var n := CountOf(o.tool.value, CountKey(p));
      if n.Err? then Fail(s1, p, n.error)
      else
        var s2 := s1.(messages := s1.messages + [ChatMessage("assistant", Summary(p, n.value))]);
        if !callback then s2
        else
          var s3 := s2.(callbacks := s2.callbacks + [CallbackName(p)]);
          if o.callbackError.Some? then Fail(s3, p, o.callbackError.value) else s3
  }

  /** A node whose tool and callback succeed on a countable result. */
  predicate Succeeds(p: Phase, o: NodeOracle)
  {
    o.tool.Ok? && CountOf(o.tool.value, CountKey(p)).Ok? && o.callbackError.None?
  }

  /** The nodes of `phases`, in order. */
  function RunNodes(s: ProjectState, phases: seq<Phase>, callback: bool, tools: Tools): (r: ProjectState)
    ensures r.projectId == s.projectId && r.specification == s.specification
    ensures |s.errors| <= |r.errors| <= |s.errors| + |phases| && r.errors[..|s.errors|] == s.errors
    ensures |s.messages| <= |r.messages| <= |s.messages| + |phases| && r.messages[..|s.messages|] == s.messages
    ensures r.errors == s.errors ==> r.status == s.status
    decreases |phases|
  {
    if |phases| == 0 then s
    else
      var s1 := Node(s, phases[0], callback, tools.At(phases[0]));
      var r := RunNodes(s1, phases[1..], callback, tools);
      assert r.errors[..|s.errors|] == r.errors[..|s1.errors|][..|s.errors|];
      assert r.messages[..|s.messages|] == r.messages[..|s1.messages|][..|s.messages|];
      r
  }

  /** `_completion_node`. */
  function Completion(s: ProjectState): (r: ProjectState)
    ensures r.currentPhase == "completed"
    ensures r.status == "completed" <==> s.errors == []
    ensures r.status == "completed_with_errors" <==> s.errors != []
    ensures r.errors == s.errors && r.results == s.results && r.callbacks == s.callbacks
    ensures r.messages == s.messages + [ChatMessage("assistant", "Software development workflow completed successfully!")]
  {
    s.(currentPhase := "completed",
       status := if s.errors == [] then "completed" else "completed_with_errors",
       messages := s.messages + [ChatMessage("assistant", "Software development workflow completed successfully!")])
  }

  // ---------------------------------------------------------------------
  // Running a project

  function InitialState(projectId: string, specification: string): (s: ProjectState)
    ensures s.currentPhase == "initiated" && s.status == "in_progress"
    ensures |s.messages| == 1 && s.messages[0].role == "system"
    ensures s.errors == [] && s.results == map[] && s.callbacks == []
  {
    ProjectState(projectId, specification, "initiated", map[],
                 [ChatMessage("system", "Starting software development workflow")], [], "in_progress", [])
  }

  /** `run_project`: an absent or empty id is replaced by a fresh one; a
   *  graph-level exception returns the initial state with one error and
   *  status failed; otherwise the four nodes and completion run. */
  function RunProject(specification: string, projectId: Option<string>, freshId: string, callback: bool,
                      tools: Tools, graphError: Option<string>): (r: ProjectState)
    ensures projectId.Some? && projectId.value != "" ==> r.projectId == projectId.value
    ensures projectId.None? || projectId == Some("") ==> r.projectId == freshId
    ensures graphError.Some? ==>
      r == InitialState(r.projectId, specification).(errors := ["Workflow execution failed: " + graphError.value],
                                                     status := "failed")
    ensures graphError.None? ==> r.currentPhase == "completed" && (r.status == "completed" || r.status == "completed_with_errors")
  {
    var id := if projectId.Some? && projectId.value != "" then projectId.value else freshId;
    var init := InitialState(id, specification);
    if graphError.Some? then init.(errors := init.errors + ["Workflow execution failed: " + graphError.value], status := "failed")
    else Completion(RunNodes(init, Phases, callback, tools))
  }

  // ---------------------------------------------------------------------
  // Properties

  /** Following the edges from START visits the four phase nodes in order
   *  and then completion. */
  lemma GraphOrder()
    ensures Walk(Edges, Start, 10) == [PhaseNode(Phases[0]), PhaseNode(Phases[1]), PhaseNode(Phases[2]),
                                       PhaseNode(Phases[3]), CompletionNode]
  {
    assert Successor(Edges, Start) == Some(PhaseNode(BusinessAnalysis));
    assert Successor(Edges, PhaseNode(BusinessAnalysis)) == Some(PhaseNode(ArchitectureDesign));
    assert Successor(Edges, PhaseNode(ArchitectureDesign)) == Some(PhaseNode(ImplementationPlanning));
    assert Successor(Edges, PhaseNode(ImplementationPlanning)) == Some(PhaseNode(TestStrategy));
    assert Successor(Edges, PhaseNode(TestStrategy)) == Some(CompletionNode);
    assert Successor(Edges, CompletionNode) == Some(End);
  }

  /** A successful node stores its result, advances the phase, appends one
   *  message, fires its callback and records no error. */
  lemma NodeSuccess(s: ProjectState, p: Phase, callback: bool, o: NodeOracle)
    requires Succeeds(p, o)
    ensures var r := Node(s, p, callback, o);
      r.results == s.results[p := o.tool.value] && r.currentPhase == CompletedPhase(p) &&
      |r.messages| == |s.messages| + 1 && r.errors == s.errors && r.status == s.status &&
      r.callbacks == s.callbacks + (if callback then [CallbackName(p)] else [])
  {
  }

  /** A raising tool leaves the state as it was apart from one error and
   *  the failed status. */
  lemma NodeToolFailure(s: ProjectState, p: Phase, callback: bool, o: NodeOracle)
    requires o.tool.Err?
    ensures var r := Node(s, p, callback, o);
      r.results == s.results && r.currentPhase == s.currentPhase && r.messages == s.messages &&
      r.callbacks == s.callbacks && r.errors == s.errors + [ErrorPrefix(p) + o.tool.error] && r.status == "failed"
  {
  }

  /** The phases whose callbacks are called, in phase order. */
  function Fired(phases: seq<Phase>, callback: bool, tools: Tools): seq<string>
  {
    if |phases| == 0 then [] else Fires(phases[0], callback, tools.At(phases[0])) + Fired(phases[1..], callback, tools)
  }

  /** The callback call one node makes: when a callback is set and the
   *  tool returned a countable result. */
  function Fires(p: Phase, callback: bool, o: NodeOracle): seq<string>
  {
    if callback && o.tool.Ok? && CountOf(o.tool.value, CountKey(p)).Ok? then [CallbackName(p)] else []
  }

  /** One node calls the callback exactly when its tool returned a
   *  countable result. */
  lemma NodeCallbacks(s: ProjectState, p: Phase, callback: bool, o: NodeOracle)
    ensures Node(s, p, callback, o).callbacks == s.callbacks + Fires(p, callback, o)
  {
  }

  /** The callback trace is the fired phases' names in phase order: a
   *  failing phase does not stop the later ones. */
  lemma {:induction false} CallbackTrace(s: ProjectState, phases: seq<Phase>, callback: bool, tools: Tools)
    ensures RunNodes(s, phases, callback, tools).callbacks == s.callbacks + Fired(phases, callback, tools)
    decreases |phases|
  {
    if |phases| > 0 {
      var s1 := Node(s, phases[0], callback, tools.At(phases[0]));
      NodeCallbacks(s, phases[0], callback, tools.At(phases[0]));
      CallbackTrace(s1, phases[1..], callback, tools);
      assert RunNodes(s, phases, callback, tools) == RunNodes(s1, phases[1..], callback, tools);
      TraceStep(s.callbacks, Fires(phases[0], callback, tools.At(phases[0])), Fired(phases[1..], callback, tools));
    }
  }

  /** The trace so far, one node's callback and the rest of the trace. */
  lemma TraceStep(before: seq<string>, fires: seq<string>, rest: seq<string>)
    ensures (before + fires) + rest == before + (fires + rest)
  {
  }

  /** Every phase whose tool returns a value has that value stored at the
   *  end, whatever the other phases did. */
  lemma {:induction false} LaterPhasesStillRun(s: ProjectState, phases: seq<Phase>, callback: bool,
                                               tools: Tools, p: Phase)
    requires p in phases && tools.At(p).tool.Ok?
    requires forall i, j :: 0 <= i < j < |phases| ==> phases[i] != phases[j]
    ensures var r := RunNodes(s, phases, callback, tools);
      p in r.results && r.results[p] == tools.At(p).tool.value
    decreases |phases|
  {
    var s1 := Node(s, phases[0], callback, tools.At(phases[0]));
    if phases[0] == p {
      KeepsResult(s1, phases[1..], callback, tools, p);
    } else {
      LaterPhasesStillRun(s1, phases[1..], callback, tools, p);
    }
  }

  /** Phases not in the list leave a stored result alone. */
  lemma {:induction false} KeepsResult(s: ProjectState, phases: seq<Phase>, callback: bool,
                                       tools: Tools, p: Phase)
    requires p !in phases && p in s.results
    ensures var r := RunNodes(s, phases, callback, tools);
      p in r.results && r.results[p] == s.results[p]
    decreases |phases|
  {
    if |phases| > 0 {
      var s1 := Node(s, phases[0], callback, tools.At(phases[0]));
      KeepsResult(s1, phases[1..], callback, tools, p);
    }
  }

  /** Nodes that all succeed append one message each and record no error. */
  lemma {:induction false} AllSucceed(s: ProjectState, phases: seq<Phase>, callback: bool, tools: Tools)
    requires forall i :: 0 <= i < |phases| ==> Succeeds(phases[i], tools.At(phases[i]))
    ensures var r := RunNodes(s, phases, callback, tools);
      r.errors == s.errors && r.status == s.status && |r.messages| == |s.messages| + |phases|
    decreases |phases|
  {
    if |phases| > 0 {
      NodeSuccess(s, phases[0], callback, tools.At(phases[0]));
      AllSucceed(Node(s, phases[0], callback, tools.At(phases[0])), phases[1..], callback, tools);
    }
  }

  /** The graph runs each phase once. */
  lemma PhasesDistinct()
    ensures forall i, j :: 0 <= i < j < |Phases| ==> Phases[i] != Phases[j]
  {
  }

  /** Every phase is on the graph's path. */
  lemma EveryPhaseListed(p: Phase)
    ensures p in Phases
  {
    assert p == Phases[0] || p == Phases[1] || p == Phases[2] || p == Phases[3];
  }

  /** With every phase succeeding, the callbacks fire once per phase, in
   *  phase order. */
  lemma AllFired(tools: Tools)
    requires forall p :: Succeeds(p, tools.At(p))
    ensures Fired(Phases, true, tools) == ["business_analysis", "architecture", "implementation", "testing"]
  {
    assert Succeeds(BusinessAnalysis, tools.At(BusinessAnalysis));
    assert Succeeds(ArchitectureDesign, tools.At(ArchitectureDesign));
    assert Succeeds(ImplementationPlanning, tools.At(ImplementationPlanning));
    assert Succeeds(TestStrategy, tools.At(TestStrategy));
    assert Fired([TestStrategy], true, tools) == ["testing"] by {
      assert [TestStrategy][1..] == [];
    }
    assert Fired([ImplementationPlanning, TestStrategy], true, tools) == ["implementation", "testing"] by {
      assert [ImplementationPlanning, TestStrategy][1..] == [TestStrategy];
    }
    assert Fired([ArchitectureDesign, ImplementationPlanning, TestStrategy], true, tools) ==
      ["architecture", "implementation", "testing"] by {
      assert [ArchitectureDesign, ImplementationPlanning, TestStrategy][1..] == [ImplementationPlanning, TestStrategy];
    }
    assert Phases[1..] == [ArchitectureDesign, ImplementationPlanning, TestStrategy];
  }

  /** Every phase's tool result is stored at the end of the nodes. */
  lemma AllStored(s: ProjectState, callback: bool, tools: Tools)
    requires forall p :: tools.At(p).tool.Ok?
    ensures var r := RunNodes(s, Phases, callback, tools);
      forall p :: p in r.results && r.results[p] == tools.At(p).tool.value
  {
    var r := RunNodes(s, Phases, callback, tools);
    PhasesDistinct();
    forall p ensures p in r.results && r.results[p] == tools.At(p).tool.value {
      EveryPhaseListed(p);
      LaterPhasesStillRun(s, Phases, callback, tools, p);
    }
  }

  /** Without an error anywhere the run ends "completed" with no error
   *  and five assistant messages after the system one. */
  lemma CleanRunStatus(specification: string, projectId: Option<string>, freshId: string, callback: bool,
                       tools: Tools)
    requires forall p :: Succeeds(p, tools.At(p))
    ensures var r := RunProject(specification, projectId, freshId, callback, tools, None);
      r.status == "completed" && r.errors == [] && |r.messages| == 6
  {
    var id := if projectId.Some? && projectId.value != "" then projectId.value else freshId;
    AllSucceed(InitialState(id, specification), Phases, callback, tools);
  }

  /** Without an error anywhere every phase's result is stored. */
  lemma CleanRunResults(specification: string, projectId: Option<string>, freshId: string, callback: bool, tools: Tools)
    requires forall p :: tools.At(p).tool.Ok?
    ensures var r := RunProject(specification, projectId, freshId, callback, tools, None);
      forall p :: p in r.results && r.results[p] == tools.At(p).tool.value
  {
    var id := if projectId.Some? && projectId.value != "" then projectId.value else freshId;
    AllStored(InitialState(id, specification), callback, tools);
  }

  /** Without an error anywhere the callbacks run in the order
   *  business_analysis, architecture, implementation, testing. */
  lemma CleanRunCallbacks(specification: string, projectId: Option<string>, freshId: string, tools: Tools)
    requires forall p :: Succeeds(p, tools.At(p))
    ensures RunProject(specification, projectId, freshId, true, tools, None).callbacks ==
      ["business_analysis", "architecture", "implementation", "testing"]
  {
    var id := if projectId.Some? && projectId.value != "" then projectId.value else freshId;
    CallbackTrace(InitialState(id, specification), Phases, true, tools);
    AllFired(tools);
  }

  /** Any failing phase ends the run "completed_with_errors". */
  lemma {:induction false} FailureShowsInStatus(specification: string, projectId: Option<string>, freshId: string,
                                                callback: bool, tools: Tools, p: Phase)
    requires tools.At(p).tool.Err?
    ensures RunProject(specification, projectId, freshId, callback, tools, None).status == "completed_with_errors"
  {
    var id := if projectId.Some? && projectId.value != "" then projectId.value else freshId;
    ErrorsPersist(InitialState(id, specification), Phases, callback, tools, p);
  }

  /** Once a listed phase's tool raises, the errors are non-empty. */
  lemma {:induction false} ErrorsPersist(s: ProjectState, phases: seq<Phase>, callback: bool,
                                         tools: Tools, p: Phase)
    requires p in phases && tools.At(p).tool.Err?
    ensures RunNodes(s, phases, callback, tools).errors != []
    decreases |phases|
  {
    var s1 := Node(s, phases[0], callback, tools.At(phases[0]));
    var r := RunNodes(s1, phases[1..], callback, tools);
    if phases[0] == p {
      assert |s1.errors| > 0;
      assert |r.errors| >= |s1.errors|;
    } else {
      ErrorsPersist(s1, phases[1..], callback, tools, p);
    }
  }
}

=== FILE: wrappers.dfy ===
/** Optional values and fallible results, the two shapes the modelled Python
 *  code uses for `None` returns and for raised exceptions. */
module Wrappers {

  datatype Option<+T> = None | Some(value: T)
  {
    /** The wrapped value, or `default` for `None`, as `dict.get(key,
     *  default)` reads a key that may be missing. */
    function GetOr(default: T): (r: T)
      ensures this.Some? ==> r == this.value
      ensures this.None? ==> r == default
    {
      match this
      case Some(v) => v
      case None => default
    }
  }

  /** The outcome of a Python call that may raise: `Err` carries the
   *  exception's message. */
  datatype Result<+T> = Ok(value: T) | Err(error: string)
}
